=== FILE: README.md ===
# instant-be core, modelled in Dafny

A model of the core of the instant-be backend, a Django REST service with four apps:

- **chat**: conversations, messages, folders and templates. Messages are answered by an external retrieval-augmented-generation (RAG) webhook. The service turns the webhook's reply into a response text and a list of source document names. It streams that reply to the client as delta, source and complete chunks, and the consumer stores the stream on the assistant message.
- **files**: uploads, soft deletion and restore, sharing, access and modify rights, download links, tag and bulk-action validation, and the file filters.
- **authentication**: users with a role and a subscription. The subscription has a type, status and end date and can be extended or upgraded. The app also covers sessions, which add their length to the user's time spent; permission classes; and the registration, login and profile serializers and views.
- **analytics**: event tracking and daily user activity, reports and their generation into JSON or CSV, error logs and their resolution, growth, revenue and activity charts, and the staff/owner rules and pagination of the analytics views.

It also models two management commands:
- `cleanup_analytics` deletes expired analytics rows in batches, or only counts them on a dry run.
- `generate_system_metrics` chooses the days to process and creates, skips or overwrites each day's metrics row.

There is one Dafny module per source file. Values are datatypes. Objects that the source changes in place (Conversation, ChatMessage, ChatTemplate, File, User, UserSession, Report, ErrorLog, the analytics store and database, a day's metrics row) are classes. Their methods state the new state as a function of the old one, and lemmas about those functions state what the source promises.

The code's environment enters the model as parameters: the clock ("now", integer seconds, with a day being `t / 86400`), the webhook's reply, markdown conversion, date parsing, JSON and CSV serialisation, and the password checker.

## Model

| member | source | states |
|---|---|---|
| ChatModels.SenderExclusive | apps/chat/models.py:274-282 | a message is never both from the user and from the assistant; a system message is from neither |
| ChatModels.AutoTitle | apps/chat/models.py:138-141 | the generated title is the message itself up to 50 characters, else its first 50 characters followed by "...", so never longer than 53 |
| ChatModels.FirstUserIndex | apps/chat/models.py:134-136 | the index found holds a user message and no user message comes before it; none is found only when there is no user message |
| ChatModels.TitleRule | apps/chat/models.py:131-143 | saving keeps a title that is set; an empty title becomes the auto-title of the first user message, and stays empty when there is none; a generated title is at most 53 characters |
| ChatModels.FirstUserIndexIgnoresTail | apps/chat/models.py:134-136 | a message that is not from the user, added at the end, leaves the first user message where it was |
| ChatModels.SaveConversationColumnsBounds | apps/chat/models.py:131-151 | a plain save stores every current field; a save naming no column stores nothing new |
| ChatModels.WithStats | apps/chat/models.py:145-151 | in memory, update_stats sets the message count to the number of messages and the token total to their token sum, applies save's title rule, and leaves folder, archived and pinned as they were |
| ChatModels.UpdateStatsStoresOnlyCounters | apps/chat/models.py:145-151 | the stored row after update_stats differs from the previous one only in the two counters, so a title filled in by save's rule is not written |
| ChatModels.WithStatsAgain | apps/chat/models.py:131-151 | recounting after the last, non-user message changed gives the result of counting the final messages once |
| ChatModels.WithStatsIgnoresContent | apps/chat/models.py:145-151 | the counts and title do not depend on the content of a last message that is not from the user, only on its tokens |
| ChatModels.TokenSumAppend | apps/chat/models.py:148-150 | a further message raises the token total by exactly its tokens, a missing count adding 0 |
| ChatModels.Conversation.constructor | apps/chat/models.py:60-127 | a created conversation is untitled, in the given folder, not archived or pinned, with zero messages and tokens, and stored as such |
| ChatModels.Conversation.Save | apps/chat/models.py:131-143 | only the title changes in memory, to the title rule applied to the old title and the messages; the stored row takes the named columns from memory and keeps the rest |
| ChatModels.Conversation.UpdateStats | apps/chat/models.py:145-151 | the fields become WithStats of the old ones; only the two counters are written to the stored row |
| ChatModels.ChatMessage.constructor | apps/chat/models.py:154-262 | a new message has the given type, content and status and every other field at its default |
| ChatModels.ChatMessage.MarkAsHelpful | apps/chat/models.py:284-288 | only the helpful flag and the comment change, to the given values |
| ChatModels.ChatTemplate.constructor | apps/chat/models.py:291-353 | a new template has its given fields and a usage count of 0 |
| ChatModels.ChatTemplate.IncrementUsage | apps/chat/models.py:357-360 | the usage count grows by exactly one and nothing else changes |
| ChatSerializers.ValidateContent | apps/chat/serializers.py:25-33 | accepted iff present, not blank and at most 10,000 characters before stripping; the result is the stripped, non-empty text |
| Fields.CharFieldValue | apps/chat/serializers.py:126-129 | a serializer CharField before validate_<field>: a missing value gives "This field is required.", a blank one "This field may not be blank.", trimmed text over max_length the length message; otherwise the result is the trimmed, non-empty text |
| ChatSerializers.ContentField | apps/chat/serializers.py:25-33 | the content field as the serializer runs it: accepted iff present, not blank and at most 10,000 characters once trimmed; the result is the trimmed text; missing and blank values get the field's own messages |
| ChatSerializers.PaddingCountsTowardsLimit | apps/chat/serializers.py:30-33 | validate_content alone accepts a 10,000-character text and refuses it with one trailing space; the serializer, which trims before calling it, accepts the padded text as the bare text |
| ChatSerializers.ValidateMessage | apps/chat/serializers.py:149-153 | validate_message alone: accepted iff present and not blank; the result is the stripped, non-empty message |
| ChatSerializers.MessageField | apps/chat/serializers.py:126-153 | the message field with max_length 10,000 and then validate_message: accepted iff present, not blank and at most 10,000 characters once trimmed; longer text gets the field's length message |
| ChatSerializers.ValidateFolderName | apps/chat/serializers.py:53-66 | accepted iff not blank, at most 100 characters, and the stripped name is not used by another folder of the same user; the result is the stripped name |
| ChatSerializers.FolderNameField | apps/chat/serializers.py:53-66 | the name field as the serializer runs it (the model's CharField of at most 100 characters, then validate_name): missing, blank and over-long names get the field's messages; accepted iff the trimmed name has 1 to 100 characters and no other folder of the user has it; the result is the trimmed name |
| ChatSerializers.FolderNameMessagesUnreachable | apps/chat/serializers.py:55-59 | the field answers blank and over-long names first, so validate_name's "cannot be empty" and "too long" messages never appear |
| ChatSerializers.FolderCreationKeepsNamesUnique | apps/chat/serializers.py:61-66 | adding a folder under an accepted name keeps folder names unique per user |
| ChatSerializers.ValidateColor | apps/chat/serializers.py:68-76 | accepted iff empty, or starting with '#' and exactly 7 characters long; returned unchanged |
| ChatSerializers.ColorField | apps/chat/serializers.py:68-76 | the color field as the serializer runs it: may be left out (the model default is stored); a given value is refused when blank or over 7 characters once trimmed, and otherwise accepted iff the trimmed value is 7 characters starting with '#'; the result is the trimmed value |
| ChatSerializers.EmptyColorRefused | apps/chat/serializers.py:70 | validate_color lets the empty colour through, but the field refuses it as blank before validate_color runs |
| ChatSerializers.ValidateTemplateName | apps/chat/serializers.py:231-250 | accepted iff none of the user's other templates has exactly this name; returned unchanged |
| ChatSerializers.TemplateNameField | apps/chat/serializers.py:231-250 | the name field as the serializer runs it (the model's CharField of at most 100 characters, then validate_name): missing, blank and over-long names get the field's messages; accepted iff the trimmed name has 1 to 100 characters and none of the user's other templates has it; the result is the trimmed name |
| ChatSerializers.PaddedTemplateNameTaken | apps/chat/serializers.py:233-248 | a taken name with a leading space is still refused as taken, since the field trims before the name is compared |
| ChatSerializers.TemplateMayKeepItsName | apps/chat/serializers.py:241-245 | editing a template may keep its own name, while creating a second template under that name is refused |
| ChatSerializers.LastMessagePreview | apps/chat/serializers.py:101-111 | none iff there are no messages; otherwise the newest message's type and its text, cut to 100 characters plus "..." when longer |
| ChatServices.CleanSources | apps/chat/services.py:330-335 | keeps at most as many names as there are pieces, each non-empty and without surrounding whitespace |
| ChatServices.ExtractSources | apps/chat/services.py:312-339 | an empty source text gives no names; every name returned is non-empty and stripped |
| ChatServices.CleanSourcesSelects | apps/chat/services.py:330-335 | the result is the stripped pieces at strictly increasing positions of the list, and every piece that is not blank is at one of those positions: exactly the non-blank pieces, stripped, in their order |
| ChatServices.ExtractSourcesSplitsBody | apps/chat/services.py:321-335 | with the "Sources: " prefix the names are the cleaned comma pieces of the text after it; without it, the cleaned comma pieces of the whole text |
| ChatServices.CleanSourcesOfClean | apps/chat/services.py:330-335 | names that are already clean come back unchanged and in their order |
| ChatServices.CleanStripsEach | apps/chat/services.py:330-335 | padded pieces that strip to non-empty names give exactly those names, in order |
| ChatServices.ExtractSourcesRoundTrip | apps/chat/services.py:321-335 | "Sources: " followed by comma-joined padded names gives back exactly the names, in the original comma order |
| ChatServices.PrefixNeedsTheSpace | apps/chat/services.py:326-327 | the prefix is removed only with its space: "Sources:a" is kept whole as one name |
| ChatServices.EstimateTokens | apps/chat/services.py:341-344 | at least 1; equal to the combined length divided by 4 whenever that quotient is positive |
| ChatServices.FormatConversationForApi | apps/chat/services.py:273-310 | an empty history gives the current message alone, tagged user; otherwise the current message first and then the history without its last entry, newest first, a 'user' role staying user and every other role becoming assistant |
| ChatServices.GetConversationHistory | apps/chat/services.py:580-592 | the ten newest messages (all, when fewer) in chronological order, each tagged user or assistant by its sender |
| ChatServices.CallRagApi | apps/chat/services.py:116-180 | a failed request, an empty list or a result of another shape gives the out-of-scope apology with no sources; a non-empty list answers from its first item: with content, its markdown and that item's document names when they form a list (none otherwise), without, the "couldn't generate" apology; an old-format object with an answer gives its markdown and the sources extracted from its source text; without an answer, the "couldn't generate" apology |
| ChatServices.Deltas | apps/chat/services.py:208-216 | one delta chunk per space-separated piece |
| ChatServices.CallRagApiStream | apps/chat/services.py:182-271 | the chunks the generator yields are exactly the stream specified for the webhook result |
| ChatServices.DeltaTextOfWords | apps/chat/services.py:208-216 | the delta texts concatenated are the pieces joined by spaces plus one trailing space |
| ChatServices.StreamOfContent | apps/chat/services.py:200-241 | for an item with content: one delta per piece (piece plus a space), whose texts add up to the content plus a space, then a source chunk exactly when there are sources, then one final complete chunk carrying the markdown reply, the sources and the raw content; no complete or error chunk before the end |
| ChatServices.StreamOfFailure | apps/chat/services.py:242-271 | a failed request, a non-list or empty result, or an item without content yields a single error chunk |
| ChatServices.StreamAgreesWithReply | apps/chat/services.py:134-241 | for a non-empty list item the final complete chunk carries the same reply and sources as the non-streaming call |
| ChatServices.DecorateNeverCountsTokens | apps/chat/services.py:83-97 | as written, no decorated chunk ever carries a token count, and success is set exactly for non-error chunks |
| ChatServices.DecorateIntended | apps/chat/services.py:83-97 | corrected: the complete chunk carries the token estimate of the message and the accumulated reply (at least 1), every other chunk none |
| ChatServices.ResponseStream | apps/chat/services.py:67-114 | one decorated event per chunk of the reply, in order |
| ChatServices.SourceChunkIgnored | apps/chat/services.py:526-559 | a 'source_document' chunk matches no branch of the consumer and leaves the message unchanged |
| ChatServices.DeltasClearContent | apps/chat/services.py:528-531 | as written, a run of delta chunks leaves the content empty, because they carry no accumulated text |
| ChatServices.RunEndsWithComplete | apps/chat/services.py:526-559 | when only deltas and source chunks precede the final complete chunk, the message ends as that chunk alone makes it |
| ChatServices.StreamCompletesMessage | apps/chat/services.py:513-553 | a reply with content leaves the assistant message completed with the markdown reply and its sources, 0 tokens, the stream's model name and no error |
| ChatServices.StreamFailureFailsMessage | apps/chat/services.py:255-262 | a failed request leaves the message failed with the connection apology as content and the failure reason as error |
| ChatServices.StreamInvalidFailsMessage | apps/chat/services.py:242-253 | a malformed webhook result leaves the message failed with "An error occurred" and one of the two format errors |
| ChatServices.ConsumeStream | apps/chat/services.py:513-559 | a fresh assistant message, initially processing and empty, ends with the fields the chunk state machine gives for the events in order; when some chunk is 'complete' the conversation holds the counts of the earlier messages plus the assistant's and its stored row differs only in those counters, otherwise the conversation is untouched |
| ChatServices.CompletesStep | apps/chat/services.py:527-550 | a prefix one event longer has a 'complete' chunk iff the shorter one has or the added event is one |
| ChatServices.RunIntendedDeltas | apps/chat/services.py:528-531 | corrected: delta chunks append their texts to the content |
| ChatServices.StreamIntendedShowsPartialReply | apps/chat/services.py:526-536 | corrected: after all deltas the content is the reply plus a space, and after the source chunk the sources are stored |
| ChatServices.RunIntendedAppend | apps/chat/services.py:526-559 | corrected: consuming two runs of events in turn is consuming them joined |
| ChatViews.FindConversation | apps/chat/views.py:296-300 | finds a conversation with this id owned by the requester, and reports none only when there is no such conversation |
| ChatViews.MoveConversationToFolder | apps/chat/views.py:293-327 | 200 iff the requester's conversation exists and the folder id is falsy or names one of the requester's folders; then the folder is set (root for falsy), the title rule of save runs, every other field is kept, and the full save stores all fields; otherwise 400 and nothing changes |
| ChatViews.PinConversation | apps/chat/views.py:634-655 | 200 iff the requester's conversation exists; is_pinned becomes the given value, true when absent, the title rule of save runs in memory and every other field is kept; only is_pinned is written to the stored row; otherwise 404 and nothing changes |
| ChatViews.RagConversationHistory | apps/chat/views.py:728-769 | 404 unless the conversation exists and the requester is an admin or its owner, then 400 for an empty question; otherwise the question tagged user followed by the last min(4, count) messages in chronological order with their own types |
| ChatViews.FeedbackDecision | apps/chat/views.py:364-376 | fails iff question or answer is empty; thumbs-up iff the comment is exactly "thumb up" |
| ChatViews.OnlyExactCommentIsThumbsUp | apps/chat/views.py:376 | a capitalised or empty comment is a thumbs-down |
| ChatViews.CountType | apps/chat/views.py:465-466 | a count of one feedback type never exceeds the number of feedbacks |
| ChatViews.TwoTypesAtMostAll | apps/chat/views.py:464-467 | thumbs-up plus thumbs-down never exceed the total |
| ChatViews.SatisfactionRate | apps/chat/views.py:469 | 0 without feedback, otherwise the thumbs-up share in percent, always within [0, 100] |
| ChatViews.SummarizeFeedback | apps/chat/views.py:460-480 | total is the number of feedbacks, the two counts are those of each type and add up to at most the total, and the rate is 0 without feedback and within [0, 100] |
| ChatViews.TemplateDetailAccess | apps/chat/views.py:528-548 | 404 iff a non-admin asks for another user's private template; 403 iff the template is visible but a non-admin non-creator tries PUT, PATCH or DELETE; 200 otherwise |
| ChatViews.TemplateChangesNeedOwnership | apps/chat/views.py:537-548 | a non-admin may read another user's public template but never change it; an admin is always allowed |
| FileModels.CategoryFromMimeType | apps/files/models.py:143-167 | Image iff the type starts with image/, Video iff video/ and not image/, Audio iff audio/ and neither of those; Document and Archive only for types on their lists; Other only for types on neither list |
| FileModels.ListsDecideApplicationAndTextTypes | apps/files/services.py:402-426 | for application/ and text/ types the document list, then the archive list, decides; the prefix tests never do |
| FileModels.SoftDeleted | apps/files/models.py:125-129 | a soft-deleted file is deleted, has status Deleted and is stamped with the given time |
| FileModels.Restored | apps/files/models.py:131-135 | a restored file is not deleted and has status Completed |
| FileModels.RestoreUndoesSoftDelete | apps/files/models.py:120-135 | soft delete then restore always ends live and Completed, whatever the status was; a live Completed file comes back exactly as it was |
| FileModels.File.constructor | apps/files/services.py:247-261 | a new record carries the upload's fields, no progress, no metadata, no downloads, and is not deleted |
| FileModels.File.SoftDelete | apps/files/models.py:125-129 | only deleted_at and status change, as soft deletion says; the file is deleted afterwards |
| FileModels.File.Restore | apps/files/models.py:131-135 | only deleted_at and status change, as restoring says; the file is live afterwards |
| FileModels.File.IncrementDownloadCount | apps/files/models.py:137-141 | the download count grows by exactly one and last_accessed becomes now; nothing else changes |
| FileModels.File.FinishUpload | apps/files/services.py:268-281 | a stored upload ends Completed at 100% with storage's metadata; a failed one ends Failed with progress and metadata as they were |
| FileModels.IsAccessibleBy | apps/files/models.py:210-221 | true iff the share has not expired (no expiry time, or now not after it) and the user is its recipient or its sharer |
| FileModels.ExpiryIsPermanent | apps/files/models.py:210-215 | expiry is strict (only after the expiry time), permanent at every later time, and never happens without an expiry time |
| FileServices.LastIndex | apps/files/services.py:45 | the position of the last occurrence of the character, or -1 when it does not occur |
| FileServices.SplitExt | apps/files/services.py:45 | the stem and the extension put back together are the name; a non-empty extension starts with its only dot and holds no slash |
| FileServices.CleanName | apps/files/services.py:46 | the cleaned name holds only letters, digits, spaces, '-' and '_', is stripped and is no longer than the name |
| FileServices.SplitExtOfDotless | apps/files/services.py:45 | a dot-free, slash-free stem followed by an extension splits back into exactly those two |
| FileServices.StoredNameKeepsExtension | apps/files/services.py:39-50 | the generated name has exactly the uploaded name's extension |
| FileServices.StemLacksDotsAndSlashes | apps/files/services.py:46-47 | the part of the generated name before the extension holds no dot and no slash |
| FileServices.ExtensionOf | apps/files/services.py:253 | the stored extension is as long as splitext's extension |
| FileServices.Basename | apps/files/services.py:250 | the text after the last '/', which holds no '/'; a name without '/' is its own base name |
| FileServices.CanAccessFile | apps/files/services.py:367-388 | true iff the user is an admin, the owner, the file is public, or a share of the file to the user grants viewing; expiry is not consulted |
| FileServices.CanModifyFile | apps/files/services.py:390-400 | true iff the user is an admin or the owner |
| FileServices.ModifyImpliesAccess | apps/files/services.py:367-400 | whoever may modify may access; an admin may do both; a non-admin non-owner may never modify |
| FileServices.ExpiredShareStillGrantsAccess | apps/files/services.py:381-386 | a share long expired, which the share itself reports as inaccessible, still gives its recipient access to the file |
| FileServices.ContentTypeOf | apps/files/services.py:242-244 | never empty; the guessed type when there is one |
| FileServices.UploadFile | apps/files/services.py:223-281 | a fresh record with the derived key, base name, content type, category and extension and the request's fields; ok iff storage stored the bytes, then Completed at 100% with storage's metadata and the success message, else Failed with storage's message |
| FileServices.StoreUpload | apps/files/services.py:247-281 | given the derived fields, a fresh record holding them and the request's fields, not deleted and never downloaded; ok iff storage stored the bytes, then Completed at 100% with storage's metadata, else Failed at progress 0 with storage's message |
| FileServices.DownloadFile | apps/files/services.py:288-305 | ok iff the user may access the file and storage read it; "Permission denied" without access; a successful read counts one download at now, anything else changes nothing |
| FileServices.DeleteFile | apps/files/services.py:312-331 | denied iff the user may not modify the file; a soft delete moves it to the trash; a hard delete removes its row iff storage removed the bytes, and otherwise reports "Failed to delete from storage: " with storage's message; no other outcome changes the record or the table |
| FileServices.GetDownloadUrl | apps/files/services.py:338-360 | ok iff the user may access the file and storage gave a URL; then the file is marked accessed now, else nothing changes |
| FileSerializers.ValidateFileSize | apps/files/serializers.py:31-44 | validate_file alone: accepted iff the size is between 1 byte and 50 MiB inclusive; a larger file and an empty one get their own messages |
| FileSerializers.PathSuffix | apps/files/serializers.py:12-20 | the extension the validator reads: empty, or the text after a dot that neither starts nor ends the name, and without a dot of its own |
| FileSerializers.UploadFileField | apps/files/serializers.py:11-44 | the file field as the serializer runs it: no name gives "No filename could be determined.", size 0 "The submitted file is empty.", an extension (lower-cased) outside the 26 allowed ones the validator's message; accepted iff named, 1 byte to 50 MiB and of an allowed extension |
| FileSerializers.EmptyFileMessageNeverReported | apps/files/serializers.py:40-42 | validate_file's "File cannot be empty" is never reported, since the field refuses an empty file first |
| FileSerializers.DotlessNameRefused | apps/files/serializers.py:12-20 | a file name without a dot has no extension and is refused |
| FileSerializers.TagChild | apps/files/serializers.py:24 | one tag through the list's child CharField: accepted iff not blank and at most 50 characters once trimmed |
| FileSerializers.TagErrors | apps/files/serializers.py:23-27 | the refused tags are exactly those the child field refuses, each under its position with the child's message |
| FileSerializers.UploadTagsField | apps/files/serializers.py:23-55 | the tags field as the serializer runs it: absent gives no tags; any tag the child field refuses makes the errors by position, before validate_tags; cleaned tags iff at most 10 tags, each non-blank with 2 to 50 characters once trimmed, one cleaned tag per input in order |
| FileSerializers.LongTagRefused | apps/files/serializers.py:24 | a tag over 50 characters once trimmed is refused at its position with the length message |
| FileSerializers.TagItemMessages | apps/files/serializers.py:23-27 | the positioned messages are empty iff every tag passes the child field |
| FileSerializers.DescriptionErrors | apps/files/serializers.py:22 | the optional description refused iff longer than 500 characters once trimmed; blank is allowed |
| FileSerializers.FileErrors | apps/files/serializers.py:11-21 | the file field's messages: "No file was submitted." without a file, the not-a-file message for a text value, none iff an uploaded file passes the field |
| FileSerializers.TagsErrors | apps/files/serializers.py:23-27 | the tags field's messages are none iff the tags are absent or clean |
| FileSerializers.IsPublicErrors | apps/files/serializers.py:28 | is_public's messages: none iff the BooleanField accepts the value, else "Must be a valid boolean." |
| FileSerializers.UploadErrorMap | apps/files/serializers.py:9-28 | the error dictionary holds exactly the fields with messages, each with its own messages |
| Fields.FormBooleanValue | apps/files/serializers.py:28 | is_public as a BooleanField(default=False) reads a form value: missing or empty is False; accepted iff one of DRF's true or false texts; true iff a true text; anything else "Must be a valid boolean." |
| Fields.BooleanTextReadsBack | apps/files/serializers.py:28 | "True" and "False" read back as the booleans |
| FileSerializers.ValidateUpload | apps/files/serializers.py:9-55 | FileUploadSerializer on the upload form: valid iff a file is submitted and passes, the optional description (at most 500 characters once trimmed, blank allowed), the optional tags and is_public all pass; otherwise exactly the failing fields are reported, a missing file as "No file was submitted."; the valid data are the size, the trimmed description, the cleaned tags and is_public |
| FileSerializers.MissingFileRefused | apps/files/serializers.py:11 | a form without a file is refused under file with "No file was submitted." |
| FileSerializers.UndecidedIsPublicRefused | apps/files/serializers.py:28 | an is_public of "maybe" is refused with "Must be a valid boolean." |
| FileSerializers.CleanTag | apps/files/serializers.py:55 | a cleaned tag is as long as the stripped tag (lower-casing keeps the length) |
| FileSerializers.ValidateUploadTags | apps/files/serializers.py:46-55 | accepted iff at most 10 tags and every stripped tag has at least 2 characters; the result has one cleaned tag per input tag, in order |
| FileSerializers.KeptTags | apps/files/serializers.py:251-256 | never more tags than given |
| FileSerializers.KeptTagsAreLongEnough | apps/files/serializers.py:252-254 | every kept tag has at least 2 characters, and exactly the string tags whose stripped length is at least 2 are kept |
| FileSerializers.KeptTagsAppend | apps/files/serializers.py:252-254 | the tags are cleaned one by one: cleaning two lists joined is cleaning each and joining |
| FileSerializers.ValidateTags | apps/files/serializers.py:246-256 | rejected iff more than 10 values; otherwise the kept tags in order, and a short tag is dropped rather than rejected |
| FileSerializers.CharacterTags | apps/files/serializers.py:252 | the values a string yields when looped over: one single-character text per character |
| FileSerializers.StringTagsKeepNothing | apps/files/serializers.py:252-254 | tags given as a JSON string are looped over character by character, so no tag is kept |
| FileSerializers.ValidateCommentContent | apps/files/serializers.py:87-93 | accepted iff the stripped text has at least 3 characters; the result is the stripped text |
| FileSerializers.UsersWithEmail | apps/files/serializers.py:146 | the users the lookup finds: none iff no user has the address, two or more iff two users share it, each one a user with the address |
| FileSerializers.ResolveRecipient | apps/files/serializers.py:143-151 | "User with this email does not exist" iff no user has the address; MultipleObjectsReturned (not caught) iff two users share it; otherwise the one user with that address |
| FileSerializers.OneOwner | apps/files/serializers.py:146-147 | when the lookup finds one id, every user with the address has that id |
| FileSerializers.ShareEmailField | apps/files/serializers.py:127-151 | the shared_with_email field as the serializer runs it: missing, blank and malformed addresses get the field's messages; otherwise the lookup of the trimmed address |
| FileSerializers.SharedAddressEscapes | apps/files/serializers.py:145-151 | two users with the recipient's address make the lookup raise instead of answering |
| FileSerializers.ValidateShare | apps/files/serializers.py:153-182 | accepted iff the requester owns the file, the recipient is someone else and the file is not yet shared with them; then the attributes gain shared_with and lose shared_with_email, the others kept |
| FileSerializers.ParseBulkAction | apps/files/serializers.py:291-293 | an action is recognised iff it is one of delete, archive, make_public, make_private |
| FileSerializers.BulkMatched | apps/files/serializers.py:301-304 | every matched file is listed, live, named in the request and (for a non-admin) the requester's own |
| FileSerializers.FileIdsErrors | apps/files/serializers.py:286-311 | the file_ids field: no ids gives "Ensure this field has at least 1 elements.", more than 50 "Ensure this field has no more than 50 elements."; no error iff 1 to 50 ids and as many permitted live files match as ids were given |
| FileSerializers.ValidateBulkRequest | apps/files/serializers.py:284-311 | valid iff 1 to 50 ids, a recognised action, and as many permitted live files match as ids were given; otherwise file_ids and action are each reported iff they fail, with their messages |
| FileSerializers.BulkErrorsReportedTogether | apps/files/serializers.py:286-293 | an empty id list and an unknown action are reported together, each under its own field |
| FileSerializers.DistinctIdsCount | apps/files/serializers.py:301 | rows with distinct ids have as many ids as rows |
| FileSerializers.ElementsSmaller | apps/files/serializers.py:306 | a list has no more distinct ids than entries, and fewer when some id repeats |
| FileSerializers.BulkMatchedDistinct | apps/files/serializers.py:301-304 | the matched rows have distinct ids, all among the requested ones |
| FileSerializers.SubsetSmaller | apps/files/serializers.py:306 | a subset of ids is no larger than the set |
| FileSerializers.DuplicateIdsAreRejected | apps/files/serializers.py:300-309 | a request naming some id twice is always rejected |
| FileFilters.ParseTagQuery | apps/files/filters.py:93 | one tag per comma-separated piece (commas + 1 of them), each stripped and lower-cased |
| FileFilters.TagFilterMembership | apps/files/filters.py:88-99 | for a non-empty value a file is kept iff it is in the queryset and some parsed tag occurs case-insensitively in its tags |
| FileFilters.ContainsEmpty | apps/files/filters.py:97 | the empty tag occurs in every tags text |
| FileFilters.EmptyPieceMatchesEverything | apps/files/filters.py:93-99 | when some piece is empty every file is kept |
| FileFilters.DoubleCommaMatchesEverything | apps/files/filters.py:93-99 | the value "a,,b" keeps every file |
| FileFilters.FilterByOwner | apps/files/filters.py:81-86 | keeps exactly the files whose owner's username or email contains the value case-insensitively |
| FileViews.VisibleIsLiveAndAccessible | apps/files/views.py:70-105 | a file is listed iff it is live and the user may access it (admin, owner, public or a viewing share) |
| FileViews.BulkTargetsAreOwnLiveFiles | apps/files/views.py:275-282 | a non-admin's bulk action reaches only their own live files among those named |
| FileViews.ApplyAction | apps/files/views.py:288-299 | delete soft-deletes; archive leaves the stored fields as they were; make_public and make_private set the public flag and touch nothing else |
| FileViews.VisibilityActionsAreIdempotent | apps/files/views.py:294-299 | making public (or private) twice is the same as once |
| FileViews.Apply | apps/files/views.py:288-299 | the file's stored fields become those the action gives |
| FileViews.FailureCount | apps/files/views.py:302-303 | the failures are never more than the matched files |
| FileViews.FailureCountAppend | apps/files/views.py:287-303 | failures of two runs of files add up |
| FileViews.BulkFileAction | apps/files/views.py:284-309 | successes plus failures equal the matched files; each file either fails and keeps its fields or gets the action's effect |
| FileViews.ReadChunks | apps/files/views.py:133-141 | the chunks are non-empty, at most 8192 bytes, all full but the last, as many as the content needs, and together they are the content |
| FileViews.DownloadView | apps/files/views.py:124-163 | a missing or deleted file is a 500; otherwise 200 iff the user may access it and the read succeeded, streaming exactly the content and counting one download; anything else streams nothing and leaves the file as it was |
| FileViews.ShareList | apps/files/views.py:180-194 | for a file id: not found for an unknown file, no shares for a non-owner non-admin, otherwise only shares of that file; without one: exactly the shares the user made or received |
| FileViews.OwnerSeesAllShares | apps/files/views.py:184-189 | the owner or an admin sees every share of the file |
| FileViews.DownloadUrlView | apps/files/views.py:316-346 | a missing or deleted file, a non-integer 'expires', or one whose timedelta overflows (fewer than -999,999,999 days or 1,000,000,000 days and more) is a 500 before the service is asked, leaving the file as it was; 200 iff none of these, the user may access the file and a URL was made, with expires_in the hours (1 by default) times 3600 |
| AuthModels.IsActiveAt | apps/authentication/models.py:111-124 | false unless the status is active; an active subscription is current iff it is lifetime, has no end date, or now is not after the end |
| AuthModels.ActiveEarlier | apps/authentication/models.py:111-124 | a subscription current now was current at every earlier time |
| AuthModels.DaysUntilExpiry | apps/authentication/models.py:126-136 | none iff lifetime or no end date; otherwise never negative, the whole days left (floor of the remaining time) before the end, and 0 once the end has passed |
| AuthModels.DaysLeftMeansActive | apps/authentication/models.py:111-136 | an active subscription with days left is current |
| AuthModels.Extended | apps/authentication/models.py:138-146 | fails with timedelta's OverflowError message beyond 999,999,999 days, and with "date value out of range" when the new end leaves 0001-01-01 to 9999-12-31; succeeds iff neither, the end then moving forward by exactly the days (or set to now plus the days when there was none), the status active, type and start kept |
| AuthModels.ExtensionPastLastDayFails | apps/authentication/models.py:140-143 | an extension whose new end falls after 9999-12-31 fails with "date value out of range" |
| AuthModels.ExtensionsAdd | apps/authentication/models.py:138-146 | from a representable date, extending by a and then by b, both succeeding, is extending by a + b |
| AuthModels.ExtensionKeepsActive | apps/authentication/models.py:138-146 | a successful extension of a subscription that has not run out, by a non-negative number of days, leaves it current |
| AuthModels.Upgraded | apps/authentication/models.py:148-164 | sets the type and makes the status active; lifetime clears the end date; without a truthy duration the dates stay; with one the plan runs from now to now plus the days; fails iff not lifetime and the duration is non-empty text, or days whose timedelta or end date overflows (with timedelta's message for an overlong one) |
| AuthModels.LifetimeNeverExpires | apps/authentication/models.py:117-154 | after a lifetime upgrade the subscription is current at every time and has no expiry |
| AuthModels.TimedUpgradeRunsForItsDays | apps/authentication/models.py:155-157 | an upgrade for n > 0 days succeeds iff n is at most 999,999,999 and now + n days is a representable date; it then has n days left and is current exactly until now + n days |
| AuthModels.OverlongUpgradeFails | apps/authentication/models.py:155-157 | an upgrade for more than 999,999,999 days fails with timedelta's OverflowError message, whatever the date |
| AuthModels.FullName | apps/authentication/models.py:166-169 | the full name has no surrounding whitespace |
| AuthModels.FullNameOfCleanParts | apps/authentication/models.py:166-169 | clean first and last names give "first last"; two empty names give "" |
| AuthModels.User.constructor | apps/authentication/models.py:7-101 | a new user has a free, active subscription without dates and no time spent |
| AuthModels.User.ExtendSubscription | apps/authentication/models.py:138-146 | reports whether the extension succeeds; the subscription becomes the extension if so and is unchanged otherwise; only the status and end date can change |
| AuthModels.User.UpgradeSubscription | apps/authentication/models.py:148-164 | the subscription becomes its upgrade when that succeeds, and is unchanged otherwise (a text duration or an overflowing one) |
| AuthModels.UserSession.constructor | apps/authentication/models.py:305-323 | a new session starts at the given time and is open |
| AuthModels.UserSession.EndSession | apps/authentication/models.py:341-349 | the first call closes the session at now and adds its length to the user's time spent; a later call changes nothing; the duration is fixed from then on |
| AuthPermissions.AdminOnly | apps/authentication/permissions.py:4-12 | grants iff the user is authenticated and an admin |
| AuthPermissions.OwnerOrAdminView | apps/authentication/permissions.py:18-19 | grants iff the user is authenticated |
| AuthPermissions.OwnerOrAdminObject | apps/authentication/permissions.py:21-34 | an admin always; otherwise the owner of an object with a user field, or the user whose id the object has; nothing else |
| AuthPermissions.ActiveSubscriptionOnly | apps/authentication/permissions.py:37-45 | grants iff authenticated and an admin or with a current subscription |
| AuthPermissions.PremiumOnly | apps/authentication/permissions.py:48-62 | grants iff authenticated and an admin or of type premium or lifetime; the status is not consulted |
| AuthPermissions.AdminPassesEveryCheck | apps/authentication/permissions.py:4-62 | whoever passes the admin check passes every other permission |
| AuthPermissions.AnonymousPassesNothing | apps/authentication/permissions.py:4-62 | an anonymous user passes none of the checks |
| AuthPermissions.CancelledPremiumStillPremium | apps/authentication/permissions.py:48-62 | a cancelled premium subscriber passes the premium check but not the active-subscription check |
| Fields.PlainField | apps/authentication/serializers.py:61-62 | a CharField's outcome: clean iff present and not blank, as the trimmed text; a missing value is "This field is required.", a blank one "This field may not be blank." |
| Fields.BlankableField | apps/authentication/serializers.py:21-31 | a model text field that allows blank: clean iff the trimmed text fits max_length, as the trimmed text; otherwise the length message |
| Fields.ErrorsOf | apps/authentication/serializers.py:8-49 | the errors reported are exactly the failed fields, each with its own messages; there are none iff every field is clean |
| Fields.ValidateMatching | apps/authentication/serializers.py:45-49 | is_valid with a two-field match in validate(): field errors first, validate() only when there are none; valid iff every field is clean and the two agree, with the cleaned values as data |
| AuthSerializers.UsernameField | apps/authentication/serializers.py:21-43 | the username: clean iff present, not blank, allowed by the username pattern, unused and at most 150 characters, as the trimmed text; a used name is refused with the unique validator's message |
| AuthSerializers.UsernameValidatorErrors | apps/authentication/serializers.py:21-26 | the validators the model gives the username field (pattern, uniqueness, 150-character limit) report nothing exactly when the name matches the pattern, is unused and fits; a used name always yields the uniqueness message, and no other message appears |
| AuthSerializers.UsernameTakenNeverReported | apps/authentication/serializers.py:39-43 | validate_username's "A user with this username already exists." never appears: the model's unique validator refuses a used name first |
| AuthSerializers.EmailField | apps/authentication/serializers.py:27-37 | the email: required; blank allowed and then unchecked except for uniqueness; otherwise it must be well formed and at most 254 characters; a used address is "A user with this email already exists." |
| AuthSerializers.PasswordField | apps/authentication/serializers.py:11-15 | the password: clean iff present, not blank and without password-validator messages, as the trimmed text; otherwise those messages |
| AuthSerializers.NameField | apps/authentication/serializers.py:27-31 | first_name and last_name: required, blank allowed, clean iff at most 150 characters once trimmed |
| AuthSerializers.FieldResultMeaning | apps/authentication/serializers.py:21-43 | each registration field is clean exactly when its value is acceptable, and a clean field holds the trimmed value |
| AuthSerializers.RegistrationResults | apps/authentication/serializers.py:23-26 | every required field runs, and phone_number runs only when given |
| AuthSerializers.ValidateRegistration | apps/authentication/serializers.py:8-49 | valid iff every field that runs is acceptable and the trimmed passwords agree; the data are the submitted fields, trimmed; the errors name exactly the unacceptable fields; with none, the error is "Password confirmation doesn't match." |
| AuthSerializers.RegistrationMeaning | apps/authentication/serializers.py:45-49 | the field outcomes agree with the acceptable values; with every field clean, the cleaned data hold exactly the submitted fields trimmed, and the match check passes iff registration is accepted |
| AuthSerializers.TakenUsernameRefused | apps/authentication/serializers.py:39-43 | a username some user has is refused under "username" with "A user with that username already exists.", never with validate_username's message |
| AuthSerializers.MissingFieldRequired | apps/authentication/serializers.py:27-31 | any missing field except phone_number is reported under its own name as "This field is required." |
| AuthSerializers.CreateUserFields | apps/authentication/serializers.py:51-55 | the user is created from the validated fields without password_confirm, every other field kept |
| AuthSerializers.LoginAccount | apps/authentication/serializers.py:69-87 | the login is authenticated as a username first; otherwise the one user with that email is authenticated by username; no such user gives no account, and two or more raise MultipleObjectsReturned |
| AuthSerializers.CheckLogin | apps/authentication/serializers.py:64-98 | validate: empty credentials give "Must include username and password."; success iff an account is found and it is active, with that account as the result; a shared email escapes as MultipleObjectsReturned |
| AuthSerializers.ValidateLogin | apps/authentication/serializers.py:58-98 | the two fields run first and report missing or blank values under their names; success iff both are given and not blank and the trimmed credentials find an active account |
| AuthSerializers.MissingCredentialsNeverReported | apps/authentication/serializers.py:97-98 | "Must include username and password." is never the answer, because the fields refuse missing and blank values first |
| AuthSerializers.EmailLoginFallsBack | apps/authentication/serializers.py:77-87 | when the name given is the email of exactly one user and does not authenticate as a username, logging in with it is logging in with that user's username |
| AuthSerializers.SharedEmailEscapes | apps/authentication/serializers.py:79-87 | an email that two users share, and that does not authenticate as a username, makes login raise MultipleObjectsReturned instead of answering |
| AuthSerializers.ValidateProfileEmail | apps/authentication/serializers.py:126-131 | validate_email alone: refused iff editing a user and another user already has the email; returned unchanged |
| AuthSerializers.EmailFormatErrors | apps/authentication/serializers.py:21-31 | the model EmailField's validators: no messages iff the trimmed address is empty, or well formed and at most 254 characters; the length message comes first |
| AuthSerializers.ProfileEmailField | apps/authentication/serializers.py:108-131 | the profile's email field as the serializer runs it: absent iff not submitted; accepted iff the trimmed address passes the field's validators (skipped when blank) and validate_email; the result is the trimmed address; a failing validator reports its messages |
| AuthSerializers.ClearedEmailClashesWithBlank | apps/authentication/serializers.py:126-131 | clearing one's address is refused while another user has a blank one, because validate_email also runs on the empty value |
| AuthSerializers.OwnEmailIsAllowed | apps/authentication/serializers.py:128-129 | a user may keep their own email |
| AuthSerializers.PasswordChangeResult | apps/authentication/serializers.py:172-184 | each change-password field: clean iff given and not blank, the old password also checking and the new one without validator messages; a wrong old password is "Old password is incorrect." |
| AuthSerializers.ValidateChangePassword | apps/authentication/serializers.py:169-190 | valid iff the old password checks, the new one passes the validators and the trimmed new password matches its confirmation; a wrong old password is reported under old_password; with no field error the error is "New password confirmation doesn't match." |
| AuthSerializers.ValidateYearStarted | apps/authentication/serializers.py:230-234 | refused iff the year is given, non-zero and outside 1900..2024 |
| AuthSerializers.ValidateProfitMargin | apps/authentication/serializers.py:236-240 | refused iff the margin is given, non-zero and outside 0..100 |
| AuthSerializers.ZeroYearIsAccepted | apps/authentication/serializers.py:232 | the year 0 passes because it is falsy; 1899 and 2025 are refused, 2024 accepted |
| AuthViews.ClientIp | apps/authentication/views.py:54-61 | without a forwarded-for header, or with an empty one, the remote address |
| AuthViews.ClientIpIsFirstHop | apps/authentication/views.py:57-58 | with a header, the address is the header's text up to its first comma, which it does not contain |
| AuthViews.ClientIpKeepsSpaces | apps/authentication/views.py:58 | the first hop is not trimmed: " a,b" gives " a" |
| AuthViews.OpenSessionIndex | apps/authentication/views.py:169-173 | finds an open session with this id owned by the requester, and none only when there is no such session |
| AuthViews.SessionLookupId | apps/authentication/views.py:166-172 | the id the session lookup uses: a number as given, a string parsed as an integer, none when the string is not one |
| AuthViews.Logout | apps/authentication/views.py:163-192 | a truthy session id ends exactly the requester's matching open session, adding its length to the user's time; a missing or closed session changes nothing; a session id that is not an integer gives 400 with nothing ended and the token not blacklisted; otherwise the status is 400 only when blacklisting a given token fails |
| AuthViews.ClientInfo.constructor | apps/authentication/views.py:104-109 | a client info created on first access is empty and not completed |
| AuthViews.ClientInfo.PerformUpdate | apps/authentication/views.py:111-113 | the validated fields are stored and is_completed is always true, whatever the request said |
| AuthViews.DestroyUser | apps/authentication/views.py:278-285 | an unknown user is 404 and an admin is 400, both deleting nothing; anyone else is removed (204) and every other user kept |
| AuthViews.AdminsSurviveDeletion | apps/authentication/views.py:280-283 | no deletion ever removes an admin |
| AuthViews.ParseSubscriptionType | apps/authentication/views.py:327 | a type is recognised iff it is free, basic, premium or lifetime |
| AuthViews.UpgradeUserSubscription | apps/authentication/views.py:310-342 | 404 for an unknown user; 400 with no change for a missing or unknown type, and for an upgrade that fails, a text or overflowing duration included; 200 iff the upgrade succeeds, the subscription then being its upgrade |
| AnalyticsModels.ParseEventType | apps/analytics/models.py:9-24 | a stored value is read only as the event type whose value it is |
| AnalyticsModels.EventCodeRoundTrip | apps/analytics/models.py:9-24 | every event type is read back from its stored value, so no two types share one |
| AnalyticsModels.SaveColumnsBounds | apps/analytics/models.py:261-267 | a save of every column stores the current fields; a save of no column stores nothing new |
| AnalyticsModels.MarkedCompleted | apps/analytics/models.py:256-261 | status completed, progress 100, completed now; data, file fields and error message untouched |
| AnalyticsModels.MarkedFailed | apps/analytics/models.py:263-267 | status failed with the message; progress, completion time, data and file fields untouched |
| AnalyticsModels.CompletedAndFailedExclusive | apps/analytics/models.py:269-277 | is_completed and is_failed are never both true, and each mark makes exactly its own one true |
| AnalyticsModels.MarkCompletedSavesOnlyItsColumns | apps/analytics/models.py:256-261 | marking completed stores status, progress and time, but not data or file fields assigned since the last full save |
| AnalyticsModels.DurationDays | apps/analytics/models.py:279-282 | at least 1 iff the start is not after the end, and then the days from start to end with both ends counted |
| AnalyticsModels.Report.constructor | apps/analytics/models.py:205-241 | a new report has its request fields, status pending, progress 0, no data and no file, and is stored so |
| AnalyticsModels.Report.Save | apps/analytics/models.py:179-282 | a plain save stores every current field |
| AnalyticsModels.Report.MarkAsCompleted | apps/analytics/models.py:256-261 | the fields become their completed form and only status, progress and completion time are stored |
| AnalyticsModels.Report.MarkAsFailed | apps/analytics/models.py:263-267 | the fields become their failed form and only status and message are stored |
| AnalyticsModels.ErrorLog.constructor | apps/analytics/models.py:379-437 | a new error log is unresolved, with no resolution time, resolver or notes |
| AnalyticsModels.ErrorLog.MarkAsResolved | apps/analytics/models.py:442-450 | resolved, at now, by the user, with the notes |
| AnalyticsServices.BumpRaisesOneCounter | apps/analytics/services.py:82-95 | an activity update raises the four counters' total by exactly one for a counting event type and by none otherwise; no counter goes down and no other field changes |
| AnalyticsServices.LoginRaisesLoginCount | apps/analytics/services.py:83-84 | a login raises the login count by one and nothing else |
| AnalyticsServices.AnalyticsStore.constructor | apps/analytics/services.py:21-23 | no events and no activity rows |
| AnalyticsServices.AnalyticsStore.UpdateUserActivity | apps/analytics/services.py:63-95 | only the user's row for today changes: it is fetched or created zeroed, then bumped for the event type |
| AnalyticsServices.AnalyticsStore.TrackEvent | apps/analytics/services.py:25-60 | the event (missing description as "") is appended to the log; today's activity of the user is bumped iff a user is given and the type is a login, chat message, upload or download, and is untouched otherwise |
| AnalyticsServices.Label | apps/analytics/services.py:846 | a key's label is as long as the key |
| AnalyticsServices.Lookup | apps/analytics/services.py:874 | a key is found iff some entry of the item has it |
| AnalyticsServices.FirstSection | apps/analytics/services.py:862-863 | the first section in the fixed order that is present and non-empty, and none only when no section is |
| AnalyticsServices.CsvOpensWithReportInfo | apps/analytics/services.py:842-848 | the rows open with 'Report Information', one labelled row per report_info entry, then an empty row |
| AnalyticsServices.SectionTitlesAreNotSummary | apps/analytics/services.py:862-864 | no section title reads "Summary", so the summary block cannot be mistaken for a section |
| AnalyticsServices.CsvSummaryIffPresent | apps/analytics/services.py:851-859 | the Summary title follows the information block iff the data has a summary; its labelled key rows and a closing empty row follow only for a dict |
| AnalyticsServices.SectionRowsLayout | apps/analytics/services.py:864-874 | a section is its title, the first item's keys, then one row per item |
| AnalyticsServices.CsvHasAtMostOneSection | apps/analytics/services.py:861-876 | after the information and summary blocks come the rows of the first present, non-empty section, or nothing |
| AnalyticsServices.MissingKeyIsEmptyCell | apps/analytics/services.py:874 | a header missing from an item gives an empty cell |
| AnalyticsServices.WritePairs | apps/analytics/services.py:845-857 | appends one labelled row per entry, in order |
| AnalyticsServices.WriteSection | apps/analytics/services.py:864-874 | appends exactly the section's rows |
| AnalyticsServices.ConvertToCsv | apps/analytics/services.py:836-878 | the rows written are exactly the export's row layout |
| AnalyticsServices.Utf8Length | apps/analytics/services.py:666 | between 1 and 4 bytes per character, and as many bytes as characters iff the text is ASCII |
| AnalyticsServices.Outcome | apps/analytics/services.py:636-661 | an unknown type fails with "Unknown report type: ..."; success iff the type has a generator, it succeeded and the format is json or csv, the result being that extension |
| AnalyticsServices.OnlyUserActivityIsGenerated | apps/analytics/services.py:637-646 | of the types a report may be created with, only user_activity can succeed; every other one fails as unknown |
| AnalyticsServices.GenerateReportAsWritten | apps/analytics/services.py:629-672 | every run ends with the AttributeError escaping from the failure handler and the report stored as processing, a status outside the declared choices, at progress 0 or 50, without data or completion time |
| AnalyticsServices.GenerateReport | apps/analytics/services.py:629-672 | corrected: stored completed iff the outcome succeeds, then at progress 100, now, with the data, the path reports/{id}_{name}.{ext} and the UTF-8 size of the content; otherwise failed with the exception's message; the stored status is always a declared one |
| AnalyticsServices.Complete | apps/analytics/services.py:664-669 | stores the completed form with the file path and the content's UTF-8 size |
| AnalyticsServices.JoinedByStep | apps/analytics/services.py:500-506 | the users who had joined by a day are those by the day before plus those of that day |
| AnalyticsServices.UserGrowthChart | apps/analytics/services.py:489-516 | fails with "date value out of range" iff start <= end == 9999-12-31 (the step past the end overflows); otherwise one point per day from start to end inclusive (none when start is after end), with the day's new users and the users joined by then |
| AnalyticsServices.GrowthChartAccumulates | apps/analytics/services.py:499-514 | each point's total is the previous total plus its new users |
| AnalyticsServices.RevenueChart | apps/analytics/services.py:519-541 | fails with "date value out of range" iff start <= end == 9999-12-31; otherwise one point per day in order, with the day's revenue or 0 without a metrics row |
| AnalyticsServices.ActivityChart | apps/analytics/services.py:544-576 | fails with "date value out of range" iff start <= end == 9999-12-31; otherwise one point per day in order, with the day's questions, uploads (0 when there are none) and active users |
| AnalyticsSerializers.ValidateDictionary | apps/analytics/serializers.py:29-39 | a value passes unchanged iff it is a dictionary; otherwise "<field> must be a dictionary" |
| AnalyticsSerializers.ValidateRange | apps/analytics/serializers.py:310-327 | with either date missing, passes; with both, passes iff the start is not after the end and the range is at most 365 days, a start after the end giving "Start date cannot be after end date" |
| AnalyticsSerializers.ValidateReportDates | apps/analytics/serializers.py:210-233 | the range rules, plus an end date after today is refused; every range failure is reported as the range check reports it |
| AnalyticsSerializers.ValidateFilterDates | apps/analytics/serializers.py:310-327 | the filter set checks exactly the range rules, with no future-date check |
| AnalyticsSerializers.LongestReportRange | apps/analytics/serializers.py:222-226 | a 365-day difference, 366 days counted inclusively, is accepted; one more day is refused as too long |
| AnalyticsSerializers.FilterAcceptsFutureEnd | apps/analytics/serializers.py:310-327 | a range ending after today is refused for a report but accepted by the filter |
| AnalyticsSerializers.UnitPiece | apps/analytics/serializers.py:97-107 | a number followed by a unit letter reads back as that many seconds of the unit |
| AnalyticsSerializers.ReadOnePiece | apps/analytics/serializers.py:99-100 | a single piece reads back as its own seconds |
| AnalyticsSerializers.ReadTwoPieces | apps/analytics/serializers.py:101-107 | two pieces joined by a space read back as the sum of their seconds |
| AnalyticsSerializers.ReadsBackSeconds | apps/analytics/serializers.py:99-100 | under a minute, the text "Ns" reads back as exactly the seconds |
| AnalyticsSerializers.ReadTwoNumbers | apps/analytics/serializers.py:101-107 | "xu yv" reads back as x units u plus y units v |
| AnalyticsSerializers.ReadsBackMinutes | apps/analytics/serializers.py:101-103 | under an hour, "Mm Ss" reads back as exactly the seconds |
| AnalyticsSerializers.ReadsBackHours | apps/analytics/serializers.py:104-107 | from an hour on, "Hh Mm" reads back as the seconds less the seconds past the last whole minute |
| AnalyticsSerializers.WholeMinutes | apps/analytics/serializers.py:105-106 | hours and minutes together make up the seconds rounded down to a whole minute |
| AnalyticsSerializers.FormatDurationReadsBack | apps/analytics/serializers.py:97-107 | the formatted duration reads back as the seconds below an hour, and as the seconds cut to whole minutes from an hour on: only the leftover seconds are lost |
| AnalyticsViews.RestrictToUser | apps/analytics/views.py:41-46 | staff see every row; anyone else sees exactly the rows they own, and only those |
| AnalyticsViews.TotalPages | apps/analytics/views.py:636 | a zero page size fails; a positive one gives the fewest pages that hold all rows |
| AnalyticsViews.PageOf | apps/analytics/views.py:578-581 | slicing fails iff the start or end index is negative, and a page never holds more rows than there are |
| AnalyticsViews.PageContents | apps/analytics/views.py:578-581 | a page from 1 on holds the rows from (page - 1) * size on, as many as the size allows and as remain |
| AnalyticsViews.StartsInsideUpToTotal | apps/analytics/views.py:579-636 | a page starts inside the rows iff its number is at most the reported total pages |
| AnalyticsViews.PagesUpToTotalAreNonEmpty | apps/analytics/views.py:578-636 | the pages numbered up to the total pages are exactly the non-empty ones |
| AnalyticsViews.StatsRows | apps/analytics/views.py:583-600 | one entry per shown user in order, with the total session time of the user's seven most recent activity rows |
| AnalyticsViews.UsersListStats | apps/analytics/views.py:544-646 | 200 iff the page parameters are integers, the slice is valid and the page size is not zero, then with the count, total pages and the page's users; otherwise 500 |
| AnalyticsViews.RateBelow | apps/analytics/views.py:802 | with events, the error rate is below p percent iff errors * 100 is below p times the events |
| AnalyticsViews.HealthOf | apps/analytics/views.py:802-805 | healthy iff there are no events or fewer than one error in twenty events; critical iff there are events and at least one error in ten |
| AnalyticsViews.DashboardId | apps/analytics/views.py:493-506 | the id the view hands to the service: 403 iff a user_id is given by a non-admin; without one the requester's own id; an admin's given id as int() reads it, 500 when it cannot |
| AnalyticsViews.DashboardTarget | apps/analytics/views.py:493-539 | 403 iff a user_id is given by a non-admin; otherwise 200 iff the id handed over is 0 (the service's empty {}, no one's statistics) or an existing user's (whose statistics come back), and 500 for any other id, negative ones included |
| AnalyticsViews.OwnDashboard | apps/analytics/views.py:505-506 | without a user_id an existing requester gets 200 with their own statistics |
| AnalyticsViews.UnknownUserIdIsServerError | apps/analytics/services.py:233-234 | an admin's non-zero user_id that is negative or no user's ends in 500 |
| AnalyticsViews.ActivityStatsUser | apps/analytics/views.py:668-675 | the user_id handed to the service: a non-staff user's own id; for staff, the given id read by int(), none when missing, empty or unreadable |
| AnalyticsViews.ActivityStatsFilter | apps/analytics/services.py:98-108 | the filter the service applies: every user iff the id handed over is none or 0 (for staff: missing, empty, unreadable or "0"); otherwise that id |
| AnalyticsViews.StaffZeroMeansEveryone | apps/analytics/services.py:106-107 | staff asking for user "0" pass the id 0, which the service's truth test turns into every user's statistics |
| AnalyticsViews.UnreadableStaffIdMeansEveryone | apps/analytics/views.py:671-675 | an id that is not an integer turns a staff request into one for every user, while a non-staff request stays their own |
| AnalyticsViews.ResolutionTimeNeverOverwritten | apps/analytics/views.py:362-369 | once an error has a resolution time, an update that does not send one keeps it and keeps the resolver saved |
| AnalyticsViews.ResolvingLeavesATime | apps/analytics/views.py:362-369 | marking resolved always leaves a resolution time; when none was set, it is now and the resolver is the requester |
| AnalyticsViews.PerformUpdate | apps/analytics/views.py:362-369 | the error log's resolution after the update is the saved fields plus the resolver and time when newly resolved |
| AnalyticsFilters.FilterHasActivity | apps/analytics/filters.py:158-168 | true keeps exactly the rows with a login, chat message, upload, download or page visit, in order; false or no value keeps every row |
| AnalyticsFilters.ApiCallsAndTimeAreIgnored | apps/analytics/filters.py:161-167 | a row with only API calls, session time, active time or features is dropped by has_activity=true |
| AnalyticsFilters.KeepByUser | apps/analytics/filters.py:60-65 | exactly the rows whose user is set (or missing), and only those, as a filter of the rows |
| AnalyticsFilters.HasUserFilter | apps/analytics/filters.py:60-65 | true keeps exactly the rows with a user, false exactly those without, no value keeps all |
| AnalyticsFilters.HasUserPartitions | apps/analytics/filters.py:60-65 | has_user=true and has_user=false together hold as many rows as there are |
| AnalyticsFilters.HooksKeepEverything | apps/analytics/filters.py:481-503 | whatever date parameters are given, the base filter set's hooks return every row |
| CleanupAnalytics.RetentionDays | apps/analytics/management/commands/cleanup_analytics.py:132-163 | a kind's own option wins when it is given and not zero; otherwise the common --days value is used |
| CleanupAnalytics.ZeroOverrideFallsBack | apps/analytics/management/commands/cleanup_analytics.py:139-161 | an option of 0 gives the same cutoff as no option: now less --days days |
| CleanupAnalytics.LongerRetentionEarlierCutoff | apps/analytics/management/commands/cleanup_analytics.py:139-161 | keeping data longer never moves the cutoff later |
| CleanupAnalytics.OnlyFinishedReportsAndLogs | apps/analytics/management/commands/cleanup_analytics.py:227-275 | only completed reports and resolved error logs are selected; a report is selected iff it is completed and its time is before the cutoff |
| CleanupAnalytics.CutoffDayIsKept | apps/analytics/management/commands/cleanup_analytics.py:187-189 | date-keyed rows of the cutoff's own day are kept; those of the day before are selected |
| CleanupAnalytics.Matching | apps/analytics/management/commands/cleanup_analytics.py:165-289 | only rows older than the cutoff for their kind, never more than there are |
| CleanupAnalytics.Kept | apps/analytics/management/commands/cleanup_analytics.py:165-289 | only rows the kind's filter does not select |
| CleanupAnalytics.MatchingAndKeptSplit | apps/analytics/management/commands/cleanup_analytics.py:165-289 | selected and kept rows together are as many as the table holds |
| CleanupAnalytics.KeptIsClean | apps/analytics/management/commands/cleanup_analytics.py:165-289 | what remains after a cleanup matches nothing, so a second cleanup keeps it all |
| CleanupAnalytics.NothingMatchingAllKept | apps/analytics/management/commands/cleanup_analytics.py:165-289 | a table with nothing to delete is kept whole |
| CleanupAnalytics.FirstIds | apps/analytics/management/commands/cleanup_analytics.py:315-317 | a positive batch size picks the first matching id; a zero one, or no rows, picks none |
| CleanupAnalytics.FirstIdsBound | apps/analytics/management/commands/cleanup_analytics.py:315-317 | a batch holds at most batch-size ids |
| CleanupAnalytics.RemoveBatchEffect | apps/analytics/management/commands/cleanup_analytics.py:323 | deleting a batch removes only selected rows, never a kept one, and removes at least one when the first selected row is in the batch |
| CleanupAnalytics.RemoveBatchCount | apps/analytics/management/commands/cleanup_analytics.py:323 | a batch deletes as many rows as selected rows whose id it holds |
| CleanupAnalytics.FirstIdsPickAtMost | apps/analytics/management/commands/cleanup_analytics.py:315-317 | with distinct ids, a batch names at most batch-size rows |
| CleanupAnalytics.MatchingKeepsDistinctIds | apps/analytics/management/commands/cleanup_analytics.py:165-289 | the selected rows of a table with distinct ids are rows of it with distinct ids |
| CleanupAnalytics.BatchDeletesAtMostBatchSize | apps/analytics/management/commands/cleanup_analytics.py:315-323 | one round deletes at most batch-size rows |
| CleanupAnalytics.CleanedRemovesWhatItCounts | apps/analytics/management/commands/cleanup_analytics.py:83-119 | each table is left with its kept rows, and the total reported plus what is left is what there was |
| CleanupAnalytics.CleanedIsClean | apps/analytics/management/commands/cleanup_analytics.py:83-119 | a second cleanup with the same options counts nothing and changes nothing |
| CleanupAnalytics.AnalyticsDb.constructor | apps/analytics/management/commands/cleanup_analytics.py:72-130 | the database holds the given tables |
| CleanupAnalytics.AnalyticsDb.SetRows | apps/analytics/management/commands/cleanup_analytics.py:323 | only the one table changes, to the given rows |
| CleanupAnalytics.AnalyticsDb.DeleteInBatches | apps/analytics/management/commands/cleanup_analytics.py:308-338 | a negative batch size fails with the slicing error and a zero one deletes nothing; a positive one deletes every selected row, returns their count, and leaves the kept rows and the other tables untouched |
| CleanupAnalytics.AnalyticsDb.Cleanup | apps/analytics/management/commands/cleanup_analytics.py:165-289 | one kind's count and new tables are those of the kind's cleanup step: a dry run only counts |
| CleanupAnalytics.DryRunOnlyCounts | apps/analytics/management/commands/cleanup_analytics.py:178-285 | a dry run reports the number of expired rows and changes no table |
| CleanupAnalytics.DeletingRunCleans | apps/analytics/management/commands/cleanup_analytics.py:83-119 | with a positive batch size, the run reports the expired rows and leaves only kept rows |
| CleanupAnalytics.NegativeBatchFails | apps/analytics/management/commands/cleanup_analytics.py:125-130 | a negative batch size makes the run fail at the first deletion, with nothing deleted |
| CleanupAnalytics.ZeroBatchDeletesNothing | apps/analytics/management/commands/cleanup_analytics.py:315-320 | a batch size of 0 reports 0 and deletes nothing |
| CleanupAnalytics.CleanupAndAdd | apps/analytics/management/commands/cleanup_analytics.py:86-130 | one kind's count is added to the running total; its error ends the run wrapped as "Cleanup failed: ..." with the tables as the failed step left them |
| CleanupAnalytics.CutoffOrError | apps/analytics/management/commands/cleanup_analytics.py:132-163 | one kind's cutoff `now - timedelta(days)`: succeeds iff the retention is at most 999,999,999 days either way and the cutoff falls between 0001-01-01 and 9999-12-31, and is then the cutoff of that retention |
| CleanupAnalytics.FirstCutoffError | apps/analytics/management/commands/cleanup_analytics.py:132-163 | no error iff every kind's cutoff can be computed; an error is that of some kind's cutoff |
| CleanupAnalytics.RetentionBeforeYearOneFails | apps/analytics/management/commands/cleanup_analytics.py:139-141 | a retention reaching back before 0001-01-01 fails the command with "Cleanup failed: date value out of range" and deletes nothing |
| CleanupAnalytics.ReasonableRetentionRuns | apps/analytics/management/commands/cleanup_analytics.py:72-163 | when every kind's retention lies between 0 days and the days since 0001-01-01, the command is the run over every kind |
| CleanupAnalytics.Handle | apps/analytics/management/commands/cleanup_analytics.py:72-130 | the reported outcome and the tables afterwards are those of the whole command: an overflowing cutoff fails it untouched, otherwise the run over every kind in order |
| GenerateSystemMetrics.ParseDates | apps/analytics/management/commands/generate_system_metrics.py:72-106 | with both range options, every day from start to end in order, or an error for an unreadable date, a start after the end, or a range ending on 9999-12-31 (stepping past it overflows); else the one --date; else yesterday, which overflows when today is 0001-01-01 |
| GenerateSystemMetrics.RangeDaysIncrease | apps/analytics/management/commands/generate_system_metrics.py:85-88 | the days of a range strictly increase, so none is processed twice |
| GenerateSystemMetrics.ErrorRate | apps/analytics/management/commands/generate_system_metrics.py:247-249 | a percentage between 0 and 100; 0 iff there are no error events, 100 iff there are errors and no API calls |
| GenerateSystemMetrics.DailyMetrics.constructor | apps/analytics/management/commands/generate_system_metrics.py:158-160 | a new row holds the date and the given figures |
| GenerateSystemMetrics.DailyMetrics.SetFields | apps/analytics/management/commands/generate_system_metrics.py:153-156 | the row's figures become the old ones overwritten by the given pairs |
| GenerateSystemMetrics.AsMap | apps/analytics/management/commands/generate_system_metrics.py:145-156 | the fields set are exactly those named in the pairs |
| GenerateSystemMetrics.AsMapOfDistinctKeys | apps/analytics/management/commands/generate_system_metrics.py:145-156 | with one pair per field, each field holds its own value |
| GenerateSystemMetrics.AsMapStep | apps/analytics/management/commands/generate_system_metrics.py:154-155 | setting one more attribute extends the fields set so far by that pair |
| GenerateSystemMetrics.FirstOfDate | apps/analytics/management/commands/generate_system_metrics.py:114 | the position of a row of the date, and none only when no row has it |
| GenerateSystemMetrics.GenerateMetricsForDate | apps/analytics/management/commands/generate_system_metrics.py:108-165 | an existing row is skipped without --force and overwritten in place with it; otherwise one new row is added; no other row changes, no date gets two rows, and the date has a row afterwards |
| GenerateSystemMetrics.LastOfDateFound | apps/analytics/management/commands/generate_system_metrics.py:158-160 | a table that gains a row of the date has a row of that date |

## Left out

- Network and storage I/O are not modelled. This covers the HTTP requests to the RAG webhook (the webhook's reply is a parameter), the feedback analytics service (apps/chat/services.py:721-907), writing and removing files on disk, and removing report files during cleanup (apps/analytics/management/commands/cleanup_analytics.py:291-306).
- Opaque libraries are function parameters whose behaviour is not modelled: markdownify, uuid generation, mimetypes, Django's authenticate and check_password, JWT token creation, password validators, json.dumps, csv quoting and strptime.
- Strings are sequences of characters. Case folding, stripping and title-casing are modelled for ASCII only.
- Floating-point rounding and number formatting are not modelled. Rates and percentages are exact reals.
- Database aggregates (counts, sums and averages over querysets) are parameters or lists given to the model, not queries. This covers the figures computed by `_calculate_*` in generate_system_metrics and the per-date loop of its `handle`, the dashboard, subscription and payment statistics, and the search, filters and display fields of users_list_stats.
- Declarative filter fields (exact, range and icontains lookups) are database lookups and are not modelled. Only the filter methods with their own logic are.
- Server-Sent Events framing and the HTTP status plumbing of views not named in the table are not modelled.
- get_conversation_stats, archive_conversation, delete_conversation, export_conversation, the non-streaming process_chat_message and the chat service's `_update_user_activity` (apps/chat/services.py:594-606) are outside the modelled core.
- Saving a changed password (ChangePasswordSerializer.save) is not modelled. Neither is the JWT and session creation of a login: login is modelled up to the credentials check and the user it accepts.
- E-mail addresses are not unique in the User model. A login, or a share to an address, that two users share ends in MultipleObjectsReturned; the model stops at that exception, and the 500 answer it leads to is not modelled.
- ProhibitNullCharactersValidator, which every CharField carries, is not modelled: text holding a NUL character is accepted.
- Null values are not modelled: a field is either absent or present text. Text fields given a JSON number or list are not modelled either.
- Partial updates (PATCH), where DRF makes every field optional, are not modelled: the field members describe full create and update requests.
- Uploaded file names are taken as given, without directories. The storage's own renaming of names is not modelled.
- FileSerializers.ValidateTags: the tags JSONField may hold any JSON value. A list of texts and other values, and a string (CharacterTags, iterated by character), are modelled; an object, looped over by its keys, and a number, which makes len() raise, are not.
- Fields.FormBooleanValue: the true and false texts are those of current Django REST framework releases; older releases accept fewer.
- FileSerializers.ValidateUpload: the form holds at most one value per field; a repeated key, where the last value wins, is not modelled.
- FileSerializers.ValidateBulkRequest: file ids are numbers, so the UUIDField child's "Must be a valid UUID." is not modelled.
- The username pattern, the e-mail address format and the password validators are parameters. Within one field, the model reports the messages in the order pattern, uniqueness, length; only which messages appear is meant.
- A session id posted as a JSON float or boolean is not modelled. Numbers are integers, and strings go through Python's int().
- Deleting a file row also deletes the rows that refer to it (shares, access logs). That cascade is not modelled; DeleteFile removes only the file's own id.
- Dates are day numbers and times are seconds, both counted from 1970-01-01; isoformat output is not modelled. The limits of Python's date (0001-01-01 to 9999-12-31) and timedelta (999,999,999 days) are modelled wherever the number of days, or the date stepped from, comes from a request, a command option or a stored row: subscription extensions and upgrades, the daily charts, the metrics command's dates, the cleanup cutoffs and download-link expiry. Fixed steps of 7, 30 or 31 days back from the current date are taken to succeed. Time zones are not modelled.
- A queryset `.delete()` returns a count that includes cascaded rows. The model counts only the rows of the table itself.
- Verbose output, logging and `transaction.atomic` are not modelled.
- AuthModels.User.UpgradeSubscription: a failed upgrade leaves some fields changed in memory but unsaved. The model states only the persisted state, which is unchanged.
- AnalyticsSerializers.FormatDurationReadsBack covers non-negative seconds only; negative durations are not modelled.
- The admin modules and URL configuration are not modelled.
- The bulk "archive" action sets an attribute the File model does not have, so nothing is persisted. FileViews.ApplyAction models it as written: the file is unchanged.

## Findings

| source | as written | input that shows it | evidently intended | confidence | as-written member | corrected member |
|---|---|---|---|---|---|---|
| apps/chat/services.py:83-97 | token usage is attached only when the chunk type is 'success', a type the stream never produces | any stream, e.g. one ending in a complete chunk | the complete chunk carries the token estimate of the reply | not executed | ChatServices.DecorateNeverCountsTokens | ChatServices.DecorateIntended |
| apps/chat/services.py:526-536 | a delta chunk stores its missing 'accumulated_response' key, so the stored content becomes empty; the 'sources' branch never matches the producer's 'source_document' chunks | a stream of two delta chunks "a ", "b " | the content grows with each delta, so the partial reply is visible | not executed | ChatServices.DeltasClearContent | ChatServices.RunIntendedDeltas |
| apps/analytics/services.py:669-672 | report.mark_completed and report.mark_failed do not exist; the AttributeError escapes from the failure handler and the report stays 'processing', a status outside the declared choices | any report, e.g. user_activity in json format | the report ends completed with its file data, or failed with the error | not executed | AnalyticsServices.GenerateReportAsWritten | AnalyticsServices.GenerateReport |

=== FILE: analytics_filters.dfy ===
/**
 * The analytics filter sets' own logic: the "has activity" filter of daily
 * activity rows, the has-user exclusion filters of events and error logs,
 * and the date-range hooks of the base filter set. The declarative field
 * filters are lookups the database performs and are not modelled here.
 */
module AnalyticsFilters {
  import opened Wrappers
  import opened Seqs
  import opened AnalyticsModels

  // ---------------------------------------------------------------- has_activity

  /** Some visible activity: a login, a chat message, a file moved or a page visited. */
  predicate HasActivity(a: UserActivity) {
    a.loginCount > 0 || a.chatMessagesSent > 0 || a.filesUploaded > 0 || a.filesDownloaded > 0 || a.pagesVisited > 0
  }

  /**
   * filter_has_activity: a true value keeps exactly the rows with some
   * activity; a false or missing value keeps the queryset as it is.
   */
  function FilterHasActivity(rows: seq<UserActivity>, value: Option<bool>): (r: seq<UserActivity>)
    ensures value != Some(true) ==> r == rows
    ensures |r| <= |rows|
    ensures forall k :: 0 <= k < |r| ==> r[k] in rows
    ensures value == Some(true) ==> forall k :: 0 <= k < |r| ==> HasActivity(r[k])
    ensures value == Some(true) ==> forall k :: 0 <= k < |rows| && HasActivity(rows[k]) ==> rows[k] in r
  {
    if value == Some(true) then Filter(HasActivity, rows) else rows
  }

  /**
   * API calls, session time, active time and features do not count as
   * activity: a row with only those is dropped, whatever their values.
   */
  lemma ApiCallsAndTimeAreIgnored(rows: seq<UserActivity>, apiCalls: int, sessionTime: int, activeTime: int, features: seq<string>)
    ensures var quiet := NewActivity.(apiCallsMade := apiCalls, totalSessionTime := sessionTime,
                                      activeTime := activeTime, featuresUsed := features);
      FilterHasActivity(rows + [quiet], Some(true)) == FilterHasActivity(rows, Some(true))
  {
    var quiet := NewActivity.(apiCallsMade := apiCalls, totalSessionTime := sessionTime,
                              activeTime := activeTime, featuresUsed := features);
    FilterAppend(HasActivity, rows, [quiet]);
    FilterNone(HasActivity, [quiet]);
  }

  // ---------------------------------------------------------------- has_user

  /** The rows whose user is set (wantUser) or missing (!wantUser), in order. */
  function KeepByUser<T>(rows: seq<T>, userOf: T -> Option<nat>, wantUser: bool): (r: seq<T>)
    ensures |r| <= |rows|
    ensures forall k :: 0 <= k < |r| ==> r[k] in rows && userOf(r[k]).Some? == wantUser
    ensures forall k :: 0 <= k < |rows| && userOf(rows[k]).Some? == wantUser ==> rows[k] in r
  {
    Filter(x => userOf(x).Some? == wantUser, rows)
  }

  /**
   * has_user, an isnull lookup with exclude=True: true keeps the rows with
   * a user, false the rows without one, and no value keeps all.
   */
  function HasUserFilter<T>(rows: seq<T>, userOf: T -> Option<nat>, value: Option<bool>): (r: seq<T>)
    ensures value.None? ==> r == rows
    ensures value.Some? ==> forall k :: 0 <= k < |r| ==> r[k] in rows && userOf(r[k]).Some? == value.value
    ensures value.Some? ==> forall k :: 0 <= k < |rows| && userOf(rows[k]).Some? == value.value ==> rows[k] in r
  {
    if value.None? then rows else KeepByUser(rows, userOf, value.value)
  }

  /** has_user=true and has_user=false split the rows: together they hold every row once. */
  lemma {:induction false} HasUserPartitions<T>(rows: seq<T>, userOf: T -> Option<nat>)
    ensures |HasUserFilter(rows, userOf, Some(true))| + |HasUserFilter(rows, userOf, Some(false))| == |rows|
  {
    if rows != [] {
      HasUserPartitions(rows[1..], userOf);
    }
  }

  // ---------------------------------------------------------------- date-range hooks

  /** The parameters of the base date-range filter set, each handled by its own hook. */
  datatype DateHook =
    | DateFrom(fromDay: int)
    | DateTo(toDay: int)
    | LastDays(days: int)
    | ThisWeek(week: bool)
    | ThisMonth(month: bool)
    | ThisYear(year: bool)

  /** One hook: each returns the queryset it was given. */
  function ApplyHook<T>(rows: seq<T>, hook: DateHook): seq<T> {
    match hook
    case DateFrom(_) => rows
    case DateTo(_) => rows
    case LastDays(_) => rows
    case ThisWeek(_) => rows
    case ThisMonth(_) => rows
    case ThisYear(_) => rows
  }

  /** The hooks of the given parameters, applied in turn. */
  function ApplyHooks<T>(rows: seq<T>, hooks: seq<DateHook>): seq<T> {
    if hooks == [] then rows else ApplyHooks(ApplyHook(rows, hooks[0]), hooks[1..])
  }

  /** Whatever date parameters are given, the base filter set keeps every row. */
  lemma {:induction false} HooksKeepEverything<T>(rows: seq<T>, hooks: seq<DateHook>)
    ensures ApplyHooks(rows, hooks) == rows
  {
    if hooks != [] {
      HooksKeepEverything(rows, hooks[1..]);
    }
  }
}

=== FILE: analytics_models.dfy ===
/**
 * The analytics records: event types, a user's daily activity counters,
 * reports with their status and progress, and error logs with their
 * resolution. A report keeps two views of itself: the fields as the
 * running code sees them and the row as last written to the database,
 * because `save(update_fields=...)` writes only some columns. Days are
 * integers; times are integer seconds; "now" is a parameter.
 */
module AnalyticsModels {
  import opened Wrappers

  const SecondsPerDay: int := 86400

  // ---------------------------------------------------------------- events

  datatype EventType =
    | UserLogin | UserLogout | UserRegister | ChatMessage | FileUpload | FileDownload | FileShare
    | SubscriptionUpgrade | SubscriptionCancel | PageView | ApiCall | ErrorOccurred | FeatureUsed

  /** The stored value of each event type. */
  function EventCode(e: EventType): string {
    match e
    case UserLogin => "user_login"
    case UserLogout => "user_logout"
    case UserRegister => "user_register"
    case ChatMessage => "chat_message"
    case FileUpload => "file_upload"
    case FileDownload => "file_download"
    case FileShare => "file_share"
    case SubscriptionUpgrade => "subscription_upgrade"
    case SubscriptionCancel => "subscription_cancel"
    case PageView => "page_view"
    case ApiCall => "api_call"
    case ErrorOccurred => "error_occurred"
    case FeatureUsed => "feature_used"
  }

  /** The event type a stored value names, if any. */
  function ParseEventType(code: string): (r: Option<EventType>)
    ensures r.Some? ==> EventCode(r.value) == code
  {
    if code == "user_login" then Some(UserLogin)
    else if code == "user_logout" then Some(UserLogout)
    else if code == "user_register" then Some(UserRegister)
    else if code == "chat_message" then Some(ChatMessage)
    else if code == "file_upload" then Some(FileUpload)
    else if code == "file_download" then Some(FileDownload)
    else if code == "file_share" then Some(FileShare)
    else if code == "subscription_upgrade" then Some(SubscriptionUpgrade)
    else if code == "subscription_cancel" then Some(SubscriptionCancel)
    else if code == "page_view" then Some(PageView)
    else if code == "api_call" then Some(ApiCall)
    else if code == "error_occurred" then Some(ErrorOccurred)
    else if code == "feature_used" then Some(FeatureUsed)
    else None
  }

  /** Every event type is read back from its stored value, so no two share one. */
  lemma EventCodeRoundTrip(e: EventType)
    ensures ParseEventType(EventCode(e)) == Some(e)
  {
  }

  // ---------------------------------------------------------------- daily activity

  /** One user's counters for one day (unique per user and date). */
  datatype UserActivity = UserActivity(
    loginCount: int, chatMessagesSent: int, filesUploaded: int, filesDownloaded: int,
    pagesVisited: int, apiCallsMade: int, totalSessionTime: int, activeTime: int,
    featuresUsed: seq<string>)

  /** The defaults of a new activity row: every counter zero, no features. */
  const NewActivity := UserActivity(0, 0, 0, 0, 0, 0, 0, 0, [])

  // ---------------------------------------------------------------- report data

  /** A JSON value inside report data; numbers are integers here. */
  datatype Json =
    | JNull
    | JBool(b: bool)
    | JNumber(n: int)
    | JText(s: string)
    | JList(items: seq<Json>)
    | JObject(entries: seq<(string, Json)>)

  /** One entry of a detail section: a JSON object, keys in insertion order. */
  type Item = seq<(string, Json)>

  /**
   * The data a report generator produces: the report_info entries, the
   * optional summary, and the detail sections (lists of objects) by name.
   */
  datatype ReportData = ReportData(
    reportInfo: seq<(string, Json)>, summary: Option<Json>, sections: map<string, seq<Item>>)

  /** The `data` default, an empty dict. */
  const EmptyData := ReportData([], None, map[])

  // ---------------------------------------------------------------- reports

  /**
   * The report statuses. Pending, Generating, Completed and Failed are the
   * declared choices; Processing is the value report generation writes,
   * which the column stores although it is not among them.
   */
  datatype ReportStatus = Pending | Generating | Completed | Failed | Processing

  predicate IsDeclaredStatus(s: ReportStatus) {
    s != Processing
  }

  /** The columns of a report that change after creation. */
  datatype ReportFields = ReportFields(
    status: ReportStatus, progress: int, data: ReportData, filePath: string,
    fileSize: Option<nat>, errorMessage: string, completedAt: Option<int>)

  /** A new report: pending, at progress 0, with empty data and no file. */
  const NewReportFields := ReportFields(Pending, 0, EmptyData, "", None, "", None)

  datatype Column = StatusColumn | ProgressColumn | DataColumn | FilePathColumn
                  | FileSizeColumn | ErrorMessageColumn | CompletedAtColumn

  const AllColumns: set<Column> := {StatusColumn, ProgressColumn, DataColumn, FilePathColumn,
                                    FileSizeColumn, ErrorMessageColumn, CompletedAtColumn}

  /** The stored row after `save(update_fields=columns)`: those columns from `current`, the rest as stored. */
  function SaveColumns(stored: ReportFields, current: ReportFields, columns: set<Column>): ReportFields {
    ReportFields(
      if StatusColumn in columns then current.status else stored.status,
      if ProgressColumn in columns then current.progress else stored.progress,
      if DataColumn in columns then current.data else stored.data,
      if FilePathColumn in columns then current.filePath else stored.filePath,
      if FileSizeColumn in columns then current.fileSize else stored.fileSize,
      if ErrorMessageColumn in columns then current.errorMessage else stored.errorMessage,
      if CompletedAtColumn in columns then current.completedAt else stored.completedAt)
  }

  /** A plain save writes every column; a save of no columns writes nothing. */
  lemma SaveColumnsBounds(stored: ReportFields, current: ReportFields)
    ensures SaveColumns(stored, current, AllColumns) == current
    ensures SaveColumns(stored, current, {}) == stored
  {
  }

  /** mark_as_completed: completed, at progress 100, stamped now; nothing else moves. */
  function MarkedCompleted(f: ReportFields, now: int): (r: ReportFields)
    ensures r.status == Completed && r.progress == 100 && r.completedAt == Some(now)
    ensures r.data == f.data && r.filePath == f.filePath && r.fileSize == f.fileSize
    ensures r.errorMessage == f.errorMessage
  {
    f.(status := Completed, progress := 100, completedAt := Some(now))
  }

  /** mark_as_failed: failed with the message; progress and completion time stay as they were. */
  function MarkedFailed(f: ReportFields, message: string): (r: ReportFields)
    ensures r.status == Failed && r.errorMessage == message
    ensures r.progress == f.progress && r.completedAt == f.completedAt
    ensures r.data == f.data && r.filePath == f.filePath && r.fileSize == f.fileSize
  {
    f.(status := Failed, errorMessage := message)
  }

  const CompletedColumns: set<Column> := {StatusColumn, ProgressColumn, CompletedAtColumn}
  const FailedColumns: set<Column> := {StatusColumn, ErrorMessageColumn}

  /** is_completed and is_failed are never both true, and each mark makes exactly its own one true. */
  lemma CompletedAndFailedExclusive(f: ReportFields, now: int, message: string)
    ensures !(f.status == Completed && f.status == Failed)
    ensures MarkedCompleted(f, now).status == Completed && MarkedCompleted(f, now).status != Failed
    ensures MarkedFailed(f, message).status == Failed && MarkedFailed(f, message).status != Completed
  {
  }

  /**
   * The mark methods write only their own columns: marking a report
   * completed stores its status, progress and time, but not data or file
   * fields assigned since the last full save.
   */
  lemma {:induction false} MarkCompletedSavesOnlyItsColumns(stored: ReportFields, f: ReportFields, now: int)
    ensures var s := SaveColumns(stored, MarkedCompleted(f, now), CompletedColumns);
      && s.status == Completed && s.progress == 100 && s.completedAt == Some(now)
      && s.data == stored.data && s.filePath == stored.filePath && s.fileSize == stored.fileSize
      && s.errorMessage == stored.errorMessage
  {
  }

  /** duration_days: the days from start to end, both included. */
  function DurationDays(startDay: int, endDay: int): (r: int)
    ensures r >= 1 <==> startDay <= endDay
    ensures startDay <= endDay ==> startDay + r - 1 == endDay
  {
    endDay - startDay + 1
  }

  /** A requested report. Its name, kind, format and date range are fixed at creation. */
  class Report {
    const id: string
    const name: string
    const reportType: string
    const reportFormat: string
    const startDay: int
    const endDay: int
    var status: ReportStatus
    var progress: int
    var data: ReportData
    var filePath: string
    var fileSize: Option<nat>
    var errorMessage: string
    var completedAt: Option<int>
    /** The row as last written to the database. */
    var stored: ReportFields

    /** Report.objects.create: the defaults, written at once. */
    constructor (id: string, name: string, reportType: string, reportFormat: string, startDay: int, endDay: int)
      ensures this.id == id && this.name == name && this.reportType == reportType
      ensures this.reportFormat == reportFormat && this.startDay == startDay && this.endDay == endDay
      ensures Fields() == NewReportFields && stored == NewReportFields
    {
      this.id := id;
      this.name := name;
      this.reportType := reportType;
      this.reportFormat := reportFormat;
      this.startDay := startDay;
      this.endDay := endDay;
      status, progress, data, filePath := Pending, 0, EmptyData, "";
      fileSize, errorMessage, completedAt := None, "", None;
      stored := NewReportFields;
    }

    function Fields(): ReportFields
      reads this
    {
      ReportFields(status, progress, data, filePath, fileSize, errorMessage, completedAt)
    }

    /** save(): every column is written. */
    method Save()
      modifies this`stored
      ensures stored == Fields()
    {
      stored := Fields();
    }

    /** mark_as_completed, saving only its three columns. */
    method MarkAsCompleted(now: int)
      modifies this`status, this`progress, this`completedAt, this`stored
      ensures Fields() == MarkedCompleted(old(Fields()), now)
      ensures stored == SaveColumns(old(stored), Fields(), CompletedColumns)
    {
      status, progress, completedAt := Completed, 100, Some(now);
      stored := SaveColumns(stored, Fields(), CompletedColumns);
    }

    /** mark_as_failed, saving only status and message. */
    method MarkAsFailed(message: string)
      modifies this`status, this`errorMessage, this`stored
      ensures Fields() == MarkedFailed(old(Fields()), message)
      ensures stored == SaveColumns(old(stored), Fields(), FailedColumns)
    {
      status, errorMessage := Failed, message;
      stored := SaveColumns(stored, Fields(), FailedColumns);
    }

    predicate IsCompleted()
      reads this
    {
      status == Completed
    }

    predicate IsFailed()
      reads this
    {
      status == Failed
    }
  }

  // ---------------------------------------------------------------- error logs

  /** A logged error and its resolution. */
  class ErrorLog {
    const id: nat
    var isResolved: bool
    var resolvedAt: Option<int>
    var resolvedBy: Option<nat>
    var resolutionNotes: string

    constructor (id: nat)
      ensures this.id == id && !isResolved && resolvedAt.None? && resolvedBy.None? && resolutionNotes == ""
    {
      this.id := id;
      isResolved, resolvedAt, resolvedBy, resolutionNotes := false, None, None, "";
    }

    /** mark_as_resolved: resolved now, by `user`, with the notes (empty by default). */
    method MarkAsResolved(user: nat, notes: string, now: int)
      modifies this`isResolved, this`resolvedAt, this`resolvedBy, this`resolutionNotes
      ensures isResolved && resolvedAt == Some(now) && resolvedBy == Some(user) && resolutionNotes == notes
    {
      isResolved, resolvedAt, resolvedBy, resolutionNotes := true, Some(now), Some(user), notes;
    }
  }
}

=== FILE: analytics_serializers.dfy ===
/**
 * Analytics request validation: the date-range rules of reports and
 * filters, the dictionary checks on event payloads, and the human-readable
 * duration of activity times. Dates are day numbers; "today" is a
 * parameter.
 */
module AnalyticsSerializers {
  import opened Wrappers
  import opened Text
  import opened AnalyticsModels

  // ---------------------------------------------------------------- payloads

  /**
   * validate_properties / validate_metadata: the value must be a JSON
   * object; `what` names the field in the message ("Properties",
   * "Metadata").
   */
  function ValidateDictionary(value: Json, what: string): (r: Result<Json>)
    ensures r.Success? <==> value.JObject?
    ensures r.Success? ==> r.value == value
    ensures r.Failure? ==> r.error == what + " must be a dictionary"
  {
    if value.JObject? then Success(value) else Failure(what + " must be a dictionary")
  }

  // ---------------------------------------------------------------- date ranges

  const StartAfterEnd := "Start date cannot be after end date"
  const RangeTooLong := "Date range cannot exceed 365 days"
  const EndInFuture := "End date cannot be in the future"

  const MaxRangeDays := 365

  /**
   * The checks shared by the report serializers and the filter: with both
   * dates given, the start may not follow the end, and the end may lie at
   * most 365 days after the start.
   */
  function ValidateRange(startDay: Option<int>, endDay: Option<int>): (r: Result<(Option<int>, Option<int>)>)
    ensures startDay.None? || endDay.None? ==> r == Success((startDay, endDay))
    ensures startDay.Some? && endDay.Some? ==>
      (r.Success? <==> startDay.value <= endDay.value && endDay.value - startDay.value <= MaxRangeDays)
    ensures startDay.Some? && endDay.Some? && startDay.value > endDay.value ==> r == Failure(StartAfterEnd)
    ensures r.Success? ==> r.value == (startDay, endDay)
  {
    if startDay.Some? && endDay.Some? then
      if startDay.value > endDay.value then Failure(StartAfterEnd)
      else if endDay.value - startDay.value > MaxRangeDays then Failure(RangeTooLong)
      else Success((startDay, endDay))
    else Success((startDay, endDay))
  }

  /**
   * ReportSerializer.validate and CreateReportSerializer.validate: the
   * range checks, then the end may not lie after today.
   */
  function ValidateReportDates(startDay: Option<int>, endDay: Option<int>, today: int): (r: Result<(Option<int>, Option<int>)>)
    ensures startDay.None? || endDay.None? ==> r == Success((startDay, endDay))
    ensures startDay.Some? && endDay.Some? ==>
      (r.Success? <==> startDay.value <= endDay.value && endDay.value - startDay.value <= MaxRangeDays
                       && endDay.value <= today)
    ensures ValidateRange(startDay, endDay).Failure? ==> r == ValidateRange(startDay, endDay)
    ensures r.Success? ==> r.value == (startDay, endDay)
  {
    var range := ValidateRange(startDay, endDay);
    if range.Failure? then range
    else if startDay.Some? && endDay.Some? && endDay.value > today then Failure(EndInFuture)
    else range
  }

  /** AnalyticsFilterSerializer.validate: only the range checks. */
  function ValidateFilterDates(startDay: Option<int>, endDay: Option<int>): (r: Result<(Option<int>, Option<int>)>)
    ensures r == ValidateRange(startDay, endDay)
  {
    ValidateRange(startDay, endDay)
  }

  /**
   * The longest range a report accepts spans 366 days counting both ends;
   * one day more is refused.
   */
  lemma LongestReportRange(startDay: int, today: int)
    requires startDay + 366 <= today
    ensures var endDay := startDay + 365;
      ValidateReportDates(Some(startDay), Some(endDay), today).Success? && DurationDays(startDay, endDay) == 366
    ensures ValidateReportDates(Some(startDay), Some(startDay + 366), today) == Failure(RangeTooLong)
  {
  }

  /** A future range a report refuses is accepted by the filter. */
  lemma FilterAcceptsFutureEnd(startDay: int, endDay: int, today: int)
    requires startDay <= endDay <= startDay + MaxRangeDays && endDay > today
    ensures ValidateReportDates(Some(startDay), Some(endDay), today) == Failure(EndInFuture)
    ensures ValidateFilterDates(Some(startDay), Some(endDay)).Success?
  {
  }

  // ---------------------------------------------------------------- durations

  /**
   * _format_duration: seconds below a minute as "{s}s"; below an hour as
   * "{m}m {s}s"; otherwise "{h}h {m}m", dropping the seconds.
   */
  function FormatDuration(seconds: int): string {
    if seconds < 60 then IntToText(seconds) + "s"
    else if seconds < 3600 then NatToText(seconds / 60) + "m " + NatToText(seconds % 60) + "s"
    else NatToText(seconds / 3600) + "h " + NatToText(seconds % 3600 / 60) + "m"
  }

  /** The seconds one unit letter stands for. */
  function UnitSeconds(unit: char): Option<nat> {
    if unit == 'h' then Some(3600) else if unit == 'm' then Some(60) else if unit == 's' then Some(1) else None
  }

  /** The seconds one piece such as "12m" stands for. */
  function PieceSeconds(piece: string): Option<nat> {
    if |piece| >= 2 && AllDigits(piece[..|piece| - 1]) && UnitSeconds(piece[|piece| - 1]).Some? then
      Some(DigitsValue(piece[..|piece| - 1]) * UnitSeconds(piece[|piece| - 1]).value)
    else None
  }

  function SumPieces(pieces: seq<string>): Option<nat> {
    if pieces == [] then Some(0)
    else
      var head := PieceSeconds(pieces[0]);
      var rest := SumPieces(pieces[1..]);
      if head.Some? && rest.Some? then Some(head.value + rest.value) else None
  }

  /** Reading a duration text back: its space-separated pieces added up. */
  function ReadDuration(text: string): Option<nat> {
    SumPieces(Split(text, ' '))
  }

  /** A number followed by a unit letter is one piece without a space, worth the number times the unit. */
  lemma {:induction false} UnitPiece(n: nat, unit: char)
    requires UnitSeconds(unit).Some?
    ensures ' ' !in NatToText(n) + [unit]
    ensures PieceSeconds(NatToText(n) + [unit]) == Some(n * UnitSeconds(unit).value)
  {
    var p := NatToText(n) + [unit];
    assert p[..|p| - 1] == NatToText(n);
    DigitsValueOfNat(n);
    assert forall i :: 0 <= i < |NatToText(n)| ==> IsDigit(p[i]);
  }

  /** A single piece reads as its own worth. */
  lemma ReadOnePiece(a: string)
    requires ' ' !in a && PieceSeconds(a).Some?
    ensures ReadDuration(a) == PieceSeconds(a)
  {
    SplitNoSep(a, ' ');
    var pieces := Split(a, ' ');
    assert pieces[0] == a && pieces[1..] == [];
    assert SumPieces(pieces[1..]) == Some(0);
  }

  /** Two pieces joined by a space read as the sum of their worths. */
  lemma ReadTwoPieces(a: string, b: string)
    requires ' ' !in a && ' ' !in b && PieceSeconds(a).Some? && PieceSeconds(b).Some?
    ensures ReadDuration(a + [' '] + b) == Some(PieceSeconds(a).value + PieceSeconds(b).value)
  {
    SplitCons(a, b, ' ');
    SplitNoSep(b, ' ');
    var pieces := Split(a + [' '] + b, ' ');
    assert pieces[0] == a && pieces[1..] == [b];
    var rest := pieces[1..];
    assert rest[0] == b && rest[1..] == [];
    assert SumPieces(rest[1..]) == Some(0);
    assert SumPieces(rest) == PieceSeconds(b);
  }

  /** Below a minute the text is the seconds. */
  lemma ReadsBackSeconds(seconds: nat)
    requires seconds < 60
    ensures ReadDuration(FormatDuration(seconds)) == Some(seconds)
  {
    UnitPiece(seconds, 's');
    assert FormatDuration(seconds) == NatToText(seconds) + ['s'];
    ReadOnePiece(NatToText(seconds) + ['s']);
  }

  /** "{x}{u} {y}{v}" reads as x units u plus y units v. */
  lemma ReadTwoNumbers(x: nat, u: char, y: nat, v: char)
    requires UnitSeconds(u).Some? && UnitSeconds(v).Some?
    ensures ReadDuration(NatToText(x) + [u, ' '] + NatToText(y) + [v])
         == Some(x * UnitSeconds(u).value + y * UnitSeconds(v).value)
  {
    var a, b := NatToText(x) + [u], NatToText(y) + [v];
    UnitPiece(x, u);
    UnitPiece(y, v);
    assert NatToText(x) + [u, ' '] + NatToText(y) + [v] == a + [' '] + b;
    ReadTwoPieces(a, b);
  }

  /** Below an hour the text is the minutes and the leftover seconds. */
  lemma ReadsBackMinutes(seconds: nat)
    requires 60 <= seconds < 3600
    ensures ReadDuration(FormatDuration(seconds)) == Some(seconds)
  {
    var m, r := seconds / 60, seconds % 60;
    assert FormatDuration(seconds) == NatToText(m) + ['m', ' '] + NatToText(r) + ['s'];
    ReadTwoNumbers(m, 'm', r, 's');
  }

  /** From an hour on the text is the hours and the leftover whole minutes. */
  lemma ReadsBackHours(seconds: nat)
    requires 3600 <= seconds
    ensures ReadDuration(FormatDuration(seconds)) == Some(seconds - seconds % 60)
  {
    var h, m := seconds / 3600, seconds % 3600 / 60;
    assert FormatDuration(seconds) == NatToText(h) + ['h', ' '] + NatToText(m) + ['m'];
    ReadTwoNumbers(h, 'h', m, 'm');
    WholeMinutes(seconds);
  }

  /** Hours and leftover minutes make up the whole minutes of a duration. */
  lemma WholeMinutes(seconds: nat)
    ensures seconds / 3600 * 3600 + seconds % 3600 / 60 * 60 == seconds - seconds % 60
  {
    var h, x := seconds / 3600, seconds % 3600;
    var m, y := x / 60, x % 60;
    assert x == m * 60 + y;
    var q := h * 60 + m;
    assert seconds == q * 60 + y;
    assert seconds / 60 == q && seconds % 60 == y;
  }

  /**
   * The text gives the duration back: exactly below an hour, and with the
   * leftover seconds dropped from an hour on. Negative inputs are left out:
   * they print with a minus sign that is no unit piece.
   */
  lemma FormatDurationReadsBack(seconds: nat)
    ensures ReadDuration(FormatDuration(seconds)) == Some(if seconds < 3600 then seconds else seconds - seconds % 60)
  {
    if seconds < 60 {
      ReadsBackSeconds(seconds);
    } else if seconds < 3600 {
      ReadsBackMinutes(seconds);
    } else {
      ReadsBackHours(seconds);
    }
  }
}

=== FILE: analytics_services.dfy ===
/**
 * The analytics services: event tracking with its daily-activity update,
 * report generation (as written and as intended), the CSV layout of
 * report data, and the per-day chart builders. Database aggregates,
 * json.dumps and the csv writer are parameters.
 */
module AnalyticsServices {
  import opened Wrappers
  import opened Text
  import opened AnalyticsModels
  import Datetimes

  // ---------------------------------------------------------------- activity

  /** The event types that count towards a user's daily activity. */
  predicate CountsTowardsActivity(eventType: string) {
    eventType == EventCode(UserLogin) || eventType == EventCode(ChatMessage)
    || eventType == EventCode(FileUpload) || eventType == EventCode(FileDownload)
  }

  /** The four counters an event can raise, summed. */
  function CountedTotal(a: UserActivity): int {
    a.loginCount + a.chatMessagesSent + a.filesUploaded + a.filesDownloaded
  }

  /** _update_user_activity on one row: the counter matching the event type goes up by one. */
  function Bumped(a: UserActivity, eventType: string): UserActivity {
    if eventType == EventCode(UserLogin) then a.(loginCount := a.loginCount + 1)
    else if eventType == EventCode(ChatMessage) then a.(chatMessagesSent := a.chatMessagesSent + 1)
    else if eventType == EventCode(FileUpload) then a.(filesUploaded := a.filesUploaded + 1)
    else if eventType == EventCode(FileDownload) then a.(filesDownloaded := a.filesDownloaded + 1)
    else a
  }

  /**
   * An activity update raises exactly one counter by one when the type
   * counts, and none otherwise; no counter ever goes down and the other
   * fields never change.
   */
  lemma BumpRaisesOneCounter(a: UserActivity, eventType: string)
    ensures var b := Bumped(a, eventType);
      && CountedTotal(b) == CountedTotal(a) + (if CountsTowardsActivity(eventType) then 1 else 0)
      && a.loginCount <= b.loginCount && a.chatMessagesSent <= b.chatMessagesSent
      && a.filesUploaded <= b.filesUploaded && a.filesDownloaded <= b.filesDownloaded
      && b.pagesVisited == a.pagesVisited && b.apiCallsMade == a.apiCallsMade
      && b.totalSessionTime == a.totalSessionTime && b.activeTime == a.activeTime
      && b.featuresUsed == a.featuresUsed
  {
  }

  /** A login raises the login count and nothing else of the four. */
  lemma LoginRaisesLoginCount(a: UserActivity)
    ensures Bumped(a, "user_login") == a.(loginCount := a.loginCount + 1)
  {
  }

  /** A tracked analytics event. */
  datatype Event = Event(eventType: string, eventName: string, description: string, user: Option<nat>, at: int)

  /** The event log and the daily activity table, keyed by user and day. */
  class AnalyticsStore {
    var events: seq<Event>
    var activity: map<(nat, int), UserActivity>

    constructor ()
      ensures events == [] && activity == map[]
    {
      events, activity := [], map[];
    }

    /** The activity row of a user for a day, or the defaults of a new one. */
    function RowOf(user: nat, day: int): UserActivity
      reads this
    {
      if (user, day) in activity then activity[(user, day)] else NewActivity
    }

    /**
     * _update_user_activity: today's row of the user is fetched or created
     * zeroed, and the counter matching the event type is raised.
     */
    method UpdateUserActivity(user: nat, eventType: string, now: int)
      modifies this`activity
      ensures activity == old(activity)[(user, now / SecondsPerDay) := Bumped(old(RowOf(user, now / SecondsPerDay)), eventType)]
    {
      var day := now / SecondsPerDay;
      var row := RowOf(user, day);
      activity := activity[(user, day) := Bumped(row, eventType)];
    }

    /**
     * track_event: the event is recorded (a missing description becomes
     * empty); only an event with a user and of a counting type updates
     * that user's activity for today.
     */
    method TrackEvent(eventType: string, eventName: string, user: Option<nat>, description: Option<string>, now: int)
      returns (e: Event)
      modifies this
      ensures e == Event(eventType, eventName, description.GetOr(""), user, now)
      ensures events == old(events) + [e]
      ensures user.Some? && CountsTowardsActivity(eventType) ==>
        activity == old(activity)[(user.value, now / SecondsPerDay) := Bumped(old(RowOf(user.value, now / SecondsPerDay)), eventType)]
      ensures !(user.Some? && CountsTowardsActivity(eventType)) ==> activity == old(activity)
    {
      e := Event(eventType, eventName, description.GetOr(""), user, now);
      events := events + [e];
      if user.Some? && CountsTowardsActivity(eventType) {
        UpdateUserActivity(user.value, eventType, now);
      }
    }
  }

  // ---------------------------------------------------------------- csv layout

  /** A CSV row as the csv writer receives it. */
  type Row = seq<Json>

  /** key.replace('_', ' ').title() */
  function Label(key: string): (r: string)
    ensures |r| == |key|
  {
    Title(ReplaceChar(key, '_', ' '))
  }

  function PairRows(entries: seq<(string, Json)>): seq<Row> {
    seq(|entries|, i requires 0 <= i < |entries| => [JText(Label(entries[i].0)), entries[i].1])
  }

  function TextRow(texts: seq<string>): Row {
    seq(|texts|, i requires 0 <= i < |texts| => JText(texts[i]))
  }

  /** item.get(key): the value of the first entry with that key. */
  function Lookup(item: Item, key: string): (r: Option<Json>)
    ensures r.Some? <==> exists i :: 0 <= i < |item| && item[i].0 == key
  {
    if item == [] then None
    else if item[0].0 == key then Some(item[0].1)
    else
      var r := Lookup(item[1..], key);
      assert forall i :: 1 <= i < |item| ==> item[i] == item[1..][i - 1];
      r
  }

  function Headers(item: Item): seq<string> {
    seq(|item|, i requires 0 <= i < |item| => item[i].0)
  }

  function ItemRow(item: Item, headers: seq<string>): Row {
    seq(|headers|, j requires 0 <= j < |headers| => Lookup(item, headers[j]).GetOr(JText("")))
  }

  const SectionOrder: seq<string> := ["daily_breakdown", "daily_metrics", "user_breakdown", "errors"]

  predicate Written(sections: map<string, seq<Item>>, name: string) {
    name in sections && sections[name] != []
  }

  /** The first name among `names` whose section is present and non-empty. */
  function FirstSection(sections: map<string, seq<Item>>, names: seq<string>): (r: Option<nat>)
    ensures r.Some? ==> r.value < |names| && Written(sections, names[r.value])
                        && forall k :: 0 <= k < r.value ==> !Written(sections, names[k])
    ensures r.None? ==> forall k :: 0 <= k < |names| ==> !Written(sections, names[k])
  {
    if names == [] then None
    else if Written(sections, names[0]) then Some(0)
    else
      var r := FirstSection(sections, names[1..]);
      if r.Some? then Some(r.value + 1) else None
  }

  /** A detail section: its title, the first item's keys, then one row per item with '' for a missing key. */
  function SectionRows(name: string, items: seq<Item>): seq<Row>
    requires items != []
  {
    var headers := Headers(items[0]);
    [[JText(Label(name))], TextRow(headers)]
    + seq(|items|, i requires 0 <= i < |items| => ItemRow(items[i], headers))
  }

  function SummaryRows(summary: Option<Json>): seq<Row> {
    match summary
    case None => []
    case Some(JObject(entries)) => [[JText("Summary")]] + PairRows(entries) + [[]]
    case Some(_) => [[JText("Summary")], []]
  }

  function DetailRows(sections: map<string, seq<Item>>): seq<Row> {
    var k := FirstSection(sections, SectionOrder);
    if k.None? then [] else SectionRows(SectionOrder[k.value], sections[SectionOrder[k.value]])
  }

  /** The rows _convert_to_csv writes for report data. */
  function CsvRows(d: ReportData): seq<Row> {
    [[JText("Report Information")]] + PairRows(d.reportInfo) + [[]] + SummaryRows(d.summary) + DetailRows(d.sections)
  }

  /** The export opens with the report information block, closed by an empty row. */
  lemma CsvOpensWithReportInfo(d: ReportData)
    ensures var rows := CsvRows(d); var n := |d.reportInfo|;
      && |rows| >= n + 2
      && rows[0] == [JText("Report Information")]
      && (forall i :: 0 <= i < n ==> rows[1 + i] == [JText(Label(d.reportInfo[i].0)), d.reportInfo[i].1])
      && rows[n + 1] == []
  {
  }

  /** No section title reads "Summary": the labels keep their names' lengths, none of them seven. */
  lemma SectionTitlesAreNotSummary(k: nat)
    requires k < |SectionOrder|
    ensures Label(SectionOrder[k]) != "Summary"
  {
    assert |SectionOrder[k]| != |"Summary"|;
  }

  /**
   * The row after the information block is the Summary title exactly when
   * the data has a summary; the key rows follow only for a dict summary.
   */
  lemma {:induction false} CsvSummaryIffPresent(d: ReportData)
    ensures var rows := CsvRows(d); var k := |d.reportInfo| + 2;
      (k < |rows| && rows[k] == [JText("Summary")]) <==> d.summary.Some?
    ensures var rows := CsvRows(d); var k := |d.reportInfo| + 2;
      d.summary.Some? && d.summary.value.JObject? ==>
        var e := d.summary.value.entries;
        |rows| >= k + |e| + 2
        && (forall i :: 0 <= i < |e| ==> rows[k + 1 + i] == [JText(Label(e[i].0)), e[i].1])
        && rows[k + 1 + |e|] == []
  {
    var rows := CsvRows(d);
    var k := |d.reportInfo| + 2;
    var head := [[JText("Report Information")]] + PairRows(d.reportInfo) + [[]];
    assert |head| == k;
    assert rows == head + SummaryRows(d.summary) + DetailRows(d.sections);
    if d.summary.None? {
      var s := FirstSection(d.sections, SectionOrder);
      if s.Some? && k < |rows| {
        assert rows[k] == [JText(Label(SectionOrder[s.value]))];
        SectionTitlesAreNotSummary(s.value);
        assert JText(Label(SectionOrder[s.value])) != JText("Summary");
      }
    }
  }

  /** A detail section is its title, the first item's keys, then one row per item. */
  lemma SectionRowsLayout(name: string, items: seq<Item>)
    requires items != []
    ensures var rows := SectionRows(name, items); var headers := Headers(items[0]);
      && |rows| == 2 + |items|
      && rows[0] == [JText(Label(name))]
      && rows[1] == TextRow(headers)
      && forall i :: 0 <= i < |items| ==> rows[2 + i] == ItemRow(items[i], headers)
  {
  }

  /**
   * At most one detail section closes the export: after the information
   * and summary blocks come the rows of the first present, non-empty
   * section in the fixed order, or nothing at all.
   */
  lemma {:induction false} CsvHasAtMostOneSection(d: ReportData)
    ensures var rows := CsvRows(d); var k := |d.reportInfo| + 2 + |SummaryRows(d.summary)|;
      var s := FirstSection(d.sections, SectionOrder);
      && k <= |rows|
      && (s.None? ==> rows[k..] == [])
      && (s.Some? ==> rows[k..] == SectionRows(SectionOrder[s.value], d.sections[SectionOrder[s.value]]))
  {
    var pre := [[JText("Report Information")]] + PairRows(d.reportInfo) + [[]] + SummaryRows(d.summary);
    var rows := CsvRows(d);
    assert rows == pre + DetailRows(d.sections);
    assert rows[|pre|..] == DetailRows(d.sections);
  }

  /** A header missing from a later item becomes an empty cell in its row. */
  lemma MissingKeyIsEmptyCell(item: Item, headers: seq<string>, j: nat)
    requires j < |headers| && forall i :: 0 <= i < |item| ==> item[i].0 != headers[j]
    ensures ItemRow(item, headers)[j] == JText("")
  {
  }

  /** One writerow per entry: the key's label and the value. */
  method WritePairs(before: seq<Row>, entries: seq<(string, Json)>) returns (rows: seq<Row>)
    ensures rows == before + PairRows(entries)
  {
    rows := before;
    var i := 0;
    while i < |entries|
      invariant 0 <= i <= |entries|
      invariant rows == before + PairRows(entries[..i])
    {
      assert PairRows(entries[..i + 1]) == PairRows(entries[..i]) + [[JText(Label(entries[i].0)), entries[i].1]];
      rows := rows + [[JText(Label(entries[i].0)), entries[i].1]];
      i := i + 1;
    }
    assert entries[..i] == entries;
  }

  /** The section's title, its header row, then one writerow per item. */
  method WriteSection(before: seq<Row>, name: string, items: seq<Item>) returns (rows: seq<Row>)
    requires items != []
    ensures rows == before + SectionRows(name, items)
  {
    var headers := Headers(items[0]);
    rows := before + [[JText(Label(name))], TextRow(headers)];
    var j := 0;
    while j < |items|
      invariant 0 <= j <= |items|
      invariant rows == before + [[JText(Label(name))], TextRow(headers)]
                        + seq(j, i requires 0 <= i < j => ItemRow(items[i], headers))
    {
      rows := rows + [ItemRow(items[j], headers)];
      j := j + 1;
    }
  }

  /** _convert_to_csv, writing row by row as the source's csv writer does. */
  method ConvertToCsv(d: ReportData) returns (rows: seq<Row>)
    ensures rows == CsvRows(d)
  {
    rows := WritePairs([[JText("Report Information")]], d.reportInfo);
    rows := rows + [[]];
    if d.summary.Some? {
      rows := rows + [[JText("Summary")]];
      if d.summary.value.JObject? {
        rows := WritePairs(rows, d.summary.value.entries);
      }
      rows := rows + [[]];
    }
    ghost var body := rows;
    assert body == [[JText("Report Information")]] + PairRows(d.reportInfo) + [[]] + SummaryRows(d.summary);
    var k := 0;
    while k < |SectionOrder|
      invariant 0 <= k <= |SectionOrder|
      invariant rows == body
      invariant FirstSection(d.sections, SectionOrder) ==
        (var t := FirstSection(d.sections, SectionOrder[k..]); if t.Some? then Some(t.value + k) else None)
    {
      var name := SectionOrder[k];
      assert SectionOrder[k..][1..] == SectionOrder[k + 1..];
      if name in d.sections && d.sections[name] != [] {
        rows := WriteSection(rows, name, d.sections[name]);
        return;
      }
      k := k + 1;
    }
  }

  // ---------------------------------------------------------------- report generation

  /** The report types the generator knows. */
  const GeneratedTypes: seq<string> := ["user_activity", "system_metrics", "feature_usage", "error_logs"]

  /** The report types a report may be created with. */
  const DeclaredReportTypes: seq<string> :=
    ["user_activity", "system_performance", "revenue", "content_usage", "error_analysis", "custom"]

  /** The bytes of a character in UTF-8. */
  function Utf8Width(c: char): nat {
    if c as int < 0x80 then 1 else if c as int < 0x800 then 2 else if c as int < 0x10000 then 3 else 4
  }

  /** len(text.encode('utf-8')) */
  function Utf8Length(s: string): (r: nat)
    ensures |s| <= r <= 4 * |s|
    ensures r == |s| <==> forall i :: 0 <= i < |s| ==> s[i] as int < 0x80
  {
    if s == [] then 0
    else
      var r := Utf8Width(s[0]) + Utf8Length(s[1..]);
      assert forall i :: 1 <= i < |s| ==> s[i] == s[1..][i - 1];
      r
  }

  /** Where a generated report's file goes: reports/{id}_{name}.{ext} */
  function ReportPath(id: string, name: string, extension: string): string {
    "reports/" + id + "_" + name + "." + extension
  }

  /**
   * How a run ends, before any bookkeeping: the file extension, or the
   * message of the exception raised on the way (unknown type, a failing
   * generator, unknown format).
   */
  function Outcome(reportType: string, reportFormat: string, generated: Result<ReportData>): (r: Result<string>)
    ensures reportType !in GeneratedTypes ==> r == Failure("Unknown report type: " + reportType)
    ensures r.Success? <==> reportType in GeneratedTypes && generated.Success?
                            && (reportFormat == "json" || reportFormat == "csv")
    ensures r.Success? ==> r.value == reportFormat
  {
    if reportType !in GeneratedTypes then Failure("Unknown report type: " + reportType)
    else if generated.Failure? then Failure(generated.error)
    else if reportFormat == "json" then Success("json")
    else if reportFormat == "csv" then Success("csv")
    else Failure("Unknown report format: " + reportFormat)
  }

  /**
   * Of the types a report can be created with, only user_activity has a
   * generator; every other declared type fails, whatever the format.
   */
  lemma OnlyUserActivityIsGenerated(reportType: string, reportFormat: string, generated: Result<ReportData>)
    requires reportType in DeclaredReportTypes
    ensures Outcome(reportType, reportFormat, generated).Success? ==> reportType == "user_activity"
    ensures reportType != "user_activity" ==> Outcome(reportType, reportFormat, generated) == Failure("Unknown report type: " + reportType)
  {
  }

  /** The file content of a successful run, rendered by the given json.dumps or csv writer. */
  function Content(d: ReportData, extension: string, jsonDumps: ReportData -> string, csvWriter: seq<Row> -> string): string {
    if extension == "json" then jsonDumps(d) else csvWriter(CsvRows(d))
  }

  const NoMarkFailed := "'Report' object has no attribute 'mark_failed'"

  /**
   * _generate_report as written. The run marks the report processing and
   * saves; after generating it saves at progress 50; then it calls
   * `mark_completed`, which reports do not have, and its handler calls
   * `mark_failed`, which they do not have either. Every run therefore
   * ends with that AttributeError escaping and the stored report left
   * processing, a status outside the declared choices.
   */
  method GenerateReportAsWritten(report: Report, generated: Result<ReportData>,
                                 jsonDumps: ReportData -> string, csvWriter: seq<Row> -> string)
    returns (escaped: Option<string>)
    modifies report
    ensures escaped == Some(NoMarkFailed)
    ensures report.status == Processing && report.stored.status == Processing
    ensures !IsDeclaredStatus(report.stored.status)
    ensures report.stored.progress == (if report.reportType in GeneratedTypes && generated.Success? then 50 else 0)
    ensures report.stored.data == old(report.data) && report.stored.completedAt == old(report.completedAt)
  {
    report.status := Processing;
    report.progress := 0;
    report.Save();
    if report.reportType !in GeneratedTypes || generated.Failure? {
      // raise ValueError / the generator's error; the handler's mark_failed raises AttributeError
      return Some(NoMarkFailed);
    }
    report.progress := 50;
    report.Save();
    report.data := generated.value;
    var content: string;
    var extension: string;
    if report.reportFormat == "json" {
      content := jsonDumps(report.data);
      extension := "json";
    } else if report.reportFormat == "csv" {
      var rows := ConvertToCsv(report.data);
      content := csvWriter(rows);
      extension := "csv";
    } else {
      return Some(NoMarkFailed);
    }
    report.filePath := ReportPath(report.id, report.name, extension);
    report.fileSize := Some(Utf8Length(content));
    report.progress := 100;
    // report.mark_completed() raises AttributeError; the handler's mark_failed raises again
    escaped := Some(NoMarkFailed);
  }

  /**
   * _generate_report as intended: the same steps, ending in
   * mark_as_completed or mark_as_failed, with a full save before marking
   * completed so that the data and the file fields reach the database.
   * Every run ends stored as completed at 100 with its data, path and size,
   * or as failed with the message of what went wrong.
   */
  method GenerateReport(report: Report, generated: Result<ReportData>,
                        jsonDumps: ReportData -> string, csvWriter: seq<Row> -> string, now: int)
    modifies report
    ensures var o := Outcome(report.reportType, report.reportFormat, generated);
      && (report.stored.status == Completed <==> o.Success?)
      && (report.stored.status == Failed <==> o.Failure?)
      && (o.Success? ==>
            && report.stored.progress == 100 && report.stored.completedAt == Some(now)
            && report.stored.data == generated.value
            && report.stored.filePath == ReportPath(report.id, report.name, o.value)
            && report.stored.fileSize == Some(Utf8Length(Content(generated.value, o.value, jsonDumps, csvWriter))))
      && (o.Failure? ==> report.stored.errorMessage == o.error
                         && report.stored.progress == (if report.reportType in GeneratedTypes && generated.Success? then 50 else 0))
    ensures IsDeclaredStatus(report.stored.status)
  {
    report.status := Processing;
    report.progress := 0;
    report.Save();
    if report.reportType !in GeneratedTypes {
      report.MarkAsFailed("Unknown report type: " + report.reportType);
      return;
    }
    if generated.Failure? {
      report.MarkAsFailed(generated.error);
      return;
    }
    report.progress := 50;
    report.Save();
    report.data := generated.value;
    var content: string;
    var extension: string;
    if report.reportFormat == "json" {
      content := jsonDumps(report.data);
      extension := "json";
    } else if report.reportFormat == "csv" {
      var rows := ConvertToCsv(report.data);
      content := csvWriter(rows);
      extension := "csv";
    } else {
      report.MarkAsFailed("Unknown report format: " + report.reportFormat);
      return;
    }
    Complete(report, extension, content, now);
  }

  /** The end of a successful run: the file fields, progress 100, a full save, then mark_as_completed. */
  method Complete(report: Report, extension: string, content: string, now: int)
    modifies report`filePath, report`fileSize, report`progress, report`status, report`completedAt, report`stored
    ensures report.stored == report.Fields()
    ensures report.stored == MarkedCompleted(old(report.Fields()), now).(
      filePath := ReportPath(report.id, report.name, extension), fileSize := Some(Utf8Length(content)))
  {
    report.filePath := ReportPath(report.id, report.name, extension);
    report.fileSize := Some(Utf8Length(content));
    report.progress := 100;
    report.Save();
    report.MarkAsCompleted(now);
  }

  // ---------------------------------------------------------------- charts

  /** How many of the join days fall on `day`. */
  function JoinedOn(joined: seq<int>, day: int): nat {
    if joined == [] then 0 else (if joined[0] == day then 1 else 0) + JoinedOn(joined[1..], day)
  }

  /** How many of the join days fall on or before `day`. */
  function JoinedBy(joined: seq<int>, day: int): nat {
    if joined == [] then 0 else (if joined[0] <= day then 1 else 0) + JoinedBy(joined[1..], day)
  }

  /** The running total of users grows each day by exactly the day's new users. */
  lemma {:induction false} JoinedByStep(joined: seq<int>, day: int)
    ensures JoinedBy(joined, day) == JoinedBy(joined, day - 1) + JoinedOn(joined, day)
  {
    if joined != [] {
      JoinedByStep(joined[1..], day);
    }
  }

  datatype GrowthPoint = GrowthPoint(day: int, newUsers: nat, totalUsers: nat)

  /**
   * _get_user_growth_chart: one point per day from start to end, with the
   * users who joined that day and all who had joined by then; none when
   * start is after end. `joined` holds every user's join day. The step
   * past an end of 9999-12-31 raises OverflowError.
   */
  method UserGrowthChart(startDay: Datetimes.Date, endDay: Datetimes.Date, joined: seq<int>)
    returns (r: Result<seq<GrowthPoint>>)
    ensures r.Failure? <==> startDay <= endDay == Datetimes.LastDay
    ensures r.Failure? ==> r.error == Datetimes.DateOutOfRange
    ensures r.Success? ==> |r.value| == (if startDay <= endDay then DurationDays(startDay, endDay) else 0)
    ensures r.Success? ==> forall i :: 0 <= i < |r.value| ==>
      r.value[i] == GrowthPoint(startDay + i, JoinedOn(joined, startDay + i), JoinedBy(joined, startDay + i))
  {
    var chart := [];
    var current: Datetimes.Date := startDay;
    while current <= endDay
      invariant startDay <= endDay ==> startDay <= current <= endDay + 1
      invariant startDay > endDay ==> current == startDay
      invariant |chart| == current - startDay
      invariant forall i :: 0 <= i < |chart| ==>
        chart[i] == GrowthPoint(startDay + i, JoinedOn(joined, startDay + i), JoinedBy(joined, startDay + i))
      decreases endDay - current
    {
      chart := chart + [GrowthPoint(current, JoinedOn(joined, current), JoinedBy(joined, current))];
      var next := Datetimes.NextDay(current);
      if next.Failure? {
        return Failure(next.error);
      }
      current := next.value;
    }
    r := Success(chart);
  }

  /** Along the growth chart each day's total is the previous total plus the day's new users. */
  lemma GrowthChartAccumulates(chart: seq<GrowthPoint>, startDay: int, joined: seq<int>, i: nat)
    requires forall k :: 0 <= k < |chart| ==>
      chart[k] == GrowthPoint(startDay + k, JoinedOn(joined, startDay + k), JoinedBy(joined, startDay + k))
    requires 0 < i < |chart|
    ensures chart[i].totalUsers == chart[i - 1].totalUsers + chart[i].newUsers
  {
    JoinedByStep(joined, startDay + i);
  }

  datatype RevenuePoint = RevenuePoint(day: int, revenue: real)

  /**
   * _get_revenue_chart: one point per day, the day's metrics revenue, or
   * 0 when the day has no metrics row. `revenueOn` maps the days that have
   * one to its total revenue. The step past an end of 9999-12-31 raises
   * OverflowError.
   */
  method RevenueChart(startDay: Datetimes.Date, endDay: Datetimes.Date, revenueOn: map<int, real>)
    returns (r: Result<seq<RevenuePoint>>)
    ensures r.Failure? <==> startDay <= endDay == Datetimes.LastDay
    ensures r.Failure? ==> r.error == Datetimes.DateOutOfRange
    ensures r.Success? ==> |r.value| == (if startDay <= endDay then DurationDays(startDay, endDay) else 0)
    ensures r.Success? ==> forall i :: 0 <= i < |r.value| ==> r.value[i].day == startDay + i
    ensures r.Success? ==> forall i :: 0 <= i < |r.value| ==>
      r.value[i].revenue == if startDay + i in revenueOn then revenueOn[startDay + i] else 0.0
  {
    var chart: seq<RevenuePoint> := [];
    var current: Datetimes.Date := startDay;
    while current <= endDay
      invariant startDay <= endDay ==> startDay <= current <= endDay + 1
      invariant startDay > endDay ==> current == startDay
      invariant |chart| == current - startDay
      invariant forall i :: 0 <= i < |chart| ==> chart[i].day == startDay + i
      invariant forall i :: 0 <= i < |chart| ==>
        chart[i].revenue == if startDay + i in revenueOn then revenueOn[startDay + i] else 0.0
      decreases endDay - current
    {
      var revenue := if current in revenueOn then revenueOn[current] else 0.0;
      chart := chart + [RevenuePoint(current, revenue)];
      var next := Datetimes.NextDay(current);
      if next.Failure? {
        return Failure(next.error);
      }
      current := next.value;
    }
    r := Success(chart);
  }

  datatype ActivityPoint = ActivityPoint(day: int, questions: nat, uploads: int, activeUsers: nat)

  /**
   * _get_activity_chart: one point per day with the assistant messages of
   * the day, the day's summed uploads (0 when no activity row exists) and
   * its distinct active users. The three daily aggregates are parameters.
   * The step past an end of 9999-12-31 raises OverflowError.
   */
  method ActivityChart(startDay: Datetimes.Date, endDay: Datetimes.Date, questionsOn: int -> nat,
                       uploadsOn: int -> Option<int>, activeUsersOn: int -> nat)
    returns (r: Result<seq<ActivityPoint>>)
    ensures r.Failure? <==> startDay <= endDay == Datetimes.LastDay
    ensures r.Failure? ==> r.error == Datetimes.DateOutOfRange
    ensures r.Success? ==> |r.value| == (if startDay <= endDay then DurationDays(startDay, endDay) else 0)
    ensures r.Success? ==> forall i :: 0 <= i < |r.value| ==> var d := startDay + i;
      r.value[i] == ActivityPoint(d, questionsOn(d), uploadsOn(d).GetOr(0), activeUsersOn(d))
  {
    var chart := [];
    var current: Datetimes.Date := startDay;
    while current <= endDay
      invariant startDay <= endDay ==> startDay <= current <= endDay + 1
      invariant startDay > endDay ==> current == startDay
      invariant |chart| == current - startDay
      invariant forall i :: 0 <= i < |chart| ==> var d := startDay + i;
        chart[i] == ActivityPoint(d, questionsOn(d), uploadsOn(d).GetOr(0), activeUsersOn(d))
      decreases endDay - current
    {
      chart := chart + [ActivityPoint(current, questionsOn(current), uploadsOn(current).GetOr(0), activeUsersOn(current))];
      var next := Datetimes.NextDay(current);
      if next.Failure? {
        return Failure(next.error);
      }
      current := next.value;
    }
    r := Success(chart);
  }
}

=== FILE: analytics_views.dfy ===
/**
 * The analytics endpoints' own logic: who sees which rows, the users-list
 * pagination, the health classification, whose statistics a request
 * gets, and the error-log update that stamps a resolution.
 */
module AnalyticsViews {
  import opened Wrappers
  import opened Http
  import opened Text
  import opened Seqs
  import opened AnalyticsModels

  // ---------------------------------------------------------------- per-user restriction

  /**
   * The list views' get_queryset: staff see every row; anyone else only
   * the rows whose user (or requester) is them. A row without a user is
   * staff-only.
   */
  function RestrictToUser<T>(rows: seq<T>, ownerOf: T -> Option<nat>, isStaff: bool, user: nat): (r: seq<T>)
    ensures isStaff ==> r == rows
    ensures !isStaff ==> forall k :: 0 <= k < |r| ==> r[k] in rows && ownerOf(r[k]) == Some(user)
    ensures !isStaff ==> forall k :: 0 <= k < |rows| && ownerOf(rows[k]) == Some(user) ==> rows[k] in r
  {
    if isStaff then rows else Filter(x => ownerOf(x) == Some(user), rows)
  }

  // ---------------------------------------------------------------- users list

  /** Python's a // b. */
  function FloorDiv(a: int, b: int): int
    requires b != 0
  {
    if b > 0 then a / b else (-a) / (-b)
  }

  /** The first index of a page: (page - 1) * page_size. */
  function PageStart(page: int, pageSize: int): int {
    (page - 1) * pageSize
  }

  /**
   * total_pages = (count + page_size - 1) // page_size; a page size of 0
   * divides by zero. For a positive size it is count / page_size rounded up.
   */
  function TotalPages(count: nat, pageSize: int): (r: Result<int>)
    ensures r.Failure? <==> pageSize == 0
    ensures pageSize > 0 ==> r.Success? && r.value >= 0
                             && (r.value - 1) * pageSize < count <= r.value * pageSize
  {
    if pageSize == 0 then Failure("integer division or modulo by zero")
    else Success(FloorDiv(count + pageSize - 1, pageSize))
  }

  /**
   * queryset[start:end] with start = (page - 1) * page_size and end =
   * start + page_size: a negative bound is refused; otherwise the rows
   * between them, clipped to the list, and none when end < start.
   */
  function PageOf<T>(rows: seq<T>, page: int, pageSize: int): (r: Result<seq<T>>)
    ensures r.Failure? <==> PageStart(page, pageSize) < 0 || PageStart(page, pageSize) + pageSize < 0
    ensures r.Success? ==> |r.value| <= |rows|
  {
    var start := PageStart(page, pageSize);
    var end := start + pageSize;
    if start < 0 || end < 0 then Failure("Negative indexing is not supported.")
    else
      var lo := if start <= end then start else end;
      var n := |rows|;
      Success(rows[(if lo < n then lo else n)..(if end < n then end else n)])
  }

  /** A page of a positive size from page 1 on holds the rows from its start, at most a page of them. */
  lemma PageContents<T>(rows: seq<T>, page: int, pageSize: int)
    requires page >= 1 && pageSize > 0
    ensures var r := PageOf(rows, page, pageSize); var start := PageStart(page, pageSize);
      && r.Success?
      && |r.value| == (if start >= |rows| then 0 else if start + pageSize <= |rows| then pageSize else |rows| - start)
      && forall i :: 0 <= i < |r.value| ==> r.value[i] == rows[start + i]
  {
    assert PageStart(page, pageSize) >= 0;
  }

  /** Multiplying by a non-negative factor keeps the order. */
  lemma MulMonotone(a: int, b: int, c: int)
    requires a <= b && c >= 0
    ensures a * c <= b * c
  {
    assert b * c - a * c == (b - a) * c;
  }

  /** A page from 1 on starts inside the list exactly up to total_pages. */
  lemma StartsInsideUpToTotal(count: nat, page: int, pageSize: int)
    requires page >= 1 && pageSize > 0
    ensures TotalPages(count, pageSize).Success?
    ensures PageStart(page, pageSize) < count <==> page <= TotalPages(count, pageSize).value
  {
    var t := TotalPages(count, pageSize).value;
    if page <= t {
      MulMonotone(page - 1, t - 1, pageSize);
    } else {
      MulMonotone(t, page - 1, pageSize);
    }
  }

  /** The pages from 1 to total_pages are the non-empty ones. */
  lemma PagesUpToTotalAreNonEmpty<T>(rows: seq<T>, page: int, pageSize: int)
    requires page >= 1 && pageSize > 0
    ensures PageOf(rows, page, pageSize).Success? && TotalPages(|rows|, pageSize).Success?
    ensures PageOf(rows, page, pageSize).value != [] <==> page <= TotalPages(|rows|, pageSize).value
  {
    PageContents(rows, page, pageSize);
    StartsInsideUpToTotal(|rows|, page, pageSize);
  }

  /** The sum of a list of integers. */
  function Sum(xs: seq<int>): int {
    if xs == [] then 0 else xs[0] + Sum(xs[1..])
  }

  /** A user's total time in the list: the session time of their seven latest activity days. */
  function RecentTime(sessionTimes: seq<int>): int {
    Sum(if |sessionTimes| <= 7 then sessionTimes else sessionTimes[..7])
  }

  datatype UserStats = UserStats(id: nat, totalTimeSpent: int)

  /** The listed users' rows, in page order. */
  method StatsRows(shown: seq<nat>, sessionTimes: nat -> seq<int>) returns (results: seq<UserStats>)
    ensures |results| == |shown|
    ensures forall k :: 0 <= k < |shown| ==> results[k] == UserStats(shown[k], RecentTime(sessionTimes(shown[k])))
  {
    results := [];
    var i := 0;
    while i < |shown|
      invariant 0 <= i <= |shown|
      invariant |results| == i
      invariant forall k :: 0 <= k < i ==> results[k] == UserStats(shown[k], RecentTime(sessionTimes(shown[k])))
    {
      var u := shown[i];
      results := results + [UserStats(u, RecentTime(sessionTimes(u)))];
      i := i + 1;
    }
  }

  /** The page and page-size parameters as int() reads them, with their defaults 1 and 20. */
  function PageParams(page: Option<string>, pageSize: Option<string>): Option<(int, int)> {
    var p := if page.Some? then ParseInt(page.value) else Some(1);
    var s := if pageSize.Some? then ParseInt(pageSize.value) else Some(20);
    if p.Some? && s.Some? then Some((p.value, s.value)) else None
  }

  /**
   * users_list_stats, from the filtered and ordered user ids: the page's
   * users with their recent time, the total count and the page count.
   * Unreadable parameters, a negative slice bound and a page size of 0 all
   * end in 500. `sessionTimes` gives a user's activity session times,
   * latest day first.
   */
  method UsersListStats(users: seq<nat>, page: Option<string>, pageSize: Option<string>, sessionTimes: nat -> seq<int>)
    returns (status: Status, count: nat, totalPages: int, results: seq<UserStats>)
    ensures status == Ok200 || status == ServerError500
    ensures status == Ok200 <==> var params := PageParams(page, pageSize);
      params.Some? && PageOf(users, params.value.0, params.value.1).Success? && params.value.1 != 0
    ensures status == Ok200 ==> var params := PageParams(page, pageSize).value;
      var shown := PageOf(users, params.0, params.1).value;
      && count == |users| && totalPages == TotalPages(|users|, params.1).value
      && |results| == |shown|
      && forall k :: 0 <= k < |shown| ==> results[k] == UserStats(shown[k], RecentTime(sessionTimes(shown[k])))
  {
    count, totalPages, results := 0, 0, [];
    var params := PageParams(page, pageSize);
    if params.None? {
      return ServerError500, count, totalPages, results;
    }
    var (p, size) := params.value;
    count := |users|;
    var shown := PageOf(users, p, size);
    if shown.Failure? {
      return ServerError500, count, totalPages, results;
    }
    results := StatsRows(shown.value, sessionTimes);
    var pages := TotalPages(count, size);
    if pages.Failure? {
      return ServerError500, count, totalPages, results;
    }
    totalPages := pages.value;
    status := Ok200;
  }

  // ---------------------------------------------------------------- system health

  datatype Health = Healthy | Warning | Critical

  /** The last week's error rate in percent; 0 without events. */
  function ErrorRate(errors: nat, events: nat): real {
    if events > 0 then (errors as real) / (events as real) * 100.0 else 0.0
  }

  /** Below a threshold of the rate means fewer than that share of the events. */
  lemma RateBelow(errors: nat, events: nat, percent: real)
    ensures events > 0 ==>
      (ErrorRate(errors, events) < percent <==> (errors as real) * 100.0 < percent * (events as real))
  {
    if events > 0 {
      var e, v := errors as real, events as real;
      assert ErrorRate(errors, events) * v == e * 100.0;
    }
  }

  /**
   * system_health: healthy below 5 percent, warning below 10, critical
   * otherwise. In whole numbers: healthy when there are no events or
   * errors are under a twentieth of them; critical from a tenth on.
   */
  function HealthOf(errors: nat, events: nat): (r: Health)
    ensures r == Healthy <==> events == 0 || 20 * errors < events
    ensures r == Critical <==> events > 0 && events <= 10 * errors
  {
    RateBelow(errors, events, 5.0);
    RateBelow(errors, events, 10.0);
    var rate := ErrorRate(errors, events);
    if rate < 5.0 then Healthy else if rate < 10.0 then Warning else Critical
  }

  // ---------------------------------------------------------------- whose statistics

  predicate Truthy(s: Option<string>) {
    s.Some? && s.value != ""
  }

  /**
   * user_dashboard_stats, up to the service call: a user_id from a
   * non-admin is refused (403); without one, or for a non-admin, the id is
   * the requester's own; an admin's user_id is read by int(), whose
   * failure ends in 500 (None here, with a status other than 403).
   */
  function DashboardId(userId: Option<string>, requester: nat, isAdmin: bool): (r: (Status, Option<int>))
    ensures r.0 == Forbidden403 <==> Truthy(userId) && !isAdmin
    ensures r.0 != Forbidden403 ==> (r.0 == Ok200 <==> r.1.Some?)
    ensures !Truthy(userId) ==> r == (Ok200, Some(requester as int))
    ensures isAdmin && Truthy(userId) ==> r.1 == ParseInt(userId.value)
    ensures r.0 != Ok200 ==> r.1.None?
  {
    if Truthy(userId) && !isAdmin then (Forbidden403, None)
    else if !Truthy(userId) || !isAdmin then (Ok200, Some(requester))
    else
      var id := ParseInt(userId.value);
      if id.None? then (ServerError500, None) else (Ok200, id)
  }

  /**
   * user_dashboard_stats: the status and whose statistics come back.
   * get_user_dashboard_stats skips everything for id 0 (`if user_id:`)
   * and answers {} (200 with no one's statistics, None here); any other id
   * that is not a user makes `User.objects.get` raise, which the view
   * turns into 500. `userIds` holds the ids of the existing users.
   */
  function DashboardTarget(userId: Option<string>, requester: nat, isAdmin: bool, userIds: set<nat>)
    : (r: (Status, Option<int>))
    ensures r.0 == Forbidden403 <==> Truthy(userId) && !isAdmin
    ensures var (status, id) := DashboardId(userId, requester, isAdmin);
      (r.0 == Ok200 <==> status == Ok200 && (id.value == 0 || id.value in userIds))
    ensures r.0 != Forbidden403 && r.0 != Ok200 ==> r.0 == ServerError500
    ensures r.1.Some? ==> r.0 == Ok200 && r.1.value in userIds && r.1 == DashboardId(userId, requester, isAdmin).1
    ensures r.0 == Ok200 && r.1.None? ==> DashboardId(userId, requester, isAdmin).1 == Some(0)
  {
    var (status, id) := DashboardId(userId, requester, isAdmin);
    if status != Ok200 then (status, None)
    else if id.value == 0 then (Ok200, None)
    else if id.value in userIds then (Ok200, id)
    else (ServerError500, None)
  }

  /** Without a user_id, an existing requester sees their own statistics. */
  lemma OwnDashboard(userId: Option<string>, requester: nat, isAdmin: bool, userIds: set<nat>)
    requires requester in userIds && requester != 0 && !Truthy(userId)
    ensures DashboardTarget(userId, requester, isAdmin, userIds) == (Ok200, Some(requester as int))
  {
  }

  /** An admin asking for a negative id, or one no user has, gets 500. */
  lemma UnknownUserIdIsServerError(text: string, requester: nat, userIds: set<nat>)
    requires text != "" && ParseInt(text).Some? && ParseInt(text).value != 0
    requires ParseInt(text).value < 0 || ParseInt(text).value !in userIds
    ensures DashboardTarget(Some(text), requester, true, userIds).0 == ServerError500
  {
  }

  /**
   * user_activity_stats: the user_id passed to the service. A non-staff
   * requester always passes their own id; staff pass the user_id they give,
   * read by int(), or None when it is missing, empty or unreadable.
   */
  function ActivityStatsUser(userId: Option<string>, requester: nat, isStaff: bool): (r: Option<int>)
    ensures !isStaff ==> r == Some(requester)
    ensures isStaff && !Truthy(userId) ==> r.None?
    ensures isStaff && Truthy(userId) ==> r == ParseInt(userId.value)
  {
    if !isStaff then Some(requester)
    else if Truthy(userId) then ParseInt(userId.value)
    else None
  }

  /**
   * The user filter get_user_activity_stats then applies: it tests the id
   * for truth, so None and the id 0 alike mean every user's statistics.
   */
  function ActivityStatsFilter(userId: Option<string>, requester: nat, isStaff: bool): (r: Option<int>)
    ensures r.None? <==> (if isStaff then !Truthy(userId) || ParseInt(userId.value) in {None, Some(0)} else requester == 0)
    ensures r.Some? ==> r == ActivityStatsUser(userId, requester, isStaff) && r.value != 0
  {
    var id := ActivityStatsUser(userId, requester, isStaff);
    if id.Some? && id.value != 0 then id else None
  }

  /** Staff who ask for user "0" get everyone's statistics, as if they had named no user. */
  lemma StaffZeroMeansEveryone(requester: nat)
    ensures ActivityStatsUser(Some("0"), requester, true) == Some(0)
    ensures ActivityStatsFilter(Some("0"), requester, true).None?
  {
    assert Strip("0") == "0" by {
      assert IsStripped("0");
      StripStripped("0");
    }
    ParseIntOfText(0);
    assert IntToText(0) == "0";
  }

  /** Staff who give an id int() cannot read get everyone's statistics, not an error. */
  lemma UnreadableStaffIdMeansEveryone(requester: nat)
    ensures ActivityStatsUser(Some("x"), requester, true).None?
    ensures ActivityStatsUser(Some("x"), requester, false) == Some(requester)
  {
    assert Strip("x") == "x" by {
      assert IsStripped("x");
      StripStripped("x");
    }
  }

  // ---------------------------------------------------------------- error-log update

  /** The resolution fields of an error log. */
  datatype Resolution = Resolution(isResolved: bool, resolvedAt: Option<int>, resolvedBy: Option<nat>, notes: string)

  /** The resolution fields a validated update carries; a missing field is left alone. */
  datatype ResolutionUpdate = ResolutionUpdate(
    isResolved: Option<bool>, resolvedAt: Option<Option<int>>, resolvedBy: Option<Option<nat>>, notes: Option<string>)

  function ResolutionOf(log: ErrorLog): Resolution
    reads log
  {
    Resolution(log.isResolved, log.resolvedAt, log.resolvedBy, log.resolutionNotes)
  }

  /** serializer.save(): every field the update carries replaces the stored one. */
  function Saved(r: Resolution, u: ResolutionUpdate): Resolution {
    Resolution(
      if u.isResolved.Some? then u.isResolved.value else r.isResolved,
      if u.resolvedAt.Some? then u.resolvedAt.value else r.resolvedAt,
      if u.resolvedBy.Some? then u.resolvedBy.value else r.resolvedBy,
      if u.notes.Some? then u.notes.value else r.notes)
  }

  /** perform_update: after the save, a resolving update without a resolution time is stamped by the requester, now. */
  function AfterUpdate(r: Resolution, u: ResolutionUpdate, requester: nat, now: int): Resolution {
    var s := Saved(r, u);
    if u.isResolved == Some(true) && s.resolvedAt.None? then s.(resolvedBy := Some(requester), resolvedAt := Some(now))
    else s
  }

  /**
   * A resolution time already set, and not replaced by the update itself,
   * is never overwritten; nor is the resolver.
   */
  lemma ResolutionTimeNeverOverwritten(r: Resolution, u: ResolutionUpdate, requester: nat, now: int)
    requires r.resolvedAt.Some? && u.resolvedAt.None?
    ensures AfterUpdate(r, u, requester, now).resolvedAt == r.resolvedAt
    ensures AfterUpdate(r, u, requester, now).resolvedBy == Saved(r, u).resolvedBy
  {
  }

  /** An update that resolves always leaves a resolved log with a resolution time. */
  lemma ResolvingLeavesATime(r: Resolution, u: ResolutionUpdate, requester: nat, now: int)
    requires u.isResolved == Some(true)
    ensures var a := AfterUpdate(r, u, requester, now);
      a.isResolved && a.resolvedAt.Some?
      && (Saved(r, u).resolvedAt.None? ==> a.resolvedAt == Some(now) && a.resolvedBy == Some(requester))
  {
  }

  /** ErrorLogDetailView.perform_update on a log. */
  method PerformUpdate(log: ErrorLog, u: ResolutionUpdate, requester: nat, now: int)
    modifies log`isResolved, log`resolvedAt, log`resolvedBy, log`resolutionNotes
    ensures ResolutionOf(log) == AfterUpdate(old(ResolutionOf(log)), u, requester, now)
  {
    var s := Saved(ResolutionOf(log), u);
    log.isResolved, log.resolvedAt, log.resolvedBy, log.resolutionNotes := s.isResolved, s.resolvedAt, s.resolvedBy, s.notes;
    if u.isResolved == Some(true) && log.resolvedAt.None? {
      log.resolvedBy := Some(requester);
      log.resolvedAt := Some(now);
    }
  }
}

=== FILE: auth_models.dfy ===
/**
 * Accounts and sessions: the user's role, the subscription state machine
 * (active, days left, extend, upgrade) and session ending, which adds the
 * session's length to the user's total time. Times are integer seconds;
 * "now" is a parameter.
 */
module AuthModels {
  import opened Wrappers
  import opened Text
  import Datetimes

  const SecondsPerDay: int := 86400

  datatype Role = AdminRole | UserRole

  datatype SubscriptionType = Free | Basic | Premium | Lifetime

  datatype SubscriptionStatus = Active | Expired | Cancelled | Pending

  /** The four subscription columns of a user. */
  datatype Subscription = Subscription(
    kind: SubscriptionType, status: SubscriptionStatus, start: Option<int>, end: Option<int>)

  // ---------------------------------------------------------------- subscription rules

  /**
   * is_subscription_active: only an Active status counts; then a lifetime
   * plan or a missing end date is active, and otherwise the end date must
   * not have passed.
   */
  function IsActiveAt(s: Subscription, now: int): (r: bool)
    ensures s.status != Active ==> !r
    ensures s.status == Active ==> (r <==> s.kind == Lifetime || s.end.None? || now <= s.end.value)
  {
    if s.status != Active then false
    else if s.kind == Lifetime then true
    else if s.end.Some? then now <= s.end.value
    else true
  }

  /** A subscription active now was active at every earlier moment too. */
  lemma ActiveEarlier(s: Subscription, earlier: int, now: int)
    requires earlier <= now && IsActiveAt(s, now)
    ensures IsActiveAt(s, earlier)
  {
  }

  /**
   * days_until_expiry: none for a lifetime plan or without an end date;
   * otherwise the whole days left, rounded down, and never negative.
   */
  function DaysUntilExpiry(s: Subscription, now: int): (r: Option<int>)
    ensures r.None? <==> s.kind == Lifetime || s.end.None?
    ensures r.Some? ==> 0 <= r.value
    ensures r.Some? && now <= s.end.value ==> r.value * SecondsPerDay <= s.end.value - now < (r.value + 1) * SecondsPerDay
    ensures r.Some? && s.end.value < now ==> r.value == 0
  {
    if s.kind == Lifetime then None
    else if s.end.Some? then
      var days := (s.end.value - now) / SecondsPerDay;
      Some(if days < 0 then 0 else days)
    else None
  }

  /** A positive number of days left means an Active subscription is active. */
  lemma DaysLeftMeansActive(s: Subscription, now: int)
    requires s.status == Active && DaysUntilExpiry(s, now).Some? && DaysUntilExpiry(s, now).value > 0
    ensures IsActiveAt(s, now)
  {
  }

  /** The time extend_subscription adds to: the end date, or now without one. */
  function ExtensionBase(s: Subscription, now: int): int {
    if s.end.Some? then s.end.value else now
  }

  /**
   * extend_subscription: an end date moves forward by `days`; without one
   * the subscription ends `days` from now. Either way it becomes Active.
   * A timedelta beyond 999,999,999 days, or an end date outside
   * 0001-01-01 to 9999-12-31, raises OverflowError before anything is set.
   */
  function Extended(s: Subscription, days: int, now: int): (r: Result<Subscription>)
    ensures Datetimes.DeltaError(days).Some? ==> r == Failure(Datetimes.DeltaError(days).value)
    ensures r.Success? <==> (-Datetimes.MaxDeltaDays <= days <= Datetimes.MaxDeltaDays
                             && Datetimes.TimeInRange(ExtensionBase(s, now) + days * SecondsPerDay))
    ensures r.Failure? && Datetimes.DeltaError(days).None? ==> r.error == Datetimes.DateOutOfRange
    ensures r.Success? ==> r.value.status == Active && r.value.kind == s.kind && r.value.start == s.start && r.value.end.Some?
    ensures r.Success? && s.end.Some? ==> r.value.end.value - s.end.value == days * SecondsPerDay
    ensures r.Success? && s.end.None? ==> r.value.end.value - now == days * SecondsPerDay
  {
    match Datetimes.AddDays(ExtensionBase(s, now), days)
    case Failure(e) => Failure(e)
    case Success(t) => Success(s.(status := Active, end := Some(t)))
  }

  /**
   * Two extensions add up: extending by a then by b, when both succeed from
   * a representable date, is extending by a + b.
   */
  lemma ExtensionsAdd(s: Subscription, a: int, b: int, now: int, later: int)
    requires Datetimes.TimeInRange(ExtensionBase(s, now))
    requires Extended(s, a, now).Success? && Extended(Extended(s, a, now).value, b, later).Success?
    ensures Extended(s, a + b, now) == Extended(Extended(s, a, now).value, b, later)
  {
    var base := ExtensionBase(s, now);
    var mid := base + a * SecondsPerDay;
    Datetimes.InRangeShiftBounded(base, a);
    Datetimes.InRangeShiftBounded(mid, b);
    assert mid + b * SecondsPerDay == base + (a + b) * SecondsPerDay;
  }

  /** Extending a still-running subscription by a non-negative number of days keeps it active. */
  lemma ExtensionKeepsActive(s: Subscription, days: int, now: int)
    requires days >= 0 && (s.end.None? || now <= s.end.value)
    ensures Extended(s, days, now).Success? ==> IsActiveAt(Extended(s, days, now).value, now)
  {
  }

  /** An extension past 9999-12-31 fails with "date value out of range" and extends nothing. */
  lemma ExtensionPastLastDayFails(s: Subscription, days: int, now: int)
    requires 0 <= days <= Datetimes.MaxDeltaDays
    requires Datetimes.TimeInRange(ExtensionBase(s, now))
    requires ExtensionBase(s, now) / SecondsPerDay + days > Datetimes.LastDay
    ensures Extended(s, days, now) == Failure(Datetimes.DateOutOfRange)
  {
    Datetimes.ShiftDays(ExtensionBase(s, now), days);
  }

  /** The duration_days argument of an upgrade as the request carries it. */
  datatype DurationArg = NoDuration | DurationDays(days: int) | DurationText(text: string)

  predicate Truthy(d: DurationArg) {
    match d
    case NoDuration => false
    case DurationDays(n) => n != 0
    case DurationText(t) => t != ""
  }

  /**
   * upgrade_subscription: the new type, Active; a lifetime plan drops its
   * end date; a truthy duration restarts the plan now for that many days;
   * otherwise the dates stay. A duration that is text cannot be added to a
   * date, and one whose timedelta or end date overflows raises
   * OverflowError; either way the upgrade fails before anything is saved.
   */
  function Upgraded(s: Subscription, newType: SubscriptionType, duration: DurationArg, now: int): (r: Result<Subscription>)
    ensures r.Failure? <==> newType != Lifetime
                            && ((duration.DurationText? && duration.text != "")
                                || (duration.DurationDays? && duration.days != 0
                                    && Datetimes.AddDays(now, duration.days).Failure?))
    ensures newType != Lifetime && duration.DurationDays? && duration.days != 0
            && Datetimes.DeltaError(duration.days).Some?
            ==> r == Failure(Datetimes.DeltaError(duration.days).value)
    ensures r.Success? ==> r.value.kind == newType && r.value.status == Active
    ensures r.Success? && newType == Lifetime ==> r.value.end.None? && r.value.start == s.start
    ensures r.Success? && newType != Lifetime && !Truthy(duration) ==> r.value.start == s.start && r.value.end == s.end
    ensures r.Success? && newType != Lifetime && Truthy(duration)
            ==> r.value.start == Some(now) && r.value.end == Some(now + duration.days * SecondsPerDay)
  {
    if newType == Lifetime then Success(Subscription(newType, Active, s.start, None))
    else if !Truthy(duration) then Success(Subscription(newType, Active, s.start, s.end))
    else match duration
      case DurationDays(n) =>
        (match Datetimes.AddDays(now, n)
         case Failure(e) => Failure(e)
         case Success(t) => Success(Subscription(newType, Active, Some(now), Some(t))))
      case _ => Failure("unsupported type for timedelta days component: str")
  }

  /** A lifetime upgrade is active at every later time and never reports days left. */
  lemma LifetimeNeverExpires(s: Subscription, duration: DurationArg, now: int, t: int)
    ensures var r := Upgraded(s, Lifetime, duration, now);
      r.Success? && IsActiveAt(r.value, t) && DaysUntilExpiry(r.value, t).None?
  {
  }

  /**
   * An upgrade for n > 0 days succeeds iff its timedelta and end date are
   * representable, and is then active for exactly n days and reports n days
   * left at once.
   */
  lemma TimedUpgradeRunsForItsDays(s: Subscription, newType: SubscriptionType, n: int, now: int, t: int)
    requires newType != Lifetime && n > 0
    ensures var r := Upgraded(s, newType, DurationDays(n), now);
      && (r.Success? <==> n <= Datetimes.MaxDeltaDays && Datetimes.TimeInRange(now + n * SecondsPerDay))
      && (r.Success? ==> DaysUntilExpiry(r.value, now) == Some(n)
                         && (IsActiveAt(r.value, t) <==> t <= now + n * SecondsPerDay))
  {
    var r := Upgraded(s, newType, DurationDays(n), now);
    if r.Success? {
      assert r.value.end == Some(now + n * SecondsPerDay);
      assert (n * SecondsPerDay) / SecondsPerDay == n;
    }
  }

  /** A duration of 1,000,000,000 days or more is refused by timedelta itself, whatever the date. */
  lemma OverlongUpgradeFails(s: Subscription, newType: SubscriptionType, n: int, now: int)
    requires newType != Lifetime && n > Datetimes.MaxDeltaDays
    ensures Upgraded(s, newType, DurationDays(n), now) == Failure(Datetimes.DeltaError(n).value)
  {
  }

  /** get_full_name: first and last name joined by a space, outer whitespace removed. */
  function FullName(first: string, last: string): (r: string)
    ensures IsStripped(r)
  {
    Strip(first + " " + last)
  }

  /** With both parts already stripped and present, nothing is removed; with both blank, nothing is left. */
  lemma FullNameOfCleanParts(first: string, last: string)
    ensures first != "" && last != "" && IsStripped(first) && IsStripped(last) ==> FullName(first, last) == first + " " + last
    ensures first == "" && last == "" ==> FullName(first, last) == ""
  {
    if first != "" && last != "" && IsStripped(first) && IsStripped(last) {
      var s := first + " " + last;
      assert s[0] == first[0] && s[|s| - 1] == last[|last| - 1];
      StripStripped(s);
    }
    if first == "" && last == "" {
      assert first + " " + last == " ";
      assert IsBlank(" ");
    }
  }

  // ---------------------------------------------------------------- users and sessions

  /** A user account. Identity and names are fixed; the subscription and time spent change. */
  class User {
    const id: nat
    const username: string
    const email: string
    const firstName: string
    const lastName: string
    const role: Role
    const isActive: bool
    var kind: SubscriptionType
    var status: SubscriptionStatus
    var start: Option<int>
    var end: Option<int>
    var totalTimeSpent: int

    constructor (id: nat, username: string, email: string, firstName: string, lastName: string, role: Role, isActive: bool)
      ensures this.id == id && this.username == username && this.email == email
      ensures this.firstName == firstName && this.lastName == lastName && this.role == role && this.isActive == isActive
      ensures Sub() == Subscription(Free, Active, None, None) && totalTimeSpent == 0
    {
      this.id := id;
      this.username := username;
      this.email := email;
      this.firstName := firstName;
      this.lastName := lastName;
      this.role := role;
      this.isActive := isActive;
      kind, status, start, end := Free, Active, None, None;
      totalTimeSpent := 0;
    }

    function Sub(): Subscription
      reads this
    {
      Subscription(kind, status, start, end)
    }

    /** is_admin: the role is ADMIN. */
    predicate IsAdmin() {
      role == AdminRole
    }

    /**
     * extend_subscription, saved; an overflowing extension raises before
     * anything is set, which `ok == false` reports.
     */
    method ExtendSubscription(days: int, now: int) returns (ok: bool)
      modifies this`status, this`end
      ensures var r := Extended(old(Sub()), days, now);
        ok == r.Success? && Sub() == (if ok then r.value else old(Sub()))
    {
      var base := if end.Some? then end.value else now;
      var t := Datetimes.AddDays(base, days);
      if t.Failure? {
        return false;
      }
      end := Some(t.value);
      status := Active;
      ok := true;
    }

    /** upgrade_subscription: on success the new subscription is saved; on failure nothing is. */
    method UpgradeSubscription(newType: SubscriptionType, duration: DurationArg, now: int) returns (ok: bool)
      modifies this`kind, this`status, this`start, this`end
      ensures var r := Upgraded(old(Sub()), newType, duration, now);
        ok == r.Success? && Sub() == (if ok then r.value else old(Sub()))
    {
      var r := Upgraded(Sub(), newType, duration, now);
      if r.Failure? {
        return false;
      }
      kind, status, start, end := r.value.kind, r.value.status, r.value.start, r.value.end;
      ok := true;
    }
  }

  /** A login session of a user. */
  class UserSession {
    const id: nat
    const user: User
    const start: int
    var end: Option<int>

    constructor (id: nat, user: User, start: int)
      ensures this.id == id && this.user == user && this.start == start && end.None?
    {
      this.id := id;
      this.user := user;
      this.start := start;
      end := None;
    }

    /** duration: up to the end once ended, up to now while open. */
    function Duration(now: int): int
      reads this
    {
      (if end.Some? then end.value else now) - start
    }

    /**
     * end_session: the first call closes the session now and adds its
     * length to the user's total; once closed, a call changes nothing.
     */
    method EndSession(now: int)
      modifies this`end, user`totalTimeSpent
      ensures old(end).None? ==> end == Some(now) && user.totalTimeSpent == old(user.totalTimeSpent) + (now - start)
      ensures old(end).Some? ==> end == old(end) && user.totalTimeSpent == old(user.totalTimeSpent)
      ensures forall t :: Duration(t) == old(Duration(now))
    {
      if end.None? {
        end := Some(now);
        user.totalTimeSpent := user.totalTimeSpent + Duration(now);
      }
    }
  }
}

=== FILE: auth_permissions.dfy ===
/**
 * The permission classes: admin only, owner or admin, an active
 * subscription, and a premium plan. A request's user is either anonymous or
 * an authenticated account seen through its role and subscription.
 */
module AuthPermissions {
  import opened Wrappers
  import opened AuthModels

  datatype Principal =
    | Anonymous
    | Member(id: nat, role: Role, sub: Subscription)

  predicate IsAuthenticated(p: Principal) {
    p.Member?
  }

  predicate IsAdmin(p: Principal) {
    p.Member? && p.role == AdminRole
  }

  /** IsAdminUser: an authenticated admin. */
  function AdminOnly(p: Principal): (r: bool)
    ensures r <==> IsAuthenticated(p) && p.role == AdminRole
  {
    p.Member? && p.role == AdminRole
  }

  /** What the object-level check can see of an object. */
  datatype ObjectRef =
    | OwnedObject(owner: nat)  // has a `user` field
    | IdentifiedObject(id: nat)  // has no `user` field but an `id`
    | OtherObject

  /** IsOwnerOrAdmin.has_permission: any authenticated user. */
  function OwnerOrAdminView(p: Principal): (r: bool)
    ensures r <==> IsAuthenticated(p)
  {
    p.Member?
  }

  /**
   * IsOwnerOrAdmin.has_object_permission: an admin always; otherwise the
   * object's owner, or, for an object without an owner, the user whose id
   * it has.
   */
  function OwnerOrAdminObject(p: Principal, obj: ObjectRef): (r: bool)
    requires IsAuthenticated(p)
    ensures IsAdmin(p) ==> r
    ensures !IsAdmin(p) && obj.OwnedObject? ==> (r <==> obj.owner == p.id)
    ensures !IsAdmin(p) && obj.IdentifiedObject? ==> (r <==> obj.id == p.id)
    ensures obj.OtherObject? ==> (r <==> IsAdmin(p))
  {
    if p.role == AdminRole then true
    else match obj
      case OwnedObject(owner) => owner == p.id
      case IdentifiedObject(id) => id == p.id
      case OtherObject => false
  }

  /** IsActiveSubscription: an authenticated admin, or a user whose subscription is active now. */
  function ActiveSubscriptionOnly(p: Principal, now: int): (r: bool)
    ensures r <==> IsAuthenticated(p) && (p.role == AdminRole || IsActiveAt(p.sub, now))
  {
    p.Member? && (p.role == AdminRole || IsActiveAt(p.sub, now))
  }

  /** IsPremiumUser: an authenticated admin, or a Premium or Lifetime plan whatever its status. */
  function PremiumOnly(p: Principal): (r: bool)
    ensures r <==> IsAuthenticated(p) && (p.role == AdminRole || p.sub.kind in {Premium, Lifetime})
  {
    p.Member? && (p.role == AdminRole || p.sub.kind == Premium || p.sub.kind == Lifetime)
  }

  /** Whatever an admin-only view lets in, the subscription and premium checks let in too. */
  lemma AdminPassesEveryCheck(p: Principal, now: int, obj: ObjectRef)
    requires AdminOnly(p)
    ensures ActiveSubscriptionOnly(p, now) && PremiumOnly(p) && OwnerOrAdminView(p) && OwnerOrAdminObject(p, obj)
  {
  }

  /** Anonymous requests pass none of the checks. */
  lemma AnonymousPassesNothing(now: int)
    ensures !AdminOnly(Anonymous) && !OwnerOrAdminView(Anonymous)
    ensures !ActiveSubscriptionOnly(Anonymous, now) && !PremiumOnly(Anonymous)
  {
  }

  /**
   * The premium check never looks at the status: a cancelled premium plan
   * passes it while failing the active-subscription check.
   */
  lemma CancelledPremiumStillPremium(now: int)
    ensures var p := Member(5, UserRole, Subscription(Premium, Cancelled, None, None));
      PremiumOnly(p) && !ActiveSubscriptionOnly(p, now)
  {
  }
}

=== FILE: auth_serializers.dfy ===
/**
 * Account request validation: registration, login, the profile e-mail,
 * password change and the client business form. Django's password
 * validators, `authenticate` and `check_password` are parameters.
 */
module AuthSerializers {
  import opened Wrappers
  import opened Text
  import opened Fields

  // ---------------------------------------------------------------- registration

  const EmailTaken := "A user with this email already exists."
  const UsernameTaken := "A user with this username already exists."
  const PasswordMismatch := "Password confirmation doesn't match."

  /** The messages of the validators the User model gives its username and email fields. */
  const UsernameExists := "A user with that username already exists."
  const InvalidUsername := "Enter a valid username. This value may contain only letters, numbers, and @/./+/-/_ characters."

  const UsernameMaxLength := 150
  const NameMaxLength := 150
  const EmailMaxLength := 254
  const PhoneMaxLength := 20

  /** The registration serializer's fields: 'username', 'email', 'password', 'password_confirm', 'first_name', 'last_name', 'phone_number'. */
  datatype RegistrationField = Username | Email | Password | PasswordConfirm | FirstName | LastName | PhoneNumber

  /**
   * What registration checks against: the users' usernames and addresses,
   * the Unicode username pattern, the address format and the password
   * validators' messages for the trimmed password.
   */
  datatype Directory = Directory(
    usernames: set<string>, emails: set<string>, usernameAllowed: string -> bool,
    emailWellFormed: string -> bool, passwordErrors: seq<string>)

  /**
   * The username field: the model's CharField (required, not blank, trimmed)
   * with its validators, the username pattern, the unique check and
   * max_length 150, all reported together; validate_username runs only when
   * they all pass.
   */
  function UsernameField(data: Option<string>, d: Directory): (r: FieldResult)
    ensures r.Clean? <==> data.Some? && !IsBlank(data.value) && d.usernameAllowed(Strip(data.value))
                          && Strip(data.value) !in d.usernames && |Strip(data.value)| <= UsernameMaxLength
    ensures r.Clean? ==> r.value == Strip(data.value)
    ensures r.Rejected? ==> r.messages != []
    ensures data.Some? && !IsBlank(data.value) && Strip(data.value) in d.usernames ==> r.Rejected? && UsernameExists in r.messages
  {
    match CharFieldValue(data, None)
    case Failure(m) => Rejected([m])
    case Success(u) =>
      var errs := UsernameValidatorErrors(u, d);
      if errs != [] then Rejected(errs)
      else if u in d.usernames then Rejected([UsernameTaken])
      else Clean(u)
  }

  /** The messages of the username's validators: the pattern, the unique check, max_length 150. */
  function UsernameValidatorErrors(u: string, d: Directory): (errs: seq<string>)
    ensures errs == [] <==> d.usernameAllowed(u) && u !in d.usernames && |u| <= UsernameMaxLength
    ensures u in d.usernames ==> UsernameExists in errs
    ensures forall m :: m in errs ==> m == InvalidUsername || m == UsernameExists || m == MaxLengthError(UsernameMaxLength)
  {
    var pattern := If(!d.usernameAllowed(u), InvalidUsername);
    var unique := If(u in d.usernames, UsernameExists);
    var length := If(|u| > UsernameMaxLength, MaxLengthError(UsernameMaxLength));
    assert forall m :: m in pattern + unique + length ==> m in pattern || m in unique || m in length;
    pattern + unique + length
  }

  /** validate_username's own message is never reported: the unique validator always speaks first. */
  lemma UsernameTakenNeverReported(data: Option<string>, d: Directory)
    ensures UsernameField(data, d).Rejected? ==> UsernameTaken !in UsernameField(data, d).messages
  {
    match CharFieldValue(data, None)
    case Failure(m) =>
      TakenDiffersFromFieldMessages();
    case Success(u) =>
      TakenDiffersFromValidatorMessages();
      var errs := UsernameValidatorErrors(u, d);
      assert UsernameField(data, d) == if errs != [] then Rejected(errs) else Clean(u);
  }

  lemma TakenDiffersFromFieldMessages()
    ensures UsernameTaken != RequiredError && UsernameTaken != BlankError
  {
    assert UsernameTaken[0] != RequiredError[0];
    assert UsernameTaken[0] != BlankError[0];
  }

  lemma TakenDiffersFromValidatorMessages()
    ensures UsernameTaken != InvalidUsername && UsernameTaken != UsernameExists
    ensures UsernameTaken != MaxLengthError(UsernameMaxLength)
  {
    assert |UsernameTaken| != |InvalidUsername|;
    assert UsernameTaken[14] != UsernameExists[14];
    assert UsernameTaken[0] != MaxLengthError(UsernameMaxLength)[0];
  }

  /**
   * The validators of the model's EmailField on a trimmed, non-blank
   * address, all reported together: max_length 254, then the address format
   * (a parameter). A blank value skips them.
   */
  function EmailFormatErrors(e: string, wellFormed: string -> bool): (r: seq<string>)
    ensures r == [] <==> e == [] || (wellFormed(e) && |e| <= EmailMaxLength)
    ensures e != [] && |e| > EmailMaxLength ==> r[0] == MaxLengthError(EmailMaxLength)
    ensures e != [] && !wellFormed(e) ==> InvalidEmail in r
  {
    if e == [] then [] else If(|e| > EmailMaxLength, MaxLengthError(EmailMaxLength)) + If(!wellFormed(e), InvalidEmail)
  }

  /**
   * The email field: the model's EmailField, required here but allowed
   * blank, trimmed; a blank value becomes "" without further checks,
   * otherwise max_length 254 and the address format are checked.
   * validate_email then refuses an address some user has.
   */
  function EmailField(data: Option<string>, d: Directory): (r: FieldResult)
    ensures r.Clean? <==> data.Some? && Strip(data.value) !in d.emails
                          && (IsBlank(data.value) || (d.emailWellFormed(Strip(data.value)) && |Strip(data.value)| <= EmailMaxLength))
    ensures r.Clean? ==> r.value == Strip(data.value)
    ensures r.Rejected? ==> r.messages != []
    ensures data.None? ==> r == Rejected([RequiredError])
    ensures data.Some? && Strip(data.value) in d.emails
            && (IsBlank(data.value) || (d.emailWellFormed(Strip(data.value)) && |Strip(data.value)| <= EmailMaxLength))
      ==> r == Rejected([EmailTaken])
  {
    if data.None? then Rejected([RequiredError])
    else
      var e := Strip(data.value);
      var errs := EmailFormatErrors(e, d.emailWellFormed);
      if errs != [] then Rejected(errs)
      else if e in d.emails then Rejected([EmailTaken])
      else Clean(e)
  }

  /** A password field: a PlainField whose value must also satisfy the password validators. */
  function PasswordField(data: Option<string>, passwordErrors: seq<string>): (r: FieldResult)
    ensures r.Clean? <==> data.Some? && !IsBlank(data.value) && passwordErrors == []
    ensures r.Clean? ==> r.value == Strip(data.value)
    ensures data.Some? && !IsBlank(data.value) && passwordErrors != [] ==> r == Rejected(passwordErrors)
  {
    match PlainField(data)
    case Rejected(m) => Rejected(m)
    case Clean(v) => if passwordErrors != [] then Rejected(passwordErrors) else Clean(v)
  }

  /** first_name and last_name: required here, allowed blank, at most 150 characters. */
  function NameField(data: Option<string>): (r: FieldResult)
    ensures r.Clean? <==> data.Some? && |Strip(data.value)| <= NameMaxLength
    ensures r.Clean? ==> r.value == Strip(data.value)
    ensures data.None? ==> r == Rejected([RequiredError])
  {
    if data.None? then Rejected([RequiredError]) else BlankableField(data.value, NameMaxLength)
  }

  const RequiredRegistrationFields: set<RegistrationField> :=
    {Username, Email, Password, PasswordConfirm, FirstName, LastName}

  /** The fields the serializer runs: the required ones, and phone_number when given. */
  function RegistrationKeys(data: map<RegistrationField, string>): set<RegistrationField> {
    RequiredRegistrationFields + (data.Keys * {PhoneNumber})
  }

  /** One registration field run through its serializer field (phone_number is consulted only when given). */
  function RegistrationFieldResult(data: map<RegistrationField, string>, d: Directory, k: RegistrationField): FieldResult {
    match k
    case Username => UsernameField(Lookup(data, Username), d)
    case Email => EmailField(Lookup(data, Email), d)
    case Password => PasswordField(Lookup(data, Password), d.passwordErrors)
    case PasswordConfirm => PlainField(Lookup(data, PasswordConfirm))
    case FirstName => NameField(Lookup(data, FirstName))
    case LastName => NameField(Lookup(data, LastName))
    case PhoneNumber => BlankableField(Lookup(data, PhoneNumber).GetOr(""), PhoneMaxLength)
  }

  /** What each registration field accepts, in terms of the submitted value. */
  predicate FieldAcceptable(data: map<RegistrationField, string>, d: Directory, k: RegistrationField) {
    match k
    case Username =>
      && Username in data && !IsBlank(data[Username]) && d.usernameAllowed(Strip(data[Username]))
      && Strip(data[Username]) !in d.usernames && |Strip(data[Username])| <= UsernameMaxLength
    case Email =>
      && Email in data && Strip(data[Email]) !in d.emails
      && (IsBlank(data[Email]) || (d.emailWellFormed(Strip(data[Email])) && |Strip(data[Email])| <= EmailMaxLength))
    case Password => Password in data && !IsBlank(data[Password]) && d.passwordErrors == []
    case PasswordConfirm => PasswordConfirm in data && !IsBlank(data[PasswordConfirm])
    case FirstName => FirstName in data && |Strip(data[FirstName])| <= NameMaxLength
    case LastName => LastName in data && |Strip(data[LastName])| <= NameMaxLength
    case PhoneNumber => PhoneNumber in data ==> |Strip(data[PhoneNumber])| <= PhoneMaxLength
  }

  /** A field comes out clean exactly when its value is acceptable, and then as the trimmed value. */
  lemma FieldResultMeaning(data: map<RegistrationField, string>, d: Directory, k: RegistrationField)
    ensures RegistrationFieldResult(data, d, k).Clean? <==> FieldAcceptable(data, d, k)
    ensures RegistrationFieldResult(data, d, k).Clean? && k in data ==> RegistrationFieldResult(data, d, k).value == Strip(data[k])
    ensures RegistrationFieldResult(data, d, k).Clean? && k != PhoneNumber ==> k in data
  {
    match k
    case Username => case Email => case Password => case PasswordConfirm =>
    case FirstName => case LastName => case PhoneNumber =>
  }

  /** Each field the serializer runs, with its outcome. */
  function RegistrationResults(data: map<RegistrationField, string>, d: Directory): (r: map<RegistrationField, FieldResult>)
    ensures r.Keys == RegistrationKeys(data)
    ensures forall k :: k in r ==> r[k] == RegistrationFieldResult(data, d, k)
  {
    map k | k in RegistrationKeys(data) :: RegistrationFieldResult(data, d, k)
  }

  /** What registration accepts: every field it runs is acceptable and the two passwords agree once trimmed. */
  predicate RegistrationAccepted(data: map<RegistrationField, string>, d: Directory) {
    && (forall k :: k in RegistrationKeys(data) ==> FieldAcceptable(data, d, k))
    && Password in data && PasswordConfirm in data
    && Strip(data[Password]) == Strip(data[PasswordConfirm])
  }

  /**
   * UserRegistrationSerializer: every field runs, with its messages reported
   * under its name; only when none has any must the password and its
   * confirmation match.
   */
  function ValidateRegistration(data: map<RegistrationField, string>, d: Directory): (r: Validation<RegistrationField, map<RegistrationField, string>>)
    ensures r.Valid? <==> RegistrationAccepted(data, d)
    ensures r.Valid? ==> r.data.Keys == data.Keys && forall k :: k in data ==> r.data[k] == Strip(data[k])
    ensures r.Invalid? ==> forall k :: k in r.fieldErrors <==> k in RegistrationKeys(data) && !FieldAcceptable(data, d, k)
    ensures r.Invalid? && r.fieldErrors == map[] ==> r.nonFieldErrors == [PasswordMismatch]
  {
    var results := RegistrationResults(data, d);
    RegistrationMeaning(data, d);
    ValidateMatching(results, Password, PasswordConfirm, PasswordMismatch)
  }

  lemma RegistrationMeaning(data: map<RegistrationField, string>, d: Directory)
    ensures var results := RegistrationResults(data, d);
      && (forall k :: k in results ==> (results[k].Clean? <==> FieldAcceptable(data, d, k)))
      && (AllClean(results) ==> data.Keys == results.Keys && forall k :: k in data ==> results[k].value == Strip(data[k]))
      && (AllClean(results) && results[Password].value == results[PasswordConfirm].value <==> RegistrationAccepted(data, d))
  {
    ResultsAcceptable(data, d);
    var results := RegistrationResults(data, d);
    if AllClean(results) {
      CleanResultsAreTrimmed(data, results);
    }
  }

  /** Each field's outcome, read field by field. */
  lemma ResultsAcceptable(data: map<RegistrationField, string>, d: Directory)
    ensures var results := RegistrationResults(data, d);
      && (forall k :: k in results ==> (results[k].Clean? <==> FieldAcceptable(data, d, k)))
      && (forall k :: k in results && results[k].Clean? && k != PhoneNumber ==> k in data)
      && (forall k :: k in results && results[k].Clean? && k in data ==> results[k].value == Strip(data[k]))
  {
    var results := RegistrationResults(data, d);
    forall k | k in results
      ensures results[k].Clean? <==> FieldAcceptable(data, d, k)
      ensures results[k].Clean? && k != PhoneNumber ==> k in data
      ensures results[k].Clean? && k in data ==> results[k].value == Strip(data[k])
    {
      FieldResultMeaning(data, d, k);
    }
  }

  /** When every field is clean, the cleaned data holds exactly the submitted fields, each trimmed. */
  lemma CleanResultsAreTrimmed(data: map<RegistrationField, string>, results: map<RegistrationField, FieldResult>)
    requires results.Keys == RegistrationKeys(data) && AllClean(results)
    requires forall k :: k in results && results[k].Clean? && k != PhoneNumber ==> k in data
    requires forall k :: k in results && results[k].Clean? && k in data ==> results[k].value == Strip(data[k])
    ensures data.Keys == results.Keys && forall k :: k in data ==> results[k].value == Strip(data[k])
  {
    assert Username in results && Email in results && Password in results;
    assert PasswordConfirm in results && FirstName in results && LastName in results;
    assert Username in data && Email in data && Password in data;
    assert PasswordConfirm in data && FirstName in data && LastName in data;
    RequiredPresentCoversKeys(data);
    forall k | k in data ensures results[k].value == Strip(data[k]) {
      assert k in results && results[k].Clean?;
    }
  }

  lemma RequiredPresentCoversKeys(data: map<RegistrationField, string>)
    requires Username in data && Email in data && Password in data
    requires PasswordConfirm in data && FirstName in data && LastName in data
    ensures RegistrationKeys(data) == data.Keys
  {
    forall k | k in data ensures k in RegistrationKeys(data) {
      assert k in RequiredRegistrationFields || k == PhoneNumber by {
        match k
        case Username => case Email => case Password => case PasswordConfirm =>
        case FirstName => case LastName => case PhoneNumber =>
      }
    }
  }

  /** A username some user already has is refused under "username" with the unique validator's message. */
  lemma TakenUsernameRefused(data: map<RegistrationField, string>, d: Directory)
    requires Username in data && !IsBlank(data[Username]) && Strip(data[Username]) in d.usernames
    ensures var r := ValidateRegistration(data, d);
      r.Invalid? && Username in r.fieldErrors && UsernameExists in r.fieldErrors[Username]
      && UsernameTaken !in r.fieldErrors[Username]
  {
    UsernameTakenNeverReported(Some(data[Username]), d);
    var results := RegistrationResults(data, d);
    assert results[Username].Rejected?;
  }

  /** A missing required field is reported as required under its own name. */
  lemma MissingFieldRequired(data: map<RegistrationField, string>, d: Directory, k: RegistrationField)
    requires k != PhoneNumber && k !in data
    ensures var r := ValidateRegistration(data, d);
      r.Invalid? && k in r.fieldErrors && r.fieldErrors[k] == [RequiredError]
  {
    var results := RegistrationResults(data, d);
    assert results[k] == RegistrationFieldResult(data, d, k);
    match k
    case Username => case Email => case Password => case PasswordConfirm =>
    case FirstName => case LastName =>
  }

  /** create: the confirmation is dropped and every other field goes to the new user. */
  function CreateUserFields(validated: map<RegistrationField, string>): (r: map<RegistrationField, string>)
    requires PasswordConfirm in validated
    ensures PasswordConfirm !in r
    ensures forall k :: k in validated && k != PasswordConfirm ==> k in r && r[k] == validated[k]
    ensures r.Keys == validated.Keys - {PasswordConfirm}
  {
    validated - {PasswordConfirm}
  }

  // ---------------------------------------------------------------- login

  const MissingCredentials := "Must include username and password."
  const InvalidCredentials := "Invalid credentials."
  const AccountDisabled := "User account is disabled."

  /** The login serializer's fields: 'username' and 'password'. */
  datatype LoginField = LoginName | LoginPassword

  /** The result of authenticating a login name and password: which account, if any. */
  type Authenticator = (string, string) -> Option<nat>

  /**
   * Where authentication settles: an account, none, or more than one user
   * with the address, where User.objects.get raises MultipleObjectsReturned
   * (e-mail addresses are not unique).
   */
  datatype Authentication = Authenticated(account: nat) | NoAccount | SharedEmail

  /**
   * By username first; failing that, the user with that e-mail address
   * (`ownersOf` lists the usernames of the users having it) is looked up
   * with `get`: none passes, one is authenticated by its username.
   */
  function LoginAccount(login: string, password: string, authenticate: Authenticator,
                        ownersOf: string -> seq<string>): (r: Authentication)
    ensures authenticate(login, password).Some? ==> r == Authenticated(authenticate(login, password).value)
    ensures r == SharedEmail <==> authenticate(login, password).None? && |ownersOf(login)| >= 2
    ensures authenticate(login, password).None? && |ownersOf(login)| == 1 ==>
      r == match authenticate(ownersOf(login)[0], password) case Some(a) => Authenticated(a) case None => NoAccount
  {
    match authenticate(login, password)
    case Some(a) => Authenticated(a)
    case None =>
      var owners := ownersOf(login);
      if |owners| == 0 then NoAccount
      else if |owners| > 1 then SharedEmail
      else match authenticate(owners[0], password)
        case Some(a) => Authenticated(a)
        case None => NoAccount
  }

  /** The serializer's verdict, or the exception that escapes it. */
  datatype LoginOutcome = Checked(v: Validation<LoginField, nat>) | MultipleObjectsReturned

  /**
   * UserLoginSerializer.validate on the cleaned fields: both must be
   * non-empty; the login is tried as a username, then as an e-mail address;
   * the account found must be active.
   */
  function CheckLogin(login: string, password: string, authenticate: Authenticator,
                      ownersOf: string -> seq<string>, isActive: nat -> bool): (r: LoginOutcome)
    ensures login == "" || password == "" ==> r == Checked(Invalid(map[], [MissingCredentials]))
    ensures r.Checked? && r.v.Valid? <==>
      && login != "" && password != ""
      && LoginAccount(login, password, authenticate, ownersOf).Authenticated?
      && isActive(LoginAccount(login, password, authenticate, ownersOf).account)
    ensures r.Checked? && r.v.Valid? ==> r.v.data == LoginAccount(login, password, authenticate, ownersOf).account
    ensures r == MultipleObjectsReturned <==>
      login != "" && password != "" && LoginAccount(login, password, authenticate, ownersOf) == SharedEmail
  {
    if login == "" || password == "" then Checked(Invalid(map[], [MissingCredentials]))
    else match LoginAccount(login, password, authenticate, ownersOf)
      case SharedEmail => MultipleObjectsReturned
      case NoAccount => Checked(Invalid(map[], [InvalidCredentials]))
      case Authenticated(a) =>
        if !isActive(a) then Checked(Invalid(map[], [AccountDisabled])) else Checked(Valid(a))
  }

  /** The outcome of each login field: both are CharFields with their defaults. */
  function LoginResults(data: map<LoginField, string>): (r: map<LoginField, FieldResult>)
    ensures r.Keys == {LoginName, LoginPassword}
    ensures r[LoginName] == PlainField(Lookup(data, LoginName))
    ensures r[LoginPassword] == PlainField(Lookup(data, LoginPassword))
    ensures AllClean(r) <==> r[LoginName].Clean? && r[LoginPassword].Clean?
  {
    var r := map[LoginName := PlainField(Lookup(data, LoginName)), LoginPassword := PlainField(Lookup(data, LoginPassword))];
    assert forall k :: k in r ==> k == LoginName || k == LoginPassword;
    r
  }

  /**
   * The whole login serializer: the two CharFields (required, not blank,
   * trimmed), then validate on their cleaned values.
   */
  function ValidateLogin(data: map<LoginField, string>, authenticate: Authenticator,
                         ownersOf: string -> seq<string>, isActive: nat -> bool): (r: LoginOutcome)
    ensures var results := LoginResults(data);
      && (!AllClean(results) ==> r == Checked(Invalid(ErrorsOf(results), [])))
      && (AllClean(results) ==>
            LoginName in data && LoginPassword in data
            && r == CheckLogin(Strip(data[LoginName]), Strip(data[LoginPassword]), authenticate, ownersOf, isActive))
    ensures r.Checked? && r.v.Valid? <==>
      LoginName in data && LoginPassword in data && !IsBlank(data[LoginName]) && !IsBlank(data[LoginPassword])
      && LoginAccount(Strip(data[LoginName]), Strip(data[LoginPassword]), authenticate, ownersOf).Authenticated?
      && isActive(LoginAccount(Strip(data[LoginName]), Strip(data[LoginPassword]), authenticate, ownersOf).account)
  {
    var results := LoginResults(data);
    if !AllClean(results) then Checked(Invalid(ErrorsOf(results), []))
    else
      CheckLogin(results[LoginName].value, results[LoginPassword].value, authenticate, ownersOf, isActive)
  }

  /** validate's "Must include username and password." is never reported: blank fields are refused first. */
  lemma MissingCredentialsNeverReported(data: map<LoginField, string>, authenticate: Authenticator,
                                        ownersOf: string -> seq<string>, isActive: nat -> bool)
    ensures ValidateLogin(data, authenticate, ownersOf, isActive) != Checked(Invalid(map[], [MissingCredentials]))
  {
    var results := LoginResults(data);
    if !AllClean(results) {
      if results[LoginName].Rejected? {
        assert LoginName in ErrorsOf(results);
      } else {
        assert LoginPassword in ErrorsOf(results);
      }
    } else {
      assert results[LoginName].Clean? && results[LoginPassword].Clean?;
    }
  }

  /**
   * Logging in with the e-mail address of exactly one user, when the address
   * does not itself authenticate as a username, is logging in with that
   * user's username.
   */
  lemma EmailLoginFallsBack(email: string, password: string, authenticate: Authenticator,
                            ownersOf: string -> seq<string>, isActive: nat -> bool)
    requires email != "" && password != "" && |ownersOf(email)| == 1 && ownersOf(email)[0] != ""
    requires authenticate(email, password).None?
    ensures CheckLogin(email, password, authenticate, ownersOf, isActive)
         == CheckLogin(ownersOf(email)[0], password, authenticate, _ => [], isActive)
  {
  }

  /** Two users sharing the address make the e-mail login raise instead of answering. */
  lemma SharedEmailEscapes(email: string, password: string, authenticate: Authenticator,
                           ownersOf: string -> seq<string>, isActive: nat -> bool)
    requires email != "" && password != "" && |ownersOf(email)| >= 2
    requires authenticate(email, password).None?
    ensures CheckLogin(email, password, authenticate, ownersOf, isActive) == MultipleObjectsReturned
  {
  }

  // ---------------------------------------------------------------- profile and password

  /**
   * UserProfileSerializer.validate_email: when editing a user, no other
   * user may have the address; without an instance nothing is checked.
   */
  function ValidateProfileEmail(value: string, instance: Option<nat>, emailOf: map<nat, string>): (r: Result<string>)
    ensures r.Failure? <==> instance.Some? && exists id :: id in emailOf && id != instance.value && emailOf[id] == value
    ensures r.Success? ==> r.value == value
  {
    if instance.Some? && exists id :: id in emailOf && id != instance.value && emailOf[id] == value then Failure(EmailTaken)
    else Success(value)
  }

  /**
   * The email field of UserProfileSerializer: the model's EmailField is
   * blank-allowed, so the field is optional (None: not submitted) and a
   * blank value becomes "" without the validators; otherwise max_length and
   * the format are checked. validate_email runs on every value the field
   * let through, the empty one included.
   */
  function ProfileEmailField(data: Option<string>, wellFormed: string -> bool, instance: Option<nat>,
                             emailOf: map<nat, string>): (r: Option<FieldResult>)
    ensures r.None? <==> data.None?
    ensures data.Some? ==> (r.value.Clean? <==> (EmailFormatErrors(Strip(data.value), wellFormed) == []
                                                 && ValidateProfileEmail(Strip(data.value), instance, emailOf).Success?))
    ensures data.Some? && r.value.Clean? ==> r.value.value == Strip(data.value)
    ensures data.Some? && EmailFormatErrors(Strip(data.value), wellFormed) != []
      ==> r == Some(Rejected(EmailFormatErrors(Strip(data.value), wellFormed)))
  {
    if data.None? then None
    else
      var e := Strip(data.value);
      var errs := EmailFormatErrors(e, wellFormed);
      if errs != [] then Some(Rejected(errs))
      else
        match ValidateProfileEmail(e, instance, emailOf)
        case Failure(m) => Some(Rejected([m]))
        case Success(v) => Some(Clean(v))
  }

  /**
   * Clearing the address is refused while another user has a blank one:
   * the empty value skips the field's validators but not validate_email.
   */
  lemma ClearedEmailClashesWithBlank(user: nat, other: nat, emailOf: map<nat, string>, wellFormed: string -> bool)
    requires other in emailOf && emailOf[other] == [] && other != user
    ensures ProfileEmailField(Some(" "), wellFormed, Some(user), emailOf) == Some(Rejected([EmailTaken]))
  {
    assert Strip(" ") == [] by { StripPadded(" ", [], []); assert " " + [] + [] == " "; }
  }

  /** Keeping one's own, otherwise unused, address is always allowed. */
  lemma OwnEmailIsAllowed(user: nat, emailOf: map<nat, string>)
    requires user in emailOf
    requires forall id :: id in emailOf && id != user ==> emailOf[id] != emailOf[user]
    ensures ValidateProfileEmail(emailOf[user], Some(user), emailOf).Success?
  {
  }

  const WrongOldPassword := "Old password is incorrect."
  const NewPasswordMismatch := "New password confirmation doesn't match."

  /** The password change serializer's fields: 'old_password', 'new_password', 'new_password_confirm'. */
  datatype PasswordChangeField = OldPassword | NewPassword | NewPasswordConfirm

  /** One password change field run through its serializer field and validate_<field> method. */
  function PasswordChangeResult(data: map<PasswordChangeField, string>, checkPassword: string -> bool,
                                passwordErrors: seq<string>, k: PasswordChangeField): (r: FieldResult)
    ensures r.Clean? <==> match k
      case OldPassword => OldPassword in data && !IsBlank(data[OldPassword]) && checkPassword(Strip(data[OldPassword]))
      case NewPassword => NewPassword in data && !IsBlank(data[NewPassword]) && passwordErrors == []
      case NewPasswordConfirm => NewPasswordConfirm in data && !IsBlank(data[NewPasswordConfirm])
    ensures r.Clean? ==> k in data && r.value == Strip(data[k])
    ensures k == OldPassword && OldPassword in data && !IsBlank(data[OldPassword]) && !checkPassword(Strip(data[OldPassword]))
      ==> r == Rejected([WrongOldPassword])
  {
    match k
    case OldPassword =>
      var given := PlainField(Lookup(data, OldPassword));
      if given.Clean? && !checkPassword(given.value) then Rejected([WrongOldPassword]) else given
    case NewPassword => PasswordField(Lookup(data, NewPassword), passwordErrors)
    case NewPasswordConfirm => PlainField(Lookup(data, NewPasswordConfirm))
  }

  /**
   * ChangePasswordSerializer: three CharFields (required, not blank,
   * trimmed); the old password must pass `checkPassword` (validate_old_password)
   * and the new one the password validators (`passwordErrors`, their
   * messages for it); only then must the confirmation match.
   */
  function ValidateChangePassword(data: map<PasswordChangeField, string>, checkPassword: string -> bool,
                                  passwordErrors: seq<string>): (r: Validation<PasswordChangeField, map<PasswordChangeField, string>>)
    ensures r.Valid? <==>
      && OldPassword in data && !IsBlank(data[OldPassword]) && checkPassword(Strip(data[OldPassword]))
      && NewPassword in data && !IsBlank(data[NewPassword]) && passwordErrors == []
      && NewPasswordConfirm in data && !IsBlank(data[NewPasswordConfirm])
      && Strip(data[NewPassword]) == Strip(data[NewPasswordConfirm])
    ensures r.Valid? ==> NewPassword in r.data && r.data[NewPassword] == Strip(data[NewPassword])
    ensures OldPassword in data && !IsBlank(data[OldPassword]) && !checkPassword(Strip(data[OldPassword])) ==>
      r.Invalid? && OldPassword in r.fieldErrors && r.fieldErrors[OldPassword] == [WrongOldPassword]
    ensures r.Invalid? && r.fieldErrors == map[] ==> r.nonFieldErrors == [NewPasswordMismatch]
  {
    var results := map k | k in {OldPassword, NewPassword, NewPasswordConfirm} :: PasswordChangeResult(data, checkPassword, passwordErrors, k);
    assert AllClean(results) <==> results[OldPassword].Clean? && results[NewPassword].Clean? && results[NewPasswordConfirm].Clean? by {
      if results[OldPassword].Clean? && results[NewPassword].Clean? && results[NewPasswordConfirm].Clean? {
        forall k | k in results ensures results[k].Clean? {
          assert k == OldPassword || k == NewPassword || k == NewPasswordConfirm;
        }
      }
    }
    ValidateMatching(results, NewPassword, NewPasswordConfirm, NewPasswordMismatch)
  }

  // ---------------------------------------------------------------- client info

  const MinYear := 1900
  const MaxYear := 2024

  /** validate_year_started: a present, non-zero year must lie in 1900..2024. */
  function ValidateYearStarted(value: Option<nat>): (r: Result<Option<nat>>)
    ensures r.Failure? <==> value.Some? && value.value != 0 && (value.value < MinYear || value.value > MaxYear)
    ensures r.Success? ==> r.value == value
  {
    if value.Some? && value.value != 0 && (value.value < MinYear || value.value > MaxYear) then
      Failure("Please enter a valid year.")
    else Success(value)
  }

  /** validate_gross_profit_margin: a present, non-zero margin must lie in 0..100. */
  function ValidateProfitMargin(value: Option<real>): (r: Result<Option<real>>)
    ensures r.Failure? <==> value.Some? && value.value != 0.0 && (value.value < 0.0 || value.value > 100.0)
    ensures r.Success? ==> r.value == value
  {
    if value.Some? && value.value != 0.0 && (value.value < 0.0 || value.value > 100.0) then
      Failure("Gross profit margin must be between 0 and 100 percent.")
    else Success(value)
  }

  /** Zero slips through both checks because it is falsy, whatever the range says. */
  lemma ZeroYearIsAccepted()
    ensures ValidateYearStarted(Some(0)).Success? && ValidateYearStarted(Some(1899)).Failure?
    ensures ValidateYearStarted(Some(2025)).Failure? && ValidateYearStarted(Some(2024)).Success?
  {
  }
}

=== FILE: auth_views.dfy ===
/**
 * The account endpoints' own logic: the client address recorded at login,
 * logout's session ending, the client-form update, refusing to delete an
 * admin, and the admin's subscription upgrade.
 */
module AuthViews {
  import opened Wrappers
  import opened Http
  import opened Text
  import opened AuthModels

  // ---------------------------------------------------------------- client address

  /**
   * get_client_ip: the part of X-Forwarded-For before its first comma, not
   * trimmed; without that header, or with it empty, REMOTE_ADDR.
   */
  function ClientIp(forwardedFor: Option<string>, remoteAddr: Option<string>): (r: Option<string>)
    ensures forwardedFor.None? || forwardedFor.value == "" ==> r == remoteAddr
  {
    if forwardedFor.Some? && forwardedFor.value != "" then Some(Split(forwardedFor.value, ',')[0])
    else remoteAddr
  }

  /**
   * With a non-empty header the address is a comma-free prefix of it,
   * ending at the first comma or at the end of the header.
   */
  lemma ClientIpIsFirstHop(forwardedFor: string, remoteAddr: Option<string>)
    requires forwardedFor != ""
    ensures var ip := ClientIp(Some(forwardedFor), remoteAddr).value;
      && |ip| <= |forwardedFor| && ip == forwardedFor[..|ip|]
      && ',' !in ip
      && (|ip| < |forwardedFor| ==> forwardedFor[|ip|] == ',')
  {
    SplitFirst(forwardedFor, ',');
  }

  /** The hop is kept as written: the leading space of " a,b" survives. */
  lemma ClientIpKeepsSpaces()
    ensures ClientIp(Some(" a,b"), None) == Some(" a")
  {
    assert Split(",b", ',')[0] == "" by {
      assert ",b"[0] == ',' && ",b"[1..] == "b";
    }
    assert Split("a,b", ',')[0] == "a" by {
      assert "a,b"[0] == 'a' && "a,b"[1..] == ",b";
      assert ['a'] + "" == "a";
    }
    assert Split(" a,b", ',')[0] == " a" by {
      assert " a,b"[0] == ' ' && " a,b"[1..] == "a,b";
      assert [' '] + "a" == " a";
    }
  }

  // ---------------------------------------------------------------- logout

  /** The session logout may end: this id, owned by the requester, still open. */
  function OpenSessionIndex(sessions: seq<UserSession>, sessionId: nat, requester: nat): (r: Option<nat>)
    reads set s | s in sessions
    ensures r.Some? ==> r.value < |sessions| && sessions[r.value].id == sessionId
                        && sessions[r.value].user.id == requester && sessions[r.value].end.None?
    ensures r.None? ==> forall k :: 0 <= k < |sessions| ==>
      !(sessions[k].id == sessionId && sessions[k].user.id == requester && sessions[k].end.None?)
  {
    if sessions == [] then None
    else if sessions[0].id == sessionId && sessions[0].user.id == requester && sessions[0].end.None? then Some(0)
    else
      var rest := OpenSessionIndex(sessions[1..], sessionId, requester);
      if rest.Some? then Some(rest.value + 1) else None
  }

  /** The posted session_id: absent or null, a JSON number, or a JSON string. */
  datatype SessionIdInput = NoSessionId | SessionNumber(n: int) | SessionText(text: string)

  /** Python truthiness of the posted value: a non-zero number, a non-empty string. */
  predicate SessionIdGiven(input: SessionIdInput) {
    match input
    case NoSessionId => false
    case SessionNumber(n) => n != 0
    case SessionText(t) => t != []
  }

  /**
   * The id the lookup compares with: a number as it is, a string through
   * int(); None when the string is not an integer, where the lookup raises
   * ValueError.
   */
  function SessionLookupId(input: SessionIdInput): (r: Option<int>)
    ensures input.SessionNumber? ==> r == Some(input.n)
    ensures input.SessionText? ==> r == ParseInt(input.text)
  {
    match input
    case NoSessionId => None
    case SessionNumber(n) => Some(n)
    case SessionText(t) => ParseInt(t)
  }

  /**
   * UserLogoutView.post. A truthy session id ends that session if it is the
   * requester's and still open; otherwise the id is ignored. A session id
   * that is not an integer raises inside the try block: the answer is 400
   * and neither a session nor the token is touched. A refresh token that
   * cannot be blacklisted turns the answer into 400 too, after the session
   * was already ended.
   */
  method Logout(sessions: seq<UserSession>, sessionId: SessionIdInput, requester: nat,
                refreshToken: string, blacklistFails: bool, now: int)
    returns (status: Status, ended: Option<nat>, blacklisted: bool)
    modifies set s | s in sessions
    modifies set s | s in sessions :: s.user
    ensures var malformed := SessionIdGiven(sessionId) && SessionLookupId(sessionId).None?;
      status == (if malformed || (refreshToken != [] && blacklistFails) then BadRequest400 else Ok200)
      && (blacklisted <==> !malformed && refreshToken != [] && !blacklistFails)
    ensures ended == (if SessionIdGiven(sessionId) && SessionLookupId(sessionId).Some? && SessionLookupId(sessionId).value >= 0
                      then old(OpenSessionIndex(sessions, SessionLookupId(sessionId).value, requester)) else None)
    ensures ended.Some? ==> var s := sessions[ended.value];
      s.end == Some(now) && s.user.totalTimeSpent == old(s.user.totalTimeSpent) + (now - s.start)
    ensures ended.Some? ==> forall k :: 0 <= k < |sessions| && sessions[k] != sessions[ended.value] ==>
      sessions[k].end == old(sessions[k].end)
    ensures ended.Some? ==> forall k :: 0 <= k < |sessions| && sessions[k].user != sessions[ended.value].user ==>
      sessions[k].user.totalTimeSpent == old(sessions[k].user.totalTimeSpent)
    ensures ended.None? ==> forall k :: 0 <= k < |sessions| ==>
      sessions[k].end == old(sessions[k].end) && sessions[k].user.totalTimeSpent == old(sessions[k].user.totalTimeSpent)
  {
    ended := None;
    blacklisted := false;
    if SessionIdGiven(sessionId) {
      var id := SessionLookupId(sessionId);
      if id.None? {
        return BadRequest400, None, false;
      }
      if id.value >= 0 {
        ended := OpenSessionIndex(sessions, id.value, requester);
        if ended.Some? {
          sessions[ended.value].EndSession(now);
        }
      }
    }
    if refreshToken != [] {
      if blacklistFails {
        return BadRequest400, ended, false;
      }
      blacklisted := true;
    }
    status := Ok200;
  }

  // ---------------------------------------------------------------- client form

  /** A user's client business form; the fields are kept as text. */
  class ClientInfo {
    var fields: map<string, string>
    var isCompleted: bool

    constructor ()
      ensures fields == map[] && !isCompleted
    {
      fields := map[];
      isCompleted := false;
    }

    /**
     * ClientInfoView.perform_update: the validated fields are saved and the
     * form is marked completed, whatever the request said about that flag.
     */
    method PerformUpdate(validated: map<string, string>, requestedCompleted: Option<bool>)
      modifies this
      ensures fields == old(fields) + validated
      ensures isCompleted
    {
      fields := fields + validated;
      isCompleted := true;
    }
  }

  // ---------------------------------------------------------------- admin actions

  /**
   * UserDetailView.destroy: an unknown id is 404; an admin is never deleted
   * (400); anyone else is removed (204).
   */
  function DestroyUser(roles: map<nat, Role>, id: nat): (r: (Status, map<nat, Role>))
    ensures id !in roles ==> r == (NotFound404, roles)
    ensures id in roles && roles[id] == AdminRole ==> r == (BadRequest400, roles)
    ensures id in roles && roles[id] != AdminRole ==> r.0 == NoContent204 && id !in r.1 && r.1.Keys == roles.Keys - {id}
    ensures forall k :: k in r.1 ==> k in roles && r.1[k] == roles[k]
  {
    if id !in roles then (NotFound404, roles)
    else if roles[id] == AdminRole then (BadRequest400, roles)
    else (NoContent204, roles - {id})
  }

  /** However often it is asked, the set of admins never shrinks. */
  lemma AdminsSurviveDeletion(roles: map<nat, Role>, id: nat, a: nat)
    requires a in roles && roles[a] == AdminRole
    ensures a in DestroyUser(roles, id).1
  {
  }

  /** The choice values of SubscriptionType. */
  function ParseSubscriptionType(value: string): (r: Option<SubscriptionType>)
    ensures r.Some? <==> value in ["free", "basic", "premium", "lifetime"]
  {
    if value == "free" then Some(Free)
    else if value == "basic" then Some(Basic)
    else if value == "premium" then Some(Premium)
    else if value == "lifetime" then Some(Lifetime)
    else None
  }

  /**
   * upgrade_user_subscription: 404 for an unknown user and 400 for a
   * missing or unknown type, both before any change; otherwise the upgrade
   * runs, and a failing one is a 400 with nothing saved.
   */
  method UpgradeUserSubscription(target: User?, subscriptionType: Option<string>, duration: DurationArg, now: int)
    returns (status: Status)
    modifies if target == null then {} else {target}
    ensures target == null ==> status == NotFound404
    ensures target != null && (subscriptionType.None? || subscriptionType.value == ""
                               || ParseSubscriptionType(subscriptionType.value).None?)
            ==> status == BadRequest400 && unchanged(target)
    ensures status == Ok200 <==> target != null && subscriptionType.Some? && ParseSubscriptionType(subscriptionType.value).Some?
                                 && Upgraded(old(target.Sub()), ParseSubscriptionType(subscriptionType.value).value, duration, now).Success?
    ensures status == Ok200 ==> target.Sub() == Upgraded(old(target.Sub()), ParseSubscriptionType(subscriptionType.value).value, duration, now).value
    ensures status != Ok200 && target != null ==> target.Sub() == old(target.Sub())
  {
    if target == null {
      return NotFound404;
    }
    if subscriptionType.None? || subscriptionType.value == "" {
      return BadRequest400;
    }
    var kind := ParseSubscriptionType(subscriptionType.value);
    if kind.None? {
      return BadRequest400;
    }
    var ok := target.UpgradeSubscription(kind.value, duration, now);
    status := if ok then Ok200 else BadRequest400;
  }
}

=== FILE: chat_models.dfy ===
/**
 * Chat records: conversations, the messages inside them and reusable prompt
 * templates. Identifiers (UUIDs and user keys) are natural numbers.
 */
module ChatModels {
  import opened Wrappers
  import opened Text

  datatype MessageType = UserMessage | AssistantMessage | SystemMessage

  datatype MessageStatus = Pending | Processing | Completed | Failed

  /** A chat message as the conversation's queries read it, oldest first. */
  datatype MessageRow = MessageRow(messageType: MessageType, content: string, tokensUsed: Option<nat>)
  {
    predicate IsFromUser() {
      messageType == UserMessage
    }

    predicate IsFromAssistant() {
      messageType == AssistantMessage
    }
  }

  /** A message is never from both sides, and a system message is from neither. */
  lemma SenderExclusive(m: MessageRow)
    ensures !(m.IsFromUser() && m.IsFromAssistant())
    ensures m.messageType == SystemMessage ==> !m.IsFromUser() && !m.IsFromAssistant()
  {
  }

  const TitleLength := 50

  /** The title generated from a message: its first 50 characters, then "..." iff it is longer. */
  function AutoTitle(content: string): (r: string)
    ensures |r| <= TitleLength + 3
    ensures |content| <= TitleLength ==> r == content
    ensures |content| > TitleLength ==> |r| == TitleLength + 3 && r[..TitleLength] == content[..TitleLength] && r[TitleLength..] == "..."
  {
    Ellipsize(content, TitleLength)
  }

  /** The position of the first user message, if there is one. */
  function FirstUserIndex(rows: seq<MessageRow>): (r: Option<nat>)
    ensures r.Some? ==> r.value < |rows| && rows[r.value].IsFromUser()
    ensures forall j :: 0 <= j < |rows| && (r.None? || j < r.value) ==> !rows[j].IsFromUser()
  {
    if rows == [] then None
    else if rows[0].IsFromUser() then Some(0)
    else match FirstUserIndex(rows[1..])
      case None => None
      case Some(k) => Some(k + 1)
  }

  /**
   * The title a conversation has after `save`, given its current title and
   * messages. The primary key is a UUID with a default, so the record always
   * has one and only the title decides.
   */
  function TitleAfterSave(title: string, rows: seq<MessageRow>): string {
    if title == [] then
      match FirstUserIndex(rows)
      case Some(k) => AutoTitle(rows[k].content)
      case None => title
    else title
  }

  /**
   * save never replaces a title that is set; it fills an empty title from
   * the first user message, and any title it generates is at most 53
   * characters long.
   */
  lemma TitleRule(title: string, rows: seq<MessageRow>)
    ensures title != [] ==> TitleAfterSave(title, rows) == title
    ensures title == [] && (exists k :: 0 <= k < |rows| && rows[k].IsFromUser()) ==>
      exists k :: 0 <= k < |rows| && rows[k].IsFromUser() && TitleAfterSave(title, rows) == AutoTitle(rows[k].content)
          && forall j :: 0 <= j < k ==> !rows[j].IsFromUser()
    ensures title == [] && (forall k :: 0 <= k < |rows| ==> !rows[k].IsFromUser()) ==> TitleAfterSave(title, rows) == []
    ensures |TitleAfterSave(title, rows)| <= if title == [] then TitleLength + 3 else |title|
  {
    if title == [] {
      match FirstUserIndex(rows)
      case Some(k) =>
      case None =>
    }
  }

  /** Saving twice over the same messages gives the title of saving once. */
  lemma TitleAfterSaveIdempotent(title: string, rows: seq<MessageRow>)
    ensures TitleAfterSave(TitleAfterSave(title, rows), rows) == TitleAfterSave(title, rows)
  {
  }

  /** A message that is not from the user, added at the end, does not move the first user message. */
  lemma {:induction false} FirstUserIndexIgnoresTail(rows: seq<MessageRow>, m: MessageRow)
    requires !m.IsFromUser()
    ensures FirstUserIndex(rows + [m]) == FirstUserIndex(rows)
  {
    if rows != [] {
      assert (rows + [m])[0] == rows[0];
      assert (rows + [m])[1..] == rows[1..] + [m];
      FirstUserIndexIgnoresTail(rows[1..], m);
    } else {
      assert FirstUserIndex([m][1..]) == None;
    }
  }

  /** The sum of the messages' token counts, a missing count counting as 0. */
  function TokenSum(rows: seq<MessageRow>): nat {
    if rows == [] then 0 else rows[0].tokensUsed.GetOr(0) + TokenSum(rows[1..])
  }

  /** Adding a message adds exactly its tokens to the total. */
  lemma {:induction false} TokenSumAppend(rows: seq<MessageRow>, m: MessageRow)
    ensures TokenSum(rows + [m]) == TokenSum(rows) + m.tokensUsed.GetOr(0)
  {
    if rows != [] {
      assert (rows + [m])[1..] == rows[1..] + [m];
      TokenSumAppend(rows[1..], m);
    }
  }

  /** A conversation's columns that its methods change. */
  datatype ConversationFields = ConversationFields(
    title: string, folder: Option<nat>, isArchived: bool, isPinned: bool,
    totalMessages: nat, totalTokensUsed: nat)

  datatype ConversationColumn = TitleColumn | FolderColumn | ArchivedColumn | PinnedColumn
                              | TotalMessagesColumn | TotalTokensColumn

  const AllConversationColumns: set<ConversationColumn> :=
    {TitleColumn, FolderColumn, ArchivedColumn, PinnedColumn, TotalMessagesColumn, TotalTokensColumn}

  /** The columns update_stats names in update_fields. */
  const StatsColumns: set<ConversationColumn> := {TotalMessagesColumn, TotalTokensColumn}

  /** The stored row after `save(update_fields=columns)`: those columns from `current`, the rest as stored. */
  function SaveConversationColumns(stored: ConversationFields, current: ConversationFields,
                                   columns: set<ConversationColumn>): ConversationFields {
    ConversationFields(
      if TitleColumn in columns then current.title else stored.title,
      if FolderColumn in columns then current.folder else stored.folder,
      if ArchivedColumn in columns then current.isArchived else stored.isArchived,
      if PinnedColumn in columns then current.isPinned else stored.isPinned,
      if TotalMessagesColumn in columns then current.totalMessages else stored.totalMessages,
      if TotalTokensColumn in columns then current.totalTokensUsed else stored.totalTokensUsed)
  }

  /** A plain save writes every column; a save of no columns writes nothing. */
  lemma SaveConversationColumnsBounds(stored: ConversationFields, current: ConversationFields)
    ensures SaveConversationColumns(stored, current, AllConversationColumns) == current
    ensures SaveConversationColumns(stored, current, {}) == stored
  {
  }

  /** update_stats in memory: the counts from the messages, and the title rule of save. */
  function WithStats(f: ConversationFields, rows: seq<MessageRow>): (r: ConversationFields)
    ensures r.totalMessages == |rows| && r.totalTokensUsed == TokenSum(rows)
    ensures r.title == TitleAfterSave(f.title, rows)
    ensures r.folder == f.folder && r.isArchived == f.isArchived && r.isPinned == f.isPinned
  {
    f.(title := TitleAfterSave(f.title, rows), totalMessages := |rows|, totalTokensUsed := TokenSum(rows))
  }

  /**
   * update_stats writes only the two counters: a title that the title rule
   * has just filled in stays unsaved, and so does any other unsaved change.
   */
  lemma {:induction false} UpdateStatsStoresOnlyCounters(stored: ConversationFields, f: ConversationFields, rows: seq<MessageRow>)
    ensures SaveConversationColumns(stored, WithStats(f, rows), StatsColumns)
      == stored.(totalMessages := |rows|, totalTokensUsed := TokenSum(rows))
  {
  }

  /**
   * Recounting after the last message changed, when it is not from the user:
   * the result is that of counting the final messages once.
   */
  lemma WithStatsAgain(f: ConversationFields, earlier: seq<MessageRow>, m1: MessageRow, m2: MessageRow)
    requires !m1.IsFromUser() && !m2.IsFromUser()
    ensures WithStats(WithStats(f, earlier + [m1]), earlier + [m2]) == WithStats(f, earlier + [m2])
  {
    FirstUserIndexIgnoresTail(earlier, m1);
    FirstUserIndexIgnoresTail(earlier, m2);
    TitleAfterSaveIdempotent(f.title, earlier);
  }

  /** The last message's content does not enter the counts, and a non-user one not the title. */
  lemma WithStatsIgnoresContent(f: ConversationFields, earlier: seq<MessageRow>, m1: MessageRow, m2: MessageRow)
    requires !m1.IsFromUser() && !m2.IsFromUser() && m1.tokensUsed == m2.tokensUsed
    ensures WithStats(f, earlier + [m1]) == WithStats(f, earlier + [m2])
  {
    FirstUserIndexIgnoresTail(earlier, m1);
    FirstUserIndexIgnoresTail(earlier, m2);
    TokenSumAppend(earlier, m1);
    TokenSumAppend(earlier, m2);
  }

  class Conversation {
    const id: nat
    const owner: nat
    var title: string
    var folder: Option<nat>
    var isArchived: bool
    var isPinned: bool
    var totalMessages: nat
    var totalTokensUsed: nat
    /** The row as last written to the database. */
    var stored: ConversationFields

    /**
     * Conversation.objects.create: the model's defaults, written at once. The
     * new record has no messages, so save's title rule leaves the title empty.
     */
    constructor (id: nat, owner: nat, folder: Option<nat>)
      ensures this.id == id && this.owner == owner
      ensures Fields() == ConversationFields([], folder, false, false, 0, 0)
      ensures stored == Fields()
    {
      this.id := id;
      this.owner := owner;
      this.folder := folder;
      title := [];
      isArchived := false;
      isPinned := false;
      totalMessages := 0;
      totalTokensUsed := 0;
      stored := ConversationFields([], folder, false, false, 0, 0);
    }

    function Fields(): ConversationFields
      reads this
    {
      ConversationFields(title, folder, isArchived, isPinned, totalMessages, totalTokensUsed)
    }

    /**
     * save(update_fields=columns), a plain save() naming every column: an
     * empty title is first filled from the first user message, then the named
     * columns are written.
     */
    method Save(rows: seq<MessageRow>, columns: set<ConversationColumn>)
      modifies this`title, this`stored
      ensures Fields() == old(Fields()).(title := TitleAfterSave(old(title), rows))
      ensures stored == SaveConversationColumns(old(stored), Fields(), columns)
    {
      title := TitleAfterSave(title, rows);
      stored := SaveConversationColumns(stored, Fields(), columns);
    }

    /** update_stats(): message count and token total recomputed from the messages, only they written. */
    method UpdateStats(rows: seq<MessageRow>)
      modifies this`totalMessages, this`totalTokensUsed, this`title, this`stored
      ensures Fields() == WithStats(old(Fields()), rows)
      ensures stored == SaveConversationColumns(old(stored), Fields(), StatsColumns)
    {
      totalMessages := |rows|;
      totalTokensUsed := TokenSum(rows);
      Save(rows, StatsColumns);
    }
  }

  class ChatMessage {
    var messageType: MessageType
    var content: string
    var status: MessageStatus
    var sources: seq<string>
    var tokensUsed: Option<nat>
    var modelUsed: string
    var responseTimeMs: Option<nat>
    var errorMessage: string
    var isHelpful: Option<bool>
    var feedbackComment: string

    /** A message created with the given type, content and status; every other field at its default. */
    constructor (messageType: MessageType, content: string, status: MessageStatus)
      ensures this.messageType == messageType && this.content == content && this.status == status
      ensures sources == [] && tokensUsed == None && modelUsed == [] && responseTimeMs == None
      ensures errorMessage == [] && isHelpful == None && feedbackComment == []
    {
      this.messageType := messageType;
      this.content := content;
      this.status := status;
      sources := [];
      tokensUsed := None;
      modelUsed := [];
      responseTimeMs := None;
      errorMessage := [];
      isHelpful := None;
      feedbackComment := [];
    }

    function Row(): MessageRow
      reads this
    {
      MessageRow(messageType, content, tokensUsed)
    }

    /** mark_as_helpful(): records the feedback flag and comment and nothing else. */
    method MarkAsHelpful(helpful: bool, comment: string)
      modifies this`isHelpful, this`feedbackComment
      ensures isHelpful == Some(helpful) && feedbackComment == comment
    {
      isHelpful := Some(helpful);
      feedbackComment := comment;
    }
  }

  class ChatTemplate {
    var id: nat
    var name: string
    var prompt: string
    var isPublic: bool
    var createdBy: Option<nat>
    var usageCount: nat

    constructor (id: nat, name: string, prompt: string, isPublic: bool, createdBy: Option<nat>)
      ensures this.id == id && this.name == name && this.prompt == prompt
      ensures this.isPublic == isPublic && this.createdBy == createdBy && usageCount == 0
    {
      this.id := id;
      this.name := name;
      this.prompt := prompt;
      this.isPublic := isPublic;
      this.createdBy := createdBy;
      usageCount := 0;
    }

    /** increment_usage(): one more use, and only the counter changes. */
    method IncrementUsage()
      modifies this`usageCount
      ensures usageCount == old(usageCount) + 1
    {
      usageCount := usageCount + 1;
    }
  }
}

=== FILE: chat_serializers.dfy ===
/**
 * Input validation of the chat API: message text, folder names and colours,
 * template names, and the preview of a conversation's last message. Each
 * validator returns the cleaned value or the ValidationError's message.
 */
module ChatSerializers {
  import opened Wrappers
  import opened Text
  import opened ChatModels
  import opened Fields

  const MaxContentLength := 10000
  const MaxFolderNameLength := 100
  const MaxTemplateNameLength := 100
  const PreviewLength := 100

  // ------------------------------------------------------------ messages

  /** ChatMessageSerializer.validate_content alone: non-blank, at most 10,000 characters before stripping. */
  function ValidateContent(value: Option<string>): (r: Result<string>)
    ensures r.Success? <==> value.Some? && !IsBlank(value.value) && |value.value| <= MaxContentLength
    ensures r.Success? ==> r.value == Strip(value.value) && r.value != [] && IsStripped(r.value)
  {
    if value.None? || value.value == [] || Strip(value.value) == [] then Failure("Message content cannot be empty.")
    else if |value.value| > MaxContentLength then Failure("Message content is too long (max 10,000 characters).")
    else Success(Strip(value.value))
  }

  /**
   * The content field of ChatMessageSerializer: the model's TextField as a
   * CharField without max_length, then validate_content on the trimmed text.
   * The 10,000-character limit therefore applies to the text without its
   * surrounding whitespace.
   */
  function ContentField(data: Option<string>): (r: Result<string>)
    ensures r.Success? <==> data.Some? && !IsBlank(data.value) && |Strip(data.value)| <= MaxContentLength
    ensures r.Success? ==> r.value == Strip(data.value)
    ensures data.None? ==> r == Failure(RequiredError)
    ensures data.Some? && IsBlank(data.value) ==> r == Failure(BlankError)
  {
    match CharFieldValue(data, None)
    case Failure(e) => Failure(e)
    case Success(text) =>
      StripStripped(text);
      ValidateContent(Some(text))
  }

  /**
   * Padding counts towards the limit of validate_content alone: 10,000
   * characters of text with one space after them are refused by the method,
   * yet the serializer, which trims first, accepts them as the bare text.
   */
  lemma PaddingCountsTowardsLimit(text: string)
    requires |text| == MaxContentLength && IsStripped(text) && text != []
    ensures ValidateContent(Some(text)).Success?
    ensures ValidateContent(Some(text + " ")).Failure?
    ensures ContentField(Some(text + " ")) == Success(text)
  {
    assert !IsBlank(text) by { assert !IsSpace(text[0]); }
    assert !IsBlank(text + " ") by { assert (text + " ")[0] == text[0]; }
    StripStripped(text);
    StripPadded([], text, " ");
    assert [] + text + " " == text + " ";
  }

  /** ChatRequestSerializer.validate_message alone: non-blank, returned stripped. */
  function ValidateMessage(value: Option<string>): (r: Result<string>)
    ensures r.Success? <==> value.Some? && !IsBlank(value.value)
    ensures r.Success? ==> r.value == Strip(value.value) && r.value != [] && IsStripped(r.value)
  {
    if value.None? || value.value == [] || Strip(value.value) == [] then Failure("Message cannot be empty.")
    else Success(Strip(value.value))
  }

  /**
   * The message field of ChatRequestSerializer: a CharField with
   * max_length=10000, then validate_message. Text of more than 10,000
   * characters once trimmed is refused by the field's own length check.
   */
  function MessageField(data: Option<string>): (r: Result<string>)
    ensures r.Success? <==> data.Some? && !IsBlank(data.value) && |Strip(data.value)| <= MaxContentLength
    ensures r.Success? ==> r.value == Strip(data.value)
    ensures data.Some? && !IsBlank(data.value) && |Strip(data.value)| > MaxContentLength
      ==> r == Failure(MaxLengthError(MaxContentLength))
  {
    match CharFieldValue(data, Some(MaxContentLength))
    case Failure(e) => Failure(e)
    case Success(text) =>
      StripStripped(text);
      ValidateMessage(Some(text))
  }

  // ------------------------------------------------------------ folders

  datatype FolderRow = FolderRow(id: nat, owner: nat, name: string)

  /** Another folder of `owner` (not the one being edited) already has this name. */
  predicate FolderNameTaken(folders: seq<FolderRow>, owner: nat, name: string, editing: Option<nat>) {
    exists k :: 0 <= k < |folders| && folders[k].owner == owner && folders[k].name == name
      && editing != Some(folders[k].id)
  }

  /** FolderSerializer.validate_name: non-blank, at most 100 characters, unused by the owner's other folders. */
  function ValidateFolderName(value: string, folders: seq<FolderRow>, owner: nat, editing: Option<nat>): (r: Result<string>)
    ensures r.Success? <==> (!IsBlank(value) && |value| <= MaxFolderNameLength
      && !FolderNameTaken(folders, owner, Strip(value), editing))
    ensures r.Success? ==> r.value == Strip(value) && r.value != []
  {
    if value == [] || Strip(value) == [] then Failure("Folder name cannot be empty.")
    else if |value| > MaxFolderNameLength then Failure("Folder name is too long (max 100 characters).")
    else if FolderNameTaken(folders, owner, Strip(value), editing) then Failure("A folder with this name already exists.")
    else Success(Strip(value))
  }

  /**
   * The name field of FolderSerializer: the model's CharField(max_length=100)
   * (required, trimmed, blank refused, at most 100 characters), then
   * validate_name on the trimmed text.
   */
  function FolderNameField(data: Option<string>, folders: seq<FolderRow>, owner: nat, editing: Option<nat>): (r: Result<string>)
    ensures data.None? ==> r == Failure(RequiredError)
    ensures data.Some? && IsBlank(data.value) ==> r == Failure(BlankError)
    ensures data.Some? && !IsBlank(data.value) && |Strip(data.value)| > MaxFolderNameLength
      ==> r == Failure(MaxLengthError(MaxFolderNameLength))
    ensures r.Success? <==> (data.Some? && !IsBlank(data.value) && |Strip(data.value)| <= MaxFolderNameLength
                             && !FolderNameTaken(folders, owner, Strip(data.value), editing))
    ensures r.Success? ==> r.value == Strip(data.value)
  {
    match CharFieldValue(data, Some(MaxFolderNameLength))
    case Failure(e) => Failure(e)
    case Success(text) =>
      StripStripped(text);
      ValidateFolderName(text, folders, owner, editing)
  }

  /**
   * The field answers blank and over-long names first, so validate_name's
   * own messages for them are never reported.
   */
  lemma FolderNameMessagesUnreachable(data: Option<string>, folders: seq<FolderRow>, owner: nat, editing: Option<nat>)
    ensures FolderNameField(data, folders, owner, editing) != Failure("Folder name cannot be empty.")
    ensures FolderNameField(data, folders, owner, editing) != Failure("Folder name is too long (max 100 characters).")
  {
    match CharFieldValue(data, Some(MaxFolderNameLength))
    case Failure(e) =>
    case Success(text) =>
      StripStripped(text);
      assert !IsBlank(text) && |text| <= MaxFolderNameLength;
  }

  /** No owner has two folders with the same name (the table's unique constraint). */
  predicate UniqueFolderNames(folders: seq<FolderRow>) {
    forall i, j :: 0 <= i < j < |folders| ==>
      !(folders[i].owner == folders[j].owner && folders[i].name == folders[j].name)
  }

  /** Creating a folder under a name the validator accepted keeps folder names unique per owner. */
  lemma FolderCreationKeepsNamesUnique(folders: seq<FolderRow>, owner: nat, value: string, newId: nat)
    requires UniqueFolderNames(folders)
    requires ValidateFolderName(value, folders, owner, None).Success?
    ensures UniqueFolderNames(folders + [FolderRow(newId, owner, ValidateFolderName(value, folders, owner, None).value)])
  {
    var name := Strip(value);
    var all := folders + [FolderRow(newId, owner, name)];
    forall i, j | 0 <= i < j < |all|
      ensures !(all[i].owner == all[j].owner && all[i].name == all[j].name)
    {
      if j == |folders| {
        assert all[i] == folders[i];
      }
    }
  }

  /** FolderSerializer.validate_color: empty, or '#' followed by six more characters. */
  function ValidateColor(value: string): (r: Result<string>)
    ensures r.Success? <==> value == [] || (value[0] == '#' && |value| == 7)
    ensures r.Success? ==> r.value == value
  {
    if value != [] && !StartsWith(value, "#") then Failure("Color must be in hex format (e.g., #6B7280).")
    else if value != [] && |value| != 7 then Failure("Color must be a valid hex color (e.g., #6B7280).")
    else Success(value)
  }

  /**
   * The color field of FolderSerializer: the model's CharField(max_length=7)
   * has a default, so the field may be left out (the default is stored);
   * a given value is trimmed, refused when blank or longer than 7
   * characters, then checked by validate_color.
   */
  function ColorField(data: Option<string>): (r: Result<Option<string>>)
    ensures data.None? ==> r == Success(None)
    ensures data.Some? && IsBlank(data.value) ==> r == Failure(BlankError)
    ensures data.Some? && !IsBlank(data.value) && |Strip(data.value)| > 7 ==> r == Failure(MaxLengthError(7))
    ensures data.Some? ==> (r.Success? <==> !IsBlank(data.value) && |Strip(data.value)| == 7 && Strip(data.value)[0] == '#')
    ensures data.Some? && r.Success? ==> r.value == Some(Strip(data.value))
  {
    if data.None? then Success(None)
    else
      match CharFieldValue(data, Some(7))
      case Failure(e) => Failure(e)
      case Success(text) =>
        match ValidateColor(text)
        case Failure(e) => Failure(e)
        case Success(v) => Success(Some(v))
  }

  /** validate_color lets the empty colour through, but the field refuses it first. */
  lemma EmptyColorRefused()
    ensures ValidateColor("").Success?
    ensures ColorField(Some("")) == Failure(BlankError)
  {
  }

  // ------------------------------------------------------------ templates

  datatype TemplateRow = TemplateRow(id: nat, createdBy: Option<nat>, name: string)

  predicate TemplateNameTaken(templates: seq<TemplateRow>, user: nat, name: string, editing: Option<nat>) {
    exists k :: 0 <= k < |templates| && templates[k].createdBy == Some(user) && templates[k].name == name
      && editing != Some(templates[k].id)
  }

  /** ChatTemplateSerializer.validate_name: the exact name is not used by the user's other templates. */
  function ValidateTemplateName(value: string, templates: seq<TemplateRow>, user: nat, editing: Option<nat>): (r: Result<string>)
    ensures r.Success? <==> !TemplateNameTaken(templates, user, value, editing)
    ensures r.Success? ==> r.value == value
  {
    if TemplateNameTaken(templates, user, value, editing) then Failure("You already have a template with this name.")
    else Success(value)
  }

  /**
   * The name field of ChatTemplateSerializer: the model's
   * CharField(max_length=100), then validate_name on the trimmed text.
   */
  function TemplateNameField(data: Option<string>, templates: seq<TemplateRow>, user: nat, editing: Option<nat>): (r: Result<string>)
    ensures data.None? ==> r == Failure(RequiredError)
    ensures data.Some? && IsBlank(data.value) ==> r == Failure(BlankError)
    ensures data.Some? && !IsBlank(data.value) && |Strip(data.value)| > MaxTemplateNameLength
      ==> r == Failure(MaxLengthError(MaxTemplateNameLength))
    ensures r.Success? <==> (data.Some? && !IsBlank(data.value) && |Strip(data.value)| <= MaxTemplateNameLength
                             && !TemplateNameTaken(templates, user, Strip(data.value), editing))
    ensures r.Success? ==> r.value == Strip(data.value)
  {
    match CharFieldValue(data, Some(MaxTemplateNameLength))
    case Failure(e) => Failure(e)
    case Success(text) => ValidateTemplateName(text, templates, user, editing)
  }

  /** Names are compared after trimming: a padded copy of a taken name is refused as taken. */
  lemma PaddedTemplateNameTaken(templates: seq<TemplateRow>, user: nat, k: nat, name: string)
    requires k < |templates| && templates[k].createdBy == Some(user) && templates[k].name == name
    requires name != [] && IsStripped(name) && |name| <= MaxTemplateNameLength
    ensures TemplateNameField(Some(" " + name), templates, user, None) == Failure("You already have a template with this name.")
  {
    assert !IsBlank(" " + name) by { assert (" " + name)[1] == name[0]; }
    StripPadded(" ", name, []);
    assert " " + name + [] == " " + name;
  }

  /** Editing a template may keep its own name: only the user's other templates are compared. */
  lemma TemplateMayKeepItsName(templates: seq<TemplateRow>, user: nat, k: nat)
    requires k < |templates| && templates[k].createdBy == Some(user)
    requires forall j :: 0 <= j < |templates| && j != k ==> templates[j].id != templates[k].id
    requires forall j :: 0 <= j < |templates| && j != k && templates[j].createdBy == Some(user) ==> templates[j].name != templates[k].name
    ensures ValidateTemplateName(templates[k].name, templates, user, Some(templates[k].id)).Success?
    ensures ValidateTemplateName(templates[k].name, templates, user, None).Failure?
  {
  }

  // ------------------------------------------------------------ last-message preview

  datatype Preview = Preview(content: string, messageType: MessageType)

  /** ConversationSerializer.get_last_message: the newest message, its text cut to 100 characters plus "...". */
  function LastMessagePreview(rows: seq<MessageRow>): (r: Option<Preview>)
    ensures r.None? <==> rows == []
    ensures r.Some? ==> var last := rows[|rows| - 1];
      r.value.messageType == last.messageType
      && |r.value.content| <= PreviewLength + 3
      && (|last.content| <= PreviewLength ==> r.value.content == last.content)
      && (|last.content| > PreviewLength ==> r.value.content == last.content[..PreviewLength] + "...")
  {
    if rows == [] then None
    else
      var last := rows[|rows| - 1];
      Some(Preview(Ellipsize(last.content, PreviewLength), last.messageType))
  }
}

=== FILE: chat_services.dfy ===
/**
 * The AI side of the chat: reshaping the knowledge-base webhook's decoded
 * reply into a response, a stream of chunks, and the updates those chunks
 * make to the assistant's message. The HTTP call itself is not modelled: a
 * `Fetch` is either the request failure or the decoded JSON reply.
 * markdownify is an opaque parameter `md`, and the elapsed-time clock a
 * parameter `clock` giving the milliseconds elapsed at each chunk.
 */
module ChatServices {
  import opened Wrappers
  import opened Text
  import opened ChatModels

  // ------------------------------------------------------------ source lists

  const SourcesPrefix := "Sources: "

  /** The stripped, non-empty pieces, in their original order. */
  function CleanSources(pieces: seq<string>): (r: seq<string>)
    ensures |r| <= |pieces|
    ensures forall k :: 0 <= k < |r| ==> r[k] != [] && IsStripped(r[k])
  {
    if pieces == [] then []
    else
      var rest := CleanSources(pieces[1..]);
      var head := Strip(pieces[0]);
      if head == [] then rest else [head] + rest
  }

  /** _extract_sources_from_document: "Sources: a.docx, b.docx" becomes ["a.docx", "b.docx"]. */
  function ExtractSources(doc: string): (r: seq<string>)
    ensures doc == [] ==> r == []
    ensures forall k :: 0 <= k < |r| ==> r[k] != [] && IsStripped(r[k])
  {
    if doc == [] then []
    else
      var body := if StartsWith(doc, SourcesPrefix) then doc[|SourcesPrefix|..] else doc;
      CleanSources(Split(body, ','))
  }

  /** `names` are the strips of the pieces at positions `idx`. */
  predicate StripsAt(pieces: seq<string>, names: seq<string>, idx: seq<nat>) {
    && |idx| == |names|
    && (forall k :: 0 <= k < |idx| ==> idx[k] < |pieces| && names[k] == Strip(pieces[idx[k]]))
  }

  predicate Increasing(idx: seq<nat>) {
    forall k, l :: 0 <= k < l < |idx| ==> idx[k] < idx[l]
  }

  /** Every piece that is not blank is at one of the positions `idx`. */
  predicate CoversNonBlank(pieces: seq<string>, idx: seq<nat>) {
    forall j :: 0 <= j < |pieces| && Strip(pieces[j]) != [] ==> j in idx
  }

  /**
   * `names` are the strips of `pieces` at the strictly increasing positions
   * `idx`, and every piece that is not blank is among those positions.
   */
  predicate Selects(pieces: seq<string>, names: seq<string>, idx: seq<nat>) {
    StripsAt(pieces, names, idx) && Increasing(idx) && CoversNonBlank(pieces, idx)
  }

  /**
   * CleanSources keeps exactly the non-blank pieces, each stripped, in their
   * original order (the names it returns are never blank, so no blank piece
   * is among the positions).
   */
  lemma {:induction false} CleanSourcesSelects(pieces: seq<string>)
    ensures Selects(pieces, CleanSources(pieces), KeptPositions(pieces))
  {
    if pieces != [] {
      CleanSourcesSelects(pieces[1..]);
      if Strip(pieces[0]) == [] {
        SelectsSkip(pieces, CleanSources(pieces[1..]), KeptPositions(pieces[1..]));
      } else {
        SelectsTake(pieces, CleanSources(pieces[1..]), KeptPositions(pieces[1..]));
      }
    }
  }

  /** The positions of the pieces that are not blank. */
  function KeptPositions(pieces: seq<string>): (r: seq<nat>)
    ensures |r| <= |pieces|
  {
    if pieces == [] then []
    else if Strip(pieces[0]) == [] then Shift(KeptPositions(pieces[1..]))
    else [0] + Shift(KeptPositions(pieces[1..]))
  }

  /** Positions one further on. */
  function Shift(ri: seq<nat>): (r: seq<nat>)
    ensures |r| == |ri| && forall i :: 0 <= i < |ri| ==> r[i] == ri[i] + 1
  {
    if ri == [] then [] else [ri[0] + 1] + Shift(ri[1..])
  }

  /** A blank first piece: the positions of the rest, shifted. */
  lemma SelectsSkip(pieces: seq<string>, names: seq<string>, ri: seq<nat>)
    requires pieces != [] && Strip(pieces[0]) == [] && Selects(pieces[1..], names, ri)
    ensures Selects(pieces, names, Shift(ri))
  {
    ShiftStripsAt(pieces, names, ri);
    ShiftIncreasing(ri);
    ShiftCovers(pieces, ri);
  }

  /** A non-blank first piece: position 0, then the rest's positions shifted. */
  lemma SelectsTake(pieces: seq<string>, names: seq<string>, ri: seq<nat>)
    requires pieces != [] && Selects(pieces[1..], names, ri)
    ensures Selects(pieces, [Strip(pieces[0])] + names, [0] + Shift(ri))
  {
    ConsStripsAt(pieces, names, ri);
    ConsIncreasing(ri);
    ConsCovers(pieces, ri);
  }

  lemma ShiftStripsAt(pieces: seq<string>, names: seq<string>, ri: seq<nat>)
    requires pieces != [] && StripsAt(pieces[1..], names, ri)
    ensures StripsAt(pieces, names, Shift(ri))
  {
    var idx := Shift(ri);
    forall k | 0 <= k < |idx| ensures idx[k] < |pieces| && names[k] == Strip(pieces[idx[k]]) {
      assert pieces[1..][ri[k]] == pieces[idx[k]];
    }
  }

  lemma ShiftIncreasing(ri: seq<nat>)
    requires Increasing(ri)
    ensures Increasing(Shift(ri))
  {
  }

  lemma ShiftCovers(pieces: seq<string>, ri: seq<nat>)
    requires pieces != [] && Strip(pieces[0]) == [] && CoversNonBlank(pieces[1..], ri)
    ensures CoversNonBlank(pieces, Shift(ri))
  {
    var idx := Shift(ri);
    forall j | 0 <= j < |pieces| && Strip(pieces[j]) != [] ensures j in idx {
      assert pieces[1..][j - 1] == pieces[j];
      var i :| 0 <= i < |ri| && ri[i] == j - 1;
      assert idx[i] == j;
    }
  }

  lemma ConsStripsAt(pieces: seq<string>, names: seq<string>, ri: seq<nat>)
    requires pieces != [] && StripsAt(pieces[1..], names, ri)
    ensures StripsAt(pieces, [Strip(pieces[0])] + names, [0] + Shift(ri))
  {
    var idx := [0] + Shift(ri);
    var all := [Strip(pieces[0])] + names;
    forall k | 0 <= k < |idx| ensures idx[k] < |pieces| && all[k] == Strip(pieces[idx[k]]) {
      if k == 0 {
        assert idx[0] == 0 && all[0] == Strip(pieces[0]);
      } else {
        assert idx[k] == Shift(ri)[k - 1] == ri[k - 1] + 1;
        assert all[k] == names[k - 1];
        ShiftedStrip(pieces, names, ri, k - 1);
      }
    }
    assert |idx| == |all|;
  }

  lemma ShiftedStrip(pieces: seq<string>, names: seq<string>, ri: seq<nat>, k: nat)
    requires pieces != [] && StripsAt(pieces[1..], names, ri) && k < |ri|
    ensures ri[k] + 1 < |pieces| && names[k] == Strip(pieces[ri[k] + 1])
  {
    assert pieces[1..][ri[k]] == pieces[ri[k] + 1];
  }

  lemma ConsIncreasing(ri: seq<nat>)
    requires Increasing(ri)
    ensures Increasing([0] + Shift(ri))
  {
    var idx := [0] + Shift(ri);
    forall k, l | 0 <= k < l < |idx| ensures idx[k] < idx[l] {
      if k > 0 { assert idx[k] == ri[k - 1] + 1; }
      assert idx[l] == ri[l - 1] + 1;
    }
  }

  lemma ConsCovers(pieces: seq<string>, ri: seq<nat>)
    requires pieces != [] && CoversNonBlank(pieces[1..], ri)
    ensures CoversNonBlank(pieces, [0] + Shift(ri))
  {
    var idx := [0] + Shift(ri);
    forall j | 0 <= j < |pieces| && Strip(pieces[j]) != [] ensures j in idx {
      if j == 0 {
        assert idx[0] == 0;
      } else {
        assert pieces[1..][j - 1] == pieces[j];
        assert j - 1 in ri;
        var i :| 0 <= i < |ri| && ri[i] == j - 1;
        assert idx[i + 1] == Shift(ri)[i] == j;
      }
    }
  }

  /**
   * A document starting with the whole "Sources: " prefix loses it, and any
   * other is split whole, so a later "Sources: " is kept inside a name.
   */
  lemma ExtractSourcesSplitsBody(doc: string)
    ensures StartsWith(doc, SourcesPrefix) ==> ExtractSources(doc) == CleanSources(Split(doc[|SourcesPrefix|..], ','))
    ensures !StartsWith(doc, SourcesPrefix) ==> ExtractSources(doc) == CleanSources(Split(doc, ','))
  {
    if doc == [] {
      assert CleanSources(Split(doc, ',')) == CleanSources([""]) == [];
    }
  }

  lemma {:induction false} CleanSourcesOfClean(names: seq<string>)
    requires forall k :: 0 <= k < |names| ==> names[k] != [] && IsStripped(names[k])
    ensures CleanSources(names) == names
  {
    if names != [] {
      StripStripped(names[0]);
      CleanSourcesOfClean(names[1..]);
    }
  }

  /**
   * Writing a list of document names after the "Sources: " prefix, separated
   * by commas and padded with any whitespace, and extracting them again gives
   * back exactly the names, in order.
   */
  lemma ExtractSourcesRoundTrip(names: seq<string>, padded: seq<string>)
    requires |padded| == |names|
    requires forall k :: 0 <= k < |names| ==> names[k] != [] && IsStripped(names[k]) && ',' !in names[k]
    requires forall k :: 0 <= k < |padded| ==> ',' !in padded[k] && Strip(padded[k]) == names[k]
    ensures ExtractSources(SourcesPrefix + Join(padded, ',')) == names
  {
    var doc := SourcesPrefix + Join(padded, ',');
    assert doc[..|SourcesPrefix|] == SourcesPrefix;
    assert doc[|SourcesPrefix|..] == Join(padded, ',');
    if padded == [] {
      assert Split([], ',') == [""];
    } else {
      SplitJoin(padded, ',');
      CleanStripsEach(padded, names);
    }
  }

  lemma {:induction false} CleanStripsEach(padded: seq<string>, names: seq<string>)
    requires |padded| == |names|
    requires forall k :: 0 <= k < |names| ==> names[k] != [] && Strip(padded[k]) == names[k]
    ensures CleanSources(padded) == names
  {
    if padded != [] {
      CleanStripsEach(padded[1..], names[1..]);
    }
  }

  /** The prefix is removed only when the text starts with all nine characters of it. */
  lemma PrefixNeedsTheSpace()
    ensures ExtractSources("Sources:a") == ["Sources:a"]
  {
    var doc := "Sources:a";
    assert doc[8] != SourcesPrefix[8];
    assert !StartsWith(doc, SourcesPrefix);
    SplitNoSep(doc, ',');
    StripStripped(doc);
  }

  // ------------------------------------------------------------ token estimate

  /** _calculate_tokens: about four characters per token, never less than one. */
  function EstimateTokens(input: string, output: string): (r: nat)
    ensures r >= 1
    ensures (|input| + |output|) / 4 >= 1 ==> r == (|input| + |output|) / 4
    ensures r == 1 || 4 * r <= |input| + |output| < 4 * r + 4
  {
    var q := (|input| + |output|) / 4;
    if q < 1 then 1 else q
  }

  // ------------------------------------------------------------ history for the API

  datatype ApiRole = ApiUser | ApiAssistant

  datatype ApiMessage = ApiMessage(messageType: ApiRole, content: string)

  /** One entry of the history handed to the AI service: a 'role' and possibly a 'content'. */
  datatype HistoryEntry = HistoryEntry(role: string, content: Option<string>)

  function ToApiMessage(e: HistoryEntry): ApiMessage {
    ApiMessage(if e.role == "user" then ApiUser else ApiAssistant, e.content.GetOr(""))
  }

  /**
   * _format_conversation_for_api: the current message first, then the history
   * without its last entry (the current message itself), newest first. A
   * missing history is the empty one.
   */
  method FormatConversationForApi(current: string, history: seq<HistoryEntry>) returns (out: seq<ApiMessage>)
    ensures |out| == if history == [] then 1 else |history|
    ensures out[0] == ApiMessage(ApiUser, current)
    ensures forall k :: 1 <= k < |out| ==> out[k] == ToApiMessage(history[|history| - 1 - k])
  {
    out := [ApiMessage(ApiUser, current)];
    if history == [] {
      return;
    }
    var toProcess := history[..|history| - 1];
    var i := |toProcess|;
    while i > 0
      invariant 0 <= i <= |toProcess|
      invariant |out| == 1 + |toProcess| - i
      invariant out[0] == ApiMessage(ApiUser, current)
      invariant forall k :: 1 <= k < |out| ==> out[k] == ToApiMessage(history[|history| - 1 - k])
    {
      i := i - 1;
      out := out + [ToApiMessage(toProcess[i])];
    }
  }

  const HistoryLimit := 10

  function HistoryOf(m: MessageRow): HistoryEntry {
    HistoryEntry(if m.IsFromUser() then "user" else "assistant", Some(m.content))
  }

  /**
   * _get_conversation_history: the ten newest messages (given oldest first),
   * taken newest first and turned back into chronological order.
   */
  method GetConversationHistory(rows: seq<MessageRow>) returns (history: seq<HistoryEntry>)
    ensures |history| == if |rows| < HistoryLimit then |rows| else HistoryLimit
    ensures forall k :: 0 <= k < |history| ==> history[k] == HistoryOf(rows[|rows| - |history| + k])
  {
    var n := if |rows| < HistoryLimit then |rows| else HistoryLimit;
    var recent := seq(n, j requires 0 <= j < n => rows[|rows| - 1 - j]);
    history := [];
    var j := n;
    while j > 0
      invariant 0 <= j <= n
      invariant |history| == n - j
      invariant forall k :: 0 <= k < |history| ==> history[k] == HistoryOf(rows[|rows| - n + k])
    {
      j := j - 1;
      history := history + [HistoryOf(recent[j])];
    }
  }

  // ------------------------------------------------------------ webhook replies

  /** The 'Document Names' entry of a webhook item: absent, a list of names, or another JSON value. */
  datatype DocumentNames = NoDocumentNames | NameList(names: seq<string>) | NotAList

  /** One object of the webhook's array reply. */
  datatype WebhookItem = WebhookItem(content: Option<string>, documentNames: DocumentNames)

  /** The decoded JSON reply: an array of items, an older-style object, or any other JSON value. */
  datatype WebhookResult =
    | ItemList(items: seq<WebhookItem>)
    | LegacyObject(finalAnswer: Option<string>, sourceDocument: Option<string>)
    | OtherJson

  datatype Fetch = RequestFailed(reason: string) | Received(result: WebhookResult)

  function ItemSources(item: WebhookItem): seq<string> {
    match item.documentNames
    case NameList(names) => names
    case _ => []
  }

  datatype RagReply = RagReply(response: string, sources: seq<string>)

  const NoAnswerText := "I apologize, but I couldn't generate a proper response. Please try again."
  const OutOfScopeText := "## Apologies, but that question seems too general or outside my trained scope based on internal documents."

  /**
   * _call_rag_api: the first item of an array reply (its 'content' and its
   * 'Document Names' list), or an old-style object's 'final_answer' and
   * parsed 'source_document'. An empty answer gives the apology with no
   * sources; a failed request, an empty array or a reply of another shape
   * gives the out-of-scope text.
   */
  function CallRagApi(fetch: Fetch, md: string -> string): (r: RagReply)
    ensures fetch.RequestFailed? || fetch == Received(ItemList([])) || fetch == Received(OtherJson)
      ==> r == RagReply(OutOfScopeText, [])
    ensures fetch.Received? && fetch.result.LegacyObject? && fetch.result.finalAnswer.GetOr("") != []
      ==> r == RagReply(md(fetch.result.finalAnswer.value), ExtractSources(fetch.result.sourceDocument.GetOr("")))
    ensures fetch.Received? && fetch.result.LegacyObject? && fetch.result.finalAnswer.GetOr("") == []
      ==> r == RagReply(NoAnswerText, [])
    ensures fetch.Received? && fetch.result.ItemList? && |fetch.result.items| > 0 ==>
      var item := fetch.result.items[0];
      r == if item.content.GetOr("") == [] then RagReply(NoAnswerText, [])
           else RagReply(md(item.content.value), ItemSources(item))
  {
    match fetch
    case RequestFailed(_) => RagReply(OutOfScopeText, [])
    case Received(result) =>
      match result
      case OtherJson => RagReply(OutOfScopeText, [])
      case ItemList(items) =>
        if |items| == 0 then RagReply(OutOfScopeText, [])
        else
          var answer := items[0].content.GetOr("");
          if answer == [] then RagReply(NoAnswerText, []) else RagReply(md(answer), ItemSources(items[0]))
      case LegacyObject(finalAnswer, sourceDocument) =>
        var answer := finalAnswer.GetOr("");
        if answer == [] then RagReply(NoAnswerText, [])
        else RagReply(md(answer), ExtractSources(sourceDocument.GetOr("")))
  }

  // ------------------------------------------------------------ the chunk stream

  datatype Chunk =
    | Delta(content: string)
    | SourceDocument(source: seq<string>)
    | Complete(response: string, sources: seq<string>, accumulated: string)
    | ErrorChunk(reply: Option<string>, error: string)

  /** The chunk's 'type' key. */
  function TypeName(c: Chunk): string {
    match c
    case Delta(_) => "delta"
    case SourceDocument(_) => "source_document"
    case Complete(_, _, _) => "complete"
    case ErrorChunk(_, _) => "error"
  }

  const NoContentError := "No content found in webhook response"
  const InvalidFormatError := "Invalid webhook response format"
  const ConnectionTroubleText := "I apologize, but I'm having trouble connecting to the knowledge base. Please try again later."

  /** One delta per word, each carrying the word and one space. */
  function Deltas(words: seq<string>): (r: seq<Chunk>)
    ensures |r| == |words|
  {
    seq(|words|, k requires 0 <= k < |words| => Delta(words[k] + " "))
  }

  /** The chunks _call_rag_api_stream yields for a reply. */
  function StreamChunks(fetch: Fetch, md: string -> string): seq<Chunk> {
    match fetch
    case RequestFailed(reason) => [ErrorChunk(Some(ConnectionTroubleText), reason)]
    case Received(result) =>
      if result.ItemList? && |result.items| > 0 then
        var item := result.items[0];
        match item.content
        case None => [ErrorChunk(None, NoContentError)]
        case Some(content) =>
          var sources := ItemSources(item);
          Deltas(Split(content, ' '))
            + (if sources != [] then [SourceDocument(sources)] else [])
            + [Complete(md(content), sources, content)]
      else [ErrorChunk(None, InvalidFormatError)]
  }

  /** _call_rag_api_stream: the reply's words as deltas, then its sources if any, then the complete reply. */
  method CallRagApiStream(fetch: Fetch, md: string -> string) returns (chunks: seq<Chunk>)
    ensures chunks == StreamChunks(fetch, md)
  {
    match fetch
    case RequestFailed(reason) =>
      chunks := [ErrorChunk(Some(ConnectionTroubleText), reason)];
    case Received(result) =>
      if !(result.ItemList? && |result.items| > 0) {
        chunks := [ErrorChunk(None, InvalidFormatError)];
        return;
      }
      var item := result.items[0];
      if item.content.None? {
        chunks := [ErrorChunk(None, NoContentError)];
        return;
      }
      var content := item.content.value;
      var words := Split(content, ' ');
      chunks := [];
      var i := 0;
      while i < |words|
        invariant 0 <= i <= |words|
        invariant chunks == Deltas(words[..i])
      {
        chunks := chunks + [Delta(words[i] + " ")];
        i := i + 1;
      }
      assert words[..i] == words;
      var sources := ItemSources(item);
      if sources != [] {
        chunks := chunks + [SourceDocument(sources)];
      }
      chunks := chunks + [Complete(md(content), sources, content)];
  }

  /** The text the deltas carry, concatenated. */
  function DeltaText(chunks: seq<Chunk>): string {
    if chunks == [] then []
    else (if chunks[0].Delta? then chunks[0].content else []) + DeltaText(chunks[1..])
  }

  lemma {:induction false} DeltaTextOfWords(words: seq<string>)
    requires |words| >= 1
    ensures DeltaText(Deltas(words)) == Join(words, ' ') + " "
  {
    var d := Deltas(words);
    assert d[0] == Delta(words[0] + " ");
    if |words| > 1 {
      assert d[1..] == Deltas(words[1..]);
      DeltaTextOfWords(words[1..]);
    } else {
      assert d[1..] == [];
    }
  }

  /**
   * For a reply with content: the deltas come first, one per ' '-separated
   * word (empty words included), and together spell the content followed by
   * one space; then a source chunk exactly when there are sources; then
   * exactly one 'complete' chunk, last, carrying the raw content.
   */
  lemma StreamOfContent(fetch: Fetch, md: string -> string)
    requires fetch.Received? && fetch.result.ItemList? && |fetch.result.items| > 0
    requires fetch.result.items[0].content.Some?
    ensures var item := fetch.result.items[0];
      var content := item.content.value;
      var sources := ItemSources(item);
      var chunks := StreamChunks(fetch, md);
      var n := |Split(content, ' ')|;
      && |chunks| == n + (if sources != [] then 1 else 0) + 1
      && (forall k :: 0 <= k < n ==> chunks[k] == Delta(Split(content, ' ')[k] + " "))
      && DeltaText(chunks[..n]) == content + " "
      && (sources != [] ==> chunks[n] == SourceDocument(sources))
      && chunks[|chunks| - 1] == Complete(md(content), sources, content)
      && (forall k :: 0 <= k < |chunks| - 1 ==> !chunks[k].Complete? && !chunks[k].ErrorChunk?)
  {
    var item := fetch.result.items[0];
    var content := item.content.value;
    var words := Split(content, ' ');
    var chunks := StreamChunks(fetch, md);
    assert chunks[..|words|] == Deltas(words);
    DeltaTextOfWords(words);
    JoinSplit(content, ' ');
  }

  /** A failed request, a reply that is not a non-empty array, or an item without content yields one error chunk. */
  lemma StreamOfFailure(fetch: Fetch, md: string -> string)
    requires !(fetch.Received? && fetch.result.ItemList? && |fetch.result.items| > 0
               && fetch.result.items[0].content.Some?)
    ensures |StreamChunks(fetch, md)| == 1 && StreamChunks(fetch, md)[0].ErrorChunk?
  {
  }

  /**
   * The streamed and the one-shot replies agree on a non-empty answer: the
   * final chunk carries the same response and sources as _call_rag_api.
   */
  lemma StreamAgreesWithReply(fetch: Fetch, md: string -> string)
    requires fetch.Received? && fetch.result.ItemList? && |fetch.result.items| > 0
    requires fetch.result.items[0].content.Some? && fetch.result.items[0].content.value != []
    ensures var last := StreamChunks(fetch, md)[|StreamChunks(fetch, md)| - 1];
      last.Complete? && RagReply(last.response, last.sources) == CallRagApi(fetch, md)
  {
  }

  // ------------------------------------------------------------ metadata per chunk

  /** A chunk after generate_response_stream added its metadata. */
  datatype StreamEvent = StreamEvent(
    chunk: Chunk, responseTimeMs: nat, modelUsed: string, success: bool,
    error: Option<string>, tokensUsed: Option<nat>)

  const StreamModel := "rag-instant-ai"

  function ChunkError(c: Chunk): Option<string> {
    if c.ErrorChunk? then Some(c.error) else None
  }

  function ChunkAccumulated(c: Chunk): string {
    if c.Complete? then c.accumulated else []
  }

  /** generate_response_stream's metadata, as written: the token branch tests for type 'success'. */
  function Decorate(message: string, c: Chunk, elapsedMs: nat): StreamEvent {
    StreamEvent(c, elapsedMs, StreamModel, TypeName(c) != "error", ChunkError(c),
      if TypeName(c) == "success" then Some(EstimateTokens(message, ChunkAccumulated(c))) else None)
  }

  /** No chunk type is ever 'success', so no chunk ever carries a token count. */
  lemma DecorateNeverCountsTokens(message: string, c: Chunk, elapsedMs: nat)
    ensures Decorate(message, c, elapsedMs).tokensUsed == None
    ensures Decorate(message, c, elapsedMs).success <==> !c.ErrorChunk?
  {
  }

  /** The corrected metadata: the complete chunk carries the token estimate of its reply. */
  function DecorateIntended(message: string, c: Chunk, elapsedMs: nat): (e: StreamEvent)
    ensures e.chunk == c && e.success <==> !c.ErrorChunk?
    ensures c.Complete? ==> e.tokensUsed == Some(EstimateTokens(message, c.accumulated))
    ensures c.Complete? ==> e.tokensUsed.value >= 1
    ensures !c.Complete? ==> e.tokensUsed == None
  {
    StreamEvent(c, elapsedMs, StreamModel, TypeName(c) != "error", ChunkError(c),
      if TypeName(c) == "complete" then Some(EstimateTokens(message, ChunkAccumulated(c))) else None)
  }

  /** generate_response_stream: every chunk of the reply, decorated in order. */
  function ResponseStream(message: string, fetch: Fetch, md: string -> string, clock: nat -> nat): (r: seq<StreamEvent>)
    ensures |r| == |StreamChunks(fetch, md)|
    ensures forall k :: 0 <= k < |r| ==> r[k] == Decorate(message, StreamChunks(fetch, md)[k], clock(k))
  {
    seq(|StreamChunks(fetch, md)|, k requires 0 <= k < |StreamChunks(fetch, md)| =>
      Decorate(message, StreamChunks(fetch, md)[k], clock(k)))
  }

  // ------------------------------------------------------------ the assistant message

  /** The assistant message's fields the stream updates. */
  datatype Reply = Reply(
    content: string, status: MessageStatus, sources: seq<string>, tokensUsed: Option<nat>,
    modelUsed: string, responseTimeMs: Option<nat>, errorMessage: string)

  /** The placeholder process_chat_message_stream creates before streaming. */
  const Placeholder := Reply([], Processing, [], None, [], None, [])

  const DefaultErrorText := "An error occurred"

  /** The chunk's 'sources' key. */
  function ChunkSources(c: Chunk): seq<string> {
    if c.Complete? then c.sources else []
  }

  /**
   * One step of process_chat_message_stream, as written: a delta stores its
   * missing 'accumulated_response' (so the content becomes ""), the 'sources'
   * branch never sees the producer's 'source_document' type, 'complete'
   * stores the final reply, 'error' marks the message failed.
   */
  function ApplyEvent(s: Reply, e: StreamEvent): Reply {
    var c := e.chunk;
    if TypeName(c) == "delta" then s.(content := [])
    else if TypeName(c) == "sources" then s.(sources := ChunkSources(c))
    else if TypeName(c) == "complete" then
      s.(content := c.response, sources := c.sources, status := Completed,
         tokensUsed := Some(e.tokensUsed.GetOr(0)), modelUsed := e.modelUsed,
         responseTimeMs := Some(e.responseTimeMs))
    else if TypeName(c) == "error" then
      s.(content := c.reply.GetOr(DefaultErrorText), status := Failed, errorMessage := e.error.GetOr(""))
    else s
  }

  function Run(s: Reply, events: seq<StreamEvent>): Reply
    decreases |events|
  {
    if events == [] then s else Run(ApplyEvent(s, events[0]), events[1..])
  }

  /** A source chunk matches none of the consumer's branches: it changes nothing. */
  lemma SourceChunkIgnored(s: Reply, e: StreamEvent)
    requires e.chunk.SourceDocument?
    ensures ApplyEvent(s, e) == s
  {
  }

  /** However many deltas arrive, the stored content is "" and nothing else changes. */
  lemma {:induction false} DeltasClearContent(s: Reply, events: seq<StreamEvent>)
    requires |events| >= 1
    requires forall k :: 0 <= k < |events| ==> events[k].chunk.Delta?
    ensures Run(s, events) == s.(content := [])
    decreases |events|
  {
    if |events| > 1 {
      DeltasClearContent(ApplyEvent(s, events[0]), events[1..]);
    }
  }

  /** What a 'complete' chunk stores. */
  lemma ApplyComplete(s: Reply, e: StreamEvent)
    requires e.chunk.Complete?
    ensures ApplyEvent(s, e) == s.(content := e.chunk.response, sources := e.chunk.sources, status := Completed,
                                   tokensUsed := Some(e.tokensUsed.GetOr(0)), modelUsed := e.modelUsed,
                                   responseTimeMs := Some(e.responseTimeMs))
  {
  }

  /** Deltas and source chunks before a 'complete' chunk leave no trace: the complete chunk decides. */
  lemma {:induction false} RunEndsWithComplete(s: Reply, events: seq<StreamEvent>)
    requires |events| >= 1 && events[|events| - 1].chunk.Complete?
    requires forall k :: 0 <= k < |events| - 1 ==> events[k].chunk.Delta? || events[k].chunk.SourceDocument?
    ensures Run(s, events) == ApplyEvent(s, events[|events| - 1])
    decreases |events|
  {
    if |events| > 1 {
      RunEndsWithComplete(ApplyEvent(s, events[0]), events[1..]);
    }
  }

  /**
   * A successful reply leaves the assistant message COMPLETED with the
   * converted reply, the item's sources, the stream's model name, and a
   * token count of 0.
   */
  lemma {:induction false} StreamCompletesMessage(message: string, fetch: Fetch, md: string -> string, clock: nat -> nat)
    requires fetch.Received? && fetch.result.ItemList? && |fetch.result.items| > 0
    requires fetch.result.items[0].content.Some?
    ensures var item := fetch.result.items[0];
      var r := Run(Placeholder, ResponseStream(message, fetch, md, clock));
      r.status == Completed && r.content == md(item.content.value) && r.sources == ItemSources(item)
      && r.tokensUsed == Some(0) && r.modelUsed == StreamModel && r.errorMessage == []
  {
    var item := fetch.result.items[0];
    var events := ResponseStream(message, fetch, md, clock);
    var chunks := StreamChunks(fetch, md);
    StreamOfContent(fetch, md);
    DecoratedChunks(message, chunks, events, fetch, md, clock);
    RunEndsWithComplete(Placeholder, events);
    var last := |events| - 1;
    assert events[last] == Decorate(message, chunks[last], clock(last));
    DecorateNeverCountsTokens(message, chunks[last], clock(last));
    ApplyComplete(Placeholder, events[last]);
  }


  /** A failed request leaves the message FAILED with the apology text and the failure's reason. */
  lemma StreamFailureFailsMessage(message: string, reason: string, md: string -> string, clock: nat -> nat)
    ensures var r := Run(Placeholder, ResponseStream(message, RequestFailed(reason), md, clock));
      r.status == Failed && r.content == ConnectionTroubleText && r.errorMessage == reason
  {
    var events := ResponseStream(message, RequestFailed(reason), md, clock);
    assert events == [Decorate(message, ErrorChunk(Some(ConnectionTroubleText), reason), clock(0))];
  }

  /** A reply without usable content leaves the message FAILED with the default text. */
  lemma StreamInvalidFailsMessage(message: string, fetch: Fetch, md: string -> string, clock: nat -> nat)
    requires fetch.Received?
    requires !(fetch.result.ItemList? && |fetch.result.items| > 0 && fetch.result.items[0].content.Some?)
    ensures var r := Run(Placeholder, ResponseStream(message, fetch, md, clock));
      r.status == Failed && r.content == DefaultErrorText
      && (r.errorMessage == NoContentError || r.errorMessage == InvalidFormatError)
  {
    var events := ResponseStream(message, fetch, md, clock);
    var c := StreamChunks(fetch, md)[0];
    assert events == [Decorate(message, c, clock(0))];
  }

  /** The message's stream-updated fields. */
  function ReplyOf(m: ChatMessage): Reply
    reads m
  {
    Reply(m.content, m.status, m.sources, m.tokensUsed, m.modelUsed, m.responseTimeMs, m.errorMessage)
  }

  /** Some event of the stream is a 'complete' chunk. */
  predicate Completes(events: seq<StreamEvent>) {
    exists k :: 0 <= k < |events| && events[k].chunk.Complete?
  }

  /** The prefix one event longer completes iff the shorter one does or that event is 'complete'. */
  lemma CompletesStep(events: seq<StreamEvent>, i: nat)
    requires i < |events|
    ensures Completes(events[..i + 1]) <==> Completes(events[..i]) || events[i].chunk.Complete?
  {
    if events[i].chunk.Complete? {
      assert events[..i + 1][i] == events[i];
    }
    if Completes(events[..i]) {
      var k :| 0 <= k < i && events[..i][k].chunk.Complete?;
      assert events[..i + 1][k] == events[..i][k];
    }
  }

  /**
   * The chunk loop of process_chat_message_stream: a fresh assistant
   * placeholder, then each chunk applied in order. Each 'complete' chunk
   * runs the conversation's update_stats over its messages, `earlier` (those
   * before the placeholder, the user's new message among them) followed by
   * the assistant's.
   */
  method ConsumeStream(conversation: Conversation, earlier: seq<MessageRow>, events: seq<StreamEvent>)
    returns (assistant: ChatMessage)
    modifies conversation
    ensures fresh(assistant) && assistant.messageType == AssistantMessage
    ensures ReplyOf(assistant) == Run(Placeholder, events)
    ensures Completes(events) ==>
      && conversation.Fields() == WithStats(old(conversation.Fields()), earlier + [assistant.Row()])
      && conversation.stored == old(conversation.stored).(totalMessages := |earlier| + 1,
           totalTokensUsed := TokenSum(earlier) + assistant.tokensUsed.GetOr(0))
    ensures !Completes(events) ==> conversation.Fields() == old(conversation.Fields()) && conversation.stored == old(conversation.stored)
  {
    assistant := new ChatMessage(AssistantMessage, [], Processing);
    ghost var f0, s0 := conversation.Fields(), conversation.stored;
    ghost var completed := false;
    var i := 0;
    while i < |events|
      invariant 0 <= i <= |events|
      invariant assistant.messageType == AssistantMessage
      invariant Run(Placeholder, events) == Run(ReplyOf(assistant), events[i..])
      invariant completed == Completes(events[..i])
      invariant completed ==> Counted(conversation, f0, s0, earlier, assistant.Row())
      invariant !completed ==> conversation.Fields() == f0 && conversation.stored == s0
      modifies assistant, conversation
    {
      RunStep(Placeholder, events, i, ReplyOf(assistant));
      ApplyStreamEvent(assistant, conversation, earlier, events[i], f0, s0, completed);
      CompletesStep(events, i);
      completed := completed || events[i].chunk.Complete?;
      i := i + 1;
    }
    assert events[..i] == events;
    if Completes(events) {
      TokenSumAppend(earlier, assistant.Row());
      UpdateStatsStoresOnlyCounters(s0, f0, earlier + [assistant.Row()]);
    }
  }

  /** The conversation holds the counts of `earlier` and `row`, and only the counters are written. */
  ghost predicate Counted(c: Conversation, f0: ConversationFields, s0: ConversationFields,
                          earlier: seq<MessageRow>, row: MessageRow)
    reads c
  {
    && c.Fields() == WithStats(f0, earlier + [row])
    && c.stored == SaveConversationColumns(s0, c.Fields(), StatsColumns)
  }

  /**
   * One pass of the chunk loop: the event applied to the assistant message
   * and, for a 'complete' chunk, update_stats over the messages.
   */
  method ApplyStreamEvent(assistant: ChatMessage, conversation: Conversation, earlier: seq<MessageRow>,
                          e: StreamEvent, ghost f0: ConversationFields, ghost s0: ConversationFields,
                          ghost completed: bool)
    requires assistant.messageType == AssistantMessage
    requires completed ==> Counted(conversation, f0, s0, earlier, assistant.Row())
    requires !completed ==> conversation.Fields() == f0 && conversation.stored == s0
    modifies assistant, conversation
    ensures ReplyOf(assistant) == ApplyEvent(old(ReplyOf(assistant)), e)
    ensures assistant.messageType == AssistantMessage
    ensures completed || e.chunk.Complete? ==> Counted(conversation, f0, s0, earlier, assistant.Row())
    ensures !(completed || e.chunk.Complete?) ==> conversation.Fields() == f0 && conversation.stored == s0
  {
    ghost var before := assistant.Row();
    SetReply(assistant, ApplyEvent(ReplyOf(assistant), e));
    if TypeName(e.chunk) == "complete" {
      conversation.UpdateStats(earlier + [assistant.Row()]);
      if completed {
        WithStatsAgain(f0, earlier, before, assistant.Row());
      }
    } else if completed {
      WithStatsIgnoresContent(f0, earlier, before, assistant.Row());
    }
  }

  /** Writes a reply into the message's stream-updated fields. */
  method SetReply(m: ChatMessage, r: Reply)
    modifies m
    ensures ReplyOf(m) == r && m.messageType == old(m.messageType)
  {
    m.content, m.status, m.sources := r.content, r.status, r.sources;
    m.tokensUsed, m.modelUsed := r.tokensUsed, r.modelUsed;
    m.responseTimeMs, m.errorMessage := r.responseTimeMs, r.errorMessage;
  }

  /** Applying one more event of a stream: the rest of the run starts from its effect. */
  lemma RunStep(s: Reply, events: seq<StreamEvent>, i: nat, mid: Reply)
    requires i < |events| && Run(s, events) == Run(mid, events[i..])
    ensures Run(s, events) == Run(ApplyEvent(mid, events[i]), events[i + 1..])
  {
    assert events[i..][1..] == events[i + 1..];
  }

  /**
   * The corrected consumer: a delta appends its text, a 'source_document'
   * chunk stores its sources, and the rest is as written.
   */
  function ApplyEventIntended(s: Reply, e: StreamEvent): Reply {
    var c := e.chunk;
    match c
    case Delta(text) => s.(content := s.content + text)
    case SourceDocument(source) => s.(sources := source)
    case _ => ApplyEvent(s, e)
  }

  function RunIntended(s: Reply, events: seq<StreamEvent>): Reply
    decreases |events|
  {
    if events == [] then s else RunIntended(ApplyEventIntended(s, events[0]), events[1..])
  }

  lemma {:induction false} RunIntendedDeltas(s: Reply, events: seq<StreamEvent>)
    requires forall k :: 0 <= k < |events| ==> events[k].chunk.Delta?
    ensures RunIntended(s, events) == s.(content := s.content + DeltaText(seq(|events|, k requires 0 <= k < |events| => events[k].chunk)))
    decreases |events|
  {
    var cs := seq(|events|, k requires 0 <= k < |events| => events[k].chunk);
    if events != [] {
      var s1 := ApplyEventIntended(s, events[0]);
      RunIntendedDeltas(s1, events[1..]);
      var cs1 := seq(|events| - 1, k requires 0 <= k < |events| - 1 => events[1..][k].chunk);
      assert cs[1..] == cs1;
      assert s1.content + DeltaText(cs1) == s.content + DeltaText(cs);
    }
  }

  /**
   * With the corrected consumer, once all deltas of a reply have arrived the
   * stored content is the reply's text (plus the trailing space), and once
   * the source chunk has arrived the sources are stored.
   */
  lemma {:induction false} StreamIntendedShowsPartialReply(message: string, fetch: Fetch, md: string -> string, clock: nat -> nat)
    requires fetch.Received? && fetch.result.ItemList? && |fetch.result.items| > 0
    requires fetch.result.items[0].content.Some?
    ensures var item := fetch.result.items[0];
      var content := item.content.value;
      var events := ResponseStream(message, fetch, md, clock);
      var n := |Split(content, ' ')|;
      var m := n + (if ItemSources(item) != [] then 1 else 0);
      RunIntended(Placeholder, events[..n]).content == content + " "
      && RunIntended(Placeholder, events[..m]).sources == ItemSources(item)
  {
    var item := fetch.result.items[0];
    var content := item.content.value;
    var events := ResponseStream(message, fetch, md, clock);
    var chunks := StreamChunks(fetch, md);
    var n := |Split(content, ' ')|;
    StreamOfContent(fetch, md);
    DecoratedChunks(message, chunks, events, fetch, md, clock);
    IntendedPrefixes(events, chunks, n, content, ItemSources(item));
  }

  /** The corrected consumer over a stream that opens with deltas spelling `content`, then any sources. */
  lemma IntendedPrefixes(events: seq<StreamEvent>, chunks: seq<Chunk>, n: nat, content: string, sources: seq<string>)
    requires n <= |events| == |chunks|
    requires forall k :: 0 <= k < |events| ==> events[k].chunk == chunks[k]
    requires forall k :: 0 <= k < n ==> chunks[k].Delta?
    requires DeltaText(chunks[..n]) == content + " "
    requires sources != [] ==> n < |chunks| && chunks[n] == SourceDocument(sources)
    ensures RunIntended(Placeholder, events[..n]).content == content + " "
    ensures RunIntended(Placeholder, events[..n + (if sources != [] then 1 else 0)]).sources == sources
  {
    DeltaPrefixContent(events, chunks, n);
    if sources != [] {
      SourceAfterDeltas(events, n, sources);
    }
  }

  /** The decorated stream carries the reply's chunks, one event per chunk. */
  lemma DecoratedChunks(message: string, chunks: seq<Chunk>, events: seq<StreamEvent>,
                        fetch: Fetch, md: string -> string, clock: nat -> nat)
    requires chunks == StreamChunks(fetch, md) && events == ResponseStream(message, fetch, md, clock)
    ensures |events| == |chunks| && forall k :: 0 <= k < |events| ==> events[k].chunk == chunks[k]
  {
  }

  /** Under the corrected consumer, a prefix of deltas leaves the text they carry. */
  lemma DeltaPrefixContent(events: seq<StreamEvent>, chunks: seq<Chunk>, n: nat)
    requires n <= |events| == |chunks|
    requires forall k :: 0 <= k < |events| ==> events[k].chunk == chunks[k]
    requires forall k :: 0 <= k < n ==> chunks[k].Delta?
    ensures RunIntended(Placeholder, events[..n]) == Placeholder.(content := DeltaText(chunks[..n]))
  {
    var pre := events[..n];
    RunIntendedDeltas(Placeholder, pre);
    var cs := seq(|pre|, k requires 0 <= k < |pre| => pre[k].chunk);
    assert cs == chunks[..n];
  }

  /** A source chunk after the deltas stores its sources under the corrected consumer. */
  lemma SourceAfterDeltas(events: seq<StreamEvent>, n: nat, sources: seq<string>)
    requires n < |events| && events[n].chunk == SourceDocument(sources)
    ensures RunIntended(Placeholder, events[..n + 1]).sources == sources
  {
    assert events[..n + 1] == events[..n] + [events[n]];
    RunIntendedAppend(Placeholder, events[..n], [events[n]]);
  }

  lemma {:induction false} RunIntendedAppend(s: Reply, a: seq<StreamEvent>, b: seq<StreamEvent>)
    ensures RunIntended(s, a + b) == RunIntended(RunIntended(s, a), b)
    decreases |a|
  {
    if a != [] {
      assert (a + b)[1..] == a[1..] + b;
      RunIntendedAppend(ApplyEventIntended(s, a[0]), a[1..], b);
    } else {
      assert a + b == b;
    }
  }
}

=== FILE: chat_views.dfy ===
/**
 * Chat endpoints: moving and pinning conversations, the history handed to
 * the knowledge base, the feedback decision and its summary, and who may
 * change a template. The feedback service's HTTP calls are not modelled;
 * its analytics reply is given as the list of feedback types it returned.
 */
module ChatViews {
  import opened Wrappers
  import opened Http
  import opened ChatModels

  /** The position of the requester's conversation with this id, if any. */
  function FindConversation(convs: seq<Conversation>, id: nat, owner: nat): (r: Option<nat>)
    reads set c | c in convs
    ensures r.Some? ==> r.value < |convs| && convs[r.value].id == id && convs[r.value].owner == owner
    ensures r.None? ==> forall k :: 0 <= k < |convs| ==> !(convs[k].id == id && convs[k].owner == owner)
  {
    if convs == [] then None
    else if convs[0].id == id && convs[0].owner == owner then Some(0)
    else match FindConversation(convs[1..], id, owner)
      case None => None
      case Some(k) => Some(k + 1)
  }

  /**
   * move_conversation_to_folder: a falsy folder id moves the conversation to
   * the root; otherwise the folder must be the requester's. A missing
   * conversation or folder raises Http404 inside the view's try block, which
   * its catch-all turns into 400. The plain save writes every column.
   */
  method MoveConversationToFolder(convs: seq<Conversation>, folders: seq<FolderRef>, requester: nat,
                                  convId: nat, folderId: Option<nat>, rows: seq<MessageRow>)
    returns (status: Status)
    modifies set c | c in convs
    ensures var found := old(FindConversation(convs, convId, requester));
      var folderOk := folderId.None? || exists f :: f in folders && f.id == folderId.value && f.owner == requester;
      && (status == Ok200 <==> found.Some? && folderOk)
      && (status != Ok200 ==> status == BadRequest400 && forall c :: c in convs ==> unchanged(c))
      && (status == Ok200 ==> var c := convs[found.value];
            && c.Fields() == old(c.Fields()).(folder := folderId, title := TitleAfterSave(old(c.title), rows))
            && c.stored == c.Fields()
            && forall d :: d in convs && d != c ==> unchanged(d))
  {
    var found := FindConversation(convs, convId, requester);
    if found.None? {
      return BadRequest400;
    }
    if folderId.Some? && !(exists f :: f in folders && f.id == folderId.value && f.owner == requester) {
      return BadRequest400;
    }
    var c := convs[found.value];
    c.folder := folderId;
    c.Save(rows, AllConversationColumns);
    status := Ok200;
  }

  datatype FolderRef = FolderRef(id: nat, owner: nat)

  /**
   * pin_conversation: 'is_pinned' defaults to true; a missing conversation
   * is 404. The save names only is_pinned, so a title the title rule fills
   * in stays in memory and is not written.
   */
  method PinConversation(convs: seq<Conversation>, requester: nat, convId: nat, isPinned: Option<bool>, rows: seq<MessageRow>)
    returns (status: Status)
    modifies set c | c in convs
    ensures var found := old(FindConversation(convs, convId, requester));
      && (status == Ok200 <==> found.Some?)
      && (status != Ok200 ==> status == NotFound404 && forall c :: c in convs ==> unchanged(c))
      && (status == Ok200 ==> var c := convs[found.value];
            && c.Fields() == old(c.Fields()).(isPinned := isPinned.GetOr(true), title := TitleAfterSave(old(c.title), rows))
            && c.stored == old(c.stored).(isPinned := isPinned.GetOr(true))
            && forall d :: d in convs && d != c ==> unchanged(d))
  {
    var found := FindConversation(convs, convId, requester);
    if found.None? {
      return NotFound404;
    }
    var c := convs[found.value];
    c.isPinned := isPinned.GetOr(true);
    c.Save(rows, {PinnedColumn});
    status := Ok200;
  }

  // ------------------------------------------------------------ history for the knowledge base

  datatype RagMessage = RagMessage(messageType: MessageType, content: string)

  const RagHistoryLength := 4

  /**
   * RAGConversationHistoryView.post: 404 unless the conversation exists and
   * the requester is an admin or its owner; then 400 for an empty question;
   * otherwise the question tagged 'user' followed by the last four messages
   * (given oldest first) in chronological order, each with its own type.
   */
  method RagConversationHistory(isAdmin: bool, requester: nat, owner: Option<nat>,
                                rows: seq<MessageRow>, currentQuestion: Option<string>)
    returns (status: Status, out: seq<RagMessage>)
    ensures status == NotFound404 <==> owner.None? || (!isAdmin && owner.value != requester)
    ensures status == BadRequest400 <==> status != NotFound404 && currentQuestion.GetOr("") == []
    ensures status != Ok200 ==> out == []
    ensures status == Ok200 ==>
      var m := if |rows| < RagHistoryLength then |rows| else RagHistoryLength;
      && |out| == 1 + m
      && out[0] == RagMessage(UserMessage, currentQuestion.value)
      && forall k :: 1 <= k < |out| ==> out[k] == RagMessage(rows[|rows| - m + k - 1].messageType, rows[|rows| - m + k - 1].content)
    ensures status == Ok200 || status == NotFound404 || status == BadRequest400
  {
    out := [];
    if owner.None? || (!isAdmin && owner.value != requester) {
      return NotFound404, [];
    }
    var question := currentQuestion.GetOr("");
    if question == [] {
      return BadRequest400, [];
    }
    var m := if |rows| < RagHistoryLength then |rows| else RagHistoryLength;
    var lastMessages := seq(m, j requires 0 <= j < m => rows[|rows| - 1 - j]);
    out := [RagMessage(UserMessage, question)];
    var j := m;
    while j > 0
      invariant 0 <= j <= m
      invariant |out| == 1 + m - j
      invariant out[0] == RagMessage(UserMessage, question)
      invariant forall k :: 1 <= k < |out| ==> out[k] == RagMessage(rows[|rows| - m + k - 1].messageType, rows[|rows| - m + k - 1].content)
    {
      j := j - 1;
      out := out + [RagMessage(lastMessages[j].messageType, lastMessages[j].content)];
    }
    status := Ok200;
  }

  // ------------------------------------------------------------ feedback

  datatype FeedbackType = ThumbsUp | ThumbsDown

  /** FeedbackView.post: question and answer are required; the comment decides the thumb. */
  function FeedbackDecision(question: string, answer: string, comment: string): (r: Result<FeedbackType>)
    ensures r.Failure? <==> question == [] || answer == []
    ensures r.Success? ==> (r.value == ThumbsUp <==> comment == "thumb up")
  {
    if question == [] || answer == [] then Failure("Question and answer are required")
    else Success(if comment == "thumb up" then ThumbsUp else ThumbsDown)
  }

  /** Any comment other than exactly "thumb up" counts as a thumbs-down. */
  lemma OnlyExactCommentIsThumbsUp()
    ensures FeedbackDecision("q", "a", "thumb up") == Success(ThumbsUp)
    ensures FeedbackDecision("q", "a", "Thumb up") == Success(ThumbsDown)
    ensures FeedbackDecision("q", "a", "") == Success(ThumbsDown)
  {
  }

  datatype FeedbackSummary = FeedbackSummary(total: nat, thumbsUp: nat, thumbsDown: nat, satisfactionRate: real)

  function CountType(types: seq<string>, t: string): (n: nat)
    ensures n <= |types|
  {
    if types == [] then 0 else (if types[0] == t then 1 else 0) + CountType(types[1..], t)
  }

  lemma {:induction false} TwoTypesAtMostAll(types: seq<string>)
    ensures CountType(types, "thumbs_up") + CountType(types, "thumbs_down") <= |types|
  {
    if types != [] {
      TwoTypesAtMostAll(types[1..]);
    }
  }

  /** The share of thumbs-up in percent, 0 when there is no feedback. */
  function SatisfactionRate(up: nat, total: nat): (rate: real)
    requires up <= total
    ensures total == 0 ==> rate == 0.0
    ensures 0.0 <= rate <= 100.0
    ensures total > 0 ==> rate * (total as real) == 100.0 * (up as real)
  {
    if total > 0 then
      var q := up as real / total as real;
      assert 0.0 <= q <= 1.0;
      q * 100.0
    else 0.0
  }

  /**
   * RAGFeedbackAnalyticsView's summary of the feedback types the service
   * returned (before rounding the rate to two decimals).
   */
  function SummarizeFeedback(types: seq<string>): (r: FeedbackSummary)
    ensures r.total == |types| && r.thumbsUp + r.thumbsDown <= r.total
    ensures r.thumbsUp == CountType(types, "thumbs_up") && r.thumbsDown == CountType(types, "thumbs_down")
    ensures r.total == 0 ==> r.satisfactionRate == 0.0
    ensures 0.0 <= r.satisfactionRate <= 100.0
  {
    var up := CountType(types, "thumbs_up");
    var down := CountType(types, "thumbs_down");
    TwoTypesAtMostAll(types);
    FeedbackSummary(|types|, up, down, SatisfactionRate(up, |types|))
  }

  // ------------------------------------------------------------ templates

  datatype TemplateAccess = TemplateAccess(isPublic: bool, createdBy: Option<nat>)

  datatype HttpMethod = Get | Put | Patch | Delete

  /**
   * ChatTemplateDetailView: a template outside the requester's queryset
   * (admins see all, others public or their own) is 404; changing it needs
   * an admin or its creator, else 403.
   */
  function TemplateDetailAccess(m: HttpMethod, isAdmin: bool, user: nat, t: TemplateAccess): (s: Status)
    ensures s == NotFound404 <==> !isAdmin && !t.isPublic && t.createdBy != Some(user)
    ensures s == Forbidden403 <==> s != NotFound404 && m != Get && !isAdmin && t.createdBy != Some(user)
    ensures s == Ok200 || s == NotFound404 || s == Forbidden403
  {
    if !(isAdmin || t.isPublic || t.createdBy == Some(user)) then NotFound404
    else if (m.Put? || m.Patch? || m.Delete?) && !(isAdmin || t.createdBy == Some(user)) then Forbidden403
    else Ok200
  }

  /** A non-admin can read but never change another user's public template; an admin can do anything. */
  lemma TemplateChangesNeedOwnership(m: HttpMethod, user: nat, t: TemplateAccess)
    ensures t.isPublic && t.createdBy != Some(user) ==>
      TemplateDetailAccess(Get, false, user, t) == Ok200 && (m != Get ==> TemplateDetailAccess(m, false, user, t) == Forbidden403)
    ensures TemplateDetailAccess(m, true, user, t) == Ok200
  {
  }
}

=== FILE: cleanup_analytics.dfy ===
/**
 * The cleanup_analytics command: per kind of analytics record, a retention
 * cutoff from the command's options; the records older than it counted
 * (dry run) or deleted in batches; the counts added up. The database is an
 * object with one table per kind. Every record is reduced to what the
 * selection reads: its id, one time stamp and one flag.
 */
module CleanupAnalytics {
  import opened Wrappers
  import opened AnalyticsModels
  import Datetimes

  /** The six kinds of record the command cleans, in the order it cleans them. */
  datatype Kind = Events | Activity | Metrics | Reports | FeatureUsage | ErrorLogs

  /**
   * What the selection of a record reads. `stamp` is the creation time of
   * an event, the date (a day number) of an activity, metrics or feature
   * usage row, the completion time of a report and the resolution time of
   * an error log; `flag` is "completed" for a report and "resolved" for an
   * error log.
   */
  datatype Rec = Rec(id: nat, stamp: Option<int>, flag: bool)

  // ---------------------------------------------------------------- cutoffs

  /** The retention of one kind: its own option when given and non-zero, else --days. */
  function RetentionDays(kind: Kind, overrides: map<Kind, int>, days: int): (r: int)
    ensures kind in overrides && overrides[kind] != 0 ==> r == overrides[kind]
    ensures kind !in overrides || overrides[kind] == 0 ==> r == days
  {
    if kind in overrides && overrides[kind] != 0 then overrides[kind] else days
  }

  /** The cutoff time of one kind: now minus its retention. */
  function CutoffFor(kind: Kind, overrides: map<Kind, int>, days: int, now: int): int {
    now - RetentionDays(kind, overrides, days) * SecondsPerDay
  }

  /** A retention of 0 days counts as not given: the kind falls back to --days. */
  lemma ZeroOverrideFallsBack(kind: Kind, overrides: map<Kind, int>, days: int, now: int)
    ensures CutoffFor(kind, overrides[kind := 0], days, now) == CutoffFor(kind, overrides - {kind}, days, now)
    ensures CutoffFor(kind, overrides - {kind}, days, now) == now - days * SecondsPerDay
  {
  }

  /**
   * The cutoff of one kind as `now - timedelta(days=...)` computes it: the
   * cutoff time, or the OverflowError of a retention too long for a
   * timedelta or reaching past the representable dates.
   */
  function CutoffOrError(kind: Kind, overrides: map<Kind, int>, days: int, now: int): (r: Result<int>)
    ensures r.Success? <==> -Datetimes.MaxDeltaDays <= RetentionDays(kind, overrides, days) <= Datetimes.MaxDeltaDays
                            && Datetimes.TimeInRange(CutoffFor(kind, overrides, days, now))
    ensures r.Success? ==> r.value == CutoffFor(kind, overrides, days, now)
  {
    Datetimes.SubtractDays(now, RetentionDays(kind, overrides, days))
  }

  /** The kinds in the order `_calculate_cutoff_dates` computes their cutoffs. */
  const CutoffOrder: seq<Kind> := [Events, Activity, Metrics, Reports, FeatureUsage, ErrorLogs]

  /** The message of the first of `kinds` whose cutoff cannot be computed, if any. */
  function FirstCutoffError(kinds: seq<Kind>, overrides: map<Kind, int>, days: int, now: int): (r: Option<string>)
    ensures r.None? <==> forall i :: 0 <= i < |kinds| ==> CutoffOrError(kinds[i], overrides, days, now).Success?
    ensures r.Some? ==> exists i :: 0 <= i < |kinds| && CutoffOrError(kinds[i], overrides, days, now) == Failure(r.value)
  {
    if kinds == [] then None
    else match CutoffOrError(kinds[0], overrides, days, now)
      case Failure(e) => Some(e)
      case Success(_) =>
        var rest := FirstCutoffError(kinds[1..], overrides, days, now);
        assert forall i :: 1 <= i < |kinds| ==> kinds[i] == kinds[1..][i - 1];
        rest
  }

  /** A longer retention never moves the cutoff later. */
  lemma LongerRetentionEarlierCutoff(kind: Kind, overrides: map<Kind, int>, days: int, longer: int, now: int)
    requires kind !in overrides && days <= longer
    ensures CutoffFor(kind, overrides, longer, now) <= CutoffFor(kind, overrides, days, now)
  {
    assert longer * SecondsPerDay - days * SecondsPerDay == (longer - days) * SecondsPerDay;
  }

  // ---------------------------------------------------------------- selection

  /** The day a time falls on. */
  function DayOf(t: int): int {
    t / SecondsPerDay
  }

  /**
   * The queryset of each cleanup: events created before the cutoff; rows
   * dated before the cutoff's day; completed reports completed before the
   * cutoff; resolved error logs resolved before it. A missing stamp never
   * compares.
   */
  predicate Selected(kind: Kind, r: Rec, cutoff: int) {
    match kind
    case Events => r.stamp.Some? && r.stamp.value < cutoff
    case Activity => r.stamp.Some? && r.stamp.value < DayOf(cutoff)
    case Metrics => r.stamp.Some? && r.stamp.value < DayOf(cutoff)
    case FeatureUsage => r.stamp.Some? && r.stamp.value < DayOf(cutoff)
    case Reports => r.flag && r.stamp.Some? && r.stamp.value < cutoff
    case ErrorLogs => r.flag && r.stamp.Some? && r.stamp.value < cutoff
  }

  /** Only completed reports and resolved error logs are ever selected. */
  lemma OnlyFinishedReportsAndLogs(r: Rec, cutoff: int)
    ensures Selected(Reports, r, cutoff) ==> r.flag
    ensures Selected(ErrorLogs, r, cutoff) ==> r.flag
    ensures Selected(Reports, r, cutoff) <==> r.flag && Selected(Events, r, cutoff)
  {
  }

  /** A dated row is kept through the whole day the cutoff falls on, even before the cutoff time. */
  lemma CutoffDayIsKept(cutoff: int)
    ensures !Selected(Activity, Rec(0, Some(DayOf(cutoff)), false), cutoff)
    ensures Selected(Activity, Rec(0, Some(DayOf(cutoff) - 1), false), cutoff)
  {
  }

  /** The selected records, in table order. */
  function Matching(rows: seq<Rec>, kind: Kind, cutoff: int): (r: seq<Rec>)
    ensures |r| <= |rows|
    ensures forall k :: 0 <= k < |r| ==> Selected(kind, r[k], cutoff)
  {
    if rows == [] then []
    else if Selected(kind, rows[0], cutoff) then [rows[0]] + Matching(rows[1..], kind, cutoff)
    else Matching(rows[1..], kind, cutoff)
  }

  /** The records the selection leaves alone, in table order. */
  function Kept(rows: seq<Rec>, kind: Kind, cutoff: int): (r: seq<Rec>)
    ensures |r| <= |rows|
    ensures forall k :: 0 <= k < |r| ==> !Selected(kind, r[k], cutoff)
  {
    if rows == [] then []
    else if Selected(kind, rows[0], cutoff) then Kept(rows[1..], kind, cutoff)
    else [rows[0]] + Kept(rows[1..], kind, cutoff)
  }

  /** Every record is either selected or kept. */
  lemma {:induction false} MatchingAndKeptSplit(rows: seq<Rec>, kind: Kind, cutoff: int)
    ensures |Matching(rows, kind, cutoff)| + |Kept(rows, kind, cutoff)| == |rows|
  {
    if rows != [] {
      MatchingAndKeptSplit(rows[1..], kind, cutoff);
    }
  }

  /** Keeping is idempotent, and after it nothing is selected. */
  lemma {:induction false} KeptIsClean(rows: seq<Rec>, kind: Kind, cutoff: int)
    ensures Matching(Kept(rows, kind, cutoff), kind, cutoff) == []
    ensures Kept(Kept(rows, kind, cutoff), kind, cutoff) == Kept(rows, kind, cutoff)
  {
    if rows != [] {
      KeptIsClean(rows[1..], kind, cutoff);
    }
  }

  /** A table with nothing selected is what the selection keeps. */
  lemma {:induction false} NothingMatchingAllKept(rows: seq<Rec>, kind: Kind, cutoff: int)
    requires Matching(rows, kind, cutoff) == []
    ensures Kept(rows, kind, cutoff) == rows
  {
    if rows != [] {
      NothingMatchingAllKept(rows[1..], kind, cutoff);
    }
  }

  // ---------------------------------------------------------------- batches

  /** The ids of the first n records. */
  function FirstIds(rows: seq<Rec>, n: nat): (r: set<nat>)
    ensures n > 0 && rows != [] ==> rows[0].id in r
    ensures n == 0 || rows == [] ==> r == {}
  {
    if n == 0 || rows == [] then {} else {rows[0].id} + FirstIds(rows[1..], n - 1)
  }

  /** queryset.filter(id__in=ids).delete(): the selected records with those ids go. */
  function RemoveBatch(rows: seq<Rec>, kind: Kind, cutoff: int, ids: set<nat>): seq<Rec> {
    if rows == [] then []
    else if Selected(kind, rows[0], cutoff) && rows[0].id in ids then RemoveBatch(rows[1..], kind, cutoff, ids)
    else [rows[0]] + RemoveBatch(rows[1..], kind, cutoff, ids)
  }

  /**
   * A batch delete leaves the unselected records as they were, removes
   * some selected ones, and at least one when the first selected record's
   * id is in the batch.
   */
  lemma {:induction false} RemoveBatchEffect(rows: seq<Rec>, kind: Kind, cutoff: int, ids: set<nat>)
    ensures var after := RemoveBatch(rows, kind, cutoff, ids);
      && Kept(after, kind, cutoff) == Kept(rows, kind, cutoff)
      && |rows| - |after| == |Matching(rows, kind, cutoff)| - |Matching(after, kind, cutoff)|
      && |after| <= |rows|
      && (Matching(rows, kind, cutoff) != [] && Matching(rows, kind, cutoff)[0].id in ids ==> |after| < |rows|)
  {
    if rows != [] {
      RemoveBatchEffect(rows[1..], kind, cutoff, ids);
    }
  }

  /** The records whose id is in the set. */
  function CountIn(rows: seq<Rec>, ids: set<nat>): nat {
    if rows == [] then 0 else (if rows[0].id in ids then 1 else 0) + CountIn(rows[1..], ids)
  }

  /** No two records share an id, as primary keys guarantee. */
  predicate DistinctIds(rows: seq<Rec>) {
    forall i, j :: 0 <= i < j < |rows| ==> rows[i].id != rows[j].id
  }

  /** A batch holds at most batch_size ids. */
  lemma {:induction false} FirstIdsBound(rows: seq<Rec>, n: nat)
    ensures |FirstIds(rows, n)| <= n
  {
    if n > 0 && rows != [] {
      FirstIdsBound(rows[1..], n - 1);
    }
  }

  /** A batch delete removes exactly the selected records whose id is in the batch. */
  lemma {:induction false} RemoveBatchCount(rows: seq<Rec>, kind: Kind, cutoff: int, ids: set<nat>)
    ensures |rows| - |RemoveBatch(rows, kind, cutoff, ids)| == CountIn(Matching(rows, kind, cutoff), ids)
  {
    if rows != [] {
      RemoveBatchCount(rows[1..], kind, cutoff, ids);
      if Selected(kind, rows[0], cutoff) {
        assert Matching(rows, kind, cutoff)[1..] == Matching(rows[1..], kind, cutoff);
      }
    }
  }

  /** An id no record carries changes no count. */
  lemma {:induction false} CountInIgnoresAbsent(rows: seq<Rec>, ids: set<nat>, x: nat)
    requires forall k :: 0 <= k < |rows| ==> rows[k].id != x
    ensures CountIn(rows, ids + {x}) == CountIn(rows, ids)
  {
    if rows != [] {
      CountInIgnoresAbsent(rows[1..], ids, x);
    }
  }

  /** Among records with distinct ids, the first n ids pick out at most n records. */
  lemma {:induction false} FirstIdsPickAtMost(rows: seq<Rec>, n: nat)
    requires DistinctIds(rows)
    ensures CountIn(rows, FirstIds(rows, n)) <= n
  {
    if rows == [] {
    } else if n == 0 {
      CountInNone(rows);
    } else {
      var rest := rows[1..];
      assert DistinctIds(rest) by {
        forall i, j | 0 <= i < j < |rest| ensures rest[i].id != rest[j].id {
          assert rest[i] == rows[i + 1] && rest[j] == rows[j + 1];
        }
      }
      FirstIdsPickAtMost(rest, n - 1);
      assert forall k :: 0 <= k < |rest| ==> rest[k].id != rows[0].id by {
        forall k | 0 <= k < |rest| ensures rest[k].id != rows[0].id {
          assert rest[k] == rows[k + 1];
        }
      }
      CountInIgnoresAbsent(rest, FirstIds(rest, n - 1), rows[0].id);
      assert FirstIds(rows, n) == FirstIds(rest, n - 1) + {rows[0].id};
    }
  }

  /** No ids pick out no records. */
  lemma {:induction false} CountInNone(rows: seq<Rec>)
    ensures CountIn(rows, {}) == 0
  {
    if rows != [] {
      CountInNone(rows[1..]);
    }
  }

  /** The selected records of a table with distinct ids have distinct ids. */
  lemma {:induction false} MatchingKeepsDistinctIds(rows: seq<Rec>, kind: Kind, cutoff: int)
    requires DistinctIds(rows)
    ensures DistinctIds(Matching(rows, kind, cutoff))
    ensures forall k :: 0 <= k < |Matching(rows, kind, cutoff)| ==> Matching(rows, kind, cutoff)[k] in rows
  {
    if rows != [] {
      var rest := rows[1..];
      assert DistinctIds(rest) by {
        forall i, j | 0 <= i < j < |rest| ensures rest[i].id != rest[j].id {
          assert rest[i] == rows[i + 1] && rest[j] == rows[j + 1];
        }
      }
      MatchingKeepsDistinctIds(rest, kind, cutoff);
      var m := Matching(rest, kind, cutoff);
      if Selected(kind, rows[0], cutoff) {
        forall k | 0 <= k < |m| ensures m[k].id != rows[0].id {
          var j :| 0 <= j < |rest| && rest[j] == m[k];
          assert rows[j + 1] == m[k];
        }
      }
    }
  }

  /** In a table with distinct ids, one batch deletes at most batch_size records. */
  lemma BatchDeletesAtMostBatchSize(rows: seq<Rec>, kind: Kind, cutoff: int, batchSize: nat)
    requires DistinctIds(rows)
    ensures var batch := FirstIds(Matching(rows, kind, cutoff), batchSize);
      |rows| - |RemoveBatch(rows, kind, cutoff, batch)| <= batchSize
  {
    var m := Matching(rows, kind, cutoff);
    RemoveBatchCount(rows, kind, cutoff, FirstIds(m, batchSize));
    MatchingKeepsDistinctIds(rows, kind, cutoff);
    FirstIdsPickAtMost(m, batchSize);
  }

  const NegativeSlice := "Negative indexing is not supported."

  /** The contents of the six tables. */
  datatype Tables = Tables(events: seq<Rec>, activity: seq<Rec>, metrics: seq<Rec>, reports: seq<Rec>,
                           featureUsage: seq<Rec>, errorLogs: seq<Rec>)
  {
    function Get(kind: Kind): seq<Rec> {
      match kind
      case Events => events
      case Activity => activity
      case Metrics => metrics
      case Reports => reports
      case FeatureUsage => featureUsage
      case ErrorLogs => errorLogs
    }

    /** The same tables with one of them replaced. */
    function Set(kind: Kind, rows: seq<Rec>): (r: Tables)
      ensures r.Get(kind) == rows
    {
      match kind
      case Events => this.(events := rows)
      case Activity => this.(activity := rows)
      case Metrics => this.(metrics := rows)
      case Reports => this.(reports := rows)
      case FeatureUsage => this.(featureUsage := rows)
      case ErrorLogs => this.(errorLogs := rows)
    }

    function Size(): nat {
      |events| + |activity| + |metrics| + |reports| + |featureUsage| + |errorLogs|
    }
  }

  /** The records of one kind a run selects. */
  function Expired(t: Tables, kind: Kind, overrides: map<Kind, int>, days: int, now: int): seq<Rec> {
    Matching(t.Get(kind), kind, CutoffFor(kind, overrides, days, now))
  }

  /** What a run leaves of one kind. */
  function Left(t: Tables, kind: Kind, overrides: map<Kind, int>, days: int, now: int): seq<Rec> {
    Kept(t.Get(kind), kind, CutoffFor(kind, overrides, days, now))
  }

  /** The number of records a run counts or deletes, over all kinds. */
  function ExpiredTotal(t: Tables, overrides: map<Kind, int>, days: int, now: int): nat {
    |Expired(t, Events, overrides, days, now)| + |Expired(t, Activity, overrides, days, now)|
    + |Expired(t, Metrics, overrides, days, now)| + |Expired(t, Reports, overrides, days, now)|
    + |Expired(t, FeatureUsage, overrides, days, now)| + |Expired(t, ErrorLogs, overrides, days, now)|
  }

  /** The tables after a run that deletes. */
  function Cleaned(t: Tables, overrides: map<Kind, int>, days: int, now: int): Tables {
    Tables(Left(t, Events, overrides, days, now), Left(t, Activity, overrides, days, now),
           Left(t, Metrics, overrides, days, now), Left(t, Reports, overrides, days, now),
           Left(t, FeatureUsage, overrides, days, now), Left(t, ErrorLogs, overrides, days, now))
  }

  /**
   * A deleting run removes exactly the records it counts: every table
   * keeps its unselected records, and the total count plus what is left
   * is what there was.
   */
  lemma CleanedRemovesWhatItCounts(t: Tables, overrides: map<Kind, int>, days: int, now: int)
    ensures forall k :: Cleaned(t, overrides, days, now).Get(k) == Left(t, k, overrides, days, now)
    ensures ExpiredTotal(t, overrides, days, now) + Cleaned(t, overrides, days, now).Size() == t.Size()
  {
    forall k: Kind {
      MatchingAndKeptSplit(t.Get(k), k, CutoffFor(k, overrides, days, now));
    }
  }

  /** A second deleting run with the same options finds nothing and changes nothing. */
  lemma CleanedIsClean(t: Tables, overrides: map<Kind, int>, days: int, now: int)
    ensures ExpiredTotal(Cleaned(t, overrides, days, now), overrides, days, now) == 0
    ensures Cleaned(Cleaned(t, overrides, days, now), overrides, days, now) == Cleaned(t, overrides, days, now)
  {
    forall k: Kind {
      KeptIsClean(t.Get(k), k, CutoffFor(k, overrides, days, now));
    }
  }

  /** The analytics tables, one per kind of record. */
  class AnalyticsDb {
    var events: seq<Rec>
    var activity: seq<Rec>
    var metrics: seq<Rec>
    var reports: seq<Rec>
    var featureUsage: seq<Rec>
    var errorLogs: seq<Rec>

    constructor (contents: Tables)
      ensures Contents() == contents
    {
      events, activity, metrics := contents.events, contents.activity, contents.metrics;
      reports, featureUsage, errorLogs := contents.reports, contents.featureUsage, contents.errorLogs;
    }

    function Contents(): Tables
      reads this
    {
      Tables(events, activity, metrics, reports, featureUsage, errorLogs)
    }

    /** Replaces one table. */
    method SetRows(kind: Kind, rows: seq<Rec>)
      modifies this
      ensures Contents() == old(Contents()).Set(kind, rows)
    {
      match kind
      case Events => events := rows;
      case Activity => activity := rows;
      case Metrics => metrics := rows;
      case Reports => reports := rows;
      case FeatureUsage => featureUsage := rows;
      case ErrorLogs => errorLogs := rows;
    }

    /**
     * _delete_in_batches: take the ids of the first batch_size selected
     * records and delete those records, until a batch comes back empty.
     * With a positive size every selected record goes and the count is
     * theirs; a size of 0 deletes nothing; a negative size cannot slice.
     */
    method DeleteInBatches(kind: Kind, cutoff: int, batchSize: int) returns (r: Result<nat>)
      modifies this
      ensures batchSize < 0 ==> r == Failure(NegativeSlice)
      ensures batchSize == 0 ==> r == Success(0)
      ensures batchSize <= 0 ==> Contents() == old(Contents())
      ensures batchSize > 0 ==> r == Success(|Matching(old(Contents()).Get(kind), kind, cutoff)|)
                                && Contents() == old(Contents()).Set(kind, Kept(old(Contents()).Get(kind), kind, cutoff))
    {
      if batchSize < 0 {
        return Failure(NegativeSlice);
      }
      ghost var before := Contents();
      var total := 0;
      while true
        invariant Kept(Contents().Get(kind), kind, cutoff) == Kept(before.Get(kind), kind, cutoff)
        invariant total + |Matching(Contents().Get(kind), kind, cutoff)| == |Matching(before.Get(kind), kind, cutoff)|
        invariant batchSize == 0 ==> total == 0 && Contents() == before
        invariant Contents() == before.Set(kind, Contents().Get(kind))
        decreases |Contents().Get(kind)|
      {
        var rows := Contents().Get(kind);
        var batch := FirstIds(Matching(rows, kind, cutoff), batchSize);
        if batch == {} {
          break;
        }
        var after := RemoveBatch(rows, kind, cutoff, batch);
        RemoveBatchEffect(rows, kind, cutoff, batch);
        SetRows(kind, after);
        total := total + (|rows| - |after|);
      }
      if batchSize > 0 {
        NothingMatchingAllKept(Contents().Get(kind), kind, cutoff);
      }
      r := Success(total);
    }

    /**
     * One _cleanup_* step: the selected records are counted; a dry run
     * returns that count, otherwise they are deleted in batches.
     */
    method Cleanup(kind: Kind, cutoff: int, dryRun: bool, batchSize: int) returns (r: Result<nat>)
      modifies this
      ensures r == Step(old(Contents()), kind, cutoff, dryRun, batchSize).result
      ensures Contents() == Step(old(Contents()), kind, cutoff, dryRun, batchSize).tables
    {
      if dryRun {
        return Success(|Matching(Contents().Get(kind), kind, cutoff)|);
      }
      r := DeleteInBatches(kind, cutoff, batchSize);
    }
  }

  /** What a run returns and leaves behind. */
  datatype Outcome = Outcome(result: Result<nat>, tables: Tables)

  /**
   * One cleanup step on the tables: a dry run counts the selected records;
   * otherwise a positive batch size deletes and counts them, a size of 0
   * does nothing and a negative one fails.
   */
  function Step(t: Tables, kind: Kind, cutoff: int, dryRun: bool, batchSize: int): Outcome {
    var selected := Matching(t.Get(kind), kind, cutoff);
    if dryRun then Outcome(Success(|selected|), t)
    else if batchSize < 0 then Outcome(Failure(NegativeSlice), t)
    else if batchSize == 0 then Outcome(Success(0), t)
    else Outcome(Success(|selected|), t.Set(kind, Kept(t.Get(kind), kind, cutoff)))
  }

  /** The step of one kind with its own cutoff. */
  function StepOf(t: Tables, kind: Kind, overrides: map<Kind, int>, days: int, dryRun: bool, batchSize: int, now: int): Outcome {
    Step(t, kind, CutoffFor(kind, overrides, days, now), dryRun, batchSize)
  }

  /**
   * One more kind of a run: after a failure nothing more happens; otherwise
   * the kind's step runs, its error ends the run as "Cleanup failed: ...",
   * and its count is added to the total so far.
   */
  function Then(o: Outcome, kind: Kind, overrides: map<Kind, int>, days: int, dryRun: bool, batchSize: int, now: int): Outcome {
    if o.result.Failure? then o
    else
      var s := StepOf(o.tables, kind, overrides, days, dryRun, batchSize, now);
      if s.result.Failure? then Outcome(Failure("Cleanup failed: " + s.result.error), s.tables)
      else Outcome(Success(o.result.value + s.result.value), s.tables)
  }

  /** A whole run: the six kinds in turn from a total of 0. */
  function Run(t: Tables, overrides: map<Kind, int>, days: int, dryRun: bool, batchSize: int, now: int): Outcome {
    var e := Then(Outcome(Success(0), t), Events, overrides, days, dryRun, batchSize, now);
    var a := Then(e, Activity, overrides, days, dryRun, batchSize, now);
    var m := Then(a, Metrics, overrides, days, dryRun, batchSize, now);
    var p := Then(m, Reports, overrides, days, dryRun, batchSize, now);
    var f := Then(p, FeatureUsage, overrides, days, dryRun, batchSize, now);
    Then(f, ErrorLogs, overrides, days, dryRun, batchSize, now)
  }

  /**
   * The whole command: the six cutoffs first, then the run. A cutoff that
   * overflows ends the command as "Cleanup failed: ..." before any table
   * is read.
   */
  function Command(t: Tables, overrides: map<Kind, int>, days: int, dryRun: bool, batchSize: int, now: int): Outcome {
    match FirstCutoffError(CutoffOrder, overrides, days, now)
    case Some(e) => Outcome(Failure("Cleanup failed: " + e), t)
    case None => Run(t, overrides, days, dryRun, batchSize, now)
  }

  /**
   * A retention of --days longer than the time since 0001-01-01 makes the
   * first cutoff leave the representable dates: the command fails with
   * "date value out of range" and changes nothing.
   */
  lemma RetentionBeforeYearOneFails(t: Tables, days: int, dryRun: bool, batchSize: int, now: int)
    requires Datetimes.TimeInRange(now)
    requires now / Datetimes.SecondsInDay - Datetimes.FirstDay < days <= Datetimes.MaxDeltaDays
    ensures Command(t, map[], days, dryRun, batchSize, now)
         == Outcome(Failure("Cleanup failed: " + Datetimes.DateOutOfRange), t)
  {
    var cutoff := now - days * SecondsPerDay;
    assert cutoff / SecondsPerDay == now / SecondsPerDay - days by {
      DivShift(now, days);
    }
    assert CutoffOrError(Events, map[], days, now) == Failure(Datetimes.DateOutOfRange);
  }

  /** Moving a time back by whole days moves its day back by as many. */
  lemma DivShift(t: int, days: int)
    ensures (t - days * SecondsPerDay) / SecondsPerDay == t / SecondsPerDay - days
  {
    var q, m := t / SecondsPerDay, t % SecondsPerDay;
    assert t - days * SecondsPerDay == (q - days) * SecondsPerDay + m;
  }

  /**
   * With every retention between 0 and the days since 0001-01-01, the
   * cutoffs are representable and the command is the run of the six kinds.
   */
  lemma ReasonableRetentionRuns(t: Tables, overrides: map<Kind, int>, days: int, dryRun: bool, batchSize: int, now: int)
    requires Datetimes.TimeInRange(now)
    requires forall k: Kind :: 0 <= RetentionDays(k, overrides, days) <= now / Datetimes.SecondsInDay - Datetimes.FirstDay
    ensures Command(t, overrides, days, dryRun, batchSize, now) == Run(t, overrides, days, dryRun, batchSize, now)
  {
    forall i | 0 <= i < |CutoffOrder|
      ensures CutoffOrError(CutoffOrder[i], overrides, days, now).Success?
    {
      var d := RetentionDays(CutoffOrder[i], overrides, days);
      DivShift(now, d);
    }
  }

  /** A dry run counts every expired record and changes nothing. */
  lemma DryRunOnlyCounts(t: Tables, overrides: map<Kind, int>, days: int, batchSize: int, now: int)
    ensures Run(t, overrides, days, true, batchSize, now) == Outcome(Success(ExpiredTotal(t, overrides, days, now)), t)
  {
  }

  /** A deleting run with a positive batch size deletes exactly the expired records and returns their number. */
  lemma DeletingRunCleans(t: Tables, overrides: map<Kind, int>, days: int, batchSize: int, now: int)
    requires batchSize > 0
    ensures Run(t, overrides, days, false, batchSize, now)
         == Outcome(Success(ExpiredTotal(t, overrides, days, now)), Cleaned(t, overrides, days, now))
  {
    var e := StepOf(t, Events, overrides, days, false, batchSize, now);
    var a := StepOf(e.tables, Activity, overrides, days, false, batchSize, now);
    var m := StepOf(a.tables, Metrics, overrides, days, false, batchSize, now);
    var p := StepOf(m.tables, Reports, overrides, days, false, batchSize, now);
    var f := StepOf(p.tables, FeatureUsage, overrides, days, false, batchSize, now);
    assert f.tables.errorLogs == t.errorLogs;
  }

  /** A negative batch size fails on the first kind, before anything is deleted. */
  lemma NegativeBatchFails(t: Tables, overrides: map<Kind, int>, days: int, batchSize: int, now: int)
    requires batchSize < 0
    ensures Run(t, overrides, days, false, batchSize, now) == Outcome(Failure("Cleanup failed: " + NegativeSlice), t)
  {
  }

  /** A batch size of 0 deletes nothing and reports 0, whatever has expired. */
  lemma ZeroBatchDeletesNothing(t: Tables, overrides: map<Kind, int>, days: int, now: int)
    ensures Run(t, overrides, days, false, 0, now) == Outcome(Success(0), t)
  {
  }

  /**
   * One kind of handle: its step runs on the tables; an error is wrapped
   * as "Cleanup failed: ..." and its count is otherwise added to the total.
   */
  method CleanupAndAdd(db: AnalyticsDb, kind: Kind, overrides: map<Kind, int>, days: int, dryRun: bool,
                       batchSize: int, now: int, total: nat) returns (r: Result<nat>)
    modifies db
    ensures Outcome(r, db.Contents()) == Then(Outcome(Success(total), old(db.Contents())), kind, overrides, days, dryRun, batchSize, now)
  {
    var deleted := db.Cleanup(kind, CutoffFor(kind, overrides, days, now), dryRun, batchSize);
    if deleted.Failure? {
      return Failure("Cleanup failed: " + deleted.error);
    }
    r := Success(total + deleted.value);
  }

  /**
   * handle: the cutoffs of the six kinds are computed first; then every
   * kind is cleaned in turn and its count added to the total. The first
   * error ends the run as "Cleanup failed: ...".
   */
  method Handle(db: AnalyticsDb, overrides: map<Kind, int>, days: int, dryRun: bool, batchSize: int, now: int)
    returns (r: Result<nat>)
    modifies db
    ensures Outcome(r, db.Contents()) == Command(old(db.Contents()), overrides, days, dryRun, batchSize, now)
  {
    var cutoffError := FirstCutoffError(CutoffOrder, overrides, days, now);
    if cutoffError.Some? {
      return Failure("Cleanup failed: " + cutoffError.value);
    }
    r := CleanupAndAdd(db, Events, overrides, days, dryRun, batchSize, now, 0);
    if r.Failure? {
      return;
    }
    r := CleanupAndAdd(db, Activity, overrides, days, dryRun, batchSize, now, r.value);
    if r.Failure? {
      return;
    }
    r := CleanupAndAdd(db, Metrics, overrides, days, dryRun, batchSize, now, r.value);
    if r.Failure? {
      return;
    }
    r := CleanupAndAdd(db, Reports, overrides, days, dryRun, batchSize, now, r.value);
    if r.Failure? {
      return;
    }
    r := CleanupAndAdd(db, FeatureUsage, overrides, days, dryRun, batchSize, now, r.value);
    if r.Failure? {
      return;
    }
    r := CleanupAndAdd(db, ErrorLogs, overrides, days, dryRun, batchSize, now, r.value);
  }
}

=== FILE: datetimes.dfy ===
/**
 * The limits of Python's date, datetime and timedelta types that the
 * commands and views run into. Dates are day numbers and times are seconds,
 * both counted from 1970-01-01 (day 0, second 0), so a time t falls on day
 * t / 86400 (floor division). A date must lie between 0001-01-01 and
 * 9999-12-31; a timedelta may not span more than 999,999,999 days.
 */
module Datetimes {
  import opened Wrappers
  import Text

  /** date.min, 0001-01-01, and date.max, 9999-12-31, as day numbers. */
  const FirstDay: int := -719162
  const LastDay: int := 2932896

  const SecondsInDay: int := 86400

  /** timedelta.max.days */
  const MaxDeltaDays: int := 999999999

  /** The range of a C int, through which timedelta passes its day count. */
  const CIntMin: int := -0x8000_0000
  const CIntMax: int := 0x7FFF_FFFF

  const DateOutOfRange := "date value out of range"
  const CIntOverflow := "Python int too large to convert to C int"

  predicate DayInRange(day: int) {
    FirstDay <= day <= LastDay
  }

  /** A Python date. */
  type Date = day: int | FirstDay <= day <= LastDay witness 0

  /** A time falls on a representable date. */
  predicate TimeInRange(t: int) {
    DayInRange(t / SecondsInDay)
  }

  /**
   * The OverflowError of a timedelta of `days` whole days, if any: a count
   * outside C's int cannot be converted at all, and one of more than
   * 999,999,999 days in magnitude is refused with its own message.
   */
  function DeltaError(days: int): (r: Option<string>)
    ensures r.None? <==> -MaxDeltaDays <= days <= MaxDeltaDays
    ensures (days < CIntMin || CIntMax < days) ==> r == Some(CIntOverflow)
  {
    if days < CIntMin || CIntMax < days then Some(CIntOverflow)
    else if days < -MaxDeltaDays || MaxDeltaDays < days then
      Some("days=" + Text.IntToText(days) + "; must have magnitude <= 999999999")
    else None
  }

  /**
   * timedelta(hours=h): the hours are normalised to h // 24 days and the
   * rest, so the day count is the floor of h / 24.
   */
  function HoursDeltaError(hours: int): (r: Option<string>)
    ensures r.None? <==> -MaxDeltaDays * 24 <= hours < (MaxDeltaDays + 1) * 24
  {
    DeltaError(hours / 24)
  }

  /**
   * The time `now - timedelta(days=days)`, or the OverflowError's message:
   * first that of the timedelta, then "date value out of range" when the
   * result leaves the representable dates.
   */
  function SubtractDays(now: int, days: int): (r: Result<int>)
    ensures DeltaError(days).Some? ==> r == Failure(DeltaError(days).value)
    ensures DeltaError(days).None? && !TimeInRange(now - days * SecondsInDay) ==> r == Failure(DateOutOfRange)
    ensures r.Success? <==> -MaxDeltaDays <= days <= MaxDeltaDays && TimeInRange(now - days * SecondsInDay)
    ensures r.Success? ==> r.value == now - days * SecondsInDay
  {
    match DeltaError(days)
    case Some(e) => Failure(e)
    case None =>
      var t := now - days * SecondsInDay;
      if TimeInRange(t) then Success(t) else Failure(DateOutOfRange)
  }

  /**
   * The time `t + timedelta(days=days)`, or the OverflowError's message:
   * first that of the timedelta, then "date value out of range" when the
   * sum leaves the representable dates.
   */
  function AddDays(t: int, days: int): (r: Result<int>)
    ensures DeltaError(days).Some? ==> r == Failure(DeltaError(days).value)
    ensures DeltaError(days).None? && !TimeInRange(t + days * SecondsInDay) ==> r == Failure(DateOutOfRange)
    ensures r.Success? <==> -MaxDeltaDays <= days <= MaxDeltaDays && TimeInRange(t + days * SecondsInDay)
    ensures r.Success? ==> r.value == t + days * SecondsInDay
  {
    match DeltaError(days)
    case Some(e) => Failure(e)
    case None =>
      var sum := t + days * SecondsInDay;
      if TimeInRange(sum) then Success(sum) else Failure(DateOutOfRange)
  }

  /** Whole days move the day number by exactly that many days. */
  lemma ShiftDays(t: int, days: int)
    ensures (t + days * SecondsInDay) / SecondsInDay == t / SecondsInDay + days
  {
    var q, m := t / SecondsInDay, t % SecondsInDay;
    assert t + days * SecondsInDay == (q + days) * SecondsInDay + m;
  }

  /** Two representable times lie at most the whole date range apart in days. */
  lemma InRangeShiftBounded(t: int, days: int)
    requires TimeInRange(t) && TimeInRange(t + days * SecondsInDay)
    ensures FirstDay - LastDay <= days <= LastDay - FirstDay
  {
    ShiftDays(t, days);
  }

  /** `day + timedelta(days=1)` on a date: the next day, or an OverflowError after 9999-12-31. */
  function NextDay(day: Date): (r: Result<Date>)
    ensures r.Failure? <==> day == LastDay
    ensures r.Failure? ==> r.error == DateOutOfRange
    ensures r.Success? ==> r.value == day + 1
  {
    if day == LastDay then Failure(DateOutOfRange) else Success(day + 1)
  }

  /** `day - timedelta(days=1)` on a date: the day before, or an OverflowError before 0001-01-01. */
  function PreviousDay(day: Date): (r: Result<Date>)
    ensures r.Failure? <==> day == FirstDay
    ensures r.Failure? ==> r.error == DateOutOfRange
    ensures r.Success? ==> r.value == day - 1
  {
    if day == FirstDay then Failure(DateOutOfRange) else Success(day - 1)
  }
}

=== FILE: fields.dfy ===
/**
 * The character fields of Django REST framework serializers, as every
 * serializer here declares them: what a field does with the submitted value
 * before the serializer's own validate_<field> method sees it.
 */
module Fields {
  import opened Wrappers
  import opened Text

  const RequiredError := "This field is required."
  const BlankError := "This field may not be blank."
  /** The message of Django's EmailValidator, which DRF's EmailField also uses. */
  const InvalidEmail := "Enter a valid email address."

  function MaxLengthError(n: nat): string {
    "Ensure this field has no more than " + NatToText(n) + " characters."
  }

  /**
   * A DRF CharField with its defaults (required, blank refused, whitespace
   * trimmed), as it runs before any validate_<field> method: a missing
   * value is required, a blank one refused, and the trimmed text must fit
   * max_length when the field has one.
   */
  function CharFieldValue(data: Option<string>, maxLength: Option<nat>): (r: Result<string>)
    ensures data.None? ==> r == Failure(RequiredError)
    ensures data.Some? && IsBlank(data.value) ==> r == Failure(BlankError)
    ensures data.Some? && !IsBlank(data.value) && maxLength.Some? && |Strip(data.value)| > maxLength.value
      ==> r == Failure(MaxLengthError(maxLength.value))
    ensures r.Success? <==> data.Some? && !IsBlank(data.value) && (maxLength.None? || |Strip(data.value)| <= maxLength.value)
    ensures r.Success? ==> r.value == Strip(data.value) && r.value != [] && IsStripped(r.value)
  {
    if data.None? then Failure(RequiredError)
    else if data.value == [] || Strip(data.value) == [] then Failure(BlankError)
    else
      var text := Strip(data.value);
      if maxLength.Some? && |text| > maxLength.value then Failure(MaxLengthError(maxLength.value))
      else Success(text)
  }

  /** The submitted value of a field, if the request has one. */
  function Lookup<K, V>(data: map<K, V>, key: K): (r: Option<V>)
    ensures r.Some? <==> key in data
    ensures r.Some? ==> r.value == data[key]
  {
    if key in data then Some(data[key]) else None
  }

  /** One field's outcome: its cleaned value, or its messages (never none). */
  const InvalidBoolean := "Must be a valid boolean."
  /** The texts a DRF BooleanField reads as true, and those it reads as false. */
  const TrueTexts: set<string> := {"t", "T", "y", "Y", "yes", "Yes", "YES", "true", "True", "TRUE", "on", "On", "ON", "1"}
  const FalseTexts: set<string> := {"f", "F", "n", "N", "no", "No", "NO", "false", "False", "FALSE", "off", "Off", "OFF", "0"}

  /**
   * A DRF BooleanField(default=False) fed from a form: a missing or empty
   * value takes the default; the true and false texts read as such; any
   * other text, "null" included (the field does not allow null), is refused.
   */
  function FormBooleanValue(data: Option<string>): (r: Result<bool>)
    ensures r.Success? <==> data.None? || data.value == "" || data.value in TrueTexts || data.value in FalseTexts
    ensures r.Failure? ==> r.error == InvalidBoolean
    ensures r == Success(true) <==> data.Some? && data.value in TrueTexts
  {
    match data
    case None => Success(false)
    case Some(text) =>
      if text == "" then Success(false)
      else if text in TrueTexts then Success(true)
      else if text in FalseTexts then Success(false)
      else Failure(InvalidBoolean)
  }

  /** Python's own spelling of a boolean, as a form would send it, reads back as that boolean. */
  lemma BooleanTextReadsBack(b: bool)
    ensures FormBooleanValue(Some(if b then "True" else "False")) == Success(b)
  {
    if !b {
      assert "False" !in TrueTexts;
    }
  }

  datatype FieldResult = Clean(value: string) | Rejected(messages: seq<string>)

  /** A message list when the condition holds, else none. */
  function If(c: bool, m: string): (r: seq<string>)
    ensures r == [] <==> !c
    ensures m in r <==> c
    ensures forall x :: x in r ==> x == m
  {
    if c then [m] else []
  }

  /** A required CharField without validators of its own: trimmed, blank refused. */
  function PlainField(data: Option<string>): (r: FieldResult)
    ensures r.Clean? <==> data.Some? && !IsBlank(data.value)
    ensures r.Clean? ==> r.value == Strip(data.value)
    ensures data.None? ==> r == Rejected([RequiredError])
    ensures data.Some? && IsBlank(data.value) ==> r == Rejected([BlankError])
  {
    match CharFieldValue(data, None)
    case Failure(m) => Rejected([m])
    case Success(v) => Clean(v)
  }

  /** A CharField allowed blank: trimmed, of at most `maxLength` characters. */
  function BlankableField(data: string, maxLength: nat): (r: FieldResult)
    ensures r.Clean? <==> |Strip(data)| <= maxLength
    ensures r.Clean? ==> r.value == Strip(data)
    ensures r.Rejected? ==> r.messages == [MaxLengthError(maxLength)]
  {
    if |Strip(data)| > maxLength then Rejected([MaxLengthError(maxLength)]) else Clean(Strip(data))
  }

  /**
   * A serializer's verdict: the validated data, or the messages of each
   * field that failed and those of the object-level check.
   */
  datatype Validation<K, T> = Valid(data: T) | Invalid(fieldErrors: map<K, seq<string>>, nonFieldErrors: seq<string>)

  predicate AllClean<K(!new)>(results: map<K, FieldResult>) {
    forall k :: k in results ==> results[k].Clean?
  }

  /** The messages of each field that failed, under its name. */
  function ErrorsOf<K(!new)>(results: map<K, FieldResult>): (r: map<K, seq<string>>)
    ensures forall k :: k in r <==> k in results && results[k].Rejected?
    ensures forall k :: k in r ==> r[k] == results[k].messages
    ensures r == map[] <==> AllClean(results)
  {
    map k | k in results && results[k].Rejected? :: results[k].messages
  }

  function CleanedOf<K(!new)>(results: map<K, FieldResult>): (r: map<K, string>)
    requires AllClean(results)
    ensures r.Keys == results.Keys
    ensures forall k :: k in r ==> r[k] == results[k].value
  {
    map k | k in results :: results[k].value
  }

  /**
   * Serializer.is_valid over fields whose validate() demands that fields `a`
   * and `b` agree: field messages first; only when there are none does the
   * object-level check run.
   */
  function ValidateMatching<K(!new)>(results: map<K, FieldResult>, a: K, b: K, mismatch: string): (r: Validation<K, map<K, string>>)
    requires a in results && b in results
    ensures !AllClean(results) ==> r == Invalid(ErrorsOf(results), [])
    ensures AllClean(results) && results[a].value != results[b].value ==> r == Invalid(map[], [mismatch])
    ensures r.Valid? <==> AllClean(results) && results[a].value == results[b].value
    ensures r.Valid? ==> r.data.Keys == results.Keys && forall k :: k in r.data ==> r.data[k] == results[k].value
  {
    if !AllClean(results) then Invalid(ErrorsOf(results), [])
    else if results[a].value != results[b].value then Invalid(map[], [mismatch])
    else Valid(CleanedOf(results))
  }
}

=== FILE: file_filters.dfy ===
/**
 * The two custom filters of the file list: by tag (a comma-separated query
 * matched case-insensitively against the stored tag list's JSON text) and
 * by owner (username or e-mail contains the value).
 */
module FileFilters {
  import opened Text
  import opened Seqs
  import opened FileModels

  /** The tags of the query: every comma-separated piece, stripped and lower-cased. */
  function ParseTagQuery(value: string): (r: seq<string>)
    ensures |r| == |Split(value, ',')| == Occurrences(value, ',') + 1
    ensures forall i :: 0 <= i < |r| ==> r[i] == Lower(Strip(Split(value, ',')[i]))
  {
    SplitLength(value, ',');
    var pieces := Split(value, ',');
    seq(|pieces|, i requires 0 <= i < |pieces| => Lower(Strip(pieces[i])))
  }

  /** The comma-separated quoted items of a JSON list of strings (escaping is not modelled). */
  function JsonItems(tags: seq<string>): string {
    if tags == [] then ""
    else if |tags| == 1 then "\"" + tags[0] + "\""
    else "\"" + tags[0] + "\", " + JsonItems(tags[1..])
  }

  /** The text of the stored tags field the icontains lookup searches. */
  function TagsText(tags: seq<string>): string {
    "[" + JsonItems(tags) + "]"
  }

  /** The disjunction the filter builds: some query tag occurs in the file's tag text. */
  predicate MatchesAnyTag(f: FileRecord, query: seq<string>) {
    exists i :: 0 <= i < |query| && IContains(TagsText(f.tags), query[i])
  }

  /** filter_by_tags: an empty value keeps the queryset; otherwise the files matching some query tag. */
  function FilterByTags(files: seq<FileRecord>, value: string): seq<FileRecord> {
    if value == [] then files
    else
      var query := ParseTagQuery(value);
      Filter((f: FileRecord) => MatchesAnyTag(f, query), files)
  }

  /** A non-empty query keeps exactly the files of the queryset that match one of its tags. */
  lemma TagFilterMembership(files: seq<FileRecord>, value: string, f: FileRecord)
    requires value != []
    ensures f in FilterByTags(files, value) <==> f in files && MatchesAnyTag(f, ParseTagQuery(value))
  {
    var query := ParseTagQuery(value);
    var p := (g: FileRecord) => MatchesAnyTag(g, query);
    var r := Filter(p, files);
    if f in r {
      var k :| 0 <= k < |r| && r[k] == f;
    }
    if f in files && MatchesAnyTag(f, query) {
      var k :| 0 <= k < |files| && files[k] == f;
    }
  }

  /** Every string contains the empty string. */
  lemma ContainsEmpty(hay: string)
    ensures IContains(hay, "")
  {
    assert Lower("") == "";
    assert StartsWith(Lower(hay), "");
  }

  /**
   * A query with an empty piece (two adjacent commas, a leading or trailing
   * comma, or a blank piece) keeps every file.
   */
  lemma EmptyPieceMatchesEverything(files: seq<FileRecord>, value: string)
    requires value != [] && "" in ParseTagQuery(value)
    ensures FilterByTags(files, value) == files
  {
    var query := ParseTagQuery(value);
    var i :| 0 <= i < |query| && query[i] == "";
    forall k | 0 <= k < |files| ensures MatchesAnyTag(files[k], query) {
      ContainsEmpty(TagsText(files[k].tags));
    }
    FilterAll((f: FileRecord) => MatchesAnyTag(f, query), files);
  }

  /** "a,,b" has an empty middle piece, so it matches every file. */
  lemma DoubleCommaMatchesEverything(files: seq<FileRecord>)
    ensures FilterByTags(files, "a,,b") == files
  {
    assert Split("b", ',') == ["b"] by {
      assert "b"[0] == 'b' && "b"[1..] == [];
      assert Split([], ',') == [""];
      assert ['b'] + "" == "b";
    }
    assert Split(",b", ',') == ["", "b"] by {
      assert ",b"[0] == ',' && ",b"[1..] == "b";
    }
    assert Split(",,b", ',') == ["", "", "b"] by {
      assert ",,b"[0] == ',' && ",,b"[1..] == ",b";
    }
    assert Split("a,,b", ',') == ["a", "", "b"] by {
      assert "a,,b"[0] == 'a' && "a,,b"[1..] == ",,b";
      assert ['a'] + "" == "a";
      assert ["", "", "b"][1..] == ["", "b"];
    }
    assert ParseTagQuery("a,,b")[1] == Lower(Strip(""));
    assert Strip("") == "";
    assert Lower("") == "";
    EmptyPieceMatchesEverything(files, "a,,b");
  }

  /** filter_by_owner: the owner's username or e-mail contains the value, case-insensitively. */
  function FilterByOwner(files: seq<FileRecord>, value: string, usernameOf: nat -> string, emailOf: nat -> string)
    : (r: seq<FileRecord>)
    ensures forall k :: 0 <= k < |r| ==> r[k] in files && (IContains(usernameOf(r[k].owner), value) || IContains(emailOf(r[k].owner), value))
    ensures forall k :: 0 <= k < |files| && (IContains(usernameOf(files[k].owner), value) || IContains(emailOf(files[k].owner), value)) ==> files[k] in r
  {
    Filter((f: FileRecord) => IContains(usernameOf(f.owner), value) || IContains(emailOf(f.owner), value), files)
  }
}

=== FILE: file_models.dfy ===
/**
 * Stored files and their shares: the soft-delete / restore life cycle, the
 * download counter, the category derived from a MIME type, and share
 * expiry. Time is an integer number of seconds; "now" is a parameter.
 */
module FileModels {
  import opened Wrappers
  import opened Text

  datatype FileCategory = Document | Image | Video | Audio | Archive | Other

  datatype FileStatus = Uploading | Processing | Completed | Failed | Deleted

  // ---------------------------------------------------------------- categories

  const DocumentMimeTypes: seq<string> := [
    "application/pdf", "application/msword",
    "application/vnd.openxmlformats-officedocument.wordprocessingml.document",
    "application/vnd.ms-excel",
    "application/vnd.openxmlformats-officedocument.spreadsheetml.sheet",
    "application/vnd.ms-powerpoint",
    "application/vnd.openxmlformats-officedocument.presentationml.presentation",
    "text/plain", "text/csv"
  ]

  const ArchiveMimeTypes: seq<string> := [
    "application/zip", "application/x-rar-compressed", "application/x-tar", "application/gzip"
  ]

  /**
   * The category of a MIME type: the image/, video/ and audio/ prefixes are
   * checked first, then the document list, then the archive list; anything
   * else is Other. The file service's copy of this rule is the same text.
   */
  function CategoryFromMimeType(mime: string): (r: FileCategory)
    ensures r == Image <==> StartsWith(mime, "image/")
    ensures r == Video <==> !StartsWith(mime, "image/") && StartsWith(mime, "video/")
    ensures r == Audio <==> !StartsWith(mime, "image/") && !StartsWith(mime, "video/") && StartsWith(mime, "audio/")
    ensures r == Document ==> mime in DocumentMimeTypes
    ensures r == Archive ==> mime in ArchiveMimeTypes
    ensures r == Other ==> mime !in DocumentMimeTypes && mime !in ArchiveMimeTypes
  {
    if StartsWith(mime, "image/") then Image
    else if StartsWith(mime, "video/") then Video
    else if StartsWith(mime, "audio/") then Audio
    else if mime in DocumentMimeTypes then Document
    else if mime in ArchiveMimeTypes then Archive
    else Other
  }

  /**
   * The prefix tests never claim an application/ or text/ type, so for
   * those (every listed type is one) the two lists alone decide.
   */
  lemma ListsDecideApplicationAndTextTypes(mime: string)
    requires StartsWith(mime, "application/") || StartsWith(mime, "text/")
    ensures CategoryFromMimeType(mime) ==
      if mime in DocumentMimeTypes then Document else if mime in ArchiveMimeTypes then Archive else Other
  {
    assert mime[0] == 'a' || mime[0] == 't';
    assert "image/"[0] == 'i' && "video/"[0] == 'v' && "audio/"[0] == 'a' && "audio/"[1] == 'u';
    assert StartsWith(mime, "application/") ==> mime[1] == 'p';
    assert StartsWith(mime, "text/") ==> mime[0] == 't';
  }

  // ---------------------------------------------------------------- life cycle

  /** The two fields soft deletion and restoring touch. */
  datatype Lifecycle = Lifecycle(status: FileStatus, deletedAt: Option<nat>)

  predicate IsDeletedState(l: Lifecycle) {
    l.deletedAt.Some?
  }

  function SoftDeleted(l: Lifecycle, now: nat): (r: Lifecycle)
    ensures IsDeletedState(r) && r.status == Deleted && r.deletedAt == Some(now)
  {
    Lifecycle(Deleted, Some(now))
  }

  function Restored(l: Lifecycle): (r: Lifecycle)
    ensures !IsDeletedState(r) && r.status == Completed
  {
    Lifecycle(Completed, None)
  }

  /**
   * Restoring after a soft delete always ends live and Completed, whatever
   * the status was before (an Uploading or Failed file included).
   */
  lemma RestoreUndoesSoftDelete(l: Lifecycle, now: nat)
    ensures Restored(SoftDeleted(l, now)) == Lifecycle(Completed, None)
    ensures !IsDeletedState(Restored(SoftDeleted(l, now)))
    ensures l.status == Completed && l.deletedAt.None? ==> Restored(SoftDeleted(l, now)) == l
  {
  }

  /**
   * A stored file. Its owner is a user id; times are seconds. The fields no
   * modelled operation changes are constants.
   */
  class File {
    const id: nat
    const owner: nat
    const originalName: string
    const fileName: string
    const fileSize: nat
    const fileType: string
    const fileExtension: string
    const category: FileCategory
    const objectKey: string
    var status: FileStatus
    var uploadProgress: int
    const description: string
    const tags: seq<string>
    var metadata: map<string, string>
    var isPublic: bool
    var downloadCount: nat
    var lastAccessed: Option<nat>
    var deletedAt: Option<nat>

    /** File.objects.create with the fields the upload supplies; the rest take their defaults. */
    constructor (id: nat, owner: nat, originalName: string, fileName: string, fileSize: nat,
                 fileType: string, fileExtension: string, category: FileCategory, objectKey: string,
                 description: string, tags: seq<string>, isPublic: bool, status: FileStatus)
      ensures this.id == id && this.owner == owner && this.originalName == originalName
      ensures this.fileName == fileName && this.fileSize == fileSize && this.fileType == fileType
      ensures this.fileExtension == fileExtension && this.category == category && this.objectKey == objectKey
      ensures this.description == description && this.tags == tags && this.isPublic == isPublic
      ensures this.status == status && uploadProgress == 0 && metadata == map[]
      ensures downloadCount == 0 && lastAccessed.None? && deletedAt.None?
    {
      this.id := id;
      this.owner := owner;
      this.originalName := originalName;
      this.fileName := fileName;
      this.fileSize := fileSize;
      this.fileType := fileType;
      this.fileExtension := fileExtension;
      this.category := category;
      this.objectKey := objectKey;
      this.status := status;
      uploadProgress := 0;
      this.description := description;
      this.tags := tags;
      metadata := map[];
      this.isPublic := isPublic;
      downloadCount := 0;
      lastAccessed := None;
      deletedAt := None;
    }

    function State(): Lifecycle
      reads this
    {
      Lifecycle(status, deletedAt)
    }

    predicate IsDeleted()
      reads this
    {
      IsDeletedState(State())
    }

    /** soft_delete: stamps deleted_at and marks the file Deleted. */
    method SoftDelete(now: nat)
      modifies this`deletedAt, this`status
      ensures State() == SoftDeleted(old(State()), now)
      ensures IsDeleted()
    {
      deletedAt := Some(now);
      status := Deleted;
    }

    /** restore: clears deleted_at and marks the file Completed. */
    method Restore()
      modifies this`deletedAt, this`status
      ensures State() == Restored(old(State()))
      ensures !IsDeleted()
    {
      deletedAt := None;
      status := Completed;
    }

    /** increment_download_count: one more download, last accessed now. */
    method IncrementDownloadCount(now: nat)
      modifies this`downloadCount, this`lastAccessed
      ensures downloadCount == old(downloadCount) + 1
      ensures lastAccessed == Some(now)
    {
      downloadCount := downloadCount + 1;
      lastAccessed := Some(now);
    }

    /**
     * The update upload_file makes once storage has answered: Completed at
     * 100% with storage's metadata, or Failed with nothing else changed.
     */
    method FinishUpload(stored: bool, metadata: map<string, string>)
      modifies this`status, this`uploadProgress, this`metadata
      ensures stored ==> status == Completed && uploadProgress == 100 && this.metadata == metadata
      ensures !stored ==> status == Failed && uploadProgress == old(uploadProgress) && this.metadata == old(this.metadata)
    {
      if stored {
        status := Completed;
        uploadProgress := 100;
        this.metadata := metadata;
      } else {
        status := Failed;
      }
    }

    /** The row as the list and permission queries see it. */
    function Record(): FileRecord
      reads this
    {
      FileRecord(id, owner, isPublic, IsDeleted(), tags)
    }
  }

  /** A file row as queried in bulk. */
  datatype FileRecord = FileRecord(id: nat, owner: nat, isPublic: bool, deleted: bool, tags: seq<string>)

  // ---------------------------------------------------------------- shares

  /** A FileShare row. */
  datatype ShareRecord = ShareRecord(
    fileId: nat, sharedBy: nat, sharedWith: nat,
    canDownload: bool, canView: bool, canComment: bool,
    expiresAt: Option<nat>)

  /** is_expired: never without an expiry time, otherwise strictly after it. */
  predicate IsExpired(s: ShareRecord, now: nat) {
    s.expiresAt.Some? && now > s.expiresAt.value
  }

  /** is_accessible_by: an unexpired share is usable by its sharer and its recipient. */
  function IsAccessibleBy(s: ShareRecord, user: nat, now: nat): (r: bool)
    ensures r <==> !IsExpired(s, now) && (user == s.sharedWith || user == s.sharedBy)
  {
    if IsExpired(s, now) then false else s.sharedWith == user || s.sharedBy == user
  }

  /**
   * Expiry is permanent: once a share has expired it stays expired and
   * inaccessible to everyone at every later time, and a share without an
   * expiry time never expires.
   */
  lemma ExpiryIsPermanent(s: ShareRecord, user: nat, t: nat, later: nat)
    requires t <= later
    ensures IsExpired(s, t) ==> IsExpired(s, later) && !IsAccessibleBy(s, user, later)
    ensures s.expiresAt.None? ==> !IsExpired(s, later)
    ensures s.expiresAt.Some? ==> (IsExpired(s, t) <==> t >= s.expiresAt.value + 1)
  {
  }
}

=== FILE: file_serializers.dfy ===
/**
 * Request validation for files: the upload's fields (the file, its
 * description and tags), the tags of a stored file, comment text, a new
 * share, and the bulk-action request.
 */
module FileSerializers {
  import opened Wrappers
  import opened Text
  import opened Seqs
  import opened FileModels
  import opened Fields
  import FileServices

  // ---------------------------------------------------------------- upload

  const MaxFileSize: nat := 50 * 1024 * 1024
  const MaxTags: nat := 10

  /** FileUploadSerializer.validate_file: at most 50 MiB and not empty. */
  function ValidateFileSize(size: nat): (r: Result<nat>)
    ensures r.Success? <==> 0 < size <= 52428800
    ensures r.Success? ==> r.value == size
    ensures size > MaxFileSize ==> r == Failure("File size cannot exceed 50MB")
    ensures size == 0 ==> r == Failure("File cannot be empty")
  {
    if size > MaxFileSize then Failure("File size cannot exceed " + NatToText(MaxFileSize / (1024 * 1024)) + "MB")
    else if size == 0 then Failure("File cannot be empty")
    else Success(size)
  }

  /** One cleaned tag: stripped and lower-cased. */
  function CleanTag(tag: string): (r: string)
    ensures |r| == |Strip(tag)|
  {
    Lower(Strip(tag))
  }

  /**
   * FileUploadSerializer.validate_tags: more than ten tags, or any tag
   * shorter than two characters once stripped, rejects the whole list;
   * otherwise every tag is cleaned, in order.
   */
  function ValidateUploadTags(tags: seq<string>): (r: Result<seq<string>>)
    ensures r.Success? <==> |tags| <= MaxTags && forall i :: 0 <= i < |tags| ==> |Strip(tags[i])| >= 2
    ensures |tags| > MaxTags ==> r == Failure("Maximum 10 tags allowed")
    ensures r.Success? ==> |r.value| == |tags| && forall i :: 0 <= i < |tags| ==> r.value[i] == CleanTag(tags[i])
    ensures r.Success? ==> forall i :: 0 <= i < |r.value| ==> |r.value[i]| >= 2
  {
    if |tags| > MaxTags then Failure("Maximum 10 tags allowed")
    else if exists i :: 0 <= i < |tags| && |Strip(tags[i])| < 2 then Failure("Each tag must be at least 2 characters long")
    else Success(seq(|tags|, i requires 0 <= i < |tags| => CleanTag(tags[i])))
  }

  // ---------------------------------------------------------------- upload fields

  const NoFileName := "No filename could be determined."
  const EmptyFile := "The submitted file is empty."
  const MaxDescriptionLength: nat := 500
  const MaxTagLength: nat := 50

  /** The extensions FileExtensionValidator allows, and the text its message lists them in. */
  const AllowedExtensions: seq<string> := ["pdf", "doc", "docx", "xls", "xlsx", "ppt", "pptx",
    "txt", "csv", "jpg", "jpeg", "png", "gif", "bmp", "mp4", "avi", "mov", "wmv", "mp3", "wav",
    "flac", "zip", "rar", "tar", "gz", "7z"]
  const AllowedExtensionsText := "pdf, doc, docx, xls, xlsx, ppt, pptx, txt, csv, jpg, jpeg, png, gif, bmp, mp4, avi, mov, wmv, mp3, wav, flac, zip, rar, tar, gz, 7z"

  /**
   * `Path(name).suffix` without its dot, for a file name without a
   * directory: the text after the last dot, unless that dot starts or ends
   * the name.
   */
  function PathSuffix(name: string): (r: string)
    ensures r != [] ==> exists i :: 0 < i < |name| - 1 && name[i] == '.' && r == name[i + 1..]
    ensures '.' !in r
  {
    var i := FileServices.LastIndex(name, '.');
    if 0 < i < |name| - 1 then
      name[i + 1..]
    else []
  }

  function ExtensionNotAllowed(extension: string): string {
    "File extension \U{201C}" + extension + "\U{201D} is not allowed. Allowed extensions are: " + AllowedExtensionsText + "."
  }

  /**
   * The file field of FileUploadSerializer: a FileField, which refuses a
   * file without a name and an empty one; then its FileExtensionValidator on
   * the lower-cased suffix; then validate_file on the size.
   */
  function UploadFileField(name: string, size: nat): (r: Result<nat>)
    ensures name == [] ==> r == Failure(NoFileName)
    ensures name != [] && size == 0 ==> r == Failure(EmptyFile)
    ensures name != [] && size > 0 && Lower(PathSuffix(name)) !in AllowedExtensions
      ==> r == Failure(ExtensionNotAllowed(Lower(PathSuffix(name))))
    ensures r.Success? <==> name != [] && 0 < size <= MaxFileSize && Lower(PathSuffix(name)) in AllowedExtensions
    ensures r.Success? ==> r.value == size
  {
    if name == [] then Failure(NoFileName)
    else if size == 0 then Failure(EmptyFile)
    else if Lower(PathSuffix(name)) !in AllowedExtensions then Failure(ExtensionNotAllowed(Lower(PathSuffix(name))))
    else ValidateFileSize(size)
  }

  /** The field refuses an empty file first, so validate_file's own "File cannot be empty" is never reported. */
  lemma EmptyFileMessageNeverReported(name: string, size: nat)
    ensures UploadFileField(name, size) != Failure("File cannot be empty")
  {
    assert |EmptyFile| != |"File cannot be empty"|;
  }

  /** A name without a dot has no extension, and is refused whatever its content. */
  lemma DotlessNameRefused(name: string, size: nat)
    requires name != [] && size > 0 && '.' !in name
    ensures UploadFileField(name, size) == Failure(ExtensionNotAllowed(""))
  {
    assert PathSuffix(name) == [];
    assert Lower([]) == [];
  }

  /** One tag through the list's child CharField(max_length=50). */
  function TagChild(tag: string): (r: Result<string>)
    ensures r == CharFieldValue(Some(tag), Some(MaxTagLength))
    ensures r.Success? <==> !IsBlank(tag) && |Strip(tag)| <= MaxTagLength
  {
    CharFieldValue(Some(tag), Some(MaxTagLength))
  }

  /** The messages of the tags the child field refuses, under their positions. */
  function TagErrors(tags: seq<string>): (r: map<nat, string>)
    ensures forall i: nat :: i in r <==> i < |tags| && TagChild(tags[i]).Failure?
    ensures forall i :: i in r ==> r[i] == TagChild(tags[i]).error
  {
    map i: nat | i < |tags| && TagChild(tags[i]).Failure? :: TagChild(tags[i]).error
  }

  /** What the tags field yields: nothing when absent, the cleaned tags, or its errors. */
  datatype TagsOutcome = NoTags | Tags(tags: seq<string>) | TagItemErrors(errors: map<nat, string>) | TagsRejected(message: string)

  /**
   * The tags field of FileUploadSerializer: optional; when given, each tag
   * runs through the child field and every refused one is reported at its
   * position; only if none is refused does validate_tags see the trimmed
   * tags.
   */
  function UploadTagsField(data: Option<seq<string>>): (r: TagsOutcome)
    ensures data.None? <==> r == NoTags
    ensures data.Some? && TagErrors(data.value) != map[] ==> r == TagItemErrors(TagErrors(data.value))
    ensures r.Tags? <==> (data.Some? && |data.value| <= MaxTags
                          && forall i :: 0 <= i < |data.value| ==> !IsBlank(data.value[i]) && 2 <= |Strip(data.value[i])| <= MaxTagLength)
    ensures r.Tags? ==> |r.tags| == |data.value| && forall i :: 0 <= i < |r.tags| ==> r.tags[i] == CleanTag(data.value[i])
  {
    if data.None? then NoTags
    else
      var tags := data.value;
      var errors := TagErrors(tags);
      if errors != map[] then TagItemErrors(errors)
      else
        var trimmed := seq(|tags|, i requires 0 <= i < |tags| => TagChild(tags[i]).value);
        assert forall i :: 0 <= i < |tags| ==> i !in errors;
        StripsStripped(trimmed, tags);
        match ValidateUploadTags(trimmed)
        case Failure(m) => TagsRejected(m)
        case Success(v) => Tags(v)
  }

  /** Trimming a tag again changes nothing, so validate_tags cleans the trimmed tags as it would the originals. */
  lemma StripsStripped(trimmed: seq<string>, tags: seq<string>)
    requires |trimmed| == |tags| && forall i :: 0 <= i < |tags| ==> trimmed[i] == Strip(tags[i])
    ensures forall i :: 0 <= i < |tags| ==> Strip(trimmed[i]) == Strip(tags[i]) && CleanTag(trimmed[i]) == CleanTag(tags[i])
  {
    forall i | 0 <= i < |tags|
      ensures Strip(trimmed[i]) == Strip(tags[i])
    {
      StripStripped(Strip(tags[i]));
    }
  }

  /** A tag longer than 50 characters once trimmed is refused at its position, before validate_tags runs. */
  lemma LongTagRefused(tags: seq<string>, i: nat)
    requires i < |tags| && |Strip(tags[i])| > MaxTagLength
    ensures UploadTagsField(Some(tags)).TagItemErrors?
    ensures UploadTagsField(Some(tags)).errors[i] == MaxLengthError(MaxTagLength)
  {
    assert !IsBlank(tags[i]);
    assert i in TagErrors(tags);
  }

  const NoFileSubmitted := "No file was submitted."
  const NotAFile := "The submitted data was not a file. Check the encoding type on the form."

  /** What the form holds under `file`: nothing, a text value, or an uploaded file's name and size. */
  datatype FilePart = NoFile | TextPart | FileUpload(name: string, size: nat)

  /** What FileUploadSerializer validates: the size, the description and the cleaned tags if given, and is_public. */
  datatype UploadData = UploadData(size: nat, description: Option<string>, tags: Option<seq<string>>, isPublic: bool)

  /** The fields of FileUploadSerializer. */
  datatype UploadFieldName = FileName | DescriptionName | TagsName | IsPublicName

  /** Helper of ValidateUpload: the messages of the file field, none iff it accepts the file. */
  function FileErrors(file: FilePart): (r: seq<string>)
    ensures file.NoFile? ==> r == [NoFileSubmitted]
    ensures file.TextPart? ==> r == [NotAFile]
    ensures r == [] <==> file.FileUpload? && UploadFileField(file.name, file.size).Success?
  {
    match file
    case NoFile => [NoFileSubmitted]
    case TextPart => [NotAFile]
    case FileUpload(name, size) =>
      match UploadFileField(name, size)
      case Failure(e) => [e]
      case Success(_) => []
  }

  /** Helper of ValidateUpload: the messages of the optional description, a CharField(max_length=500) allowed blank. */
  function DescriptionErrors(description: Option<string>): (r: seq<string>)
    ensures r == [] <==> description.None? || |Strip(description.value)| <= MaxDescriptionLength
  {
    match description
    case None => []
    case Some(text) =>
      match BlankableField(text, MaxDescriptionLength)
      case Rejected(m) => m
      case Clean(_) => []
  }

  /** Helper of ValidateUpload: the messages of the tags field, the refused tags by position or validate_tags's. */
  function TagsErrors(tags: Option<seq<string>>): (r: seq<string>)
    ensures r == [] <==> UploadTagsField(tags).NoTags? || UploadTagsField(tags).Tags?
  {
    match UploadTagsField(tags)
    case TagItemErrors(_) => TagItemMessages(tags.value, 0)
    case TagsRejected(m) => [m]
    case _ => []
  }

  /** Helper of ValidateUpload: the messages of is_public, a BooleanField(default=False). */
  function IsPublicErrors(isPublic: Option<string>): (r: seq<string>)
    ensures r == [] <==> FormBooleanValue(isPublic).Success?
    ensures r != [] ==> r == [InvalidBoolean]
  {
    match FormBooleanValue(isPublic)
    case Failure(e) => [e]
    case Success(_) => []
  }

  /** Helper of ValidateUpload: the error dictionary, each field with messages under its name. */
  function UploadErrorMap(file: seq<string>, description: seq<string>, tags: seq<string>, isPublic: seq<string>)
    : (r: map<UploadFieldName, seq<string>>)
    ensures FileName in r <==> file != []
    ensures DescriptionName in r <==> description != []
    ensures TagsName in r <==> tags != []
    ensures IsPublicName in r <==> isPublic != []
    ensures forall k :: k in r ==> r[k] == (match k
                                            case FileName => file
                                            case DescriptionName => description
                                            case TagsName => tags
                                            case IsPublicName => isPublic)
  {
    var m1: map<UploadFieldName, seq<string>> := if file != [] then map[FileName := file] else map[];
    var m2 := if description != [] then m1[DescriptionName := description] else m1;
    var m3 := if tags != [] then m2[TagsName := tags] else m2;
    if isPublic != [] then m3[IsPublicName := isPublic] else m3
  }

  /**
   * FileUploadSerializer.is_valid on the upload form: every field is
   * validated and every failing field reported. The file is required; the
   * description is an optional CharField(max_length=500) allowed blank;
   * is_public is a BooleanField that defaults to False.
   */
  function ValidateUpload(file: FilePart, description: Option<string>, tags: Option<seq<string>>, isPublic: Option<string>)
    : (r: Validation<UploadFieldName, UploadData>)
    ensures r.Valid? <==> (file.FileUpload? && UploadFileField(file.name, file.size).Success?
                           && (description.None? || |Strip(description.value)| <= MaxDescriptionLength)
                           && (UploadTagsField(tags).NoTags? || UploadTagsField(tags).Tags?)
                           && FormBooleanValue(isPublic).Success?)
    ensures r.Invalid? ==> r.nonFieldErrors == []
    ensures r.Invalid? ==> (FileName in r.fieldErrors
                            <==> !(file.FileUpload? && UploadFileField(file.name, file.size).Success?))
    ensures r.Invalid? && file.NoFile? ==> r.fieldErrors[FileName] == [NoFileSubmitted]
    ensures r.Invalid? ==> (DescriptionName in r.fieldErrors
                            <==> description.Some? && |Strip(description.value)| > MaxDescriptionLength)
    ensures r.Invalid? ==> (TagsName in r.fieldErrors <==> !(UploadTagsField(tags).NoTags? || UploadTagsField(tags).Tags?))
    ensures r.Invalid? ==> (IsPublicName in r.fieldErrors <==> FormBooleanValue(isPublic).Failure?)
    ensures r.Valid? ==> r.data.size == file.size
    ensures r.Valid? ==> r.data.description == (if description.None? then None else Some(Strip(description.value)))
    ensures r.Valid? ==> r.data.tags == (if tags.None? then None else Some(UploadTagsField(tags).tags))
    ensures r.Valid? ==> (r.data.isPublic <==> isPublic.Some? && isPublic.value in TrueTexts)
  {
    var fileErrors := FileErrors(file);
    var descriptionErrors := DescriptionErrors(description);
    var tagsErrors := TagsErrors(tags);
    var isPublicErrors := IsPublicErrors(isPublic);
    if fileErrors != [] || descriptionErrors != [] || tagsErrors != [] || isPublicErrors != [] then
      Invalid(UploadErrorMap(fileErrors, descriptionErrors, tagsErrors, isPublicErrors), [])
    else
      Valid(UploadData(file.size,
                       if description.None? then None else Some(Strip(description.value)),
                       if tags.None? then None else Some(UploadTagsField(tags).tags),
                       FormBooleanValue(isPublic).value))
  }

  /** A form without a file is refused under `file`, whatever else it holds. */
  lemma MissingFileRefused(description: Option<string>, tags: Option<seq<string>>, isPublic: Option<string>)
    ensures var r := ValidateUpload(NoFile, description, tags, isPublic);
      r.Invalid? && r.fieldErrors[FileName] == [NoFileSubmitted]
  {
  }

  /** An is_public of "maybe" is neither a true nor a false text, and is refused. */
  lemma UndecidedIsPublicRefused(file: FilePart, description: Option<string>, tags: Option<seq<string>>)
    ensures var r := ValidateUpload(file, description, tags, Some("maybe"));
      r.Invalid? && r.fieldErrors[IsPublicName] == [InvalidBoolean]
  {
    assert "maybe" !in TrueTexts && "maybe" !in FalseTexts;
  }

  /**
   * The messages of the refused tags in order, each under its position as
   * DRF's error dictionary keys them; `start` is the position of tags[0].
   */
  function TagItemMessages(tags: seq<string>, start: nat): (r: seq<string>)
    ensures r == [] <==> forall i :: 0 <= i < |tags| ==> TagChild(tags[i]).Success?
  {
    if tags == [] then []
    else
      var first := TagChild(tags[0]);
      var rest := TagItemMessages(tags[1..], start + 1);
      assert forall i :: 1 <= i < |tags| ==> tags[i] == tags[1..][i - 1];
      (if first.Failure? then [NatToText(start) + ": " + first.error] else []) + rest
  }

  /** A tag value as it arrives in JSON: text, or anything else. */
  datatype TagValue = TagText(text: string) | NotText

  predicate KeepsTag(t: TagValue) {
    t.TagText? && |Strip(t.text)| >= 2
  }

  /** What the loop appends for one value: the cleaned tag, or nothing. */
  function KeptOne(t: TagValue): seq<string> {
    if KeepsTag(t) then [CleanTag(t.text)] else []
  }

  /** The tags FileSerializer keeps: text tags of at least two stripped characters, cleaned, in order. */
  function KeptTags(value: seq<TagValue>): (r: seq<string>)
    ensures |r| <= |value|
  {
    if value == [] then [] else KeptOne(value[0]) + KeptTags(value[1..])
  }

  /** Every kept tag has at least two characters, and only short or non-text tags are dropped. */
  lemma {:induction false} KeptTagsAreLongEnough(value: seq<TagValue>)
    ensures forall i :: 0 <= i < |KeptTags(value)| ==> |KeptTags(value)[i]| >= 2
    ensures |KeptTags(value)| == |Filter(KeepsTag, value)|
  {
    if value != [] {
      KeptTagsAreLongEnough(value[1..]);
    }
  }

  lemma {:induction false} KeptTagsAppend(a: seq<TagValue>, b: seq<TagValue>)
    ensures KeptTags(a + b) == KeptTags(a) + KeptTags(b)
  {
    if a == [] {
      assert a + b == b;
    } else {
      assert (a + b)[1..] == a[1..] + b;
      KeptTagsAppend(a[1..], b);
    }
  }

  /** One more value: the tags kept so far, then what that value adds. */
  lemma {:induction false} KeptTagsSnoc(a: seq<TagValue>, x: TagValue)
    ensures KeptTags(a + [x]) == KeptTags(a) + KeptOne(x)
  {
    if a == [] {
      assert a + [x] == [x];
      assert [x][1..] == [];
      assert KeptTags([x]) == KeptOne(x) + KeptTags([]);
    } else {
      var ax := a + [x];
      assert ax[0] == a[0] && ax[1..] == a[1..] + [x];
      KeptTagsSnoc(a[1..], x);
      assert KeptTags(ax) == KeptOne(a[0]) + KeptTags(a[1..] + [x]);
    }
  }

  /**
   * FileSerializer.validate_tags: more than ten values is an error;
   * otherwise the loop keeps the long-enough text tags, cleaned. A short
   * tag is dropped, never an error.
   */
  method ValidateTags(value: seq<TagValue>) returns (r: Result<seq<string>>)
    ensures r.Failure? <==> |value| > MaxTags
    ensures r.Success? ==> r.value == KeptTags(value)
  {
    if |value| > MaxTags {
      return Failure("Maximum 10 tags allowed");
    }
    var cleaned: seq<string> := [];
    var i := 0;
    while i < |value|
      invariant 0 <= i <= |value|
      invariant cleaned == KeptTags(value[..i])
    {
      assert value[..i + 1] == value[..i] + [value[i]];
      KeptTagsSnoc(value[..i], value[i]);
      if KeepsTag(value[i]) {
        cleaned := cleaned + [CleanTag(value[i].text)];
      }
      i := i + 1;
    }
    assert value[..i] == value;
    r := Success(cleaned);
  }

  /**
   * The values validate_tags loops over when the tags JSONField holds a
   * string rather than a list: Python iterates its characters.
   */
  function CharacterTags(text: string): (r: seq<TagValue>)
    ensures |r| == |text|
    ensures forall i :: 0 <= i < |r| ==> r[i] == TagText([text[i]])
  {
    if text == [] then [] else [TagText([text[0]])] + CharacterTags(text[1..])
  }

  /** Tags given as a string keep no tag: every character is shorter than two. */
  lemma {:induction false} StringTagsKeepNothing(text: string)
    ensures KeptTags(CharacterTags(text)) == []
  {
    if text != [] {
      var value := CharacterTags(text);
      assert value[1..] == CharacterTags(text[1..]);
      assert !KeepsTag(value[0]);
      StringTagsKeepNothing(text[1..]);
    }
  }

  // ---------------------------------------------------------------- comments

  /** FileCommentSerializer.validate_content: at least three characters once stripped. */
  function ValidateCommentContent(value: string): (r: Result<string>)
    ensures r.Success? <==> |Strip(value)| >= 3
    ensures r.Success? ==> r.value == Strip(value) && IsStripped(r.value)
  {
    if |Strip(value)| < 3 then Failure("Comment must be at least 3 characters long")
    else Success(Strip(value))
  }

  // ---------------------------------------------------------------- shares

  /** A validated field of a share request. */
  datatype ShareAttr =
    | FileRef(id: nat, owner: nat)
    | UserRef(user: nat)
    | Flag(on: bool)
    | Moment(at: Option<nat>)

  const FileKey := "file"
  const EmailKey := "shared_with_email"
  const SharedWithKey := "shared_with"

  /** A user as the e-mail lookup sees it; two users may share an address. */
  datatype UserRow = UserRow(id: nat, email: string)

  /** The ids of the users whose address is exactly `email`, in row order. */
  function UsersWithEmail(users: seq<UserRow>, email: string): (r: seq<nat>)
    ensures |r| <= |users|
    ensures r == [] <==> forall i :: 0 <= i < |users| ==> users[i].email != email
    ensures forall id :: id in r ==> exists i :: 0 <= i < |users| && users[i].id == id && users[i].email == email
    ensures |r| >= 2 <==> exists i, j :: 0 <= i < j < |users| && users[i].email == email && users[j].email == email
  {
    if users == [] then []
    else
      var rest := UsersWithEmail(users[1..], email);
      assert forall i :: 1 <= i < |users| ==> users[i] == users[1..][i - 1];
      if users[0].email == email then [users[0].id] + rest
      else rest
  }

  /**
   * What `User.objects.get(email=value)` gives: the one user with that
   * address, DoesNotExist (which validate_shared_with_email turns into a
   * message), or MultipleObjectsReturned, which it does not catch.
   */
  datatype RecipientLookup = Recipient(user: nat) | RecipientRefused(message: string) | SeveralRecipients

  const UnknownRecipient := "User with this email does not exist"

  /** validate_shared_with_email: the address must belong to exactly one user, who replaces it. */
  function ResolveRecipient(email: string, users: seq<UserRow>): (r: RecipientLookup)
    ensures r == RecipientRefused(UnknownRecipient) <==> forall i :: 0 <= i < |users| ==> users[i].email != email
    ensures r == SeveralRecipients <==> exists i, j :: 0 <= i < j < |users| && users[i].email == email && users[j].email == email
    ensures r.Recipient? ==> exists i :: 0 <= i < |users| && users[i] == UserRow(r.user, email)
    ensures r.Recipient? ==> forall i :: 0 <= i < |users| && users[i].email == email ==> users[i].id == r.user
  {
    var ids := UsersWithEmail(users, email);
    if ids == [] then RecipientRefused(UnknownRecipient)
    else if |ids| >= 2 then SeveralRecipients
    else
      assert ids[0] in ids;
      OneOwner(users, email, ids[0]);
      Recipient(ids[0])
  }

  /** When exactly one id has the address, every row with that address carries it. */
  lemma OneOwner(users: seq<UserRow>, email: string, id: nat)
    requires UsersWithEmail(users, email) == [id]
    ensures forall i :: 0 <= i < |users| && users[i].email == email ==> users[i].id == id
  {
    forall i | 0 <= i < |users| && users[i].email == email
      ensures users[i].id == id
    {
      assert id in UsersWithEmail(users, email);
    }
  }

  /**
   * The shared_with_email field: a required EmailField, so trimmed, blank
   * refused and the address format checked (the format check is a
   * parameter), before validate_shared_with_email looks the trimmed address
   * up.
   */
  function ShareEmailField(data: Option<string>, wellFormed: string -> bool, users: seq<UserRow>): (r: RecipientLookup)
    ensures data.None? ==> r == RecipientRefused(RequiredError)
    ensures data.Some? && IsBlank(data.value) ==> r == RecipientRefused(BlankError)
    ensures data.Some? && !IsBlank(data.value) && !wellFormed(Strip(data.value)) ==> r == RecipientRefused(InvalidEmail)
    ensures data.Some? && !IsBlank(data.value) && wellFormed(Strip(data.value)) ==> r == ResolveRecipient(Strip(data.value), users)
    ensures r.Recipient? ==> exists i :: 0 <= i < |users| && users[i] == UserRow(r.user, Strip(data.value))
  {
    match CharFieldValue(data, None)
    case Failure(e) => RecipientRefused(e)
    case Success(address) =>
      if !wellFormed(address) then RecipientRefused(InvalidEmail) else ResolveRecipient(address, users)
  }

  /** Two users with the recipient's address make the lookup raise instead of answering. */
  lemma SharedAddressEscapes(users: seq<UserRow>, email: string, i: nat, j: nat)
    requires i < j < |users| && users[i].email == email && users[j].email == email
    ensures ResolveRecipient(email, users) == SeveralRecipients
  {
  }

  predicate WellFormedShareAttrs(attrs: map<string, ShareAttr>) {
    FileKey in attrs && attrs[FileKey].FileRef? && EmailKey in attrs && attrs[EmailKey].UserRef?
  }

  /** A share of this file to this user already exists. */
  predicate AlreadyShared(shares: seq<ShareRecord>, fileId: nat, user: nat) {
    exists s :: s in shares && s.fileId == fileId && s.sharedWith == user
  }

  /**
   * FileShareSerializer.validate: only the owner may share, never with
   * themselves, and not twice with the same user. On success the resolved
   * recipient moves from 'shared_with_email' to 'shared_with'.
   */
  function ValidateShare(attrs: map<string, ShareAttr>, requester: nat, shares: seq<ShareRecord>): (r: Result<map<string, ShareAttr>>)
    requires WellFormedShareAttrs(attrs)
    ensures var file := attrs[FileKey]; var target := attrs[EmailKey].user;
      && (r.Success? <==> file.owner == requester && target != requester && !AlreadyShared(shares, file.id, target))
      && (file.owner != requester ==> r == Failure("You can only share your own files"))
      && (r.Success? ==> EmailKey !in r.value && SharedWithKey in r.value && r.value[SharedWithKey] == UserRef(target)
                          && forall k :: k in attrs && k != EmailKey && k != SharedWithKey ==> k in r.value && r.value[k] == attrs[k])
      && (r.Success? ==> r.value.Keys == attrs.Keys - {EmailKey} + {SharedWithKey})
  {
    var file := attrs[FileKey];
    var target := attrs[EmailKey].user;
    if file.owner != requester then Failure("You can only share your own files")
    else if target == requester then Failure("You cannot share a file with yourself")
    else if AlreadyShared(shares, file.id, target) then Failure("File is already shared with this user")
    else Success(attrs[SharedWithKey := UserRef(target)] - {EmailKey})
  }

  // ---------------------------------------------------------------- bulk actions

  datatype BulkAction = DeleteFiles | ArchiveFiles | MakePublic | MakePrivate

  const MaxBulkFiles: nat := 50

  /** The action names BulkFileActionSerializer accepts. */
  function ParseBulkAction(action: string): (r: Option<BulkAction>)
    ensures r.Some? <==> action in ["delete", "archive", "make_public", "make_private"]
  {
    if action == "delete" then Some(DeleteFiles)
    else if action == "archive" then Some(ArchiveFiles)
    else if action == "make_public" then Some(MakePublic)
    else if action == "make_private" then Some(MakePrivate)
    else None
  }

  /** A live file the requester may act on in bulk: any for an admin, else only their own. */
  predicate BulkTarget(f: FileRecord, ids: seq<nat>, isAdmin: bool, user: nat) {
    f.id in ids && !f.deleted && (isAdmin || f.owner == user)
  }

  /** The stored files validate_file_ids counts, in order. */
  function BulkMatched(files: seq<FileRecord>, ids: seq<nat>, isAdmin: bool, user: nat): (r: seq<FileRecord>)
    ensures forall f :: f in r ==> f in files && BulkTarget(f, ids, isAdmin, user)
  {
    if files == [] then []
    else (if BulkTarget(files[0], ids, isAdmin, user) then [files[0]] else [])
         + BulkMatched(files[1..], ids, isAdmin, user)
  }

  function BulkMatches(files: seq<FileRecord>, ids: seq<nat>, isAdmin: bool, user: nat): nat {
    |BulkMatched(files, ids, isAdmin, user)|
  }

  /** The fields of BulkFileActionSerializer. */
  datatype BulkFieldName = FileIdsName | ActionName

  const TooFewIds := "Ensure this field has at least 1 elements."
  const TooManyIds := "Ensure this field has no more than 50 elements."
  const UnknownFiles := "Some files do not exist or you don't have permission to access them"

  /**
   * The file_ids field: the ListField's min_length 1 and max_length 50,
   * then validate_file_ids, which needs one permitted live file per id.
   */
  function FileIdsErrors(ids: seq<nat>, files: seq<FileRecord>, isAdmin: bool, user: nat): (r: seq<string>)
    ensures r == [] <==> 1 <= |ids| <= MaxBulkFiles && BulkMatches(files, ids, isAdmin, user) == |ids|
    ensures |ids| == 0 ==> r == [TooFewIds]
    ensures |ids| > MaxBulkFiles ==> r == [TooManyIds]
  {
    if |ids| < 1 then [TooFewIds]
    else if |ids| > MaxBulkFiles then [TooManyIds]
    else if BulkMatches(files, ids, isAdmin, user) != |ids| then [UnknownFiles]
    else []
  }

  /**
   * BulkFileActionSerializer: 1 to 50 ids, a known action, and exactly one
   * permitted live file per listed id. The two fields are validated
   * independently and every failing one is reported.
   */
  function ValidateBulkRequest(ids: seq<nat>, action: string, files: seq<FileRecord>, isAdmin: bool, user: nat)
    : (r: Validation<BulkFieldName, BulkAction>)
    ensures r.Valid? <==> (1 <= |ids| <= MaxBulkFiles && ParseBulkAction(action).Some?
                           && BulkMatches(files, ids, isAdmin, user) == |ids|)
    ensures r.Valid? ==> r.data == ParseBulkAction(action).value
    ensures r.Invalid? ==> r.nonFieldErrors == []
    ensures r.Invalid? ==> (FileIdsName in r.fieldErrors <==> FileIdsErrors(ids, files, isAdmin, user) != [])
    ensures r.Invalid? && FileIdsName in r.fieldErrors ==> r.fieldErrors[FileIdsName] == FileIdsErrors(ids, files, isAdmin, user)
    ensures r.Invalid? ==> (ActionName in r.fieldErrors <==> ParseBulkAction(action).None?)
    ensures r.Invalid? && ActionName in r.fieldErrors ==> r.fieldErrors[ActionName] == ["\"" + action + "\" is not a valid choice."]
  {
    var idErrors := FileIdsErrors(ids, files, isAdmin, user);
    var errors :=
      (if idErrors != [] then map[FileIdsName := idErrors] else map[])
      + (if ParseBulkAction(action).None? then map[ActionName := ["\"" + action + "\" is not a valid choice."]] else map[]);
    if idErrors != [] || ParseBulkAction(action).None? then Invalid(errors, [])
    else Valid(ParseBulkAction(action).value)
  }

  /** An empty id list and an unknown action are both reported, each under its own field. */
  lemma BulkErrorsReportedTogether(action: string, files: seq<FileRecord>, isAdmin: bool, user: nat)
    requires ParseBulkAction(action).None?
    ensures ValidateBulkRequest([], action, files, isAdmin, user).Invalid?
    ensures ValidateBulkRequest([], action, files, isAdmin, user).fieldErrors.Keys == {FileIdsName, ActionName}
    ensures ValidateBulkRequest([], action, files, isAdmin, user).fieldErrors[FileIdsName] == [TooFewIds]
  {
  }

  predicate DistinctIds(files: seq<FileRecord>) {
    forall i, j :: 0 <= i < j < |files| ==> files[i].id != files[j].id
  }

  function IdSet(files: seq<FileRecord>): set<nat> {
    set f | f in files :: f.id
  }

  lemma {:induction false} DistinctIdsCount(files: seq<FileRecord>)
    requires DistinctIds(files)
    ensures |IdSet(files)| == |files|
  {
    if files != [] {
      DistinctIdsCount(files[1..]);
      assert IdSet(files) == {files[0].id} + IdSet(files[1..]);
      assert files[0].id !in IdSet(files[1..]);
    }
  }

  function Elements(ids: seq<nat>): set<nat> {
    set x | x in ids
  }

  lemma {:induction false} ElementsSmaller(ids: seq<nat>)
    ensures |Elements(ids)| <= |ids|
    ensures !Distinct(ids) ==> |Elements(ids)| < |ids|
  {
    if ids != [] {
      var rest := Elements(ids[1..]);
      ElementsSmaller(ids[1..]);
      assert Elements(ids) == {ids[0]} + rest;
      if ids[0] in rest {
        assert Elements(ids) == rest;
      } else {
        assert |Elements(ids)| == |rest| + 1;
        if !Distinct(ids) {
          var i, j :| 0 <= i < j < |ids| && ids[i] == ids[j];
          if i > 0 {
            assert ids[1..][i - 1] == ids[1..][j - 1];
          }
        }
      }
    }
  }

  lemma {:induction false} BulkMatchedDistinct(files: seq<FileRecord>, ids: seq<nat>, isAdmin: bool, user: nat)
    requires DistinctIds(files)
    ensures DistinctIds(BulkMatched(files, ids, isAdmin, user))
    ensures IdSet(BulkMatched(files, ids, isAdmin, user)) <= Elements(ids)
  {
    if files != [] {
      BulkMatchedDistinct(files[1..], ids, isAdmin, user);
      var rest := BulkMatched(files[1..], ids, isAdmin, user);
      forall k | 0 <= k < |rest| ensures rest[k].id != files[0].id {
        assert rest[k] in files[1..];
      }
    }
  }

  lemma SubsetSmaller(a: set<nat>, b: set<nat>)
    requires a <= b
    ensures |a| <= |b|
  {
    assert b == a + (b - a);
  }

  /**
   * Because stored ids are unique, a list naming the same file twice can
   * never match its own length, so validate_file_ids rejects it.
   */
  lemma DuplicateIdsAreRejected(ids: seq<nat>, action: string, files: seq<FileRecord>, isAdmin: bool, user: nat)
    requires DistinctIds(files) && !Distinct(ids)
    ensures ValidateBulkRequest(ids, action, files, isAdmin, user).Invalid?
    ensures FileIdsName in ValidateBulkRequest(ids, action, files, isAdmin, user).fieldErrors
  {
    var matched := BulkMatched(files, ids, isAdmin, user);
    BulkMatchedDistinct(files, ids, isAdmin, user);
    DistinctIdsCount(matched);
    ElementsSmaller(ids);
    SubsetSmaller(IdSet(matched), Elements(ids));
  }
}

=== FILE: file_services.dfy ===
/**
 * The file service: the stored-name rule, the access and modify checks, and
 * the upload, download, delete and download-URL operations around local
 * storage. Storage itself (writing, reading, removing bytes), the MIME type
 * guess and the uuid are outcomes handed in as parameters.
 */
module FileServices {
  import opened Wrappers
  import opened Text
  import Seqs
  import opened FileModels

  // ---------------------------------------------------------------- stored names

  /** Index of the last `c` in `s`, or -1. */
  function LastIndex(s: string, c: char): (r: int)
    ensures -1 <= r < |s|
    ensures r >= 0 ==> s[r] == c
    ensures forall k :: r < k < |s| ==> s[k] != c
  {
    if s == [] then -1
    else if s[|s| - 1] == c then |s| - 1
    else LastIndex(s[..|s| - 1], c)
  }

  /** Some character of s[lo..hi] is not a dot. */
  predicate HasNonDot(s: string, lo: int, hi: int)
    requires 0 <= lo && hi <= |s|
  {
    exists k :: lo <= k < hi && s[k] != '.'
  }

  /** `c` does not occur in `s`. */
  predicate Lacks(s: string, c: char) {
    forall i :: 0 <= i < |s| ==> s[i] != c
  }

  /**
   * os.path.splitext on POSIX: the extension starts at the last dot of the
   * last path component, unless everything before that dot in the component
   * is a dot (".bashrc" has no extension).
   */
  function SplitExt(p: string): (r: (string, string))
    ensures r.0 + r.1 == p
    ensures r.1 != [] ==> r.1[0] == '.' && Lacks(r.1, '/') && Lacks(r.1[1..], '.')
  {
    var sepIndex := LastIndex(p, '/');
    var dotIndex := LastIndex(p, '.');
    if dotIndex > sepIndex && HasNonDot(p, sepIndex + 1, dotIndex) then
      (p[..dotIndex], p[dotIndex..])
    else (p, "")
  }

  predicate CleanChar(c: char) {
    IsAlnum(c) || c == ' ' || c == '-' || c == '_'
  }

  /** The name with every character other than letters, digits, space, '-' and '_' dropped, then stripped. */
  function CleanName(name: string): (r: string)
    ensures IsStripped(r) && |r| <= |name|
    ensures forall i :: 0 <= i < |r| ==> CleanChar(r[i])
  {
    var kept := Seqs.Filter(CleanChar, name);
    StripKeeps(CleanChar, kept);
    Strip(kept)
  }

  /**
   * generate_file_path: "<clean name>_<unique id><extension>", where the
   * unique id is the first eight characters of a fresh uuid4.
   */
  function GenerateFilePath(filename: string, uniqueId: string): (r: string)
    requires |uniqueId| == 8
  {
    var (root, ext) := SplitExt(filename);
    CleanName(root) + "_" + uniqueId + ext
  }

  /** A name without dots or slashes splits off exactly the extension appended to it. */
  lemma SplitExtOfDotless(x: string, ext: string)
    requires Lacks(x, '.') && Lacks(x, '/') && x != []
    requires ext == [] || (ext[0] == '.' && Lacks(ext, '/') && Lacks(ext[1..], '.'))
    ensures SplitExt(x + ext) == (x, ext)
  {
    var p := x + ext;
    var sepIndex := LastIndex(p, '/');
    var dotIndex := LastIndex(p, '.');
    assert sepIndex == -1;
    if ext == [] {
      assert p == x;
    } else {
      assert p[|x|] == '.';
      assert dotIndex == |x|;
      assert p[0] != '.';
      assert HasNonDot(p, 0, dotIndex);
      assert p[..dotIndex] == x && p[dotIndex..] == ext;
    }
  }

  /**
   * The stored name keeps the uploaded name's extension: splitting the
   * generated name gives back exactly the original extension, because the
   * cleaned name and the hexadecimal id contain no dots.
   */
  lemma StoredNameKeepsExtension(filename: string, uniqueId: string)
    requires |uniqueId| == 8 && Lacks(uniqueId, '.') && Lacks(uniqueId, '/')
    ensures SplitExt(GenerateFilePath(filename, uniqueId)).1 == SplitExt(filename).1
  {
    var ext := SplitExt(filename).1;
    var x := CleanName(SplitExt(filename).0) + "_" + uniqueId;
    StemLacksDotsAndSlashes(CleanName(SplitExt(filename).0), uniqueId);
    SplitExtOfDotless(x, ext);
  }

  /** A cleaned name, '_' and a dot-free id contain no dot and no slash. */
  lemma StemLacksDotsAndSlashes(clean: string, uniqueId: string)
    requires forall i :: 0 <= i < |clean| ==> CleanChar(clean[i])
    requires Lacks(uniqueId, '.') && Lacks(uniqueId, '/')
    ensures Lacks(clean + "_" + uniqueId, '.') && Lacks(clean + "_" + uniqueId, '/')
  {
    var x := clean + "_" + uniqueId;
    forall i | 0 <= i < |x| ensures x[i] != '.' && x[i] != '/' {
      if i < |clean| {
        assert x[i] == clean[i];
      } else if i > |clean| {
        assert x[i] == uniqueId[i - |clean| - 1];
      }
    }
  }

  /** The stored extension: splitext's extension, lower-cased. */
  function ExtensionOf(name: string): (r: string)
    ensures |r| == |SplitExt(name).1|
  {
    Lower(SplitExt(name).1)
  }

  /** os.path.basename on POSIX: the text after the last '/'. */
  function Basename(p: string): (r: string)
    ensures Lacks(r, '/') && |r| <= |p| && r == p[|p| - |r|..]
    ensures Lacks(p, '/') ==> r == p
  {
    p[LastIndex(p, '/') + 1..]
  }

  // ---------------------------------------------------------------- permissions

  /** Some share of this file to this user grants viewing (expiry is not consulted). */
  predicate SharedForViewing(shares: seq<ShareRecord>, fileId: nat, user: nat) {
    exists s :: s in shares && s.fileId == fileId && s.sharedWith == user && s.canView
  }

  /** _can_access_file: admins, the owner, anyone for a public file, and view-share recipients. */
  function CanAccessFile(isAdmin: bool, user: nat, f: FileRecord, shares: seq<ShareRecord>): (r: bool)
    ensures r <==> isAdmin || f.owner == user || f.isPublic || SharedForViewing(shares, f.id, user)
  {
    if isAdmin then true
    else if f.owner == user then true
    else if f.isPublic then true
    else SharedForViewing(shares, f.id, user)
  }

  /** _can_modify_file: admins and the owner only. */
  function CanModifyFile(isAdmin: bool, user: nat, f: FileRecord): (r: bool)
    ensures r <==> isAdmin || f.owner == user
  {
    if isAdmin then true else f.owner == user
  }

  /**
   * Whoever may modify a file may access it; an admin may do both to every
   * file; a non-admin who is not the owner may never modify.
   */
  lemma ModifyImpliesAccess(isAdmin: bool, user: nat, f: FileRecord, shares: seq<ShareRecord>)
    ensures CanModifyFile(isAdmin, user, f) ==> CanAccessFile(isAdmin, user, f, shares)
    ensures CanModifyFile(true, user, f) && CanAccessFile(true, user, f, shares)
    ensures !isAdmin && f.owner != user ==> !CanModifyFile(isAdmin, user, f)
  {
  }

  /** A share that expired long ago still lets its recipient access the file. */
  lemma ExpiredShareStillGrantsAccess()
    ensures var s := ShareRecord(7, 1, 2, true, true, false, Some(100));
      var f := FileRecord(7, 1, false, false, []);
      && IsExpired(s, 1000) && !IsAccessibleBy(s, 2, 1000)
      && CanAccessFile(false, 2, f, [s])
  {
    var s := ShareRecord(7, 1, 2, true, true, false, Some(100));
    assert s in [s];
  }

  // ---------------------------------------------------------------- operations

  /** What local storage reported for an upload. */
  datatype StorageOutcome = Stored(metadata: map<string, string>) | StorageFailed(message: string)

  const DefaultContentType := "application/octet-stream"

  /** The guessed MIME type, or application/octet-stream when there is none. */
  function ContentTypeOf(guessed: Option<string>): (r: string)
    ensures r != []
    ensures guessed.Some? && guessed.value != [] ==> r == guessed.value
  {
    if guessed.None? || guessed.value == [] then DefaultContentType else guessed.value
  }

  /** The fields upload_file derives from the uploaded name and the guessed type. */
  datatype DerivedFields = DerivedFields(
    objectKey: string, fileName: string, fileType: string, fileExtension: string, category: FileCategory)

  /**
   * The generated key and its base name, the content type (or
   * application/octet-stream) and its category, and the lower-cased
   * extension of the uploaded name.
   */
  function Derive(name: string, guessedType: Option<string>, uniqueId: string): (d: DerivedFields)
    requires |uniqueId| == 8
  {
    var path := GenerateFilePath(name, uniqueId);
    var contentType := ContentTypeOf(guessedType);
    DerivedFields(path, Basename(path), contentType, ExtensionOf(name), CategoryFromMimeType(contentType))
  }

  /**
   * upload_file: derives the stored name, key, type, extension and category
   * from the request, then stores the file.
   */
  method UploadFile(id: nat, owner: nat, name: string, size: nat, guessedType: Option<string>,
                    uniqueId: string, description: string, tags: seq<string>, isPublic: bool,
                    storage: StorageOutcome)
    returns (ok: bool, file: File, message: string)
    requires |uniqueId| == 8
    ensures fresh(file)
    ensures var d := Derive(name, guessedType, uniqueId);
      && file.objectKey == d.objectKey && file.fileName == d.fileName && file.fileType == d.fileType
      && file.fileExtension == d.fileExtension && file.category == d.category
    ensures file.originalName == name && file.fileSize == size && file.owner == owner
    ensures file.tags == tags && file.description == description && file.isPublic == isPublic
    ensures !file.IsDeleted() && file.downloadCount == 0
    ensures ok <==> storage.Stored?
    ensures message == if ok then "File uploaded successfully" else storage.message
    ensures ok ==> file.status == Completed && file.uploadProgress == 100 && file.metadata == storage.metadata
    ensures !ok ==> file.status == Failed && file.uploadProgress == 0
  {
    var d := Derive(name, guessedType, uniqueId);
    ok, file, message := StoreUpload(id, owner, name, size, d, description, tags, isPublic, storage);
  }

  /**
   * The record upload_file creates with the derived fields and what the
   * request supplied: Uploading at first, then Completed at 100% with
   * storage's metadata, or Failed.
   */
  method StoreUpload(id: nat, owner: nat, name: string, size: nat, d: DerivedFields,
                     description: string, tags: seq<string>, isPublic: bool, storage: StorageOutcome)
    returns (ok: bool, file: File, message: string)
    ensures fresh(file)
    ensures file.objectKey == d.objectKey && file.fileName == d.fileName && file.fileType == d.fileType
    ensures file.fileExtension == d.fileExtension && file.category == d.category
    ensures file.originalName == name && file.fileSize == size && file.owner == owner
    ensures file.tags == tags && file.description == description && file.isPublic == isPublic
    ensures !file.IsDeleted() && file.downloadCount == 0
    ensures ok <==> storage.Stored?
    ensures message == if ok then "File uploaded successfully" else storage.message
    ensures ok ==> file.status == Completed && file.uploadProgress == 100 && file.metadata == storage.metadata
    ensures !ok ==> file.status == Failed && file.uploadProgress == 0
  {
    file := new File(id, owner, name, d.fileName, size, d.fileType, d.fileExtension,
                     d.category, d.objectKey, description, tags, isPublic, Uploading);
    file.FinishUpload(storage.Stored?, if storage.Stored? then storage.metadata else map[]);
    ok := storage.Stored?;
    message := if ok then "File uploaded successfully" else storage.message;
  }

  /**
   * download_file: refused without access; otherwise storage's read decides
   * (`readError` is its failure message, if any), and a successful read
   * counts one download.
   */
  method DownloadFile(file: File, isAdmin: bool, user: nat, shares: seq<ShareRecord>, readError: Option<string>, now: nat)
    returns (ok: bool, message: string)
    modifies file`downloadCount, file`lastAccessed
    ensures ok <==> CanAccessFile(isAdmin, user, file.Record(), shares) && readError.None?
    ensures message == if !CanAccessFile(isAdmin, user, file.Record(), shares) then "Permission denied"
                       else if ok then "File retrieved successfully" else readError.value
    ensures ok ==> file.downloadCount == old(file.downloadCount) + 1 && file.lastAccessed == Some(now)
    ensures !ok ==> unchanged(file)
  {
    if !CanAccessFile(isAdmin, user, file.Record(), shares) {
      return false, "Permission denied";
    }
    if readError.None? {
      file.IncrementDownloadCount(now);
      return true, "File retrieved successfully";
    }
    return false, readError.value;
  }

  datatype DeleteOutcome = Denied | MovedToTrash | PermanentlyDeleted | StorageDeleteFailed(message: string)

  /**
   * delete_file: refused unless the user may modify the file; a soft delete
   * moves it to the trash; a hard delete removes the row (its id leaves
   * `rows`, the ids the files table holds) only once storage removed the
   * bytes (`storageError` is storage's failure, if any), and otherwise
   * reports storage's message.
   */
  method DeleteFile(file: File, rows: set<nat>, isAdmin: bool, user: nat, hardDelete: bool, storageError: Option<string>, now: nat)
    returns (outcome: DeleteOutcome, remaining: set<nat>)
    modifies file`deletedAt, file`status
    ensures outcome == Denied <==> !CanModifyFile(isAdmin, user, old(file.Record()))
    ensures outcome == MovedToTrash <==> CanModifyFile(isAdmin, user, old(file.Record())) && !hardDelete
    ensures outcome == MovedToTrash ==> file.State() == SoftDeleted(old(file.State()), now)
    ensures outcome == PermanentlyDeleted <==> CanModifyFile(isAdmin, user, old(file.Record())) && hardDelete && storageError.None?
    ensures CanModifyFile(isAdmin, user, old(file.Record())) && hardDelete && storageError.Some? ==>
      outcome == StorageDeleteFailed("Failed to delete from storage: " + storageError.value)
    ensures remaining == if outcome == PermanentlyDeleted then rows - {file.id} else rows
    ensures outcome != MovedToTrash ==> unchanged(file)
  {
    remaining := rows;
    if !CanModifyFile(isAdmin, user, file.Record()) {
      return Denied, remaining;
    }
    if hardDelete {
      if storageError.None? {
        return PermanentlyDeleted, rows - {file.id};
      }
      return StorageDeleteFailed("Failed to delete from storage: " + storageError.value), remaining;
    }
    file.SoftDelete(now);
    outcome := MovedToTrash;
  }

  /** get_download_url: refused without access; a URL marks the file accessed now. */
  method GetDownloadUrl(file: File, isAdmin: bool, user: nat, shares: seq<ShareRecord>, urlOk: bool, now: nat)
    returns (ok: bool)
    modifies file`lastAccessed
    ensures ok <==> CanAccessFile(isAdmin, user, file.Record(), shares) && urlOk
    ensures ok ==> file.lastAccessed == Some(now)
    ensures !ok ==> unchanged(file)
  {
    if !CanAccessFile(isAdmin, user, file.Record(), shares) {
      return false;
    }
    if urlOk {
      file.lastAccessed := Some(now);
    }
    ok := urlOk;
  }
}

=== FILE: file_views.dfy ===
/**
 * The file endpoints' own logic: which files a user may list, the bulk
 * action loop, the chunked download loop, share listing and the expiry
 * reported with a download URL. HTTP framing is left to the caller; a view
 * answers with a status and the data it would serialise.
 */
module FileViews {
  import opened Wrappers
  import opened Http
  import opened Text
  import opened Seqs
  import opened FileModels
  import opened FileServices
  import opened FileSerializers
  import Datetimes

  // ---------------------------------------------------------------- listing

  /**
   * The list and detail querysets: an admin sees every live file; anyone
   * else sees live files they own, public ones, and ones shared with them
   * for viewing.
   */
  predicate Visible(isAdmin: bool, user: nat, f: FileRecord, shares: seq<ShareRecord>) {
    if isAdmin then !f.deleted
    else (f.owner == user || f.isPublic || SharedForViewing(shares, f.id, user)) && !f.deleted
  }

  function VisibleFiles(files: seq<FileRecord>, isAdmin: bool, user: nat, shares: seq<ShareRecord>): seq<FileRecord> {
    Filter((f: FileRecord) => Visible(isAdmin, user, f, shares), files)
  }

  /**
   * A file is listed exactly when it is live and the file service would let
   * the user access it, so a soft-deleted file is never listed.
   */
  lemma VisibleIsLiveAndAccessible(files: seq<FileRecord>, isAdmin: bool, user: nat, shares: seq<ShareRecord>, f: FileRecord)
    ensures f in VisibleFiles(files, isAdmin, user, shares) <==> f in files && !f.deleted && CanAccessFile(isAdmin, user, f, shares)
  {
    var r := VisibleFiles(files, isAdmin, user, shares);
    if f in r {
      var k :| 0 <= k < |r| && r[k] == f;
    }
    if f in files && Visible(isAdmin, user, f, shares) {
      var k :| 0 <= k < |files| && files[k] == f;
    }
  }

  // ---------------------------------------------------------------- bulk actions

  /** A non-admin's bulk action only ever reaches their own live files. */
  lemma BulkTargetsAreOwnLiveFiles(files: seq<FileRecord>, ids: seq<nat>, user: nat)
    ensures forall f :: f in BulkMatched(files, ids, false, user) ==> f.owner == user && !f.deleted && f.id in ids
  {
  }

  /** The fields a bulk action can touch. */
  datatype BulkState = BulkState(life: Lifecycle, isPublic: bool)

  function BulkFields(f: File): BulkState
    reads f
  {
    BulkState(f.State(), f.isPublic)
  }

  /**
   * What one action does to a file that saves without error. Archive sets an
   * attribute the File model does not have, so nothing is persisted.
   */
  function ApplyAction(action: BulkAction, s: BulkState, now: nat): (r: BulkState)
    ensures action == DeleteFiles ==> r == BulkState(SoftDeleted(s.life, now), s.isPublic) && IsDeletedState(r.life)
    ensures action == ArchiveFiles ==> r == s
    ensures action == MakePublic ==> r.isPublic && r.life == s.life
    ensures action == MakePrivate ==> !r.isPublic && r.life == s.life
  {
    match action
    case DeleteFiles => s.(life := SoftDeleted(s.life, now))
    case ArchiveFiles => s
    case MakePublic => s.(isPublic := true)
    case MakePrivate => s.(isPublic := false)
  }

  /** Doing a public/private toggle twice is the same as doing it once. */
  lemma VisibilityActionsAreIdempotent(action: BulkAction, s: BulkState, now: nat)
    requires action == MakePublic || action == MakePrivate
    ensures ApplyAction(action, ApplyAction(action, s, now), now) == ApplyAction(action, s, now)
  {
  }

  /** One iteration's body when the save goes through. */
  method Apply(f: File, action: BulkAction, now: nat)
    modifies f`deletedAt, f`status, f`isPublic
    ensures BulkFields(f) == ApplyAction(action, old(BulkFields(f)), now)
  {
    match action {
      case DeleteFiles => f.SoftDelete(now);
      case ArchiveFiles =>
      case MakePublic => f.isPublic := true;
      case MakePrivate => f.isPublic := false;
    }
  }

  /** How many of the matched files fail to save. */
  function FailureCount(matched: seq<File>, failing: set<nat>): (r: nat)
    ensures r <= |matched|
  {
    if matched == [] then 0
    else (if matched[0].id in failing then 1 else 0) + FailureCount(matched[1..], failing)
  }

  lemma {:induction false} FailureCountAppend(a: seq<File>, b: seq<File>, failing: set<nat>)
    ensures FailureCount(a + b, failing) == FailureCount(a, failing) + FailureCount(b, failing)
  {
    if a == [] {
      assert a + b == b;
    } else {
      assert (a + b)[1..] == a[1..] + b;
      FailureCountAppend(a[1..], b, failing);
    }
  }

  /**
   * bulk_file_action's loop over the matched files. `failing` holds the ids
   * whose save raises: those count as errors and keep their stored state;
   * every other file gets the action and counts as a success.
   */
  method BulkFileAction(matched: seq<File>, action: BulkAction, failing: set<nat>, now: nat)
    returns (successCount: nat, errorCount: nat)
    requires forall i, j :: 0 <= i < j < |matched| ==> matched[i] != matched[j]
    modifies set f | f in matched
    ensures successCount + errorCount == |matched|
    ensures errorCount == FailureCount(matched, failing)
    ensures forall i :: 0 <= i < |matched| ==>
      BulkFields(matched[i]) == if matched[i].id in failing then old(BulkFields(matched[i]))
                                else ApplyAction(action, old(BulkFields(matched[i])), now)
  {
    successCount, errorCount := 0, 0;
    var i := 0;
    while i < |matched|
      invariant 0 <= i <= |matched|
      invariant successCount + errorCount == i
      invariant errorCount == FailureCount(matched[..i], failing)
      invariant forall j :: 0 <= j < i ==>
        BulkFields(matched[j]) == if matched[j].id in failing then old(BulkFields(matched[j]))
                                  else ApplyAction(action, old(BulkFields(matched[j])), now)
      invariant forall j :: i <= j < |matched| ==> BulkFields(matched[j]) == old(BulkFields(matched[j]))
    {
      var f := matched[i];
      FailureCountAppend(matched[..i], [f], failing);
      assert matched[..i + 1] == matched[..i] + [f];
      if f.id in failing {
        errorCount := errorCount + 1;
      } else {
        Apply(f, action, now);
        successCount := successCount + 1;
      }
      i := i + 1;
    }
    assert matched[..i] == matched;
  }

  // ---------------------------------------------------------------- download

  const ChunkSize: nat := 8192

  /**
   * The download iterator: read up to 8192 bytes at a time from the opened
   * file until a read comes back empty, yielding each chunk read.
   */
  method ReadChunks(content: seq<bv8>) returns (chunks: seq<seq<bv8>>)
    ensures Flatten(chunks) == content
    ensures forall k :: 0 <= k < |chunks| ==> 0 < |chunks[k]| <= ChunkSize
    ensures forall k :: 0 <= k < |chunks| - 1 ==> |chunks[k]| == ChunkSize
    ensures |chunks| == (|content| + ChunkSize - 1) / ChunkSize
  {
    chunks := [];
    var pos := 0;
    while true
      invariant 0 <= pos <= |content|
      invariant Flatten(chunks) == content[..pos]
      invariant forall k :: 0 <= k < |chunks| ==> 0 < |chunks[k]| <= ChunkSize
      invariant forall k :: 0 <= k < |chunks| - 1 ==> |chunks[k]| == ChunkSize
      invariant pos == if |chunks| == 0 then 0 else (|chunks| - 1) * ChunkSize + |chunks[|chunks| - 1]|
      invariant |chunks| > 0 && |chunks[|chunks| - 1]| < ChunkSize ==> pos == |content|
      decreases |content| - pos
    {
      var end := if pos + ChunkSize <= |content| then pos + ChunkSize else |content|;
      var chunk := content[pos..end];
      if chunk == [] {
        break;
      }
      FlattenAppend(chunks, [chunk]);
      assert Flatten([chunk]) == chunk;
      assert content[..end] == content[..pos] + chunk;
      chunks := chunks + [chunk];
      pos := end;
    }
    assert content[..pos] == content;
  }

  /**
   * FileDownloadView.get: a missing or soft-deleted file raises inside the
   * try block and becomes a 500; a refused or failed read is a 400; success
   * streams the content in chunks and counts the download.
   */
  method DownloadView(file: File?, isAdmin: bool, user: nat, shares: seq<ShareRecord>,
                      readError: Option<string>, content: seq<bv8>, now: nat)
    returns (status: Status, chunks: seq<seq<bv8>>)
    modifies if file == null then {} else {file}
    ensures file == null || old(file.IsDeleted()) ==> status == ServerError500 && chunks == []
    ensures file != null && !old(file.IsDeleted()) ==>
      (status == Ok200 <==> CanAccessFile(isAdmin, user, old(file.Record()), shares) && readError.None?)
    ensures status != Ok200 ==> chunks == [] && (file != null ==> unchanged(file))
    ensures status == Ok200 ==> file != null && Flatten(chunks) == content
                                && file.downloadCount == old(file.downloadCount) + 1
    ensures status in {Ok200, BadRequest400, ServerError500}
  {
    chunks := [];
    if file == null || file.IsDeleted() {
      return ServerError500, [];
    }
    var ok, message := DownloadFile(file, isAdmin, user, shares, readError, now);
    if !ok {
      return BadRequest400, [];
    }
    chunks := ReadChunks(content);
    status := Ok200;
  }

  // ---------------------------------------------------------------- shares

  datatype ShareListing = ShareNotFound | Shares(items: seq<ShareRecord>)

  /**
   * FileShareListView.get_queryset. For a file id: 404 if no such file,
   * nothing for a non-owner non-admin, otherwise the file's shares. Without
   * one: the shares the user made or received.
   */
  function ShareList(shares: seq<ShareRecord>, files: map<nat, FileRecord>, fileId: Option<nat>, isAdmin: bool, user: nat)
    : (r: ShareListing)
    ensures fileId.Some? ==> (r == ShareNotFound <==> fileId.value !in files)
    ensures fileId.Some? && fileId.value in files && files[fileId.value].owner != user && !isAdmin ==> r == Shares([])
    ensures r.Shares? ==> forall s :: s in r.items ==> s in shares
    ensures r.Shares? && fileId.Some? ==> forall s :: s in r.items ==> s.fileId == fileId.value
    ensures fileId.None? ==> r.Shares? && forall s :: s in shares ==> (s in r.items <==> s.sharedBy == user || s.sharedWith == user)
  {
    match fileId
    case Some(id) =>
      if id !in files then ShareNotFound
      else if files[id].owner != user && !isAdmin then Shares([])
      else Shares(Filter((s: ShareRecord) => s.fileId == id, shares))
    case None =>
      Shares(Filter((s: ShareRecord) => s.sharedBy == user || s.sharedWith == user, shares))
  }

  /** The owner (or an admin) sees every share of the file. */
  lemma OwnerSeesAllShares(shares: seq<ShareRecord>, files: map<nat, FileRecord>, id: nat, isAdmin: bool, user: nat, s: ShareRecord)
    requires id in files && (files[id].owner == user || isAdmin)
    requires s in shares && s.fileId == id
    ensures s in ShareList(shares, files, Some(id), isAdmin, user).items
  {
    var k :| 0 <= k < |shares| && shares[k] == s;
  }

  // ---------------------------------------------------------------- download URL

  const SecondsPerHour: int := 3600

  /**
   * get_download_url: the lookup, the `expires` parameter (hours, default 1)
   * and the service call. A missing or deleted file, an `expires` that is
   * not an integer, and one too large for a timedelta all raise inside the
   * try block and become a 500 before the service is asked; a refused or
   * failed URL is a 400; success reports the expiry in seconds.
   */
  method DownloadUrlView(file: File?, expires: Option<string>, isAdmin: bool, user: nat,
                         shares: seq<ShareRecord>, urlOk: bool, now: nat)
    returns (status: Status, expiresIn: int)
    modifies if file == null then {} else {file}
    ensures file == null || old(file.IsDeleted()) ==> status == ServerError500
    ensures file != null && !old(file.IsDeleted()) && expires.Some? && ParseInt(expires.value).None? ==> status == ServerError500
    ensures (file != null && !old(file.IsDeleted()) && expires.Some? && ParseInt(expires.value).Some?
             && Datetimes.HoursDeltaError(ParseInt(expires.value).value).Some?)
            ==> status == ServerError500 && unchanged(file)
    ensures status == Ok200 <==>
      file != null && !old(file.IsDeleted())
      && (expires.None? || (ParseInt(expires.value).Some? && Datetimes.HoursDeltaError(ParseInt(expires.value).value).None?))
      && CanAccessFile(isAdmin, user, old(file.Record()), shares) && urlOk
    ensures status == Ok200 ==> expiresIn == SecondsPerHour * (if expires.None? then 1 else ParseInt(expires.value).value)
    ensures status in {Ok200, BadRequest400, ServerError500}
  {
    expiresIn := 0;
    if file == null || file.IsDeleted() {
      return ServerError500, 0;
    }
    var hours: int := 1;
    if expires.Some? {
      var parsed := ParseInt(expires.value);
      if parsed.None? {
        return ServerError500, 0;
      }
      hours := parsed.value;
    }
    if Datetimes.HoursDeltaError(hours).Some? {
      return ServerError500, 0;
    }
    var ok := GetDownloadUrl(file, isAdmin, user, shares, urlOk, now);
    if !ok {
      return BadRequest400, 0;
    }
    status, expiresIn := Ok200, hours * SecondsPerHour;
  }
}

=== FILE: generate_system_metrics.dfy ===
/**
 * The generate_system_metrics command: which dates it processes, the
 * error rate it records, and how it treats metrics that already exist for
 * a date. The aggregate queries that produce a day's figures are outside
 * the model: they reach it as the list of (field, value) pairs to store.
 * Dates are day numbers; the date parser and "today" are parameters.
 */
module GenerateSystemMetrics {
  import opened Wrappers
  import opened Datetimes

  const InvalidDateFormat := "Invalid date format. Use YYYY-MM-DD"
  const StartAfterEnd := "Start date must be before end date"

  /** An option counts when it is given and not empty. */
  predicate Given(s: Option<string>) {
    s.Some? && s.value != ""
  }

  // ---------------------------------------------------------------- dates

  /**
   * _parse_dates: with both --start-date and --end-date, every day from the
   * start to the end; else the one --date; else yesterday. A value the
   * parser refuses, or a start after the end, is an error. Stepping past
   * 9999-12-31, or back from 0001-01-01, raises Python's OverflowError.
   */
  method ParseDates(startDate: Option<string>, endDate: Option<string>, date: Option<string>,
                    parseDate: string -> Option<Date>, today: Date)
    returns (r: Result<seq<int>>)
    ensures Given(startDate) && Given(endDate) ==>
      var s, e := parseDate(startDate.value), parseDate(endDate.value);
      && (s.None? || e.None? ==> r == Failure(InvalidDateFormat))
      && (s.Some? && e.Some? && s.value > e.value ==> r == Failure(StartAfterEnd))
      && (s.Some? && e.Some? && s.value <= e.value == LastDay ==> r == Failure(DateOutOfRange))
      && (s.Some? && e.Some? && s.value <= e.value < LastDay ==>
            r.Success? && |r.value| == e.value - s.value + 1
            && forall i :: 0 <= i < |r.value| ==> r.value[i] == s.value + i)
    ensures !(Given(startDate) && Given(endDate)) && Given(date) ==>
      r == (if parseDate(date.value).None? then Failure(InvalidDateFormat) else Success([parseDate(date.value).value]))
    ensures !(Given(startDate) && Given(endDate)) && !Given(date) ==>
      r == (if today == FirstDay then Failure(DateOutOfRange) else Success([today - 1]))
  {
    if Given(startDate) && Given(endDate) {
      var s := parseDate(startDate.value);
      var e := parseDate(endDate.value);
      if s.None? || e.None? {
        return Failure(InvalidDateFormat);
      }
      var startDay, endDay := s.value, e.value;
      if startDay > endDay {
        return Failure(StartAfterEnd);
      }
      var dates: seq<int> := [];
      var current: Date := startDay;
      while current <= endDay
        invariant startDay <= current <= endDay + 1
        invariant |dates| == current - startDay
        invariant forall i :: 0 <= i < |dates| ==> dates[i] == startDay + i
        decreases endDay - current
      {
        dates := dates + [current];
        var next := NextDay(current);
        if next.Failure? {
          return Failure(next.error);
        }
        current := next.value;
      }
      return Success(dates);
    } else if Given(date) {
      var d := parseDate(date.value);
      if d.None? {
        return Failure(InvalidDateFormat);
      }
      return Success([d.value]);
    }
    var yesterday := PreviousDay(today);
    if yesterday.Failure? {
      return Failure(yesterday.error);
    }
    return Success([yesterday.value]);
  }

  /** The days of a range are distinct and in order, so no day is processed twice. */
  lemma RangeDaysIncrease(dates: seq<int>, startDay: int)
    requires forall i :: 0 <= i < |dates| ==> dates[i] == startDay + i
    ensures forall i, j :: 0 <= i < j < |dates| ==> dates[i] < dates[j]
  {
  }

  // ---------------------------------------------------------------- error rate

  /** The day's error rate: error events among API calls and error events, in percent; 0 without either. */
  function ErrorRate(apiCalls: nat, errorEvents: nat): (r: real)
    ensures apiCalls + errorEvents == 0 ==> r == 0.0
    ensures 0.0 <= r <= 100.0
    ensures r == 0.0 <==> errorEvents == 0
    ensures r == 100.0 <==> errorEvents > 0 && apiCalls == 0
  {
    var total := apiCalls + errorEvents;
    if total > 0 then
      var share := (errorEvents as real) / (total as real);
      assert share * (total as real) == errorEvents as real;
      share * 100.0
    else 0.0
  }

  // ---------------------------------------------------------------- metrics rows

  /** One day's stored metrics: the date and the figures by field name. */
  class DailyMetrics {
    const date: int
    var values: map<string, real>

    constructor (date: int, values: map<string, real>)
      ensures this.date == date && this.values == values
    {
      this.date := date;
      this.values := values;
    }

    /** setattr of every pair in turn, then save(). */
    method SetFields(items: seq<(string, real)>)
      modifies this
      ensures values == old(values) + AsMap(items)
    {
      var i := 0;
      while i < |items|
        invariant 0 <= i <= |items|
        invariant values == old(values) + AsMap(items[..i])
      {
        AsMapStep(values, old(values), items, i);
        values := values[items[i].0 := items[i].1];
        i := i + 1;
      }
      assert items[..|items|] == items;
    }
  }

  /** The figures of a day as a dictionary; a later pair for the same field wins. */
  function AsMap(items: seq<(string, real)>): (r: map<string, real>)
    ensures forall k :: k in r <==> exists i :: 0 <= i < |items| && items[i].0 == k
  {
    if items == [] then map[]
    else
      var rest := AsMap(items[..|items| - 1]);
      assert forall i :: 0 <= i < |items| - 1 ==> items[..|items| - 1][i] == items[i];
      rest[items[|items| - 1].0 := items[|items| - 1].1]
  }

  /** With one pair per field, as in a dictionary's items, every field has its own value. */
  lemma {:induction false} AsMapOfDistinctKeys(items: seq<(string, real)>)
    requires forall i, j :: 0 <= i < j < |items| ==> items[i].0 != items[j].0
    ensures forall i :: 0 <= i < |items| ==> AsMap(items)[items[i].0] == items[i].1
  {
    if items != [] {
      var init := items[..|items| - 1];
      assert forall i, j :: 0 <= i < j < |init| ==> init[i].0 != init[j].0 by {
        forall i, j | 0 <= i < j < |init| ensures init[i].0 != init[j].0 {
          assert init[i] == items[i] && init[j] == items[j];
        }
      }
      AsMapOfDistinctKeys(init);
      forall i | 0 <= i < |items| ensures AsMap(items)[items[i].0] == items[i].1 {
        if i < |items| - 1 {
          assert init[i] == items[i];
        }
      }
    }
  }

  /** One more pair: the dictionary so far with that field set. */
  lemma AsMapStep(values: map<string, real>, before: map<string, real>, items: seq<(string, real)>, i: nat)
    requires i < |items| && values == before + AsMap(items[..i])
    ensures values[items[i].0 := items[i].1] == before + AsMap(items[..i + 1])
  {
    assert items[..i + 1][..i] == items[..i];
  }

  /** The first stored metrics of a date: SystemMetrics.objects.filter(date=date).first(). */
  function FirstOfDate(table: seq<DailyMetrics>, date: int): (r: Option<nat>)
    ensures r.Some? ==> r.value < |table| && table[r.value].date == date
    ensures r.None? ==> forall k :: 0 <= k < |table| ==> table[k].date != date
  {
    if table == [] then None
    else if table[0].date == date then Some(0)
    else
      var rest := FirstOfDate(table[1..], date);
      if rest.Some? then Some(rest.value + 1) else None
  }

  /** No two stored metrics share a date. */
  predicate DistinctDates(table: seq<DailyMetrics>) {
    forall i, j :: 0 <= i < j < |table| ==> table[i].date != table[j].date
  }

  datatype Action = Skipped | Updated | Created

  /**
   * _generate_metrics_for_date: existing metrics are left alone without
   * --force; with it their fields are overwritten in place; otherwise a new
   * row is created. No date ever gets a second row.
   */
  method GenerateMetricsForDate(table: seq<DailyMetrics>, date: int, items: seq<(string, real)>, force: bool)
    returns (newTable: seq<DailyMetrics>, action: Action)
    modifies set m | m in table
    ensures var existing := FirstOfDate(table, date);
      && (existing.Some? && !force ==> action == Skipped && newTable == table
                                       && forall m :: m in table ==> m.values == old(m.values))
      && (existing.Some? && force ==> action == Updated && newTable == table
                                      && table[existing.value].values == old(table[existing.value].values) + AsMap(items)
                                      && forall m :: m in table && m != table[existing.value] ==> m.values == old(m.values))
      && (existing.None? ==> action == Created && |newTable| == |table| + 1 && newTable[..|table|] == table
                             && fresh(newTable[|table|]) && newTable[|table|].date == date
                             && newTable[|table|].values == AsMap(items)
                             && forall m :: m in table ==> m.values == old(m.values))
    ensures DistinctDates(table) ==> DistinctDates(newTable)
    ensures FirstOfDate(newTable, date).Some?
  {
    var existing := FirstOfDate(table, date);
    if existing.Some? && !force {
      return table, Skipped;
    }
    if existing.Some? {
      table[existing.value].SetFields(items);
      return table, Updated;
    }
    var row := new DailyMetrics(date, AsMap(items));
    newTable := table + [row];
    action := Created;
    assert newTable[..|table|] == table;
    assert FirstOfDate(newTable, date).Some? by {
      LastOfDateFound(table, row, date);
    }
  }

  /** A table that gains a row of a date now has metrics of that date. */
  lemma {:induction false} LastOfDateFound(table: seq<DailyMetrics>, row: DailyMetrics, date: int)
    requires row.date == date
    ensures FirstOfDate(table + [row], date).Some?
  {
    if table != [] {
      assert (table + [row])[1..] == table[1..] + [row];
      LastOfDateFound(table[1..], row, date);
    }
  }
}

=== FILE: seqs.dfy ===
/**
 * Sequence folds used wherever the source filters a queryset or a list
 * comprehension keeps the elements that satisfy a condition.
 */
module Seqs {
  /** The elements of `s` satisfying `p`, in their original order. */
  function Filter<T>(p: T -> bool, s: seq<T>): (r: seq<T>)
    ensures |r| <= |s|
    ensures forall k :: 0 <= k < |r| ==> r[k] in s && p(r[k])
    ensures forall k :: 0 <= k < |s| && p(s[k]) ==> s[k] in r
  {
    if s == [] then [] else (if p(s[0]) then [s[0]] else []) + Filter(p, s[1..])
  }

  /** How many elements of `s` satisfy `p`. */
  function Count<T>(p: T -> bool, s: seq<T>): nat {
    |Filter(p, s)|
  }

  lemma {:induction false} FilterAppend<T>(p: T -> bool, a: seq<T>, b: seq<T>)
    ensures Filter(p, a + b) == Filter(p, a) + Filter(p, b)
  {
    if a == [] {
      assert a + b == b;
    } else {
      assert (a + b)[1..] == a[1..] + b;
      FilterAppend(p, a[1..], b);
    }
  }

  /** Filtering with a condition every element meets changes nothing. */
  lemma {:induction false} FilterAll<T>(p: T -> bool, s: seq<T>)
    requires forall k :: 0 <= k < |s| ==> p(s[k])
    ensures Filter(p, s) == s
  {
    if s != [] {
      FilterAll(p, s[1..]);
    }
  }

  /** Filtering with a condition no element meets leaves nothing. */
  lemma {:induction false} FilterNone<T>(p: T -> bool, s: seq<T>)
    requires forall k :: 0 <= k < |s| ==> !p(s[k])
    ensures Filter(p, s) == []
  {
    if s != [] {
      FilterNone(p, s[1..]);
    }
  }

  /** The concatenation of a sequence of sequences. */
  function Flatten<T>(ss: seq<seq<T>>): (r: seq<T>)
  {
    if ss == [] then [] else ss[0] + Flatten(ss[1..])
  }

  lemma {:induction false} FlattenAppend<T>(a: seq<seq<T>>, b: seq<seq<T>>)
    ensures Flatten(a + b) == Flatten(a) + Flatten(b)
  {
    if a == [] {
      assert a + b == b;
    } else {
      assert (a + b)[1..] == a[1..] + b;
      FlattenAppend(a[1..], b);
    }
  }

  /** No element occurs twice. */
  predicate Distinct<T(==)>(s: seq<T>) {
    forall i, j :: 0 <= i < j < |s| ==> s[i] != s[j]
  }
}

=== FILE: text.dfy ===
/**
 * The handful of Python string operations the backend relies on, over ASCII:
 * strip(), lower(), title(), split(sep), join, startswith, the substring
 * test behind `icontains`, and conversions between integers and their
 * decimal text (str(n) and int(s)).
 */
module Text {
  import opened Wrappers

  // ---------------------------------------------------------------- whitespace

  /** The ASCII characters str.isspace() accepts. */
  predicate IsSpace(c: char) {
    c == ' ' || ('\t' <= c <= '\r') || ('\U{001C}' <= c <= '\U{001F}')
  }

  predicate IsBlank(s: string) {
    forall i :: 0 <= i < |s| ==> IsSpace(s[i])
  }

  /** Neither end of `s` is whitespace. */
  predicate IsStripped(s: string) {
    s == [] || (!IsSpace(s[0]) && !IsSpace(s[|s| - 1]))
  }

  function TrimStart(s: string): (r: string)
    ensures |r| <= |s| && r == s[|s| - |r|..]
    ensures r == [] || !IsSpace(r[0])
    ensures forall i :: 0 <= i < |s| - |r| ==> IsSpace(s[i])
  {
    if s != [] && IsSpace(s[0]) then TrimStart(s[1..]) else s
  }

  function TrimEnd(s: string): (r: string)
    ensures |r| <= |s| && r == s[..|r|]
    ensures r == [] || !IsSpace(r[|r| - 1])
    ensures forall i :: |r| <= i < |s| ==> IsSpace(s[i])
  {
    if s != [] && IsSpace(s[|s| - 1]) then TrimEnd(s[..|s| - 1]) else s
  }

  /** Python's str.strip() with no argument. */
  function Strip(s: string): (r: string)
    ensures IsStripped(r)
    ensures |r| <= |s|
    ensures r == [] <==> IsBlank(s)
  {
    if s != [] && IsSpace(s[0]) then
      var r := Strip(s[1..]);
      assert IsBlank(s) <==> IsBlank(s[1..]) by {
        assert forall i :: 0 < i < |s| ==> s[i] == s[1..][i - 1];
      }
      r
    else
      var r := TrimEnd(s);
      assert r != [] ==> r[0] == s[0];
      r
  }

  /** Strip trims the start, then the end. */
  lemma {:induction false} StripTrims(s: string)
    ensures Strip(s) == TrimEnd(TrimStart(s))
  {
    if s != [] && IsSpace(s[0]) {
      StripTrims(s[1..]);
    }
  }

  /** Whatever holds of every character of a string holds of every character of its strip. */
  lemma {:induction false} StripKeeps(p: char -> bool, s: string)
    requires forall i :: 0 <= i < |s| ==> p(s[i])
    ensures forall i :: 0 <= i < |Strip(s)| ==> p(Strip(s)[i])
  {
    if s != [] && IsSpace(s[0]) {
      assert forall i :: 0 <= i < |s[1..]| ==> s[1..][i] == s[i + 1];
      StripKeeps(p, s[1..]);
    } else {
      var r := TrimEnd(s);
      assert forall i :: 0 <= i < |r| ==> r[i] == s[i];
    }
  }

  /** A string already stripped is its own strip. */
  lemma StripStripped(s: string)
    requires IsStripped(s)
    ensures Strip(s) == s
  {
  }

  /**
   * Every string is blank padding around its strip, and strip removes exactly
   * that padding: this characterises Strip completely.
   */
  lemma {:induction false} StripPadded(a: string, s: string, b: string)
    requires IsBlank(a) && IsBlank(b) && IsStripped(s)
    ensures Strip(a + s + b) == s
  {
    var x := a + s + b;
    if s == [] {
      assert x == a + b;
      BlankConcat(a, b);
    } else {
      assert x == a + (s + b);
      TrimStartPadded(a, s + b);
      TrimEndPadded(s, b);
      StripTrims(x);
    }
  }

  lemma BlankConcat(a: string, b: string)
    requires IsBlank(a) && IsBlank(b)
    ensures IsBlank(a + b)
  {
    forall i | 0 <= i < |a + b| ensures IsSpace((a + b)[i]) {
      if i >= |a| { assert (a + b)[i] == b[i - |a|]; }
    }
  }

  lemma {:induction false} TrimStartPadded(a: string, t: string)
    requires IsBlank(a) && (t == [] || !IsSpace(t[0]))
    ensures TrimStart(a + t) == t
  {
    if a != [] {
      assert (a + t)[1..] == a[1..] + t;
      TrimStartPadded(a[1..], t);
    } else {
      assert a + t == t;
    }
  }

  lemma {:induction false} TrimEndPadded(t: string, b: string)
    requires IsBlank(b) && (t == [] || !IsSpace(t[|t| - 1]))
    ensures TrimEnd(t + b) == t
  {
    if b != [] {
      assert (t + b)[..|t + b| - 1] == t + b[..|b| - 1];
      TrimEndPadded(t, b[..|b| - 1]);
    } else {
      assert t + b == t;
    }
  }

  // ---------------------------------------------------------------- case

  function LowerChar(c: char): char {
    if 'A' <= c <= 'Z' then (c as int + 32) as char else c
  }

  function UpperChar(c: char): char {
    if 'a' <= c <= 'z' then (c as int - 32) as char else c
  }

  /** A letter, in the sense of Python's "cased" characters, over ASCII. */
  predicate IsCased(c: char) {
    'A' <= c <= 'Z' || 'a' <= c <= 'z'
  }

  predicate IsDigit(c: char) {
    '0' <= c <= '9'
  }

  /** str.isalnum() on one character, over ASCII. */
  predicate IsAlnum(c: char) {
    IsCased(c) || IsDigit(c)
  }

  /** Python's str.lower(), over ASCII. */
  function Lower(s: string): (r: string)
    ensures |r| == |s|
  {
    seq(|s|, i requires 0 <= i < |s| => LowerChar(s[i]))
  }

  /**
   * Python's str.title(), over ASCII: a cased character is upper-cased when
   * the character before it is not cased, and lower-cased otherwise.
   */
  function TitleFrom(s: string, afterCased: bool): (r: string)
    ensures |r| == |s|
  {
    if s == [] then []
    else [if afterCased then LowerChar(s[0]) else UpperChar(s[0])] + TitleFrom(s[1..], IsCased(s[0]))
  }

  function Title(s: string): (r: string)
    ensures |r| == |s|
  {
    TitleFrom(s, false)
  }

  /** Python's str.replace(a, b) for one-character a and b. */
  function ReplaceChar(s: string, a: char, b: char): (r: string)
    ensures |r| == |s|
  {
    seq(|s|, i requires 0 <= i < |s| => if s[i] == a then b else s[i])
  }

  // ---------------------------------------------------------------- split and join

  /** Python's str.split(sep) for a one-character separator: empty pieces are kept. */
  function Split(s: string, sep: char): (r: seq<string>)
    ensures |r| >= 1
    ensures forall k :: 0 <= k < |r| ==> sep !in r[k]
  {
    if s == [] then [""]
    else
      var rest := Split(s[1..], sep);
      if s[0] == sep then [""] + rest else [[s[0]] + rest[0]] + rest[1..]
  }

  /** Python's sep.join(pieces). */
  function Join(pieces: seq<string>, sep: char): string {
    if |pieces| == 0 then ""
    else if |pieces| == 1 then pieces[0]
    else pieces[0] + [sep] + Join(pieces[1..], sep)
  }

  /** Number of occurrences of `c` in `s`. */
  function Occurrences(s: string, c: char): nat {
    if s == [] then 0 else (if s[0] == c then 1 else 0) + Occurrences(s[1..], c)
  }

  /** Splitting and joining back gives the original text. */
  lemma {:induction false} JoinSplit(s: string, sep: char)
    ensures Join(Split(s, sep), sep) == s
  {
    if s != [] {
      var rest := Split(s[1..], sep);
      JoinSplit(s[1..], sep);
      if s[0] == sep {
        assert Split(s, sep) == [""] + rest;
        assert ([""] + rest)[1..] == rest;
      } else {
        var r := [[s[0]] + rest[0]] + rest[1..];
        assert Split(s, sep) == r;
        if |rest| == 1 {
          assert Join(r, sep) == [s[0]] + rest[0];
        } else {
          assert r[1..] == rest[1..];
          assert Join(rest, sep) == rest[0] + [sep] + Join(rest[1..], sep);
        }
      }
    }
  }

  /** Text without the separator is a single piece. */
  lemma {:induction false} SplitNoSep(a: string, sep: char)
    requires sep !in a
    ensures Split(a, sep) == [a]
  {
    if a != [] {
      SplitNoSep(a[1..], sep);
      assert [a[0]] + a[1..] == a;
    }
  }

  lemma {:induction false} SplitCons(a: string, b: string, sep: char)
    requires sep !in a
    ensures Split(a + [sep] + b, sep) == [a] + Split(b, sep)
  {
    var s := a + [sep] + b;
    if a == [] {
      assert s[1..] == b;
    } else {
      assert s[1..] == a[1..] + [sep] + b;
      SplitCons(a[1..], b, sep);
      assert [a[0]] + a[1..] == a;
    }
  }

  /** Joining pieces free of the separator and splitting again gives the pieces back. */
  lemma {:induction false} SplitJoin(pieces: seq<string>, sep: char)
    requires |pieces| >= 1
    requires forall k :: 0 <= k < |pieces| ==> sep !in pieces[k]
    ensures Split(Join(pieces, sep), sep) == pieces
  {
    if |pieces| == 1 {
      SplitNoSep(pieces[0], sep);
    } else {
      SplitJoin(pieces[1..], sep);
      SplitCons(pieces[0], Join(pieces[1..], sep), sep);
      assert [pieces[0]] + pieces[1..] == pieces;
    }
  }

  /** split(sep) yields one more piece than there are separators. */
  lemma {:induction false} SplitLength(s: string, sep: char)
    ensures |Split(s, sep)| == Occurrences(s, sep) + 1
  {
    if s != [] {
      SplitLength(s[1..], sep);
    }
  }

  /** The first piece of split(sep) is the text before the first separator. */
  lemma {:induction false} SplitFirst(s: string, sep: char)
    ensures var f := Split(s, sep)[0];
      |f| <= |s| && f == s[..|f|] && (|f| < |s| ==> s[|f|] == sep)
  {
    if s != [] {
      SplitFirst(s[1..], sep);
    }
  }

  // ---------------------------------------------------------------- substrings

  predicate StartsWith(s: string, prefix: string) {
    |prefix| <= |s| && s[..|prefix|] == prefix
  }

  /** Python's `needle in hay`. */
  predicate Contains(hay: string, needle: string)
    decreases |hay|
  {
    StartsWith(hay, needle) || (hay != [] && Contains(hay[1..], needle))
  }

  /** Django's `icontains` lookup. */
  predicate IContains(hay: string, needle: string) {
    Contains(Lower(hay), Lower(needle))
  }

  lemma {:induction false} ContainsInfix(a: string, n: string, b: string)
    ensures Contains(a + n + b, n)
  {
    if a == [] {
      assert (a + n + b)[..|n|] == n;
    } else {
      assert (a + n + b)[1..] == a[1..] + n + b;
      ContainsInfix(a[1..], n, b);
    }
  }

  /** The first `n` characters, then "..." iff anything was cut off. */
  function Ellipsize(s: string, n: nat): (r: string)
  {
    if |s| > n then s[..n] + "..." else s
  }

  // ---------------------------------------------------------------- numbers

  function DigitChar(d: nat): (c: char)
    requires d < 10
    ensures IsDigit(c) && DigitValue(c) == d
  {
    ('0' as int + d) as char
  }

  function DigitValue(c: char): nat
    requires IsDigit(c)
  {
    c as int - '0' as int
  }

  predicate AllDigits(s: string) {
    forall i :: 0 <= i < |s| ==> IsDigit(s[i])
  }

  /** str(n) for a natural number. */
  function NatToText(n: nat): (r: string)
    ensures |r| >= 1 && AllDigits(r)
  {
    if n < 10 then [DigitChar(n)] else NatToText(n / 10) + [DigitChar(n % 10)]
  }

  /** The number a string of decimal digits denotes. */
  function DigitsValue(s: string): nat
    requires AllDigits(s)
  {
    if s == [] then 0 else DigitsValue(s[..|s| - 1]) * 10 + DigitValue(s[|s| - 1])
  }

  lemma {:induction false} DigitsValueOfNat(n: nat)
    ensures DigitsValue(NatToText(n)) == n
  {
    if n >= 10 {
      var t := NatToText(n / 10) + [DigitChar(n % 10)];
      assert t[..|t| - 1] == NatToText(n / 10);
      DigitsValueOfNat(n / 10);
    }
  }

  /** str(i) for an integer. */
  function IntToText(i: int): (r: string)
  {
    if i < 0 then "-" + NatToText(-i) else NatToText(i)
  }

  /**
   * Digits in groups: at least one digit, and every underscore sits between
   * two digits, as Python's integer literals allow ("1_000").
   */
  predicate GroupedDigits(s: string) {
    && s != []
    && (forall i :: 0 <= i < |s| ==> IsDigit(s[i]) || s[i] == '_')
    && (forall i :: 0 <= i < |s| ==> UnderscoreBetweenDigitsAt(s, i))
  }

  /** Position `i` of `s` is not an underscore, or one with a digit on each side. */
  predicate UnderscoreBetweenDigitsAt(s: string, i: nat)
    requires i < |s|
  {
    s[i] == '_' ==> 0 < i < |s| - 1 && IsDigit(s[i - 1]) && IsDigit(s[i + 1])
  }

  /** The digits of a grouped number, underscores left out. */
  function DropUnderscores(s: string): (r: string)
    requires forall i :: 0 <= i < |s| ==> IsDigit(s[i]) || s[i] == '_'
    ensures AllDigits(r) && |r| <= |s|
  {
    if s == [] then []
    else
      var rest := DropUnderscores(s[1..]);
      if s[0] == '_' then rest else [s[0]] + rest
  }

  /** Plain digits are grouped and lose nothing. */
  lemma {:induction false} PlainDigitsGrouped(s: string)
    requires AllDigits(s)
    ensures DropUnderscores(s) == s
  {
    if s != [] {
      PlainDigitsGrouped(s[1..]);
    }
  }

  /**
   * Python's int(s) on text: surrounding whitespace is ignored, one optional
   * sign, then decimal digits, possibly grouped by single underscores;
   * anything else raises ValueError.
   */
  function ParseInt(s: string): (r: Option<int>)
  {
    var t := Strip(s);
    if t == [] then None
    else
      var negative := t[0] == '-';
      var digits := if t[0] == '-' || t[0] == '+' then t[1..] else t;
      if !GroupedDigits(digits) then None
      else
        var v: int := DigitsValue(DropUnderscores(digits));
        Some(if negative then -v else v)
  }

  lemma {:induction false} DropUnderscoresAppend(a: string, b: string)
    requires forall i :: 0 <= i < |a| ==> IsDigit(a[i]) || a[i] == '_'
    requires forall i :: 0 <= i < |b| ==> IsDigit(b[i]) || b[i] == '_'
    ensures DropUnderscores(a + b) == DropUnderscores(a) + DropUnderscores(b)
  {
    if a == [] {
      assert a + b == b;
    } else {
      assert (a + b)[0] == a[0] && (a + b)[1..] == a[1..] + b;
      DropUnderscoresAppend(a[1..], b);
    }
  }

  /** Grouped digits alone read as the number their digits denote. */
  lemma ParseIntGrouped(t: string)
    requires GroupedDigits(t)
    ensures ParseInt(t) == Some(DigitsValue(DropUnderscores(t)) as int)
  {
    assert UnderscoreBetweenDigitsAt(t, 0) && UnderscoreBetweenDigitsAt(t, |t| - 1);
    assert IsDigit(t[0]) && IsDigit(t[|t| - 1]);
    StripStripped(t);
  }

  lemma JoinedGroups(a: string, b: string)
    requires a != [] && b != [] && AllDigits(a) && AllDigits(b)
    ensures GroupedDigits(a + "_" + b)
  {
    var grouped := a + "_" + b;
    assert forall i :: 0 <= i < |a| ==> grouped[i] == a[i];
    assert grouped[|a|] == '_';
    assert forall i :: |a| < i < |grouped| ==> grouped[i] == b[i - |a| - 1];
  }

  lemma JoinedGroupsDigits(a: string, b: string)
    requires a != [] && b != [] && AllDigits(a) && AllDigits(b)
    ensures DropUnderscores(a + "_" + b) == a + b
  {
    var underscore: string := ['_'];
    var au := a + underscore;
    assert forall i :: 0 <= i < |au| ==> IsDigit(au[i]) || au[i] == '_' by {
      assert forall i :: 0 <= i < |a| ==> au[i] == a[i];
    }
    assert DropUnderscores(au) == a by {
      assert DropUnderscores(underscore) == [] by {
        assert underscore[1..] == [];
      }
      PlainDigitsGrouped(a);
      DropUnderscoresAppend(a, underscore);
    }
    PlainDigitsGrouped(b);
    DropUnderscoresAppend(au, b);
    assert a + "_" + b == au + b;
  }

  /** An underscore between two digits changes nothing: int("12_5") == int("125"). */
  lemma UnderscoreBetweenDigits(a: string, b: string)
    requires a != [] && b != [] && AllDigits(a) && AllDigits(b)
    ensures ParseInt(a + "_" + b) == ParseInt(a + b) && ParseInt(a + b).Some?
  {
    JoinedGroups(a, b);
    JoinedGroupsDigits(a, b);
    ParseIntGrouped(a + "_" + b);
    AllDigitsAppend(a, b);
    DigitsAreGrouped(a + b);
    ParseIntGrouped(a + b);
  }

  /** Plain digits are grouped digits. */
  lemma DigitsAreGrouped(d: string)
    requires d != [] && AllDigits(d)
    ensures GroupedDigits(d) && DropUnderscores(d) == d
  {
    PlainDigitsGrouped(d);
    assert forall i :: 0 <= i < |d| ==> d[i] != '_';
  }

  /** int(str(n)) == n for a natural number. */
  lemma ParseIntOfNat(n: nat)
    ensures ParseInt(NatToText(n)) == Some(n)
  {
    var d := NatToText(n);
    DigitsAreGrouped(d);
    DigitsValueOfNat(n);
    ParseIntGrouped(d);
  }

  /** int("-" + str(n)) == -n. */
  lemma ParseIntOfNegative(n: nat)
    ensures ParseInt("-" + NatToText(n)) == Some(-(n as int))
  {
    DigitsValueOfNat(n);
    ParseIntOfNegativeDigits(NatToText(n), n);
  }

  /** int("-" + d) == -n for plain digits d denoting n. */
  lemma ParseIntOfNegativeDigits(d: string, n: nat)
    requires d != [] && AllDigits(d) && DigitsValue(d) == n
    ensures ParseInt("-" + d) == Some(-(n as int))
  {
    SignedTextStripped(d);
    DigitsAreGrouped(d);
    ParseIntNegativeGrouped("-" + d);
  }

  /** A minus sign before grouped digits reads as the negated number. */
  lemma ParseIntNegativeGrouped(t: string)
    requires Strip(t) == t && t != [] && t[0] == '-' && GroupedDigits(t[1..])
    ensures ParseInt(t) == Some(-(DigitsValue(DropUnderscores(t[1..])) as int))
  {
    var v: int := DigitsValue(DropUnderscores(t[1..]));
    assert ParseInt(t) == Some(-v);
  }

  lemma AllDigitsAppend(a: string, b: string)
    requires AllDigits(a) && AllDigits(b)
    ensures AllDigits(a + b)
  {
    assert forall i :: 0 <= i < |a + b| ==> (a + b)[i] == if i < |a| then a[i] else b[i - |a|];
  }

  lemma SignedTextStripped(d: string)
    requires d != [] && AllDigits(d)
    ensures var t := "-" + d; Strip(t) == t && t != [] && t[0] == '-' && t[1..] == d
  {
    var t := "-" + d;
    assert t[0] == '-' && t[1..] == d && t[|t| - 1] == d[|d| - 1];
    assert IsStripped(t);
    StripStripped(t);
  }

  /** int(str(i)) == i. */
  lemma ParseIntOfText(i: int)
    ensures ParseInt(IntToText(i)) == Some(i)
  {
    if i < 0 {
      var n: nat := -i;
      var t := "-" + NatToText(n);
      assert IntToText(i) == t;
      ParseIntOfNegative(n);
      assert ParseInt(t) == Some(-(n as int));
    } else {
      ParseIntOfNat(i);
    }
  }
}

=== FILE: wrappers.dfy ===
/**
 * Option and Result values shared by every module: a missing value (Python's
 * None or an absent key) and an operation that either succeeds or reports the
 * error the source raises or returns.
 */
module Wrappers {
  datatype Option<T> = None | Some(value: T) {
    function GetOr(default: T): T {
      if Some? then value else default
    }
  }

  datatype Result<T> = Success(value: T) | Failure(error: string)
}

/** The HTTP status codes the views answer with. */
module Http {
  datatype Status =
    | Ok200 | Created201 | NoContent204 | BadRequest400 | Forbidden403 | NotFound404 | ServerError500
}
